=== FILE: README.md ===
# TextMeshPro for Cocos Creator — a Dafny model of the text core

This project models, as pure Dafny functions over immutable data, the core of
the `cocos-text-mesh-pro` label components for Cocos Creator:

- **TmpFontConfig** — the signed-distance-field font atlas. It builds letter
  definitions from a BMFont description exported as JSON, keeps them in a
  glyph table, and looks a character up by its first UTF-16 code unit.
- **TmpUtils** — the text helpers: the surrogate-safe `_safeSubstring`, the
  CJK and Unicode space tests, the English word-part regular expressions, and
  `fragmentText`, which cuts a paragraph into lines no wider than the label.
- **TmpAssembler** — the label layout and vertex assembly:
  - overflow limits and line wrapping; the ellipsis (`...`) record;
  - the shrink-to-fit scale and alignment;
  - one quad per visible letter, with its clipping and index buffer;
  - underline and strikethrough quads;
  - the per-letter colour, visibility and position API.
- **HtmlParser** — the rich-text tag parser. It turns `<color>`, `<size>`,
  `<b>`, `<i>`, `<u>`, `<s>`, `<face>`, `<outline>`, `<underlay>`, `<glow>`,
  `<img>`, `<br/>` and `<on click>` markup into styled text runs.
- **TmpRichText** — the rich-text component. It holds:
  - the run-by-run relayout test and the attribute mapping from a style to a
    child label;
  - the 2048-pixel long-string splitter;
  - line filling with word wrap and image sizing;
  - the final placement of every child segment.
- **The font tool** (`extensions/textmeshpro-tool/src/utils.ts`) — writes the
  Hiero settings file and converts an exported `.fnt` description into the
  JSON that TmpFontConfig reads.

Modelling conventions:

- Strings are sequences of UTF-16 code units (`seq<int>`), as in JavaScript.
- Pixel values are `real`, and `NaN` is a separate constructor where the
  source can produce it.
- Things outside the core become function parameters: text measurement, the
  named colour table, `parseFloat`, `Math.round` to two decimals, and the
  sine and cosine of the 15-degree italic angle. The layout uses the sine for
  the italic shift of each letter (Layout.Shear), and the vertex pass uses both
  to slant every quad (Quads.Slant, Quads.QuadVerts).
- The two shipped copies of several files (`assets/…` and
  `extensions/…`/`packages/…`) are modelled once. Lemmas state where the
  single operations differ (overflow limits, the ellipsis record, the
  index buffer, the packages placement). The full passes follow the
  corrected operations; "## Left out" lists the pass-level differences.

Modules, one per file, in dependency order:

- `Wrappers` — `Option`.
- `Js` — the JavaScript string and number built-ins the source relies on.
- `TmpUtils`, `FontConfig`.
- `Layout`, `Quads`, `VertexApi`, `Render` — the assembler.
- `HtmlParser`.
- `RichStyle`, `RichSplit`, `RichLayout`, `RichPosition` — the rich-text component.
- `FontTool`.

## Model

| member | source | states |
|---|---|---|
| FontConfig.ToGlyph | extensions/textmeshpro-tool/textMeshPro/scripts/utils/TmpFontConfig.ts:57-69 | a letter definition copies the atlas rectangle (x, y, width, height), offsets, page and advance of its BMFont char record, and is marked valid |
| FontConfig.AddAll | extensions/textmeshpro-tool/textMeshPro/scripts/utils/TmpFontConfig.ts:57-71 | after registering every char record, a code has a definition exactly when it was already defined or some record carries it; when several records carry it, the last one wins; untouched codes keep their old definition |
| FontConfig.NewConfig | extensions/textmeshpro-tool/textMeshPro/scripts/utils/TmpFontConfig.ts:51-72 | the config keeps the JSON, texture id i holds the i-th texture and nothing else, and the letter table holds one valid definition per char id, taken from the last record with that id |
| FontConfig.AddTexture | extensions/textmeshpro-tool/textMeshPro/scripts/utils/TmpFontConfig.ts:74-76 | the texture is stored under its id and every other texture, the letters and the JSON are unchanged |
| FontConfig.AddLetterDefinition | extensions/textmeshpro-tool/textMeshPro/scripts/utils/TmpFontConfig.ts:78-80 | the definition is stored under its code and every other definition, the textures and the JSON are unchanged |
| FontConfig.GetTexture | extensions/textmeshpro-tool/textMeshPro/scripts/utils/TmpFontConfig.ts:92-94 | a texture is returned exactly when one is registered under the id, and it is that texture |
| FontConfig.GetLetter | extensions/textmeshpro-tool/textMeshPro/scripts/utils/TmpFontConfig.ts:96-98 | a definition is returned exactly when one is registered under the code, and it is that definition |
| FontConfig.GetLetterDefinitionForChar | extensions/textmeshpro-tool/textMeshPro/scripts/utils/TmpFontConfig.ts:100-110 | a definition is found exactly when the string is non-empty and its first UTF-16 unit is a registered code (null otherwise), and it is the definition for that unit |
| FontConfig.LookupReadsFirstUnitOnly | extensions/textmeshpro-tool/textMeshPro/scripts/utils/TmpFontConfig.ts:100-110 | the lookup of a string depends only on its first code unit, so the low half of a surrogate pair and any later characters are ignored |
| FontConfig.CopyGlyph | extensions/textmeshpro-tool/textMeshPro/scripts/utils/TmpFontConfig.ts:82-90 | the mixin copy of a letter definition has every field equal to the original |
| FontConfig.CloneLetterDefinition | extensions/textmeshpro-tool/textMeshPro/scripts/utils/TmpFontConfig.ts:82-90 | the clone has the same set of codes as the letter table and an equal definition under each |
| FontConfig.CloneLooksUpAlike | extensions/textmeshpro-tool/textMeshPro/scripts/utils/TmpFontConfig.ts:82-90 | a config holding the cloned table answers every character lookup as the original does |
| FontConfig.Clear | extensions/textmeshpro-tool/textMeshPro/scripts/utils/TmpFontConfig.ts:112-114 | after clearing, no code has a definition, while the textures and the JSON are kept |
| TmpUtils.SafeSubstring | extensions/textmeshpro-tool/textMeshPro/scripts/utils/TmpUtils.ts:21-42 | the result is the plain substring after three moves: a start on a low surrogate moves back one unit; an end just after a high surrogate moves back one unit; a one-unit range on a high surrogate takes the two units of the pair. The result is never longer than the input; with no end index it is a suffix, and with a start of 0 or less a prefix |
| TmpUtils.SafeSubstringKeepsPairs | extensions/textmeshpro-tool/textMeshPro/scripts/utils/TmpUtils.ts:21-42 | on well-formed UTF-16 with in-range indices, the result never starts or ends in the middle of a surrogate pair |
| TmpUtils.SafeSubstringDocumentedCases | extensions/textmeshpro-tool/textMeshPro/scripts/utils/TmpUtils.ts:12-20 | the seven documented calls on the two-emoji string give the documented results |
| TmpUtils.SpaceCodesAgainstJsSpaces | extensions/textmeshpro-tool/textMeshPro/scripts/utils/TmpUtils.ts:95-108 | the listed space codes are exactly JavaScript's whitespace without U+FEFF, plus U+0085 |
| TmpUtils.SpaceLooksAtFirstUnitOnly | extensions/textmeshpro-tool/textMeshPro/scripts/utils/TmpUtils.ts:95-97 | whether a string counts as a space depends only on its first code unit |
| TmpUtils.CjkSingleUnit | extensions/textmeshpro-tool/textMeshPro/scripts/utils/TmpUtils.ts:87-92 | a single code unit counts as CJK exactly when it lies in one of the Chinese, Japanese or Korean ranges |
| TmpUtils.CjkNeedsCjkUnit | extensions/textmeshpro-tool/textMeshPro/scripts/utils/TmpUtils.ts:87-92 | any string that counts as CJK contains at least one code unit in those ranges |
| TmpUtils.IdeographicSpaceIsBoth | extensions/textmeshpro-tool/textMeshPro/scripts/utils/TmpUtils.ts:87-107 | U+3000 counts both as a space and as CJK |
| TmpUtils.WordCharsAreEnglish | extensions/textmeshpro-tool/textMeshPro/scripts/utils/TmpUtils.ts:4-9 | every character of a word run is an English-word character, and no English-word character is whitespace |
| TmpUtils.WordMatchLen | extensions/textmeshpro-tool/textMeshPro/scripts/utils/TmpUtils.ts:154-155 | the word pattern finds nothing only in an all-whitespace string; otherwise the match starts at the first non-space character and is the whole word run there, or that one character when it is not a word character |
| TmpUtils.LastWordMatchLen | extensions/textmeshpro-tool/textMeshPro/scripts/utils/TmpUtils.ts:182-183 | the last-word pattern finds nothing only in an empty string or one ending in whitespace; otherwise the match is the trailing English run, or the last character alone |
| TmpUtils.EnglishWordPartAtLast | extensions/textmeshpro-tool/textMeshPro/scripts/utils/TmpUtils.ts:115-118 | there is a match exactly when the string ends in an English character; it is the longest English suffix |
| TmpUtils.EnglishWordPartAtFirst | extensions/textmeshpro-tool/textMeshPro/scripts/utils/TmpUtils.ts:110-113 | there is a match exactly when the string starts with an English character; it is that one character |
| TmpUtils.TruncToInt | extensions/textmeshpro-tool/textMeshPro/scripts/utils/TmpUtils.ts:131 | the bitwise-or with 0 truncates toward zero: the result is the integer just below a non-negative value and just above a negative one |
| TmpUtils.Shrink | extensions/textmeshpro-tool/textMeshPro/scripts/utils/TmpUtils.ts:141-146 | the shrinking loop does not run when the probe already fits or no tries are left; it ends still too wide only when it ran out of tries; the probed tail stays a suffix of the text |
| TmpUtils.Grow | extensions/textmeshpro-tool/textMeshPro/scripts/utils/TmpUtils.ts:153-161 | the growing loop does nothing when the tail is empty, already too wide or out of tries; otherwise the cut only moves forward, the last push is at least one unit, and probe and line tails stay suffixes of the text |
| TmpUtils.SymbolRule | extensions/textmeshpro-tool/textMeshPro/scripts/utils/TmpUtils.ts:180-189 | a split changes only when the next line would begin with a no-line-start symbol; the cut then moves but never to 0; it stays a split of the text |
| TmpUtils.EnglishRule | extensions/textmeshpro-tool/textMeshPro/scripts/utils/TmpUtils.ts:194-201 | a split changes only when the next line starts with an English character and the current line ends with a proper English suffix; the cut then moves back by exactly that suffix; it stays a split of the text |
| TmpUtils.Refine | extensions/textmeshpro-tool/textMeshPro/scripts/utils/TmpUtils.ts:131-161 | the width search returns a probe tail and a next line that are suffixes of the text |
| TmpUtils.Settle | extensions/textmeshpro-tool/textMeshPro/scripts/utils/TmpUtils.ts:163-174 | the settled cut splits the text; a zero cut becomes 1, and a cut of 1 inside a surrogate pair becomes 2 |
| TmpUtils.Step | extensions/textmeshpro-tool/textMeshPro/scripts/utils/TmpUtils.ts:130-213 | one pass of the outer loop cuts the text into a fragment that is a prefix and a rest that is a suffix |
| TmpUtils.Push | extensions/textmeshpro-tool/textMeshPro/scripts/utils/TmpUtils.ts:203-211 | the first fragment is pushed as is; later fragments are trimmed and pushed only when non-empty, and earlier lines are kept |
| TmpUtils.AsWrittenPass | extensions/textmeshpro-tool/textMeshPro/scripts/utils/TmpUtils.ts:130-213 | the pass as written always cuts into a prefix and a suffix of its text |
| TmpUtils.FragmentTextAsWritten | extensions/textmeshpro-tool/textMeshPro/scripts/utils/TmpUtils.ts:120-225 | an empty text or a negative width gives the single empty line |
| TmpUtils.WinkBangStalls | extensions/textmeshpro-tool/textMeshPro/scripts/utils/TmpUtils.ts:163-213 | on the wink emoji followed by '!' with ten pixels per unit and a 25-pixel width, one pass produces the emoji as a line but leaves the whole text as the rest |
| TmpUtils.StallIsForever | extensions/textmeshpro-tool/textMeshPro/scripts/utils/TmpUtils.ts:130-214 | once a pass leaves its text unchanged, the loop never finishes, whatever the fuel |
| TmpUtils.FragmentTextDiverges | extensions/textmeshpro-tool/textMeshPro/scripts/utils/TmpUtils.ts:120-225 | fragmentText does not terminate on that input |
| TmpUtils.FirstCodePointLen | extensions/textmeshpro-tool/textMeshPro/scripts/utils/TmpUtils.ts:163-172 | the first code point is two units exactly when the text starts with a surrogate pair, otherwise one |
| TmpUtils.FixedCut | extensions/textmeshpro-tool/textMeshPro/scripts/utils/TmpUtils.ts:164-172 | the corrected pass always consumes at least one unit and agrees with the pass as written whenever that one makes progress |
| TmpUtils.FragmentLoopFixed | extensions/textmeshpro-tool/textMeshPro/scripts/utils/TmpUtils.ts:130-214 | the corrected loop keeps the lines already emitted, produces at least one line, and every line after the first is trimmed |
| TmpUtils.FragmentText | extensions/textmeshpro-tool/textMeshPro/scripts/utils/TmpUtils.ts:120-225 | the corrected fragmentText gives one empty line for an empty text or negative width, the whole text when it fits or is one unit long, and otherwise lines whose first is a prefix of the text and whose later ones are trimmed |
| TmpUtils.FixedAgreesWhenAsWrittenFinishes | extensions/textmeshpro-tool/textMeshPro/scripts/utils/TmpUtils.ts:130-214 | whenever the loop as written finishes, the corrected loop returns the same lines |
| TmpUtils.FragmentTextAgrees | extensions/textmeshpro-tool/textMeshPro/scripts/utils/TmpUtils.ts:120-225 | whenever fragmentText as written finishes, the corrected version returns the same lines |
| Layout.OverflowLimits | extensions/textmeshpro-tool/textMeshPro/scripts/utils/TmpAssembler.ts:265-279 | NONE neither wraps nor limits the label; RESIZE_HEIGHT always wraps within the width and leaves the height free; SHRINK wraps only in the older port and only when wrapping is enabled; CLAMP and ELLIPSIS follow the wrap flag; every mode but NONE and RESIZE_HEIGHT limits both sides to the content box |
| Layout.PortsDifferOnlyUnderShrink | assets/scripts/utils/TmpAssembler.ts:237-249 | the two assembler copies choose different limits exactly for SHRINK with wrapping enabled |
| Layout.Shear | extensions/textmeshpro-tool/textMeshPro/scripts/utils/TmpAssembler.ts:471-476 | the italic shift of a glyph is never negative and is zero when italic is off |
| Layout.EllipsisWidth | extensions/textmeshpro-tool/textMeshPro/scripts/utils/TmpAssembler.ts:296-304 | with no ellipsis glyph the ellipsis width is 0; otherwise each of the three dots takes the glyph's scaled advance plus the letter spacing |
| Layout.WordEnd | extensions/textmeshpro-tool/textMeshPro/scripts/utils/TmpAssembler.ts:617-637 | the scan stops at the first character that has no glyph or would leave the word, and every character before it continues the word |
| Layout.FirstWordLen | extensions/textmeshpro-tool/textMeshPro/scripts/utils/TmpAssembler.ts:602-640 | the first token is at least one unit and stays within the text; a character that breaks on its own is a token of one; otherwise the token is the longest run of defined glyphs that continue the word |
| Layout.TokenHasNoLineFeed | extensions/textmeshpro-tool/textMeshPro/scripts/utils/TmpAssembler.ts:602-640 | a token that does not start with a line feed contains none |
| Layout.RecordPlaceholder | extensions/textmeshpro-tool/textMeshPro/scripts/utils/TmpAssembler.ts:678-690 | the letter record at the index holds the character and is marked invalid; the list grows by one only when the index is at its end; every other record is unchanged |
| Layout.RecordLetter | extensions/textmeshpro-tool/textMeshPro/scripts/utils/TmpAssembler.ts:692-706 | the record at the index gets the character, its glyph's validity, the pen position and the line; its quad index and visibility are kept; every other record is unchanged |
| Layout.KeepFitting | extensions/textmeshpro-tool/textMeshPro/scripts/utils/TmpAssembler.ts:647-662 | the kept letters are the longest prefix whose last letter still leaves room for the ellipsis; every later letter would not |
| Layout.RecordEllipsis | extensions/textmeshpro-tool/textMeshPro/scripts/utils/TmpAssembler.ts:646-676 | the letters become the fitting prefix followed by exactly three dots on the current line, each one glyph advance after the previous |
| Layout.EllipsisWidthIsDotsSpan | extensions/textmeshpro-tool/textMeshPro/scripts/utils/TmpAssembler.ts:669-675 | the three recorded dots span exactly the precomputed ellipsis width |
| Layout.KeepFittingAsWritten | assets/scripts/utils/TmpAssembler.ts:608-621 | the older port's backward scan, when it does not fail, keeps the same prefix as the current one |
| Layout.RecordEllipsisAsWritten | assets/scripts/utils/TmpAssembler.ts:608-629 | the older port's ellipsis record, when it does not fail, gives the same letters as the current one |
| Layout.EllipsisAfterCarriageReturnFaults | assets/scripts/utils/TmpAssembler.ts:613-614 | with an ellipsis font and the text made of a carriage return then a line feed, the older port reads the missing glyph of the carriage return and fails, while the current port records three dots |
| Layout.EllipsisMaxLines | extensions/textmeshpro-tool/textMeshPro/scripts/utils/TmpAssembler.ts:405-409 | the ellipsis line limit is at least 1; it is the whole number of lines that fit in the height, or 1 when not even one fits; a zero line height puts no limit on a non-negative height |
| Layout.PlaceToken | extensions/textmeshpro-tool/textMeshPro/scripts/utils/TmpAssembler.ts:447-556 | placing a token either wraps, and only when wrapping with a positive pen; or truncates with the ellipsis, and only in ellipsis mode, leaving the letters ending in dots; or records every character of the token on the current line at its glyph's position; earlier records are kept; the line's top and bottom only grow |
| Layout.BreakLine | extensions/textmeshpro-tool/textMeshPro/scripts/utils/TmpAssembler.ts:499-505 | a line break records the finished line's width, starts the next line at pen 0 and keeps the letters and the extents |
| Layout.StepLineFeed | extensions/textmeshpro-tool/textMeshPro/scripts/utils/TmpAssembler.ts:425-445 | a line feed keeps the wrap invariant and either ends in the ellipsis or moves the cursor forward |
| Layout.StepToken | extensions/textmeshpro-tool/textMeshPro/scripts/utils/TmpAssembler.ts:447-556 | a token keeps the wrap invariant and either ends in the ellipsis or moves the cursor forward |
| Layout.WrapPass | extensions/textmeshpro-tool/textMeshPro/scripts/utils/TmpAssembler.ts:403-592 | the wrap pass reports one width per line and at least one line; the desired height follows from the line count; an ellipsis result ends in dots; otherwise every character is recorded on some line, an unwrapped text has one line per line feed plus one, the longest line bounds every line, and in the current port the rich-text delta is 0 without italic and never positive with it |
| Layout.Measured | extensions/textmeshpro-tool/textMeshPro/scripts/utils/TmpAssembler.ts:566-586 | a fixed label size is kept and a free one takes the rounded longest line or desired height; CLAMP tailors the box to the label; the tailored top is never below the label's top |
| Layout.WidestLine | extensions/textmeshpro-tool/textMeshPro/scripts/utils/TmpAssembler.ts:364-369 | the widest line is at least every line width and at least 0, and is one of them unless all are non-positive |
| Layout.FitScale | extensions/textmeshpro-tool/textMeshPro/scripts/utils/TmpAssembler.ts:358-374 | a measure that fits keeps the scale; one that overflows scales down in proportion, so that the new scale times the measure equals the limit times the old scale |
| Layout.ShrinkScale | extensions/textmeshpro-tool/textMeshPro/scripts/utils/TmpAssembler.ts:355-375 | SHRINK redoes the layout exactly when the text is too tall or too wide; the new scale is never larger, is strictly smaller on a redo, and makes both sides fit in proportion |
| Layout.AlignText | extensions/textmeshpro-tool/textMeshPro/scripts/utils/TmpAssembler.ts:343-390 | the layout runs once, or twice only under SHRINK with a positive font size, in which case the font size follows the reduced scale; the scale never grows; the final wrap has one width per line and records every character unless the ellipsis cut it |
| Layout.DesiredHeightNonNeg | extensions/textmeshpro-tool/textMeshPro/scripts/utils/TmpAssembler.ts:560-564 | the desired height is never negative |
| Layout.LinesOffsetX | extensions/textmeshpro-tool/textMeshPro/scripts/utils/TmpAssembler.ts:708-728 | LEFT puts every line at 0; CENTER leaves equal space on both sides of each line; RIGHT puts each line's end at the label width |
| Layout.LetterOffsetY | extensions/textmeshpro-tool/textMeshPro/scripts/utils/TmpAssembler.ts:730-742 | TOP starts at the label height; BOTTOM starts the desired height, less one line plus the font size, from the bottom |
| Layout.MiddleIsHalfway | extensions/textmeshpro-tool/textMeshPro/scripts/utils/TmpAssembler.ts:730-742 | CENTER starts halfway between the TOP and BOTTOM starts |
| Quads.QuadVerts | extensions/textmeshpro-tool/textMeshPro/scripts/utils/TmpAssembler.ts:975-1039 | a quad becomes four vertices. Without italic they are the corners of the position rectangle. With italic, for h half the quad's height, the top corners move right and the bottom corners left by abs(h·sin), and both edges move toward the middle by abs(h − h·cos). In both cases each edge keeps the quad's width and the quad keeps its centre. The texture coordinates are the atlas rectangle divided by the page size, with v flipped; the colour is white, z is 0 and the page index is carried |
| Quads.SlantTurnsSides | extensions/textmeshpro-tool/textMeshPro/scripts/utils/TmpAssembler.ts:1026-1039 | for a true angle (sin² + cos² = 1, cos ≥ 0) each slanted side is the upright side turned about its midpoint: it keeps the quad's height as its length and leans right by the angle |
| Quads.SlantMatchesLayoutShear | extensions/textmeshpro-tool/textMeshPro/scripts/utils/TmpAssembler.ts:470-476 | the layout moves a letter right by the shear it computes for the glyph; the quad's slant leans the glyph by twice that shift, so the bottom-left corner comes back to the pen position before the shift |
| Quads.AppendKeepsQuads | extensions/textmeshpro-tool/textMeshPro/scripts/utils/TmpAssembler.ts:982-984 | appending more vertices never changes a quad already written |
| Quads.CreateQuadIndices | extensions/textmeshpro-tool/textMeshPro/scripts/utils/TmpAssembler.ts:866-883 | an index count that is not a multiple of 6 is refused; otherwise the buffer holds that many entries, entry j being corner 0, 1, 2, 1, 3, 2 of quad j/6, stored in 16 bits |
| Quads.IndicesStayInTheirQuad | extensions/textmeshpro-tool/textMeshPro/scripts/utils/TmpAssembler.ts:873-882 | below 16384 quads, every index points into its own quad's four vertices, following the two-triangle pattern |
| Quads.IndicesWrapPast16384Quads | extensions/textmeshpro-tool/textMeshPro/scripts/utils/TmpAssembler.ts:873-882 | the first index of quad 16384 wraps to 0 in the 16-bit buffer |
| Quads.ReserveCount | assets/scripts/utils/TmpAssembler.ts:911-919 | the reservation covers every letter, and adds three quads per line for each of underline and strikethrough that is on |
| Quads.ReservedIndices | assets/scripts/utils/TmpAssembler.ts:921-934 | the older port fills six indices per reserved quad with the same two-triangle pattern |
| Quads.PortsShareIndexPattern | extensions/textmeshpro-tool/textMeshPro/scripts/utils/TmpAssembler.ts:866-883 | both ports' index buffers agree entry for entry, once reduced to 16 bits |
| Quads.CountersAfter | assets/scripts/utils/TmpAssembler.ts:958-959 | after n quads the vertex count is 4n and the index count 6n, which is the vertex count halved times three |
| Quads.ClipVertical | extensions/textmeshpro-tool/textMeshPro/scripts/utils/TmpAssembler.ts:788-803 | without CLAMP and a label height nothing is clipped; with them the top is lowered to the tailored top, the atlas rectangle losing the same amount in texels, and the bottom never goes below the tailored bottom or below where it was; a letter already inside is untouched; the horizontal atlas extent is kept |
| Quads.ClipHorizontal | extensions/textmeshpro-tool/textMeshPro/scripts/utils/TmpAssembler.ts:805-818 | without CLAMP and a label width nothing is clipped; with them the left edge is moved to 0 and the right edge pulled back to the content width, the atlas rectangle shrinking accordingly; a letter already inside is untouched; the vertical atlas extent is kept |
| Quads.LetterQuad | extensions/textmeshpro-tool/textMeshPro/scripts/utils/TmpAssembler.ts:783-825 | a letter's quad uses its glyph's page and is its clipped atlas rectangle scaled to pixels |
| Quads.UnclampedQuadIsWholeGlyph | extensions/textmeshpro-tool/textMeshPro/scripts/utils/TmpAssembler.ts:783-825 | outside CLAMP the quad is the whole glyph, placed at the letter plus its line's offset and the vertical offset, less the anchor point |
| Quads.ClampedQuadInsideBox | extensions/textmeshpro-tool/textMeshPro/scripts/utils/TmpAssembler.ts:790-818 | under CLAMP a letter quad that is drawn lies inside the content box |
| Quads.QuadsBefore | extensions/textmeshpro-tool/textMeshPro/scripts/utils/TmpAssembler.ts:775-827 | the number of quads drawn before a letter never exceeds the number of valid letters before it |
| Quads.QuadsBeforeMonotone | extensions/textmeshpro-tool/textMeshPro/scripts/utils/TmpAssembler.ts:775-827 | quad numbers never decrease along the text |
| Quads.ClippedLetterSharesIndex | extensions/textmeshpro-tool/textMeshPro/scripts/utils/TmpAssembler.ts:779-827 | letters that are clipped away draw no quad and so share the next drawn letter's quad number |
| Quads.MarkStep | extensions/textmeshpro-tool/textMeshPro/scripts/utils/TmpAssembler.ts:829-844 | recording a letter keeps the line table exact: for each line, its first and last underlined letter |
| Quads.WriteStep | extensions/textmeshpro-tool/textMeshPro/scripts/utils/TmpAssembler.ts:820-827 | appending a drawn letter's four vertices keeps every earlier quad and adds this one at its quad number |
| Quads.LetterStep | extensions/textmeshpro-tool/textMeshPro/scripts/utils/TmpAssembler.ts:776-846 | one step of the letter loop keeps the pass invariant: letters numbered, vertices written and line table exact so far |
| Quads.LetterQuads | extensions/textmeshpro-tool/textMeshPro/scripts/utils/TmpAssembler.ts:775-846 | the letter loop numbers every valid letter with its quad index, writes exactly one quad per drawn letter at that index, slanted when italic is on, and records each line's first and last underlined letter |
| Quads.SplitLine | extensions/textmeshpro-tool/textMeshPro/scripts/utils/TmpAssembler.ts:902-906 | a decoration of a given span is split into equal left and right caps and a middle that together make up the span; the caps are a third of the glyph each when the span is wide enough, and there is no middle otherwise |
| Quads.ClipLine | extensions/textmeshpro-tool/textMeshPro/scripts/utils/TmpAssembler.ts:917-930 | a decoration is clipped at the tailored top whenever the label has a height, converting pixels to texels by the scale; under CLAMP its bottom is cut to the tailored bottom; otherwise the bottom stays where it was |
| Quads.ClipLineAsWritten | extensions/textmeshpro-tool/textMeshPro/scripts/utils/TmpAssembler.ts:919-930 | the source's top clip removes pixels from the atlas rectangle without dividing by the scale; it agrees with the corrected clip at scale 1 |
| Quads.DecorationTopClipIgnoresScale | extensions/textmeshpro-tool/textMeshPro/scripts/utils/TmpAssembler.ts:920-924 | at scale 2, an underline 2 px above the box loses 2 texels instead of 1, so its bottom edge moves up instead of staying put |
| Quads.Pieces | extensions/textmeshpro-tool/textMeshPro/scripts/utils/TmpAssembler.ts:932-964 | a decoration has at most three pieces, all from the underline glyph's page |
| Quads.PiecesTile | extensions/textmeshpro-tool/textMeshPro/scripts/utils/TmpAssembler.ts:904-964 | with a positive span and glyph, the pieces start at the line's left edge, end at its right edge and abut; the middle exists exactly when the span is at least the glyph's width |
| Quads.LinePieces | extensions/textmeshpro-tool/textMeshPro/scripts/utils/TmpAssembler.ts:888-966 | a line's decoration has at most three pieces, all from the underline glyph's page |
| Quads.PiecesFor | extensions/textmeshpro-tool/textMeshPro/scripts/utils/TmpAssembler.ts:888-966 | the pieces for a line's geometry are at most three, all from the underline glyph's page; without a label height, a line's underline of positive span tiles the line from its first to its last underlined letter |
| Quads.UnclippedPieces | extensions/textmeshpro-tool/textMeshPro/scripts/utils/TmpAssembler.ts:932-964 | an unclipped decoration's pieces, at most three and from the glyph's page, tile the line's span when the span and the glyph are positive |
| Quads.DecorationQuads | extensions/textmeshpro-tool/textMeshPro/scripts/utils/TmpAssembler.ts:888-966 | each line adds at most three decoration quads, all from the underline glyph's page |
| Quads.VertsOf | extensions/textmeshpro-tool/textMeshPro/scripts/utils/TmpAssembler.ts:975-1039 | the vertices of a quad list hold each quad's four vertices in order, all slanted alike by the component's italic flag |
| Quads.RecordedSpansReady | extensions/textmeshpro-tool/textMeshPro/scripts/utils/TmpAssembler.ts:889-900 | every line the letter loop recorded has first and last letters that exist, are drawable and whose last is valid, so the decoration pass can read them |
| VertexApi.CornerColor | extensions/textmeshpro-tool/textMeshPro/scripts/utils/TmpAssembler.ts:1071-1074 | a hidden letter's corner is transparent; without a gradient the corner is white; with one it takes the gradient corner's colour, keeping its alpha only while visible |
| VertexApi.QuadColors | extensions/textmeshpro-tool/textMeshPro/scripts/utils/TmpAssembler.ts:1065-1089 | a quad gets four colours: the gradient's left-bottom, right-bottom, left-top and right-top when visible with a gradient, all white when visible without one, and transparent when hidden |
| VertexApi.PaintQuad | extensions/textmeshpro-tool/textMeshPro/scripts/utils/TmpAssembler.ts:1071-1089 | painting a quad sets its four colours and changes no position, no other vertex and no other quad |
| VertexApi.UpdateColorExtra | extensions/textmeshpro-tool/textMeshPro/scripts/utils/TmpAssembler.ts:1055-1090 | the colour pass changes only colours; a quad no letter paints keeps its colours; when every painted quad exists, each quad shows the colours of the last letter that paints it |
| VertexApi.PaintStep | extensions/textmeshpro-tool/textMeshPro/scripts/utils/TmpAssembler.ts:1060-1090 | painting one more letter keeps "each quad shows its last painter's colours" true for one more letter |
| VertexApi.SetVisible | extensions/textmeshpro-tool/textMeshPro/scripts/utils/TmpAssembler.ts:1168-1199 | only the target letter's visible flag and its quad's colours can change; a valid non-whitespace letter whose quad exists ends with the requested visibility, and its quad is repainted when the flag changed; in the current port a missing or whitespace letter changes nothing |
| VertexApi.SetVisibleIdempotent | extensions/textmeshpro-tool/textMeshPro/scripts/utils/TmpAssembler.ts:1168-1172 | setting the same visibility twice is the same as setting it once |
| VertexApi.SetVisiblePortsAgree | extensions/textmeshpro-tool/textMeshPro/scripts/utils/TmpAssembler.ts:1168-1199 | for a non-whitespace letter whose quad exists, both ports give the same result |
| VertexApi.GetColorExtra | extensions/textmeshpro-tool/textMeshPro/scripts/utils/TmpAssembler.ts:1221-1237 | colours are returned exactly for an existing valid letter whose quad exists, and there are four of them |
| VertexApi.SetColorExtra | extensions/textmeshpro-tool/textMeshPro/scripts/utils/TmpAssembler.ts:1242-1254 | setting colours changes no letter and no position, and only the target letter's quad; a missing or invalid letter or data that is not four colours changes nothing |
| VertexApi.SetThenGetColorExtra | extensions/textmeshpro-tool/textMeshPro/scripts/utils/TmpAssembler.ts:1221-1254 | reading a letter's colours right after setting them gives the colours that were set |
| VertexApi.SetColorExtraReachesQuadOnly | extensions/textmeshpro-tool/textMeshPro/scripts/utils/TmpAssembler.ts:1248-1254 | setting one letter's colours also changes what every letter sharing its quad reads, and nothing that any other letter reads |
| VertexApi.PlaceQuad | extensions/textmeshpro-tool/textMeshPro/scripts/utils/TmpAssembler.ts:1306-1310 | moving a quad sets its four corners to the given points (with z forced to 0 in the older port) and changes no colour, no texture coordinate and no other vertex |
| VertexApi.GetPos | extensions/textmeshpro-tool/textMeshPro/scripts/utils/TmpAssembler.ts:1276-1291 | positions are returned exactly for an existing valid letter whose quad exists, and there are four of them |
| VertexApi.SetPos | extensions/textmeshpro-tool/textMeshPro/scripts/utils/TmpAssembler.ts:1296-1310 | setting positions changes no letter, no colour and no vertex outside the target letter's quad; a missing or invalid letter or data that is not four points changes nothing |
| VertexApi.SetThenGetPos | extensions/textmeshpro-tool/textMeshPro/scripts/utils/TmpAssembler.ts:1276-1310 | reading a letter's positions right after setting them gives the points that were set (with z as 0 in the older port) |
| VertexApi.SetPosKeepsColours | extensions/textmeshpro-tool/textMeshPro/scripts/utils/TmpAssembler.ts:1296-1310 | setting any letter's positions leaves every letter's colours as they were |
| VertexApi.SetColorExtraKeepsPositions | extensions/textmeshpro-tool/textMeshPro/scripts/utils/TmpAssembler.ts:1242-1254 | setting any letter's colours leaves every letter's positions as they were |
| Render.UpdateQuads | extensions/textmeshpro-tool/textMeshPro/scripts/utils/TmpAssembler.ts:766-864 | the quad update numbers every valid letter, writes whole quads, at least one per drawn letter and no more than the reservation; without decorations exactly one per drawn letter; the index buffer covers every quad with the two-triangle pattern |
| Render.ColourAndIndex | extensions/textmeshpro-tool/textMeshPro/scripts/utils/TmpAssembler.ts:859-863 | the closing colour pass changes only colours, and the index buffer has six entries per quad |
| Render.DecorationVerts | extensions/textmeshpro-tool/textMeshPro/scripts/utils/TmpAssembler.ts:848-857 | a decoration adds at most three quads per line, and none when it is off or the underline glyph is missing |
| Render.ReserveBound | assets/scripts/utils/TmpAssembler.ts:911-919 | the letter quads plus at most three quads per line for each decoration that is on fit in the reservation |
| Render.ReservationCoversEveryLetter | assets/scripts/utils/TmpAssembler.ts:911-936 | every valid letter's quad lies inside the reserved vertex data |
| Render.UpdateRenderData | assets/scripts/utils/TmpAssembler.ts:193-211 | the update runs exactly when the label is dirty, has a font (and, in the current port, render data) and is not already being updated; a run clears the dirty flag and releases the busy marker; otherwise nothing changes |
| Render.NestedCallDoesNothing | assets/scripts/utils/TmpAssembler.ts:195 | a call made while the same label is being updated does nothing |
| Render.SecondCallDoesNothing | assets/scripts/utils/TmpAssembler.ts:193-208 | a second call right after a run does nothing |
| Render.PortsGuardAlike | extensions/textmeshpro-tool/textMeshPro/scripts/utils/TmpAssembler.ts:157-182 | when render data exists, both ports' guards behave the same |
| HtmlParser.Inherit | assets/textMeshPro/scripts/utils/HtmlParser.ts:555-560 | a nested tag's style has the keys of both tags; a field the inner tag sets to a truthy value is kept, and any other field the outer tag has is copied from it |
| HtmlParser.InheritKeepsParentStyle | assets/textMeshPro/scripts/utils/HtmlParser.ts:555-560 | a truthy outer field always reaches the nested style, unchanged unless the inner tag sets its own |
| HtmlParser.InheritIdentities | assets/textMeshPro/scripts/utils/HtmlParser.ts:555-560 | inheriting from an empty tag or from an identical tag changes nothing |
| HtmlParser.RightQuotation | assets/textMeshPro/scripts/utils/HtmlParser.ts:478-496 | the result is -1 or the index of a quote character, and it is -1 when the argument has no quote at all |
| HtmlParser.RightQuotationClosesFirstQuote | assets/textMeshPro/scripts/utils/HtmlParser.ts:478-496 | from the first quote of the argument, the result is that quote itself when it is the last unit; otherwise it is the next quote of the same kind, with none of that kind in between, or -1 when there is none |
| HtmlParser.EventHandlers | assets/textMeshPro/scripts/utils/HtmlParser.ts:498-543 | the parsed handlers only ever hold click and param, and every stored value is trimmed |
| HtmlParser.EventAt | assets/textMeshPro/scripts/utils/HtmlParser.ts:503-539 | each handler step consumes input and yields a trimmed value or none |
| HtmlParser.QuotedClickIsStored | assets/textMeshPro/scripts/utils/HtmlParser.ts:508-536 | click followed by a double-quoted trimmed value stores exactly that value under click |
| HtmlParser.UnquotedClickIsDropped | assets/textMeshPro/scripts/utils/HtmlParser.ts:522-536 | an unquoted click value is skipped and no handler is stored |
| HtmlParser.NoEqualsNoHandlers | assets/textMeshPro/scripts/utils/HtmlParser.ts:502-503 | a string without an equals sign has no handlers |
| HtmlParser.EventKeyEndsAtEquals | assets/textMeshPro/scripts/utils/HtmlParser.ts:502-507 | every handler name found ends with an equals sign and lies at or after the search start |
| HtmlParser.ColorSizeHeader | assets/textMeshPro/scripts/utils/HtmlParser.ts:95-101 | a color or size header, when found, is a non-empty prefix of the tag |
| HtmlParser.StripDoubleQuotes | assets/textMeshPro/scripts/utils/HtmlParser.ts:205 | a value wrapped in double quotes loses them; one with no double quote at either end is unchanged; the result is never longer |
| HtmlParser.Unquote | assets/textMeshPro/scripts/utils/HtmlParser.ts:177 | slicing off the first and last character of a quoted source; shorter values become empty |
| HtmlParser.EventField | assets/textMeshPro/scripts/utils/HtmlParser.ts:200-206 | only click and param touch the event; param needs an event already present; no other field changes |
| HtmlParser.ImageField | assets/textMeshPro/scripts/utils/HtmlParser.ts:160-202 | an attribute validates the image tag exactly when it is src and its value, less a trailing '/', starts with a quote; src always marks the style as an image and stores the value less the trailing '/', unquoted when quoted and as it is otherwise; other attributes leave src alone; an image mark is never removed |
| HtmlParser.ImageFields | assets/textMeshPro/scripts/utils/HtmlParser.ts:150-213 | the tag ends valid exactly when it was valid already or some src attribute is quoted; any src attribute marks the style as an image; a valid tag's style is marked as an image |
| HtmlParser.ImageFieldsSrc | assets/textMeshPro/scripts/utils/HtmlParser.ts:150-209 | the stored src is the value of the last src attribute, less a trailing '/', and unquoted when it was quoted |
| HtmlParser.ImageFieldsKeepSrc | assets/textMeshPro/scripts/utils/HtmlParser.ts:150-209 | with no src attribute, the style's src is what it was |
| HtmlParser.SetStyleField | assets/textMeshPro/scripts/utils/HtmlParser.ts:244-252 | setting a gradient, face, outline, underlay or glow field never changes which kind of style it is |
| HtmlParser.StyleFields | assets/textMeshPro/scripts/utils/HtmlParser.ts:228-255 | with no attributes the defaults are kept; the style kind never changes |
| HtmlParser.UpToGreater | assets/textMeshPro/scripts/utils/HtmlParser.ts:219 | the cg pattern reads the longest prefix without a '>' |
| HtmlParser.StyleBlock | assets/textMeshPro/scripts/utils/HtmlParser.ts:219-258 | a tag not starting with the style's name is left alone; one that does always gets that style field, the defaults when it has no attributes; no other field but the event changes |
| HtmlParser.StyleFieldsKeep | assets/textMeshPro/scripts/utils/HtmlParser.ts:219-258 | reading style attributes changes no field of the tag other than the event |
| HtmlParser.OffsetOf | assets/textMeshPro/scripts/utils/HtmlParser.ts:452 | an underline or strikethrough without '=' has offset 0 |
| HtmlParser.AttributeToObject | assets/textMeshPro/scripts/utils/HtmlParser.ts:91-475 | a tag yields at most one run, and only a text-less marker run (for br and img) |
| HtmlParser.ImageRuns | assets/textMeshPro/scripts/utils/HtmlParser.ts:141-213 | an img tag yields at most one run, a text-less marker whose style is an image, and it yields one exactly when some src attribute is quoted |
| HtmlParser.ImageRunSrc | assets/textMeshPro/scripts/utils/HtmlParser.ts:150-213 | the marker run's style holds the last src value, less a trailing '/' and unquoted when quoted |
| HtmlParser.ImageTag | assets/textMeshPro/scripts/utils/HtmlParser.ts:91-216 | an img tag gives an empty style and exactly the image runs |
| HtmlParser.SrcImageTag | assets/textMeshPro/scripts/utils/HtmlParser.ts:141-216 | `img src=V` with V free of spaces, '=' and '>' and holding a '/' after its first unit: a quoted V gives one image marker whose src is V without the '/' and the quotes; an unquoted V gives no run; the style is empty either way |
| HtmlParser.QuotedImageTag | assets/textMeshPro/scripts/utils/HtmlParser.ts:141-216 | `img src='x'/` gives one image marker with src x and an empty style |
| HtmlParser.UnquotedImageTag | assets/textMeshPro/scripts/utils/HtmlParser.ts:141-216 | `img src=x/` gives no run and an empty style |
| HtmlParser.SizeTag | assets/textMeshPro/scripts/utils/HtmlParser.ts:95-128 | size=X with X non-empty and free of spaces gives exactly the size parseInt(X) and no runs |
| HtmlParser.EntitiesWellFormed | assets/textMeshPro/scripts/utils/HtmlParser.ts:40-47 | every entity pattern starts with '&' and all are non-empty |
| HtmlParser.EscapeWithoutAmpersand | assets/textMeshPro/scripts/utils/HtmlParser.ts:578-587 | text without '&' is unchanged by entity decoding |
| HtmlParser.ReplaceEachKeepsNonEmpty | assets/textMeshPro/scripts/utils/HtmlParser.ts:578-587 | entity decoding never empties a non-empty text |
| HtmlParser.ProcessResult | assets/textMeshPro/scripts/utils/HtmlParser.ts:565-576 | empty text adds nothing; other text adds exactly one run, with non-empty decoded text and the style of the top of the stack; the stack is untouched |
| HtmlParser.AddToStack | assets/textMeshPro/scripts/utils/HtmlParser.ts:545-563 | on an empty stack the tag's style is pushed; a br tag leaves a non-empty stack alone; any other tag, img included, is pushed merged with the current top; a tag's own marker runs are appended |
| HtmlParser.ImageTagPushesTopCopy | assets/textMeshPro/scripts/utils/HtmlParser.ts:545-563 | on a non-empty stack an img tag pushes a copy of the top and appends its image runs |
| HtmlParser.FindTag | assets/textMeshPro/scripts/utils/HtmlParser.ts:56-66 | a found tag starts with '<' and either ends at the next '>' after it, or is an unterminated '<' past the start |
| HtmlParser.AtTag | assets/textMeshPro/scripts/utils/HtmlParser.ts:67-85 | handling a tag keeps the runs well formed |
| HtmlParser.ParseFromWellFormed | assets/textMeshPro/scripts/utils/HtmlParser.ts:53-86 | the parse loop keeps the runs well formed: text runs are non-empty and marker runs are text-less |
| HtmlParser.ParseRunsWellFormed | assets/textMeshPro/scripts/utils/HtmlParser.ts:49-89 | parsing starts from an empty result and an empty stack, so every parse result is well formed |
| HtmlParser.ParseKeepsEarlierRuns | assets/textMeshPro/scripts/utils/HtmlParser.ts:53-86 | the parse loop only appends: the runs it starts with remain a prefix of the runs it returns |
| HtmlParser.TextWithoutTagIsOneRun | assets/textMeshPro/scripts/utils/HtmlParser.ts:67-70 | a non-empty text without '<' parses to a single unstyled run of its decoded text |
| HtmlParser.ColorTag | assets/textMeshPro/scripts/utils/HtmlParser.ts:95-115 | color=X with X free of spaces gives exactly the colour X and no runs |
| HtmlParser.OneLetterSimpleTag | assets/textMeshPro/scripts/utils/HtmlParser.ts:445-466 | u and s set underline or strikethrough with offset 0; b and i set bold and italic |
| HtmlParser.OneLetterTag | assets/textMeshPro/scripts/utils/HtmlParser.ts:445-474 | a one-letter tag goes straight to the simple tags |
| HtmlParser.ClosingTagStep | assets/textMeshPro/scripts/utils/HtmlParser.ts:79-80 | a closing tag flushes the text before it and pops the stack |
| HtmlParser.OpeningTagStep | assets/textMeshPro/scripts/utils/HtmlParser.ts:81-83 | an opening tag flushes the text before it and pushes its style |
| HtmlParser.ParseStep | assets/textMeshPro/scripts/utils/HtmlParser.ts:55-85 | for a closed tag whose '>' is the first one from the cursor and with no '<' inside it, the loop handles the tag and continues right after its '>' |
| HtmlParser.OneLetterSpan | assets/textMeshPro/scripts/utils/HtmlParser.ts:49-89 | a u, s, b or i span around plain text parses to one run with that tag's style |
| HtmlParser.OpensOnEmptyStack | assets/textMeshPro/scripts/utils/HtmlParser.ts:548-549 | the first opening tag is pushed as is |
| HtmlParser.BreakTag | assets/textMeshPro/scripts/utils/HtmlParser.ts:131-138 | br/ marks a new line and yields one empty new-line run |
| HtmlParser.BreakKeepsStack | assets/textMeshPro/scripts/utils/HtmlParser.ts:551-553 | br/ inside a span appends its run and leaves the stack as it was |
| HtmlParser.UnclosedSpanLosesStyle | assets/textMeshPro/scripts/utils/HtmlParser.ts:67-70 | text after an unclosed tag loses the tag's style, because the tail pops the stack first |
| HtmlParser.TailStep | assets/textMeshPro/scripts/utils/HtmlParser.ts:67-70 | with no '>' left, the rest is flushed after popping the stack |
| HtmlParser.EmptyTagStaysInText | assets/textMeshPro/scripts/utils/HtmlParser.ts:72-75 | an empty tag '<>' stays in the text of the run before it |
| HtmlParser.EscapedAmpersandDecodedTwice | assets/textMeshPro/scripts/utils/HtmlParser.ts:41-46 | '&amp;quot;' decodes to a double quote, not to '&quot;', because the table is applied in order |
| RichStyle.HexDigits | assets/textMeshPro/scripts/TmpRichText.ts:1019 | a leading '#' is dropped and any other string is used as is |
| RichStyle.HexColor | assets/textMeshPro/scripts/TmpRichText.ts:1019-1027 | a channel whose two hex digits do not parse is 0; alpha is 255 exactly when its digits do not parse (or read 255); every channel lies in -15..255, since parseInt accepts a sign before the digit; six digits or fewer give an opaque colour, four or fewer give no blue |
| RichStyle.LiteralColor | assets/textMeshPro/scripts/TmpRichText.ts:1012-1029 | a colour name the engine knows gives that colour; any other string is read as hex |
| RichStyle.HexColorRoundTrip | assets/textMeshPro/scripts/TmpRichText.ts:1019-1027 | formatting a colour as '#RRGGBBAA' and reading it back gives the same colour |
| RichStyle.HexColorOpaque | assets/textMeshPro/scripts/TmpRichText.ts:1023-1026 | '#RRGGBB' reads back as the same colour with alpha 255 |
| RichStyle.HashIsOptional | assets/textMeshPro/scripts/TmpRichText.ts:1019 | a hex colour reads the same with or without its leading '#' |
| RichStyle.FirstChange | assets/textMeshPro/scripts/TmpRichText.ts:697-730 | the scan finds the first run whose change needs a new layout, and there is none before it; when it finds none, no run needs one |
| RichStyle.NeedsUpdate | assets/textMeshPro/scripts/TmpRichText.ts:688-732 | a new layout is needed exactly when the layout is dirty, there was no previous text, the run count changed, or some run's change needs one |
| RichStyle.SameLayoutKeepsRun | assets/textMeshPro/scripts/TmpRichText.ts:700-728 | a run whose text and layout fields (size, italic, image fields and whether it has an outline) are unchanged needs no new layout |
| RichStyle.DecorationChangesKeepLayout | assets/textMeshPro/scripts/TmpRichText.ts:688-732 | changing only colours, gradients, faces, underlays, glows, decorations or events in every run needs no new layout |
| RichStyle.SameRunsKeepLayout | assets/textMeshPro/scripts/TmpRichText.ts:688-732 | setting the same runs again needs no new layout, unless a layout field is not equal to itself (NaN) |
| RichStyle.RecolourKeepsLayout | assets/textMeshPro/scripts/TmpRichText.ts:703-728 | changing one run's colour needs no new layout |
| RichStyle.TextChangeNeedsLayout | assets/textMeshPro/scripts/TmpRichText.ts:700-701 | changing any run's text needs a new layout |
| RichStyle.LayoutFieldChangeNeedsLayout | assets/textMeshPro/scripts/TmpRichText.ts:706-720 | changing any layout field of a styled run needs a new layout (in the packages port, italic only when its truthiness changes) |
| RichStyle.PackagesRelayoutImpliesAssets | packages/textmeshpro-tool/textMeshPro/scripts/TmpRichText.ts:493-544 | whenever the packages port lays out again, so does the assets port |
| RichStyle.ItalicUndefinedVersusFalse | packages/textmeshpro-tool/textMeshPro/scripts/TmpRichText.ts:512-516 | going from no italic to italic false lays out again in the assets port but not in the packages port |
| RichStyle.NaNSizeAlwaysRelayouts | assets/textMeshPro/scripts/TmpRichText.ts:709 | a run whose size is NaN lays out again even when nothing changed |
| RichStyle.OffsetOr0 | assets/textMeshPro/scripts/TmpRichText.ts:1077 | a truthy offset is the run's own offset; anything else gives 0 |
| RichStyle.TextColor | assets/textMeshPro/scripts/TmpRichText.ts:1047-1051 | a run with a colour string gets that literal colour; one without gets white in the assets port and the node's colour in the packages port |
| RichStyle.GradientOf | assets/textMeshPro/scripts/TmpRichText.ts:1056-1062 | a gradient is set exactly when the run has one, each corner being its literal colour |
| RichStyle.FaceOf | assets/textMeshPro/scripts/TmpRichText.ts:1064-1072 | a run's face gives its literal colour, dilate and softness; without one the face is white with dilate 0.5 and softness 0.01 |
| RichStyle.OutlineOf | assets/textMeshPro/scripts/TmpRichText.ts:1084-1088 | an outline is set exactly when the run has one, with its literal colour and thickness |
| RichStyle.UnderlayOf | assets/textMeshPro/scripts/TmpRichText.ts:1090-1096 | an underlay is set exactly when the run has one, with its literal colour, offset, dilate and softness |
| RichStyle.GlowOf | assets/textMeshPro/scripts/TmpRichText.ts:1098-1105 | a glow is set exactly when the run has one, with its literal colour, offset, inner, outer and power |
| RichStyle.SizeOf | assets/textMeshPro/scripts/TmpRichText.ts:1107-1111 | a run's numeric size is used, else the component's font size |
| RichStyle.ApplyTextAttribute | assets/textMeshPro/scripts/TmpRichText.ts:1034-1122 | a child label gets the run's colour, gradient, face, outline, underlay, glow and size as above; italic, underline and strikethrough exactly when set, the decorations with the run's offset or 0 |
| RichStyle.UnstyledLabel | assets/textMeshPro/scripts/TmpRichText.ts:1047-1111 | a run outside every tag gets the plain look: the fallback colour, the default face, no decoration and the component's font size |
| RichStyle.PortsDifferOnlyInFallbackColour | packages/textmeshpro-tool/textMeshPro/scripts/TmpRichText.ts:851-855 | both ports style a label alike except for the colour of a run without one |
| RichStyle.NestedRunTakesOuterColour | assets/textMeshPro/scripts/TmpRichText.ts:1047-1051 | a nested run without its own colour is drawn in the outer tag's colour |
| RichStyle.OrEmpty | assets/textMeshPro/scripts/TmpRichText.ts:1119-1120 | a missing or empty handler field becomes the empty string |
| RichStyle.LabelClick | assets/textMeshPro/scripts/TmpRichText.ts:1115-1121 | in the assets port a label always gets a handler and a parameter, empty without an event; in the packages port a label without an event loses its handler but keeps its old parameter, and an empty click keeps the old handler; with an event the parameter is the event's or empty |
| RichStyle.ImageClick | packages/textmeshpro-tool/textMeshPro/scripts/TmpRichText.ts:607-620 | in the assets port an image takes the event's click and param as they are, or empty strings without an event; in the packages port an image without an event has no handler, and with one it always gets a parameter and only a non-empty handler |
| RichStyle.ImageClickPorts | packages/textmeshpro-tool/textMeshPro/scripts/TmpRichText.ts:607-620 | for an image with a click and no param, the assets port leaves the parameter unset while the packages port sets it to the empty string |
| RichSplit.Halve | assets/textMeshPro/scripts/TmpRichText.ts:409-420 | halving the first guess ends between 0 and the start, at the start or at 1 or more, and stops either once the guessed part fits or when another halving would go below one unit |
| RichSplit.Expand | assets/textMeshPro/scripts/TmpRichText.ts:427-440 | growing keeps the start and the parts, only moves the end forward, and stops once the part is at least the limit wide or the tries run out |
| RichSplit.Reduce | assets/textMeshPro/scripts/TmpRichText.ts:443-451 | shrinking keeps the start, moves the end back one unit at a time but not before the start, and stops once the part fits, is shorter than two units, or the tries run out |
| RichSplit.DropWordTail | assets/textMeshPro/scripts/TmpRichText.ts:454-462 | moving a partial English word to the next part keeps the end within the part and never empties the part |
| RichSplit.Push | assets/textMeshPro/scripts/TmpRichText.ts:467-476 | pushing a part moves the start to its end and keeps the parts spelling the text up to the new start |
| RichSplit.TakeTurn | assets/textMeshPro/scripts/TmpRichText.ts:426-488 | in the corrected splitter each turn keeps the parts spelling the text up to the start, and a finished split spells the whole line |
| RichSplit.SplitIn2048 | assets/textMeshPro/scripts/TmpRichText.ts:370-388 | a text narrower than 2048 px is kept as one part |
| RichSplit.SplitLines | assets/textMeshPro/scripts/TmpRichText.ts:376-385 | lines narrower than 2048 px are kept as they are |
| RichSplit.PushExtends | assets/textMeshPro/scripts/TmpRichText.ts:467-470 | appending the part between two positions extends the spelled prefix to the later one |
| RichSplit.ExpandKeepsTiling | assets/textMeshPro/scripts/TmpRichText.ts:427-440 | growing keeps the parts spelling the text up to the start |
| RichSplit.CorrectedTurnsSpellText | assets/textMeshPro/scripts/TmpRichText.ts:426-488 | the corrected outer loop, unless it runs out of tries, returns parts that spell the line exactly |
| RichSplit.CorrectedSplitSpellsLine | assets/textMeshPro/scripts/TmpRichText.ts:393-491 | the corrected splitter, unless it runs out of tries, returns parts whose concatenation is the line |
| RichSplit.FirstGuess | assets/textMeshPro/scripts/TmpRichText.ts:398-420 | on five ideographs 1000 px each with a 1000 px line, the first guess halves 2.5 to 1.25, that is one ideograph |
| RichSplit.FirstTurn | assets/textMeshPro/scripts/TmpRichText.ts:426-488 | the first turn pushes the first ideograph and guesses the next part as one ideograph |
| RichSplit.FirstGrow | assets/textMeshPro/scripts/TmpRichText.ts:427-440 | the first part is already as wide as the line, so growing does nothing |
| RichSplit.FirstPush | assets/textMeshPro/scripts/TmpRichText.ts:467-476 | pushing the first part moves the start to 1 |
| RichSplit.SecondTurn | assets/textMeshPro/scripts/TmpRichText.ts:426-488 | the second turn pushes the second ideograph and exits; as written it pushes the rest after the guessed third ideograph, while the corrected version pushes the rest from the third on |
| RichSplit.SecondGrow | assets/textMeshPro/scripts/TmpRichText.ts:427-440 | the second part is already as wide as the line, so growing does nothing |
| RichSplit.SecondPush | assets/textMeshPro/scripts/TmpRichText.ts:467-476 | pushing the second part moves the start to 2 and records both parts |
| RichSplit.ExitDropsGuessedPart | assets/textMeshPro/scripts/TmpRichText.ts:468-484 | splitting the five ideographs as written loses the third one; the corrected version returns all five |
| RichSplit.PreSplitLosesText | assets/textMeshPro/scripts/TmpRichText.ts:370-388 | the same loss shows in the pre-split of the whole text |
| RichSplit.OneLongLine | assets/textMeshPro/scripts/TmpRichText.ts:376-385 | a single long line without line feeds goes straight to the long-string splitter |
| RichLayout.ResetCounted | assets/textMeshPro/scripts/TmpRichText.ts:578-590 | the reset state has one line, no widths, no segments and label width 0, so every segment sits on an existing line and the label width is the widest line |
| RichLayout.NewLine | assets/textMeshPro/scripts/TmpRichText.ts:682-686 | finishing a line appends the current offset as that line's width, opens the next line at offset 0 and keeps the segments and the label width |
| RichLayout.AddLabel | assets/textMeshPro/scripts/TmpRichText.ts:603-631 | adding a label appends exactly one segment for that text and style on the current line, measured by the style's measure, and changes nothing else |
| RichLayout.Grow | assets/textMeshPro/scripts/TmpRichText.ts:873-879 | advancing the offset by w raises the label width to the new offset when it exceeds it and leaves it unchanged otherwise, so the label width stays the widest line |
| RichLayout.BreakerIsCharTest | assets/textMeshPro/scripts/TmpRichText.ts:905 | a word break is exactly a code unit that is CJK or a Unicode space |
| RichLayout.WordEnd | assets/textMeshPro/scripts/TmpRichText.ts:909-917 | the scan stops at the first break at or after the position, or at the end of the text, and passes over no break |
| RichLayout.FirstWordLen | assets/textMeshPro/scripts/TmpRichText.ts:903-920 | the first word is at least one unit long and ends inside the text |
| RichLayout.FirstWordLenSpec | assets/textMeshPro/scripts/TmpRichText.ts:903-920 | the first word is one unit when it starts on a break or past the end, and otherwise is the maximal run of non-break units from the start |
| RichLayout.FillLine | assets/textMeshPro/scripts/TmpRichText.ts:637-658 | when the word loop breaks, it breaks inside the label at an offset that still fits, and breaking at once keeps the incoming offset |
| RichLayout.FillLineBreaksAtOverflow | assets/textMeshPro/scripts/TmpRichText.ts:645-657 | the loop breaks exactly at a word whose width would carry the offset past the maximum |
| RichLayout.FillLineGoesOn | assets/textMeshPro/scripts/TmpRichText.ts:645-647 | one iteration: a word that fits advances both the position and the offset by that word |
| RichLayout.FillLineBreaks | assets/textMeshPro/scripts/TmpRichText.ts:645-650 | one iteration: a word that does not fit ends the loop where it stands, with the incoming offset |
| RichLayout.FillLineStops | assets/textMeshPro/scripts/TmpRichText.ts:637-658 | when the whole label overflows the line and the measure is subadditive, the word loop always breaks before running off the end of the label |
| RichLayout.Place | assets/textMeshPro/scripts/TmpRichText.ts:660-675 | a label that fits the maximum is added as one segment and advances the offset by its width; the label width never changes |
| RichLayout.PlaceFragments | assets/textMeshPro/scripts/TmpRichText.ts:661-671 | every fragment becomes one segment in order, fragment k on the k-th line after the current one, and one line is finished between consecutive fragments |
| RichLayout.FinishLine | assets/textMeshPro/scripts/TmpRichText.ts:637-658 | the concatenation with the previous line fails exactly when the word loop runs off the end; otherwise segments stay on existing lines |
| RichLayout.BreakAt | assets/textMeshPro/scripts/TmpRichText.ts:649-656 | breaking after k units puts the first k units on the current line as one segment and always finishes at least that line |
| RichLayout.WithMaxWidth | assets/textMeshPro/scripts/TmpRichText.ts:633-676 | with a subadditive measure the label is always laid out, cut by the corrected fragmentText; a label that fits after the current offset becomes a single segment on the current line; the label width is untouched |
| RichLayout.ImageSize | assets/textMeshPro/scripts/TmpRichText.ts:766-785 | the image height is the expected height or else the line height; the width is the expected width, or else the sprite width scaled to keep the sprite's aspect ratio |
| RichLayout.Expected | assets/textMeshPro/scripts/TmpRichText.ts:770-771 | a non-zero expected dimension is a finite number written in the style |
| RichLayout.AnchorOf | assets/textMeshPro/scripts/TmpRichText.ts:747-757 | the vertical anchor is 1 exactly for top alignment, 0.5 exactly for center, and 0 otherwise |
| RichLayout.OffsetOf | assets/textMeshPro/scripts/TmpRichText.ts:759-761 | the image offset is the style's non-empty offset text, or empty when there is none |
| RichLayout.SpriteOf | assets/textMeshPro/scripts/TmpRichText.ts:740-742 | a sprite is found only for a non-empty src name and is what the atlas returns for it |
| RichLayout.PlaceImage | assets/textMeshPro/scripts/TmpRichText.ts:787-799 | the image becomes one segment on its line; with a maximum it wraps to a new line exactly when it would overflow; the offset grows by the image width |
| RichLayout.AddImage | assets/textMeshPro/scripts/TmpRichText.ts:734-809 | an image whose sprite is not found changes nothing; otherwise it is sized from its style and placed |
| RichLayout.IsLastCR | assets/textMeshPro/scripts/TmpRichText.ts:678-680 | the text ends in a line feed, or is empty |
| RichLayout.LayText | assets/textMeshPro/scripts/TmpRichText.ts:851-885 | laying out the lines of one run keeps every segment on an existing line and an empty last line tracked; it never fails without a maximum or with a subadditive measure, since long labels are cut by the corrected fragmentText |
| RichLayout.LayRun | assets/textMeshPro/scripts/TmpRichText.ts:829-885 | one run: breaks finish a line, images are placed, text is split and laid out; segments stay on existing lines; the corrected walk keeps the empty-line flag in step |
| RichLayout.LayRuns | assets/textMeshPro/scripts/TmpRichText.ts:829-886 | the same facts over every run in order; the fuel bound can only be reached by the port that pre-splits long text |
| RichLayout.Close | assets/textMeshPro/scripts/TmpRichText.ts:887-894 | the final width of the current line is recorded unless the last line was empty; the label height is the line count plus the baseline ratio times the line height; with a maximum the label width is that maximum |
| RichLayout.Walked | assets/textMeshPro/scripts/TmpRichText.ts:823-886 | the layout walk can only run out of fuel in the port that pre-splits long text |
| RichLayout.LayoutLinesExist | assets/textMeshPro/scripts/TmpRichText.ts:811-901 | after a layout every segment sits on a line between 1 and the line count, the label height follows the line count, and a subadditive measure never garbles the offset |
| RichLayout.CorrectedLinesHaveWidths | assets/textMeshPro/scripts/TmpRichText.ts:826-889 | with the empty-line flag reset by images too, every line has its recorded width |
| RichLayout.CorrectedLabelWidthIsWidestLine | assets/textMeshPro/scripts/TmpRichText.ts:873-893 | without a maximum and with non-negative measures, the label width of the corrected layout is the widest recorded line |
| RichLayout.RunPortsAgree | assets/textMeshPro/scripts/TmpRichText.ts:848-851 | a run narrower than the 2048 split width is laid out the same by both ports |
| RichLayout.RunsPortsAgree | assets/textMeshPro/scripts/TmpRichText.ts:829-886 | the same for every remaining run |
| RichLayout.PortsAgreeBelow2048 | packages/textmeshpro-tool/textMeshPro/scripts/TmpRichText.ts:644-665 | when every run is narrower than 2048, the port without the pre-split lays out exactly as the port with it |
| RichLayout.ImageAfterFeedHasNoWidth | assets/textMeshPro/scripts/TmpRichText.ts:842-889 | a line feed followed by a 20 by 20 image ends with two lines but only one recorded width, so the image's line has no width |
| RichLayout.ImageAfterFeedCorrected | assets/textMeshPro/scripts/TmpRichText.ts:842-889 | the same input with the empty-line flag reset by the image records widths 0 and 20 and the label width is the widest line |
| RichPosition.AlignFactor | assets/textMeshPro/scripts/TmpRichText.ts:937 | the alignment factor is 0 exactly for left, 1 exactly for center and 2 exactly for right alignment |
| RichPosition.LineWidth | assets/textMeshPro/scripts/TmpRichText.ts:942 | a line's recorded width exists exactly for lines 1 to the number of recorded widths, and is the width recorded for that line |
| RichPosition.LineOffset | assets/textMeshPro/scripts/TmpRichText.ts:937-949 | left-aligned lines start at the label's left edge; a centred line's middle sits at the label's middle and a right-aligned line's end at the label's right edge; without a recorded width the offset is not a number |
| RichPosition.LinesStack | assets/textMeshPro/scripts/TmpRichText.ts:953 | consecutive lines are exactly one line height apart and the last line sits at the label's bottom edge |
| RichPosition.ImageLift | assets/textMeshPro/scripts/TmpRichText.ts:969-981 | an image is lifted by half the baseline gap plus its anchor times the line height |
| RichPosition.Component | assets/textMeshPro/scripts/TmpRichText.ts:987 | an offset component moves the image only when it parses to an integer, and then by that integer |
| RichPosition.ImageShift | assets/textMeshPro/scripts/TmpRichText.ts:983-994 | only an offset with a comma moves the image sideways, and an empty offset does not move it |
| RichPosition.SingleOffset | assets/textMeshPro/scripts/TmpRichText.ts:985-987 | an offset without a comma moves the image up by its integer value only |
| RichPosition.PairOffset | assets/textMeshPro/scripts/TmpRichText.ts:988-993 | an offset x,y moves the image by the integer values of x and y |
| RichPosition.LongOffsetIgnored | assets/textMeshPro/scripts/TmpRichText.ts:984-993 | an offset with more than one comma does not move the image |
| RichPosition.Enter | assets/textMeshPro/scripts/TmpRichText.ts:932-935 | entering a later line restarts the cursor at x 0 on that line; an earlier or the same line keeps the cursor |
| RichPosition.Leave | assets/textMeshPro/scripts/TmpRichText.ts:956-963 | a segment on the cursor's line advances the cursor by its width plus the label's extra advance; a segment on another line does not move it |
| RichPosition.DeltaOf | assets/textMeshPro/scripts/TmpRichText.ts:959-962 | images never add an extra advance |
| RichPosition.SegPos | assets/textMeshPro/scripts/TmpRichText.ts:937-954 | a label is placed at the cursor plus its line's offset and at its line's height; its x is a number exactly when the alignment is left or the line has a recorded width |
| RichPosition.PlaceFrom | assets/textMeshPro/scripts/TmpRichText.ts:929-1005 | one position per remaining segment, each a number exactly when the alignment is left or its line has a recorded width |
| RichPosition.Positions | assets/textMeshPro/scripts/TmpRichText.ts:922-1006 | one position per segment, each a number exactly when the alignment is left or its line has a recorded width |
| RichPosition.PositionsAreNumbers | assets/textMeshPro/scripts/TmpRichText.ts:937-954 | when every line has a recorded width, every segment's x is a number |
| RichPosition.PlaceFromAtLineSums | assets/textMeshPro/scripts/TmpRichText.ts:929-963 | with segments in line order, each segment is placed after the widths and extra advances of the earlier segments on its own line |
| RichPosition.PlacedAtLineSums | assets/textMeshPro/scripts/TmpRichText.ts:922-963 | the same for a whole layout whose segments sit on existing lines |
| RichPosition.SegmentsAbut | assets/textMeshPro/scripts/TmpRichText.ts:952-962 | the first label of a line starts at the line's offset and each further label starts where the previous one on that line ended |
| RichPosition.PackagesPlaceAsCentred | packages/textmeshpro-tool/textMeshPro/scripts/TmpRichText.ts:744-759 | the packages port places every remaining segment as the assets port does with anchor 0.5, 0.5 |
| RichPosition.PackagesPositionsCentred | packages/textmeshpro-tool/textMeshPro/scripts/TmpRichText.ts:733-806 | the packages port positions a whole layout as the assets port with a centred anchor |
| RichPosition.ImageAfterFeedPlacedAtNaN | assets/textMeshPro/scripts/TmpRichText.ts:942-952 | after a line feed and a 20 by 20 image, centred placement gives the image an x that is not a number |
| RichPosition.ImageAfterFeedPlacedCorrected | assets/textMeshPro/scripts/TmpRichText.ts:937-954 | with the corrected layout the same image is centred at x -10 |
| Js.SplitPartsLackSep | assets/textMeshPro/scripts/TmpRichText.ts:849-851 | no part that split returns contains the separator |
| Js.SplitJoin | assets/textMeshPro/scripts/TmpRichText.ts:849-851 | joining parts free of the separator with it and splitting again gives the same parts, so the joined pre-split fragments come back as lines |
| FontTool.MinusTwice | extensions/textmeshpro-tool/src/utils.ts:30-31 | the advance is minus twice the padding's numeric value, and is NaN exactly when the padding is not a number |
| FontTool.TextSource | extensions/textmeshpro-tool/src/utils.ts:6-13 | the glyph text is the configured string when textFrom is 0, and the named file's contents when textFrom is 1 and a path is given; it can only fail when a text file is named and reading it fails; any other source gives the empty string |
| FontTool.StripBreaks | extensions/textmeshpro-tool/src/utils.ts:36 | the glyph text keeps no carriage return or line feed and never grows |
| FontTool.StripKeepsPlainText | extensions/textmeshpro-tool/src/utils.ts:36 | text without line breaks is written unchanged |
| FontTool.WriteHiero | extensions/textmeshpro-tool/src/utils.ts:4-49 | a settings file is written exactly when the glyph text could be read |
| FontTool.HieroWritable | extensions/textmeshpro-tool/src/utils.ts:15-44 | every setting line of the file has a key without an equals sign and a value without a line feed, when the configured values print on one line |
| FontTool.HieroReadsBack | extensions/textmeshpro-tool/src/utils.ts:15-44 | reading the written file back line by line gives exactly the settings that were written |
| FontTool.PadPartSets | extensions/textmeshpro-tool/src/utils.ts:26-31 | all four paddings are set to the padding and both advances to the advance |
| FontTool.GlyphEffectSets | extensions/textmeshpro-tool/src/utils.ts:36-43 | the glyph text is set to the text without line breaks and the effect spread to the padding |
| FontTool.HieroFileSettings | extensions/textmeshpro-tool/src/utils.ts:15-44 | the written file, read back, sets all four paddings and the spread to the padding, both advances to minus twice the padding, and the glyph text to the source text without line breaks |
| FontTool.SplitLines | extensions/textmeshpro-tool/src/utils.ts:55 | the font file is cut into at least one line, none containing a line break |
| FontTool.LineEndingsAgree | extensions/textmeshpro-tool/src/utils.ts:55 | CR LF, LF and a lone CR each end exactly one line |
| FontTool.SplitLinesJoin | extensions/textmeshpro-tool/src/utils.ts:55 | joining break-free lines with LF and splitting again gives the same lines |
| FontTool.RunAt | extensions/textmeshpro-tool/src/utils.ts:57-98 | the field value is the shortest non-empty run of non-space units followed by the required stop, and None exactly when no such run exists |
| FontTool.MatchFrom | extensions/textmeshpro-tool/src/utils.ts:57-98 | the first position after the key where a value matches, and None exactly when there is none |
| FontTool.Field | extensions/textmeshpro-tool/src/utils.ts:57-98 | a matched field value is non-empty and contains no white space |
| FontTool.FieldBeforeSpace | extensions/textmeshpro-tool/src/utils.ts:57-60 | a key followed by a value and white space reads back that value |
| FontTool.FieldBeforeQuote | extensions/textmeshpro-tool/src/utils.ts:79 | a quoted file name without spaces or quotes reads back as the name |
| FontTool.FieldOneUnit | extensions/textmeshpro-tool/src/utils.ts:98 | the channel field reads exactly one unit after its key |
| FontTool.FieldAtLineEnd | extensions/textmeshpro-tool/src/utils.ts:57-98 | a value that runs to the end of the line, with no white space after it, does not match |
| FontTool.ReadInfo | extensions/textmeshpro-tool/src/utils.ts:57-62 | the info line is read exactly when its size, bold, italic and padding fields all match |
| FontTool.ReadCommon | extensions/textmeshpro-tool/src/utils.ts:64-73 | the common line is read exactly when its lineHeight, base, scaleW, scaleH and pages fields all match |
| FontTool.ReadPage | extensions/textmeshpro-tool/src/utils.ts:78-79 | a page line is read exactly when its id and its quoted file both match |
| FontTool.ReadGlyph | extensions/textmeshpro-tool/src/utils.ts:89-98 | a read glyph's channel is the number of the single unit after chnl= |
| FontTool.ReadPages | extensions/textmeshpro-tool/src/utils.ts:75-81 | the page list is read exactly when every page line exists and reads, and then holds those pages in order |
| FontTool.CharLines | extensions/textmeshpro-tool/src/utils.ts:83-86 | only lines that contain the word char are kept, in order |
| FontTool.GlyphsReadCharLines | extensions/textmeshpro-tool/src/utils.ts:83-100 | the glyph list is read exactly when every char line after the pages reads, and then holds one glyph per char line in order |
| FontTool.PageCount | extensions/textmeshpro-tool/src/utils.ts:76 | the page loop runs the least number of times not below the page count, so a fractional count rounds up and a count of 0 or less reads no page |
| FontTool.JsonPath | extensions/textmeshpro-tool/src/utils.ts:125 | a path without .fnt in it is kept as is |
| FontTool.JsonBesideFont | extensions/textmeshpro-tool/src/utils.ts:125 | a font file stem.fnt is written as stem.json |
| FontTool.ParseFnt | extensions/textmeshpro-tool/src/utils.ts:52-129 | a font file without readable info and common lines fails; infinitely many pages fail; minus infinity pages loops forever; otherwise the JSON sits beside the font and carries the header it read |
| FontTool.FromHeader | extensions/textmeshpro-tool/src/utils.ts:57-123 | the written JSON holds the header that was read, no spacing, and zero outline, packed and channel fields |
| FontTool.ParsedPages | extensions/textmeshpro-tool/src/utils.ts:75-81 | the written JSON holds one page per whole page counted, read from the lines after the header; a NaN page count gives no pages and no glyphs |
| FontTool.ParsedGlyphs | extensions/textmeshpro-tool/src/utils.ts:83-100 | with a whole page count the glyphs are those of every char line after the pages, in order; a fractional count leaves no glyphs |
| FontTool.BadGlyphFails | extensions/textmeshpro-tool/src/utils.ts:126-128 | one char line that does not read makes the whole parse fail and nothing is written |

## Left out

- File and engine I/O: `fs.readFileSync` and `fs.writeFileSync`, `JSON.stringify`, `console` errors and warnings, the scene graph, node creation and reuse, touch handling and click dispatch. Reading a file is a function parameter and the written JSON is returned as a value.
- GPU vertex and index buffers, the JSB branch of the colour-extra update, and kerning are not modelled; vertex data is a sequence of plain records.
- The editor tooling (panels, the Hiero process, asset refresh), `TmpUtils.load` and `waitCmpt` are left out: they are asynchronous engine calls with no logic of their own.
- The `hash` field of a letter is dropped because the shared label info always sets it to the empty string.
- Measuring text, `parseFloat`, `Number.prototype.toString`, the two-decimal rounding of `toFixed(2)`, the sine and cosine of the italic angle (Quads.Slant carries them with the italic flag), the extra advance `richTextDeltaX` and the engine's named colour table are parameters: they are engine or floating-point routines, and the model states what follows from their results.
- Floating point is not modelled: pixels are exact reals, so rounding differences between doubles and reals are out of scope.
- TmpUtils: the bitwise-or with 0 on text lengths is treated as truncation toward zero, which is exact for lengths below 2^31.
- TmpUtils.FragmentTextAsWritten: runs for at most `fuel` passes of the outer loop; a text that needs more passes gives None.
- RichSplit.Expand: once the try counter is negative the inner loop stops only on width, so the loop is bounded by `fuel`.
- RichLayout.LayRuns: the pre-split of long text goes through the fuel-bounded splitter; a text that would need more fuel ends the layout with FuelOut.
- RichSplit.SplitIn2048: its contract states only the short-text case; the spelling of long texts is proved about SplitOver2048 instead.
- FontTool.ParseFnt: a page count of minus infinity makes the page loop run forever; the model returns Hangs instead of running.
- FontTool.FieldOneUnit: the channel pattern is lazy with no stop, so it reads exactly one unit; that is the source's behaviour and kept.
- HtmlParser.AttributeToObject: its own contract states only the shape of the result; the tag cases are stated by the lemmas ColorTag, SizeTag, OneLetterTag, BreakTag, ImageTag and SrcImageTag.
- HtmlParser.AtTag: states only that the runs stay well formed; concrete parses are stated by the lemmas about spans and breaks.
- HtmlParser.ColorSizeHeader: states only that the header is a non-empty prefix of the tag.
- Quads.Pieces: states only the bound of three pieces and their page; the tiling is stated by Quads.PiecesTile.
- Quads.LinePieces: states only the bound of three pieces and their page, and is built on Quads.PiecesFor with the corrected top clip.
- Quads.DecorationQuads: states only the per-line bound and the page.
- HtmlParser: the escape sequence `&amp;quot;` is decoded twice, to a plain quote. That is the source's behaviour and is kept as it is.
- The newline flag of the packages port's parser is not modelled; only the assets parser is.
- The packages port sets the baseline ratio from the engine; the model uses the assets value 0.26 for both ports.
- Layout.PlaceToken: records the ellipsis through the corrected Layout.RecordEllipsis for both ports, so it never faults where the older port (assets/scripts/utils/TmpAssembler.ts:613-614) reads a missing glyph; that fault is stated only by Layout.RecordEllipsisAsWritten.
- Layout.StepLineFeed: uses the corrected Layout.RecordEllipsis for both ports as well, so the older port's fault on a glyph-less letter before the dots is not reached.
- Layout.StepToken: inherits the corrected ellipsis of Layout.PlaceToken for the older port.
- Layout.WrapPass: the pass never faults; for the older port it models the corrected ellipsis, so inputs such as carriage return then line feed under an ellipsis overflow do not fault as the source does.
- Quads.PiecesFor: clips a decoration's top through the corrected Quads.ClipLine, which converts pixels to texels by the scale; both ports as written subtract pixels (Quads.ClipLineAsWritten), which differs whenever the scale is not 1.
- Quads.DecorationQuads: built on Quads.PiecesFor, so its decoration quads use the corrected top clip.
- Render.DecorationVerts: built on Quads.DecorationQuads, so the decoration vertices use the corrected top clip.
- Render.UpdateQuads: its decoration quads use the corrected top clip of Quads.ClipLine rather than the pixel subtraction both ports perform.
- Layout.AlignText: requires a non-negative line height and scale. The font-size and line-height setters do not check signs, but with a negative line height the text height can be negative and the shrink ratio can divide by zero, which the source leaves to floating-point infinity and NaN; reals do not model them.
- RichLayout.Place: cuts the label with the corrected TmpUtils.FragmentText for both modes. The source's fragmentText (extensions/textmeshpro-tool/textMeshPro/scripts/utils/TmpUtils.ts:129-214, called at assets/textMeshPro/scripts/TmpRichText.ts:660-661) never returns on the label made of the wink emoji then '!' at ten pixels per unit, 30 px wide with 25 px allowed; the corrected cut always makes progress, so the model lays that label out. The hang is stated only by TmpUtils.FragmentTextAsWritten and TmpUtils.FragmentTextDiverges.
- RichLayout.WithMaxWidth: built on RichLayout.Place, so it cuts the label with the corrected TmpUtils.FragmentText for both modes. The source's fragmentText (extensions/textmeshpro-tool/textMeshPro/scripts/utils/TmpUtils.ts:129-214, called at assets/textMeshPro/scripts/TmpRichText.ts:660-661) never returns on the label made of the wink emoji then '!' at ten pixels per unit, 30 px wide with 25 px allowed; the corrected cut always makes progress, so the model lays that label out. The hang is stated only by TmpUtils.FragmentTextAsWritten and TmpUtils.FragmentTextDiverges.
- RichLayout.LayText: built on RichLayout.WithMaxWidth, so it cuts the label with the corrected TmpUtils.FragmentText for both modes. The source's fragmentText (extensions/textmeshpro-tool/textMeshPro/scripts/utils/TmpUtils.ts:129-214, called at assets/textMeshPro/scripts/TmpRichText.ts:660-661) never returns on the label made of the wink emoji then '!' at ten pixels per unit, 30 px wide with 25 px allowed; the corrected cut always makes progress, so the model lays that label out. The hang is stated only by TmpUtils.FragmentTextAsWritten and TmpUtils.FragmentTextDiverges.
- RichLayout.LayRun: built on RichLayout.LayText, so it cuts the label with the corrected TmpUtils.FragmentText for both modes. The source's fragmentText (extensions/textmeshpro-tool/textMeshPro/scripts/utils/TmpUtils.ts:129-214, called at assets/textMeshPro/scripts/TmpRichText.ts:660-661) never returns on the label made of the wink emoji then '!' at ten pixels per unit, 30 px wide with 25 px allowed; the corrected cut always makes progress, so the model lays that label out. The hang is stated only by TmpUtils.FragmentTextAsWritten and TmpUtils.FragmentTextDiverges.
- RichLayout.LayRuns: built on RichLayout.LayRun, so it cuts the label with the corrected TmpUtils.FragmentText for both modes. The source's fragmentText (extensions/textmeshpro-tool/textMeshPro/scripts/utils/TmpUtils.ts:129-214, called at assets/textMeshPro/scripts/TmpRichText.ts:660-661) never returns on the label made of the wink emoji then '!' at ten pixels per unit, 30 px wide with 25 px allowed; the corrected cut always makes progress, so the model lays that label out. The hang is stated only by TmpUtils.FragmentTextAsWritten and TmpUtils.FragmentTextDiverges.
- Quads.LetterQuad: requires a positive scale when the label clips or draws decorations (Quads.CtxReady). A font size of 0 gives a scale of 0 and the source then divides by it (extensions/textmeshpro-tool/textMeshPro/scripts/utils/TmpAssembler.ts:793-800, 808-815), which it leaves to floating-point infinity and NaN; reals do not model them, as for Layout.AlignText. Quads.LetterQuads and Render.UpdateQuads carry the same requirement.
- RichLayout.ImageSize: the sprite rect has a positive height (RichLayout.SpriteRect). The source divides by the sprite height (assets/textMeshPro/scripts/TmpRichText.ts:773-780) and would give infinity or NaN for a zero-height frame; reals do not model them, as for Layout.AlignText.
- VertexApi.Multiply: the engine's `Color.multiply` is not part of this model; it is taken as the exact component-wise product c·d/255 on the 0..255 scale, without the engine's storage of channels as bytes. The corner colours (VertexApi.CornerColor, VertexApi.QuadColors) are stated through it.
- Layout.WrapPass: the older assembler calls the engine's `cc.textUtils.isUnicodeSpace` and `cc.textUtils.isUnicodeCJK` (assets/scripts/utils/TmpAssembler.ts:463, 566-568, 589-596, 792, 1151). The engine's code is not part of this model. The model uses the repository's own copies of these tests, TmpUtils.IsUnicodeSpace and TmpUtils.IsUnicodeCJK (extensions/textmeshpro-tool/textMeshPro/scripts/utils/TmpUtils.ts:87-108), for both ports, so any difference between the engine's character classes and these is not modelled. The same holds for Layout.FirstWordLen, Layout.PlaceToken, Quads.LetterQuads and VertexApi.SetVisible in the older port.
- RichLayout.Place: the packages rich-text component calls the engine's `cc.textUtils.fragmentText` (packages/textmeshpro-tool/textMeshPro/scripts/TmpRichText.ts:463). The model cuts labels with the corrected TmpUtils.FragmentText for that port as well, so any difference between the engine's cut and this repository's is not modelled. The same holds for RichLayout.WithMaxWidth, RichLayout.LayText, RichLayout.LayRun and RichLayout.LayRuns.
- RichLayout.FirstWordLen: the packages rich-text component's word scan calls the engine's `cc.textUtils.isUnicodeCJK` and `cc.textUtils.isUnicodeSpace` (packages/textmeshpro-tool/textMeshPro/scripts/TmpRichText.ts:715-724). The model uses TmpUtils' versions for that port as well, as for the older assembler above. The same holds for RichLayout.WordEnd and RichLayout.FirstWordLenSpec.
- HtmlParser.ImageAttr: `toLowerCase` folds ASCII letters only (Js.AsciiLower). JavaScript's `toLowerCase` folds every cased Unicode letter, so the image `align` values "Ä" and "ä" are equal in the source and differ in the model. The alignments the layout acts on (`top`, `center`) are ASCII, so image placement is unaffected. RichStyle.NeedsUpdate can differ on such values, where the source's comparison of the lowered values finds them equal and the model does not.

## Findings

| source | as written | input that shows it | evidently intended | confidence | as-written member | corrected member |
|---|---|---|---|---|---|---|
| extensions/textmeshpro-tool/textMeshPro/scripts/utils/TmpUtils.ts:129-214 | the symbol rule shortens the cut to one unit and the surrogate-pair check then moves it back to 0, so the rest is the whole text again and the loop never ends | the text made of the wink emoji then '!' (three UTF-16 units), ten pixels per unit, 30 px wide, 25 px allowed | every pass makes progress: when the rest would be the whole text, cut off at least one code point | not executed | TmpUtils.FragmentTextAsWritten, TmpUtils.WinkBangStalls, TmpUtils.FragmentTextDiverges | TmpUtils.FragmentText, TmpUtils.FragmentTextAgrees |
| assets/scripts/utils/TmpAssembler.ts:613-614 | the ellipsis record reads the glyph of the last letter without checking that it exists | an ellipsis font and the text carriage return then line feed, whose letters have no glyph | skip letters without a glyph, as the extensions port does | not executed | Layout.RecordEllipsisAsWritten, Layout.EllipsisAfterCarriageReturnFaults | Layout.RecordEllipsis |
| extensions/textmeshpro-tool/textMeshPro/scripts/utils/TmpAssembler.ts:920-924 | the top clip of a decoration removes pixels from the atlas rectangle without dividing by the scale | scale 2 and an underline 2 px above the tailored top | convert pixels to texels by the scale, as the letter clip does | not executed | Quads.ClipLineAsWritten, Quads.DecorationTopClipIgnoresScale | Quads.ClipLine |
| assets/textMeshPro/scripts/TmpRichText.ts:468-484 | the exit of the long-string splitter pushes the text after the guessed part, so the guessed part is lost | five ideographs each 1000 px wide with 1000 px allowed | push the text from the current start, so the parts spell the line | not executed | RichSplit.ExitDropsGuessedPart, RichSplit.PreSplitLosesText | RichSplit.CorrectedSplitSpellsLine |
| assets/textMeshPro/scripts/TmpRichText.ts:842-864 | an image does not reset the empty-line flag, so the image's line gets no recorded width and its centred x is not a number | a line feed followed by a 20 by 20 image, no maximum width, line height 20 | reset the flag for images as for text | not executed | RichLayout.ImageAfterFeedHasNoWidth, RichPosition.ImageAfterFeedPlacedAtNaN | RichLayout.ImageAfterFeedCorrected, RichPosition.ImageAfterFeedPlacedCorrected |

=== FILE: font_config.dfy ===
/** The glyph table of a bitmap/SDF font: a map from UTF-16 code to glyph metrics,
    built from the `charData` list of the font's JSON, plus the table of atlas
    textures by page id. Every other part of the engine reads glyphs from here. */
module FontConfig {
  import opened Wrappers
  import opened Js

  /** Metrics of one glyph (`TmpFontLetter`): atlas rectangle, offsets from the pen
      position, atlas page, and advance. A fresh letter is all zero and not valid. */
  datatype Glyph = Glyph(
    u: real, v: real, w: real, h: real,
    offsetX: real, offsetY: real,
    textureId: int, valid: bool, xAdvance: real)

  const EmptyGlyph := Glyph(0.0, 0.0, 0.0, 0.0, 0.0, 0.0, 0, false, 0.0)

  /** One `charData` entry of the font JSON (field names as in the BMFont format). */
  datatype CharData = CharData(
    id: int, x: real, y: real, width: real, height: real,
    xoffset: real, yoffset: real, page: int, xadvance: real)

  /** The parts of the font JSON the engine reads. */
  datatype FontJson = FontJson(size: real, lineHeight: real, charData: seq<CharData>)

  /** An atlas texture, known here by its asset name and pixel size. */
  datatype Texture = Texture(name: Str, width: real, height: real)

  /** `TmpFontConfig`: the JSON it was built from, the glyphs and the textures. */
  datatype Config = Config(json: FontJson, letters: map<int, Glyph>, textures: map<int, Texture>)

  /** The glyph a `charData` entry becomes. */
  function ToGlyph(c: CharData): (g: Glyph)
    ensures g.u == c.x && g.v == c.y && g.w == c.width && g.h == c.height
    ensures g.offsetX == c.xoffset && g.offsetY == c.yoffset
    ensures g.textureId == c.page && g.xAdvance == c.xadvance && g.valid
  {
    Glyph(c.x, c.y, c.width, c.height, c.xoffset, c.yoffset, c.page, true, c.xadvance)
  }

  /** The ids appearing in a `charData` list. */
  function Ids(cs: seq<CharData>): (r: set<int>)
    ensures forall k :: 0 <= k < |cs| ==> cs[k].id in r
    ensures forall id :: id in r ==> exists k :: 0 <= k < |cs| && cs[k].id == id
  {
    set k | 0 <= k < |cs| :: cs[k].id
  }

  /** Index of the last entry with the given id, or -1. */
  function LastWithId(cs: seq<CharData>, id: int): (r: int)
    ensures -1 <= r < |cs|
    ensures r >= 0 ==> cs[r].id == id
    ensures forall k :: r < k < |cs| ==> cs[k].id != id
  {
    if |cs| == 0 then -1
    else if cs[|cs| - 1].id == id then |cs| - 1
    else LastWithId(cs[..|cs| - 1], id)
  }

  /** `addLetterDefinitions` applied to every entry in list order. An id given twice
      keeps its last entry; ids not in the list keep their earlier glyph. */
  function AddAll(m: map<int, Glyph>, cs: seq<CharData>): (r: map<int, Glyph>)
    ensures forall id :: id in r <==> id in m || id in Ids(cs)
    ensures forall id :: LastWithId(cs, id) >= 0 ==> id in r && r[id] == ToGlyph(cs[LastWithId(cs, id)])
    ensures forall id :: id in m && LastWithId(cs, id) < 0 ==> id in r && r[id] == m[id]
  {
    if |cs| == 0 then m
    else
      var r0 := AddAll(m, cs[..|cs| - 1]);
      AddLastKeys(m, cs, r0);
      AddLastLatest(cs, r0);
      AddLastKeepsOld(m, cs, r0);
      r0[cs[|cs| - 1].id := ToGlyph(cs[|cs| - 1])]
  }

  /** The ids of a list are those of all but its last entry, plus the last entry's. */
  lemma IdsOfLast(cs: seq<CharData>)
    requires |cs| > 0
    ensures Ids(cs) == Ids(cs[..|cs| - 1]) + {cs[|cs| - 1].id}
  {
    var init := cs[..|cs| - 1];
    forall id | id in Ids(cs) ensures id in Ids(init) + {cs[|cs| - 1].id} {
      var k :| 0 <= k < |cs| && cs[k].id == id;
      if k < |cs| - 1 { assert init[k].id == id; }
    }
  }

  /** Registering the last entry after all the others adds exactly its id. */
  lemma AddLastKeys(m: map<int, Glyph>, cs: seq<CharData>, r0: map<int, Glyph>)
    requires |cs| > 0
    requires forall id :: id in r0 <==> id in m || id in Ids(cs[..|cs| - 1])
    ensures var r := r0[cs[|cs| - 1].id := ToGlyph(cs[|cs| - 1])];
      forall id :: id in r <==> id in m || id in Ids(cs)
  {
    IdsOfLast(cs);
  }

  /** ... gives every listed id the glyph of its last entry. */
  lemma AddLastLatest(cs: seq<CharData>, r0: map<int, Glyph>)
    requires |cs| > 0
    requires forall id :: LastWithId(cs[..|cs| - 1], id) >= 0 ==>
      id in r0 && r0[id] == ToGlyph(cs[..|cs| - 1][LastWithId(cs[..|cs| - 1], id)])
    ensures var r := r0[cs[|cs| - 1].id := ToGlyph(cs[|cs| - 1])];
      forall id :: LastWithId(cs, id) >= 0 ==> id in r && r[id] == ToGlyph(cs[LastWithId(cs, id)])
  {
    var r := r0[cs[|cs| - 1].id := ToGlyph(cs[|cs| - 1])];
    forall id | LastWithId(cs, id) >= 0
      ensures id in r && r[id] == ToGlyph(cs[LastWithId(cs, id)])
    {
      if id != cs[|cs| - 1].id {
        LastBeforeLast(cs, id);
      }
    }
  }

  /** ... and leaves every unlisted id of the old table alone. */
  lemma AddLastKeepsOld(m: map<int, Glyph>, cs: seq<CharData>, r0: map<int, Glyph>)
    requires |cs| > 0
    requires forall id :: id in m && LastWithId(cs[..|cs| - 1], id) < 0 ==> id in r0 && r0[id] == m[id]
    ensures var r := r0[cs[|cs| - 1].id := ToGlyph(cs[|cs| - 1])];
      forall id :: id in m && LastWithId(cs, id) < 0 ==> id in r && r[id] == m[id]
  {
    var r := r0[cs[|cs| - 1].id := ToGlyph(cs[|cs| - 1])];
    forall id | id in m && LastWithId(cs, id) < 0
      ensures id in r && r[id] == m[id]
    {
      LastBeforeLast(cs, id);
    }
  }

  /** For an id other than the last entry's, the last entry with it lies before. */
  lemma LastBeforeLast(cs: seq<CharData>, id: int)
    requires |cs| > 0 && cs[|cs| - 1].id != id
    ensures LastWithId(cs, id) == LastWithId(cs[..|cs| - 1], id)
    ensures LastWithId(cs, id) >= 0 ==> cs[LastWithId(cs, id)] == cs[..|cs| - 1][LastWithId(cs, id)]
  {
  }

  /** The constructor: texture `i` of the list is registered under id `i`, and every
      `charData` entry becomes a glyph under its id. */
  function NewConfig(json: FontJson, textures: seq<Texture>): (c: Config)
    ensures c.json == json
    ensures forall id :: id in c.textures <==> 0 <= id < |textures|
    ensures forall i :: 0 <= i < |textures| ==> c.textures[i] == textures[i]
    ensures forall id :: id in c.letters <==> id in Ids(json.charData)
    ensures forall id :: id in c.letters ==> c.letters[id].valid
    ensures forall id :: LastWithId(json.charData, id) >= 0 ==>
      c.letters[id] == ToGlyph(json.charData[LastWithId(json.charData, id)])
  {
    var tex := map i | 0 <= i < |textures| :: textures[i];
    var letters := AddAll(map[], json.charData);
    ListedHaveLast(json.charData);
    Config(json, letters, tex)
  }

  /** Every id of the list has a last entry. */
  lemma ListedHaveLast(cs: seq<CharData>)
    ensures forall id :: id in Ids(cs) ==> LastWithId(cs, id) >= 0
  {
    forall id | id in Ids(cs) ensures LastWithId(cs, id) >= 0 {
      var k :| 0 <= k < |cs| && cs[k].id == id;
      LastWithIdAtLeast(cs, id, k);
    }
  }

  /** The last entry with an id is at or after any entry with it. */
  lemma {:induction false} LastWithIdAtLeast(cs: seq<CharData>, id: int, k: nat)
    requires k < |cs| && cs[k].id == id
    decreases |cs|
    ensures LastWithId(cs, id) >= k
  {
    if cs[|cs| - 1].id != id {
      var init := cs[..|cs| - 1];
      assert init[k].id == id;
      LastWithIdAtLeast(init, id, k);
    }
  }

  /** `addTexture(id, t)`: the texture is stored under `id`; every other texture and
      every glyph stays as it was. */
  function AddTexture(c: Config, id: int, t: Texture): (r: Config)
    ensures id in r.textures && r.textures[id] == t
    ensures forall k :: k != id ==> (k in r.textures <==> k in c.textures)
    ensures forall k :: k != id && k in c.textures ==> r.textures[k] == c.textures[k]
    ensures r.letters == c.letters && r.json == c.json
  {
    c.(textures := c.textures[id := t])
  }

  /** `addLetterDefinitions(code, g)`: the glyph is stored under `code`; every other
      glyph and every texture stays as it was. */
  function AddLetterDefinition(c: Config, code: int, g: Glyph): (r: Config)
    ensures code in r.letters && r.letters[code] == g
    ensures forall k :: k != code ==> (k in r.letters <==> k in c.letters)
    ensures forall k :: k != code && k in c.letters ==> r.letters[k] == c.letters[k]
    ensures r.textures == c.textures && r.json == c.json
  {
    c.(letters := c.letters[code := g])
  }

  /** `getTexture(id)`. */
  function GetTexture(c: Config, id: int): (r: Option<Texture>)
    ensures r.Some? <==> id in c.textures
    ensures r.Some? ==> r.value == c.textures[id]
  {
    if id in c.textures then Some(c.textures[id]) else None
  }

  /** `getLetter(code)`: the glyph stored under a code, if any. */
  function GetLetter(c: Config, code: int): (r: Option<Glyph>)
    ensures r.Some? <==> code in c.letters
    ensures r.Some? ==> r.value == c.letters[code]
  {
    if code in c.letters then Some(c.letters[code]) else None
  }

  /** `getLetterDefinitionForChar(ch)`: only the first code unit is looked up; the
      empty string (code NaN) and a code without a glyph give null. */
  function GetLetterDefinitionForChar(c: Config, ch: Str): (r: Option<Glyph>)
    ensures r.Some? <==> |ch| > 0 && ch[0] in c.letters
    ensures r.Some? ==> r.value == c.letters[ch[0]]
  {
    if |ch| > 0 then GetLetter(c, ch[0]) else None
  }

  /** A lookup by character reads nothing past the first code unit. */
  lemma LookupReadsFirstUnitOnly(c: Config, ch: Str, rest: Str)
    requires |ch| > 0
    ensures GetLetterDefinitionForChar(c, ch + rest) == GetLetterDefinitionForChar(c, [ch[0]])
  {
    assert (ch + rest)[0] == ch[0];
  }

  /** Field-by-field copy of a glyph into a fresh letter (`js.mixin` onto a new
      `TmpFontLetter`). */
  function CopyGlyph(g: Glyph): (r: Glyph)
    ensures r.u == g.u && r.v == g.v && r.w == g.w && r.h == g.h
    ensures r.offsetX == g.offsetX && r.offsetY == g.offsetY
    ensures r.textureId == g.textureId && r.valid == g.valid && r.xAdvance == g.xAdvance
  {
    EmptyGlyph.(u := g.u, v := g.v, w := g.w, h := g.h, offsetX := g.offsetX,
                offsetY := g.offsetY, textureId := g.textureId, valid := g.valid, xAdvance := g.xAdvance)
  }

  /** `cloneLetterDefinition()`: the same keys, each glyph copied field by field. */
  function CloneLetterDefinition(c: Config): (r: map<int, Glyph>)
    ensures r.Keys == c.letters.Keys
    ensures forall k :: k in r ==> r[k] == c.letters[k]
  {
    map k | k in c.letters :: CopyGlyph(c.letters[k])
  }

  /** A configuration holding the clone as its letter table answers every lookup by
      character exactly as the original does. */
  lemma CloneLooksUpAlike(c: Config, ch: Str)
    ensures GetLetterDefinitionForChar(c.(letters := CloneLetterDefinition(c)), ch) == GetLetterDefinitionForChar(c, ch)
  {
  }

  /** `clear()`: no glyph is left; textures are untouched. */
  function Clear(c: Config): (r: Config)
    ensures forall code :: GetLetter(r, code).None?
    ensures r.textures == c.textures && r.json == c.json
  {
    c.(letters := map[])
  }
}

=== FILE: font_tool.dfy ===
/** The font tool's two text transforms: the Hiero settings file written before the
    SDF atlas is generated, and the BMFont text-format `.fnt` file read back into the
    font JSON the engine loads. File contents are plain inputs and outputs here; the
    reads and writes around them are the caller's. */
module FontTool {
  import opened Wrappers
  import opened Js

  const Eq := 61
  const Quote := 34

  // ---------------------------------------------------------------------------------
  // writeHiero
  // ---------------------------------------------------------------------------------

  /** A configuration field as the panel stores it: a number, or the text of an input
      box. */
  datatype Val = Num(n: JsNum) | Text(s: Str)

  /** The fields `writeHiero` reads. `textPath` is a file name whose contents the
      caller supplies. */
  datatype HieroConfig = HieroConfig(
    textFrom: Val, textStr: Str, textPath: Str,
    exportName: Val, fontSize: Val, fontPath: Val, padding: Val,
    width: Val, height: Val, scale: Val)

  /** `${v}` in a template literal: text as it is, a number through `Number::toString`,
      which is given. */
  function Show(v: Val, show: JsNum -> Str): (r: Str)
  {
    match v
    case Text(s) => s
    case Num(n) => show(n)
  }

  /** The number a value stands for in arithmetic: text goes through `Number`. */
  function NumberOf(v: Val): (n: JsNum)
    ensures v.Num? ==> n == v.n
  {
    match v
    case Num(n) => n
    case Text(s) => ToNumber(s)
  }

  /** `-2 * v`. */
  function MinusTwice(v: Val): (n: JsNum)
    ensures NumberOf(v).Finite? <==> n.Finite?
    ensures n.Finite? ==> n.value == -2.0 * NumberOf(v).value
    ensures NumberOf(v).NaN? <==> n.NaN?
  {
    match NumberOf(v)
    case Finite(x) => Finite(-2.0 * x)
    case NaN => NaN
    case PosInf => NegInf
    case NegInf => PosInf
  }

  /** The glyph text: the configured string when `textFrom === 0`, the file's contents
      when `textFrom === 1` and a path is set (None: the read fails), and empty
      otherwise. The comparisons are strict, so the text "0" selects nothing. */
  function TextSource(c: HieroConfig, readFile: Str -> Option<Str>): (r: Option<Str>)
    ensures r.None? ==> c.textFrom == Num(Finite(1.0)) && |c.textPath| > 0
    ensures c.textFrom == Num(Finite(0.0)) ==> r == Some(c.textStr)
    ensures c.textFrom == Num(Finite(1.0)) && |c.textPath| > 0 ==> r == readFile(c.textPath)
    ensures c.textFrom == Num(Finite(1.0)) && |c.textPath| == 0 ==> r == Some([])
    ensures c.textFrom != Num(Finite(0.0)) && c.textFrom != Num(Finite(1.0)) ==> r == Some([])
  {
    if c.textFrom == Num(Finite(0.0)) then Some(c.textStr)
    else if c.textFrom == Num(Finite(1.0)) then (if |c.textPath| > 0 then readFile(c.textPath) else Some([]))
    else Some([])
  }

  /** `replace(/[\r\n]/g, "")`. */
  function StripBreaks(s: Str): (r: Str)
    ensures CR !in r && LF !in r
    ensures |r| <= |s|
  {
    if |s| == 0 then []
    else (if s[0] == CR || s[0] == LF then [] else [s[0]]) + StripBreaks(s[1..])
  }

  /** Stripping works unit by unit: it distributes over concatenation ... */
  lemma {:induction false} StripAppend(a: Str, b: Str)
    ensures StripBreaks(a + b) == StripBreaks(a) + StripBreaks(b)
  {
    if |a| > 0 {
      assert (a + b)[1..] == a[1..] + b;
      StripAppend(a[1..], b);
    } else {
      assert a + b == b;
    }
  }

  /** ... leaves text without line breaks alone, and so is idempotent. */
  lemma {:induction false} StripKeepsPlainText(s: Str)
    requires CR !in s && LF !in s
    ensures StripBreaks(s) == s
  {
    if |s| > 0 {
      StripKeepsPlainText(s[1..]);
      assert [s[0]] + s[1..] == s;
    }
  }

  // The setting names and fixed values of the Hiero file, as code units.
  const FontName: Str := [102, 111, 110, 116, 46, 110, 97, 109, 101]  // "font.name"
  const FontSize: Str := [102, 111, 110, 116, 46, 115, 105, 122, 101]  // "font.size"
  const FontBold: Str := [102, 111, 110, 116, 46, 98, 111, 108, 100]  // "font.bold"
  const FalseText: Str := [102, 97, 108, 115, 101]  // "false"
  const FontItalic: Str := [102, 111, 110, 116, 46, 105, 116, 97, 108, 105, 99]  // "font.italic"
  const FontGamma: Str := [102, 111, 110, 116, 46, 103, 97, 109, 109, 97]  // "font.gamma"
  const GammaText: Str := [49, 46, 56]  // "1.8"
  const FontMono: Str := [102, 111, 110, 116, 46, 109, 111, 110, 111]  // "font.mono"
  const Font2File: Str := [102, 111, 110, 116, 50, 46, 102, 105, 108, 101]  // "font2.file"
  const Font2Use: Str := [102, 111, 110, 116, 50, 46, 117, 115, 101]  // "font2.use"
  const TrueText: Str := [116, 114, 117, 101]  // "true"
  const PadTop: Str := [112, 97, 100, 46, 116, 111, 112]  // "pad.top"
  const PadRight: Str := [112, 97, 100, 46, 114, 105, 103, 104, 116]  // "pad.right"
  const PadBottom: Str := [112, 97, 100, 46, 98, 111, 116, 116, 111, 109]  // "pad.bottom"
  const PadLeft: Str := [112, 97, 100, 46, 108, 101, 102, 116]  // "pad.left"
  const PadAdvanceX: Str := [112, 97, 100, 46, 97, 100, 118, 97, 110, 99, 101, 46, 120]  // "pad.advance.x"
  const PadAdvanceY: Str := [112, 97, 100, 46, 97, 100, 118, 97, 110, 99, 101, 46, 121]  // "pad.advance.y"
  const GlyphText: Str := [103, 108, 121, 112, 104, 46, 116, 101, 120, 116]  // "glyph.text"
  const GlyphNativeRendering: Str := [103, 108, 121, 112, 104, 46, 110, 97, 116, 105, 118, 101, 46, 114, 101, 110, 100, 101, 114, 105, 110, 103]  // "glyph.native.rendering"
  const GlyphPageWidth: Str := [103, 108, 121, 112, 104, 46, 112, 97, 103, 101, 46, 119, 105, 100, 116, 104]  // "glyph.page.width"
  const GlyphPageHeight: Str := [103, 108, 121, 112, 104, 46, 112, 97, 103, 101, 46, 104, 101, 105, 103, 104, 116]  // "glyph.page.height"
  const RenderType: Str := [114, 101, 110, 100, 101, 114, 95, 116, 121, 112, 101]  // "render_type"
  const ZeroText: Str := [48]  // "0"
  const EffectSpread: Str := [101, 102, 102, 101, 99, 116, 46, 83, 112, 114, 101, 97, 100]  // "effect.Spread"
  const EffectClass: Str := [101, 102, 102, 101, 99, 116, 46, 99, 108, 97, 115, 115]  // "effect.class"
  const DistanceFieldClass: Str := [99, 111, 109, 46] + [98, 97, 100, 108, 111, 103, 105, 99, 46] + [103, 100, 120, 46] + [116, 111, 111, 108, 115, 46] + [104, 105, 101, 114, 111, 46] + [117, 110, 105, 99, 111, 100, 101, 102] + [111, 110, 116, 46] + [101, 102, 102, 101, 99, 116, 115, 46] + [68, 105, 115, 116, 97, 110, 99, 101] + [70, 105, 101, 108, 100, 69, 102, 102] + [101, 99, 116]  // "com.badlogic.gdx.tools.hiero.unicodefont.effects.DistanceFieldEffect"
  const EffectColor: Str := [101, 102, 102, 101, 99, 116, 46, 67, 111, 108, 111, 114]  // "effect.Color"
  const WhiteText: Str := [102, 102, 102, 102, 102, 102]  // "ffffff"
  const EffectScale: Str := [101, 102, 102, 101, 99, 116, 46, 83, 99, 97, 108, 101]  // "effect.Scale"

  /** A line of a settings file. */
  datatype Setting = Blank | Entry(key: Str, value: Str) | Junk(text: Str)

  function Line(s: Setting): (r: Str)
  {
    match s
    case Blank => []
    case Entry(k, v) => k + [Eq] + v
    case Junk(t) => t
  }

  /** Settings written one per line. */
  function Render(settings: seq<Setting>): (r: Str)
  {
    Join(Lines(settings), LF)
  }

  function Lines(settings: seq<Setting>): (r: seq<Str>)
    ensures |r| == |settings|
    ensures forall i :: 0 <= i < |r| ==> r[i] == Line(settings[i])
  {
    if |settings| == 0 then [] else [Line(settings[0])] + Lines(settings[1..])
  }

  /** How a settings file reads a line: empty, `key=value` at the first `=`, or
      neither. */
  function ReadLine(line: Str): (s: Setting)
    ensures s.Entry? ==> Eq !in s.key && line == s.key + [Eq] + s.value
  {
    if |line| == 0 then Blank
    else
      var i := IndexOf(line, Eq, 0);
      IndexOfIsFirst(line, Eq, 0);
      if i < 0 then Junk(line)
      else
        assert Eq !in line[..i] by {
          forall k | 0 <= k < i ensures line[..i][k] != Eq { assert line[k] != Eq; }
        }
        assert line == line[..i] + [Eq] + line[i + 1..];
        Entry(line[..i], line[i + 1..])
  }

  function ReadSettings(text: Str): (r: seq<Setting>)
  {
    ReadAll(Split(text, LF))
  }

  function ReadAll(lines: seq<Str>): (r: seq<Setting>)
    ensures |r| == |lines|
    ensures forall i :: 0 <= i < |r| ==> r[i] == ReadLine(lines[i])
  {
    if |lines| == 0 then [] else [ReadLine(lines[0])] + ReadAll(lines[1..])
  }

  /** A setting that reads back as itself from its own line. */
  predicate Writable(s: Setting)
  {
    match s
    case Blank => true
    case Entry(k, v) => Eq !in k && LF !in k && LF !in v
    case Junk(_) => false
  }

  lemma ReadLineOfLine(s: Setting)
    requires Writable(s)
    ensures ReadLine(Line(s)) == s
  {
    if s.Entry? {
      var line := Line(s);
      IndexAfterPrefix(s.key, Eq, s.value);
      assert line[..|s.key|] == s.key;
      assert line[|s.key| + 1..] == s.value;
    }
  }

  /** Writing settings without line breaks in them and reading the file gives the
      settings back. */
  lemma RenderRead(settings: seq<Setting>)
    requires |settings| >= 1
    requires forall i :: 0 <= i < |settings| ==> Writable(settings[i])
    ensures ReadSettings(Render(settings)) == settings
  {
    var lines := Lines(settings);
    assert forall i :: 0 <= i < |lines| ==> LF !in lines[i];
    SplitJoin(lines, LF);
    forall i | 0 <= i < |settings| ensures ReadLine(lines[i]) == settings[i] {
      ReadLineOfLine(settings[i]);
    }
  }

  /** The settings `writeHiero` writes, given the glyph text. The file starts and ends
      with a line break, so its first and last lines are blank; blank lines separate the
      font, padding, glyph, render and effect sections. */
  function HieroSettings(c: HieroConfig, text: Str, show: JsNum -> Str): (r: seq<Setting>)
  {
    [Blank] + FontPart(c, show) + [Blank] + PadPart(Show(c.padding, show), show(MinusTwice(c.padding))) + [Blank] + GlyphPart(c, text, show)
    + [Blank] + RenderPart() + [Blank] + EffectPart(c, show) + [Blank]
  }

  function FontPart(c: HieroConfig, show: JsNum -> Str): (r: seq<Setting>)
  {
    [ Entry(FontName, Show(c.exportName, show)),
      Entry(FontSize, Show(c.fontSize, show)),
      Entry(FontBold, FalseText),
      Entry(FontItalic, FalseText),
      Entry(FontGamma, GammaText),
      Entry(FontMono, FalseText),
      Blank,
      Entry(Font2File, Show(c.fontPath, show)),
      Entry(Font2Use, TrueText) ]
  }

  /** The padding section, given the padding and the advance as written. */
  function PadPart(pad: Str, advance: Str): (r: seq<Setting>)
  {
    [ Entry(PadTop, pad), Entry(PadRight, pad), Entry(PadBottom, pad), Entry(PadLeft, pad),
      Entry(PadAdvanceX, advance), Entry(PadAdvanceY, advance) ]
  }

  function GlyphPart(c: HieroConfig, text: Str, show: JsNum -> Str): (r: seq<Setting>)
  {
    [ Entry(GlyphNativeRendering, FalseText),
      Entry(GlyphPageWidth, Show(c.width, show)),
      Entry(GlyphPageHeight, Show(c.height, show)),
      Entry(GlyphText, StripBreaks(text)) ]
  }

  function RenderPart(): (r: seq<Setting>)
  {
    [ Entry(RenderType, ZeroText) ]
  }

  function EffectPart(c: HieroConfig, show: JsNum -> Str): (r: seq<Setting>)
  {
    [ Entry(EffectClass, DistanceFieldClass),
      Entry(EffectColor, WhiteText),
      Entry(EffectScale, Show(c.scale, show)),
      Entry(EffectSpread, Show(c.padding, show)) ]
  }

  /** `writeHiero`: the text written, or None when reading the text file fails (the
      error is logged and nothing is written). */
  function WriteHiero(c: HieroConfig, readFile: Str -> Option<Str>, show: JsNum -> Str): (r: Option<Str>)
    ensures r.None? <==> TextSource(c, readFile).None?
  {
    match TextSource(c, readFile)
    case None => None
    case Some(text) => Some(Render(HieroSettings(c, text, show)))
  }

  /** No configured value breaks a line: `Number::toString` never writes a line break,
      and no text field holds one. */
  ghost predicate SingleLine(c: HieroConfig, show: JsNum -> Str)
  {
    && (forall n :: LF !in show(n))
    && LF !in Show(c.exportName, show) && LF !in Show(c.fontSize, show) && LF !in Show(c.fontPath, show)
    && LF !in Show(c.padding, show) && LF !in Show(c.width, show) && LF !in Show(c.height, show)
    && LF !in Show(c.scale, show)
  }

  predicate AllWritable(settings: seq<Setting>)
  {
    forall i :: 0 <= i < |settings| ==> Writable(settings[i])
  }

  lemma FontKeysPlain()
    ensures Eq !in FontName && LF !in FontName && Eq !in FontSize && LF !in FontSize
    ensures Eq !in FontBold && LF !in FontBold && Eq !in FontItalic && LF !in FontItalic
    ensures Eq !in FontGamma && LF !in FontGamma && Eq !in FontMono && LF !in FontMono
    ensures Eq !in Font2File && LF !in Font2File && Eq !in Font2Use && LF !in Font2Use
    ensures LF !in FalseText && LF !in GammaText && LF !in TrueText
  {
  }

  lemma PadKeysPlain()
    ensures Eq !in PadTop && LF !in PadTop && Eq !in PadRight && LF !in PadRight
    ensures Eq !in PadBottom && LF !in PadBottom && Eq !in PadLeft && LF !in PadLeft
    ensures Eq !in PadAdvanceX && LF !in PadAdvanceX && Eq !in PadAdvanceY && LF !in PadAdvanceY
  {
  }

  lemma GlyphKeysPlain()
    ensures Eq !in GlyphNativeRendering && LF !in GlyphNativeRendering
    ensures Eq !in GlyphPageWidth && LF !in GlyphPageWidth && Eq !in GlyphPageHeight && LF !in GlyphPageHeight
    ensures Eq !in GlyphText && LF !in GlyphText && Eq !in RenderType && LF !in RenderType && LF !in ZeroText
  {
  }

  lemma EffectKeysPlain()
    ensures Eq !in EffectClass && LF !in EffectClass && Eq !in EffectColor && LF !in EffectColor
    ensures Eq !in EffectScale && LF !in EffectScale && Eq !in EffectSpread && LF !in EffectSpread
    ensures LF !in WhiteText
  {
  }

  lemma ClassNamePlain()
    ensures LF !in DistanceFieldClass
  {
  }

  lemma WritableJoin(a: seq<Setting>, b: seq<Setting>)
    requires AllWritable(a) && AllWritable(b)
    ensures AllWritable(a + b)
  {
  }

  lemma FontPartWritable(c: HieroConfig, show: JsNum -> Str)
    requires SingleLine(c, show)
    ensures AllWritable(FontPart(c, show))
  {
    FontKeysPlain();
  }

  lemma PadPartWritable(pad: Str, advance: Str)
    requires LF !in pad && LF !in advance
    ensures AllWritable(PadPart(pad, advance))
  {
    PadKeysPlain();
  }

  lemma GlyphPartWritable(c: HieroConfig, text: Str, show: JsNum -> Str)
    requires SingleLine(c, show)
    ensures AllWritable(GlyphPart(c, text, show)) && AllWritable(RenderPart())
  {
    GlyphKeysPlain();
  }

  lemma EffectPartWritable(c: HieroConfig, show: JsNum -> Str)
    requires SingleLine(c, show)
    ensures AllWritable(EffectPart(c, show))
  {
    EffectKeysPlain();
    ClassNamePlain();
  }

  lemma HieroWritable(c: HieroConfig, text: Str, show: JsNum -> Str)
    requires SingleLine(c, show)
    ensures AllWritable(HieroSettings(c, text, show))
  {
    FontPartWritable(c, show);
    PadPartWritable(Show(c.padding, show), show(MinusTwice(c.padding)));
    GlyphPartWritable(c, text, show);
    EffectPartWritable(c, show);
    var f, p, g, r, e := FontPart(c, show), PadPart(Show(c.padding, show), show(MinusTwice(c.padding))), GlyphPart(c, text, show), RenderPart(), EffectPart(c, show);
    var b: seq<Setting> := [Blank];
    assert AllWritable(b);
    WritableJoin(b, f);
    WritableJoin(b + f, b);
    WritableJoin(b + f + b, p);
    WritableJoin(b + f + b + p, b);
    WritableJoin(b + f + b + p + b, g);
    WritableJoin(b + f + b + p + b + g, b);
    WritableJoin(b + f + b + p + b + g + b, r);
    WritableJoin(b + f + b + p + b + g + b + r, b);
    WritableJoin(b + f + b + p + b + g + b + r + b, e);
    WritableJoin(b + f + b + p + b + g + b + r + b + e, b);
  }

  /** The file holds the setting `key=value` on some line. */
  predicate Sets(settings: seq<Setting>, key: Str, value: Str)
  {
    exists i :: 0 <= i < |settings| && settings[i] == Entry(key, value)
  }

  /** A setting in either half is a setting of the whole. */
  lemma SetsJoin(a: seq<Setting>, b: seq<Setting>, key: Str, value: Str)
    requires Sets(a, key, value) || Sets(b, key, value)
    ensures Sets(a + b, key, value)
  {
    if Sets(a, key, value) {
      var i :| 0 <= i < |a| && a[i] == Entry(key, value);
      assert (a + b)[i] == a[i];
    } else {
      var i :| 0 <= i < |b| && b[i] == Entry(key, value);
      assert (a + b)[|a| + i] == b[i];
    }
  }

  /** The file `writeHiero` writes reads back as the settings it was built from. */
  lemma HieroReadsBack(c: HieroConfig, readFile: Str -> Option<Str>, show: JsNum -> Str)
    requires SingleLine(c, show) && TextSource(c, readFile).Some?
    ensures ReadSettings(WriteHiero(c, readFile, show).value)
      == HieroSettings(c, TextSource(c, readFile).value, show)
  {
    var text := TextSource(c, readFile).value;
    HieroWritable(c, text, show);
    RenderRead(HieroSettings(c, text, show));
  }

  /** A setting of the padding, glyph or effect section is a setting of the file. */
  lemma SectionSets(c: HieroConfig, text: Str, show: JsNum -> Str, key: Str, value: Str)
    requires Sets(PadPart(Show(c.padding, show), show(MinusTwice(c.padding))), key, value) || Sets(GlyphPart(c, text, show), key, value)
      || Sets(EffectPart(c, show), key, value)
    ensures Sets(HieroSettings(c, text, show), key, value)
  {
    var b: seq<Setting> := [Blank];
    var f, p, g, r, e := FontPart(c, show), PadPart(Show(c.padding, show), show(MinusTwice(c.padding))), GlyphPart(c, text, show), RenderPart(), EffectPart(c, show);
    if Sets(p, key, value) || Sets(g, key, value) {
      if Sets(p, key, value) {
        SetsJoin(b + f + b, p, key, value);
        SetsJoin(b + f + b + p, b, key, value);
      }
      SetsJoin(b + f + b + p + b, g, key, value);
      SetsJoin(b + f + b + p + b + g, b, key, value);
      SetsJoin(b + f + b + p + b + g + b, r, key, value);
      SetsJoin(b + f + b + p + b + g + b + r, b, key, value);
    }
    SetsJoin(b + f + b + p + b + g + b + r + b, e, key, value);
    SetsJoin(b + f + b + p + b + g + b + r + b + e, b, key, value);
  }

  /** The padding section sets the four paddings and both advances ... */
  lemma PadPartSets(pad: Str, advance: Str)
    ensures var p := PadPart(pad, advance);
      && Sets(p, PadTop, pad) && Sets(p, PadRight, pad) && Sets(p, PadBottom, pad) && Sets(p, PadLeft, pad)
      && Sets(p, PadAdvanceX, advance) && Sets(p, PadAdvanceY, advance)
  {
    var p := PadPart(pad, advance);
    assert p[0].key == PadTop && p[1].key == PadRight && p[2].key == PadBottom;
    assert p[3].key == PadLeft && p[4].key == PadAdvanceX && p[5].key == PadAdvanceY;
  }

  /** ... the glyph section the glyph text, and the effect section the spread. */
  lemma GlyphEffectSets(c: HieroConfig, text: Str, show: JsNum -> Str)
    ensures Sets(GlyphPart(c, text, show), GlyphText, StripBreaks(text))
    ensures Sets(EffectPart(c, show), EffectSpread, Show(c.padding, show))
  {
    assert GlyphPart(c, text, show)[3] == Entry(GlyphText, StripBreaks(text));
    assert EffectPart(c, show)[3] == Entry(EffectSpread, Show(c.padding, show));
  }

  /** Read back, the written file pads the glyphs by the configured padding on all four
      sides and spreads the distance field as far, advances by minus twice the padding,
      and holds the glyph text without its line breaks, taken from where `textFrom`
      says. */
  lemma HieroFileSettings(c: HieroConfig, readFile: Str -> Option<Str>, show: JsNum -> Str)
    requires SingleLine(c, show) && TextSource(c, readFile).Some?
    ensures var settings := ReadSettings(WriteHiero(c, readFile, show).value);
      var pad := Show(c.padding, show);
      && Sets(settings, PadTop, pad) && Sets(settings, PadRight, pad)
      && Sets(settings, PadBottom, pad) && Sets(settings, PadLeft, pad)
      && Sets(settings, EffectSpread, pad)
      && Sets(settings, PadAdvanceX, show(MinusTwice(c.padding)))
      && Sets(settings, PadAdvanceY, show(MinusTwice(c.padding)))
      && Sets(settings, GlyphText, StripBreaks(TextSource(c, readFile).value))
  {
    var text := TextSource(c, readFile).value;
    var pad, advance := Show(c.padding, show), show(MinusTwice(c.padding));
    HieroReadsBack(c, readFile, show);
    PadPartSets(pad, advance);
    GlyphEffectSets(c, text, show);
    SectionSets(c, text, show, PadTop, pad);
    SectionSets(c, text, show, PadRight, pad);
    SectionSets(c, text, show, PadBottom, pad);
    SectionSets(c, text, show, PadLeft, pad);
    SectionSets(c, text, show, PadAdvanceX, advance);
    SectionSets(c, text, show, PadAdvanceY, advance);
    SectionSets(c, text, show, GlyphText, StripBreaks(text));
    SectionSets(c, text, show, EffectSpread, pad);
  }

  // ---------------------------------------------------------------------------------
  // parse
  // ---------------------------------------------------------------------------------

  predicate IsBreak(c: int) { c == CR || c == LF }

  /** The first line break at or after `i`, or the end of the text. */
  function NextBreak(s: Str, i: nat): (k: nat)
    requires i <= |s|
    decreases |s| - i
    ensures i <= k <= |s|
    ensures forall j :: i <= j < k ==> !IsBreak(s[j])
    ensures k < |s| ==> IsBreak(s[k])
  {
    if i == |s| || IsBreak(s[i]) then i else NextBreak(s, i + 1)
  }

  /** `data.split(/\r\n|\n|\r/)`: at a break the two-unit CR LF is tried first. */
  function SplitLines(s: Str): (r: seq<Str>)
    decreases |s|
    ensures |r| >= 1
    ensures forall i :: 0 <= i < |r| ==> CR !in r[i] && LF !in r[i]
  {
    var k := NextBreak(s, 0);
    if k == |s| then [s]
    else
      var w := if s[k] == CR && k + 1 < |s| && s[k + 1] == LF then 2 else 1;
      assert forall j :: 0 <= j < k ==> s[..k][j] == s[j];
      [s[..k]] + SplitLines(s[k + w..])
  }

  /** The first break of `a + t` is right after `a` when `a` has none and `t` starts
      with one. */
  lemma NextBreakAfter(a: Str, t: Str)
    requires CR !in a && LF !in a && |t| > 0 && IsBreak(t[0])
    ensures NextBreak(a + t, 0) == |a|
  {
    var s := a + t;
    assert s[|a|] == t[0];
  }

  /** A line ended by CR LF, by LF, or by a CR not followed by LF splits off alike. */
  lemma LineEndingsAgree(a: Str, b: Str)
    requires CR !in a && LF !in a
    ensures SplitLines(a + [CR, LF] + b) == [a] + SplitLines(b)
    ensures SplitLines(a + [LF] + b) == [a] + SplitLines(b)
    ensures |b| == 0 || b[0] != LF ==> SplitLines(a + [CR] + b) == [a] + SplitLines(b)
  {
    NextBreakAfter(a, [CR, LF] + b);
    assert a + [CR, LF] + b == a + ([CR, LF] + b);
    assert (a + [CR, LF] + b)[..|a|] == a && (a + [CR, LF] + b)[|a| + 2..] == b;
    NextBreakAfter(a, [LF] + b);
    assert a + [LF] + b == a + ([LF] + b);
    assert (a + [LF] + b)[..|a|] == a && (a + [LF] + b)[|a| + 1..] == b;
    NextBreakAfter(a, [CR] + b);
    assert a + [CR] + b == a + ([CR] + b);
    assert (a + [CR] + b)[..|a|] == a && (a + [CR] + b)[|a| + 1..] == b;
  }

  /** Text without a break is one line. */
  lemma OneLine(s: Str)
    requires CR !in s && LF !in s
    ensures SplitLines(s) == [s]
  {
  }

  /** Lines without breaks, joined with LF, split back into the same lines. */
  lemma {:induction false} SplitLinesJoin(lines: seq<Str>)
    requires |lines| >= 1
    requires forall i :: 0 <= i < |lines| ==> CR !in lines[i] && LF !in lines[i]
    ensures SplitLines(Join(lines, LF)) == lines
  {
    if |lines| == 1 {
      OneLine(lines[0]);
    } else {
      assert Join(lines, LF) == lines[0] + [LF] + Join(lines[1..], LF);
      LineEndingsAgree(lines[0], Join(lines[1..], LF));
      SplitLinesJoin(lines[1..]);
      assert [lines[0]] + lines[1..] == lines;
    }
  }

  /** How the lazy run `([\S]+?)` of a field pattern ends: before white space
      (`(?=[\s])`), before a quote (`(?=")`), or, with no lookahead, after one unit. */
  datatype Stop = AtSpace | AtQuote | OneUnit

  /** `n` units from `p` are a run the pattern accepts, laziness aside. */
  predicate RunFits(s: Str, p: nat, n: nat, stop: Stop)
  {
    && 1 <= n && p + n <= |s|
    && (forall k :: p <= k < p + n ==> !IsJsSpace(s[k]))
    && match stop
       case AtSpace => p + n < |s| && IsJsSpace(s[p + n])
       case AtQuote => p + n < |s| && s[p + n] == Quote
       case OneUnit => true
  }

  /** Where the white space after `p` starts, or the end of the text. */
  function NonSpaceEnd(s: Str, p: nat): (e: nat)
    requires p <= |s|
    decreases |s| - p
    ensures p <= e <= |s|
    ensures forall k :: p <= k < e ==> !IsJsSpace(s[k])
    ensures e < |s| ==> IsJsSpace(s[e])
  {
    if p == |s| || IsJsSpace(s[p]) then p else NonSpaceEnd(s, p + 1)
  }

  /** The shortest run from `p` that ends before a quote, trying the ends from `e` on. */
  function QuoteEnd(s: Str, p: nat, e: nat): (r: Option<nat>)
    requires p < e <= |s| + 1
    requires forall k :: p <= k < e - 1 ==> !IsJsSpace(s[k])
    decreases |s| - e
    ensures r.Some? ==> RunFits(s, p, r.value, AtQuote) && e - p <= r.value
    ensures r.Some? ==> forall n :: e - p <= n < r.value ==> !RunFits(s, p, n, AtQuote)
    ensures r.None? ==> forall n :: e - p <= n ==> !RunFits(s, p, n, AtQuote)
  {
    if e >= |s| then None
    else if IsJsSpace(s[e - 1]) then None
    else if s[e] == Quote then Some(e - p)
    else QuoteEnd(s, p, e + 1)
  }

  /** The length of the run the pattern takes at `p`: the shortest that fits, or None
      when none does. */
  function RunAt(s: Str, p: nat, stop: Stop): (r: Option<nat>)
    requires p <= |s|
    ensures r.Some? ==> RunFits(s, p, r.value, stop)
    ensures r.Some? ==> forall n: nat :: n < r.value ==> !RunFits(s, p, n, stop)
    ensures r.None? ==> forall n :: !RunFits(s, p, n, stop)
  {
    match stop
    case AtSpace =>
      var e := NonSpaceEnd(s, p);
      if p < e < |s| then Some(e - p) else None
    case AtQuote => QuoteEnd(s, p, p + 1)
    case OneUnit =>
      assert forall n :: RunFits(s, p, n, OneUnit) ==> !IsJsSpace(s[p]);
      if p < |s| && !IsJsSpace(s[p]) then Some(1) else None
  }

  /** The lookbehind `(?<=key)` holds at `p` and a run fits there. */
  predicate MatchAt(s: Str, key: Str, stop: Stop, p: nat)
  {
    |key| <= p <= |s| && s[p - |key|..p] == key && RunAt(s, p, stop).Some?
  }

  /** `match` tries the start positions from `from` left to right. */
  function MatchFrom(s: Str, key: Str, stop: Stop, from: nat): (r: Option<nat>)
    decreases |s| + 1 - from
    ensures r.Some? ==> from <= r.value && MatchAt(s, key, stop, r.value)
    ensures r.Some? ==> forall q :: from <= q < r.value ==> !MatchAt(s, key, stop, q)
    ensures r.None? ==> forall q :: from <= q ==> !MatchAt(s, key, stop, q)
  {
    if from > |s| then None
    else if MatchAt(s, key, stop, from) then Some(from)
    else MatchFrom(s, key, stop, from + 1)
  }

  /** `line.match(/(?<=key)([\S]+?).../)[0]`: the run at the leftmost match; None when
      there is none, where indexing the `null` result throws. */
  function Field(line: Str, key: Str, stop: Stop): (r: Option<Str>)
    ensures r.Some? ==> |r.value| >= 1 && forall k :: 0 <= k < |r.value| ==> !IsJsSpace(r.value[k])
  {
    match MatchFrom(line, key, stop, 0)
    case None => None
    case Some(p) =>
      var n := RunAt(line, p, stop).value;
      var v := line[p..p + n];
      forall k | 0 <= k < |v| ensures !IsJsSpace(v[k]) {
        assert v[k] == line[p + k];
      }
      Some(v)
  }

  /** A slice inside a known prefix of `line` is the same slice of that prefix. */
  lemma SliceInPrefix(line: Str, u: Str, i: nat, j: nat)
    requires i <= j <= |u| <= |line| && line[..|u|] == u
    ensures line[i..j] == u[i..j]
  {
    forall k | 0 <= k < j - i ensures line[i..j][k] == u[i..j][k] {
      assert line[i + k] == line[..|u|][i + k];
    }
  }

  /** With `key` nowhere earlier in the line, the first match is where it ends. */
  lemma FirstMatch(line: Str, pre: Str, key: Str, stop: Stop)
    requires |pre| + |key| <= |line| && line[..|pre| + |key|] == pre + key
    requires forall k :: 0 <= k < |pre| ==> !OccursAt(pre + key, key, k)
    requires RunAt(line, |pre| + |key|, stop).Some?
    ensures MatchFrom(line, key, stop, 0) == Some(|pre| + |key|)
  {
    var p := |pre| + |key|;
    assert line[p - |key|..p] == (pre + key)[|pre|..];
    assert MatchAt(line, key, stop, p);
    forall q | 0 <= q < p ensures !MatchAt(line, key, stop, q) {
      if |key| <= q {
        assert !OccursAt(pre + key, key, q - |key|);
        SliceInPrefix(line, pre + key, q - |key|, q);
      }
    }
  }

  /** A field written `key` + value + white space, with `key` nowhere earlier in the
      line, reads back as the value ... */
  lemma FieldBeforeSpace(pre: Str, key: Str, v: Str, rest: Str)
    requires |v| >= 1 && forall k :: 0 <= k < |v| ==> !IsJsSpace(v[k])
    requires |rest| >= 1 && IsJsSpace(rest[0])
    requires forall k :: 0 <= k < |pre| ==> !OccursAt(pre + key, key, k)
    ensures Field(pre + key + v + rest, key, AtSpace) == Some(v)
  {
    var line := pre + key + v + rest;
    var p := |pre| + |key|;
    assert line[..p] == pre + key && line[p..p + |v|] == v && line[p + |v|] == rest[0];
    assert RunFits(line, p, |v|, AtSpace);
    FirstMatch(line, pre, key, AtSpace);
  }

  /** ... so does one ended by a quote, as the page file name is ... */
  lemma FieldBeforeQuote(pre: Str, key: Str, v: Str, rest: Str)
    requires |v| >= 1 && forall k :: 0 <= k < |v| ==> !IsJsSpace(v[k]) && v[k] != Quote
    requires forall k :: 0 <= k < |pre| ==> !OccursAt(pre + key, key, k)
    ensures Field(pre + key + v + [Quote] + rest, key, AtQuote) == Some(v)
  {
    var line := pre + key + v + [Quote] + rest;
    var p := |pre| + |key|;
    assert line[..p] == pre + key && line[p..p + |v|] == v && line[p + |v|] == Quote;
    assert RunFits(line, p, |v|, AtQuote);
    FirstMatch(line, pre, key, AtQuote);
  }

  /** ... while a pattern without lookahead, as the channel's is, keeps one unit ... */
  lemma FieldOneUnit(pre: Str, key: Str, c: int, rest: Str)
    requires !IsJsSpace(c)
    requires forall k :: 0 <= k < |pre| ==> !OccursAt(pre + key, key, k)
    ensures Field(pre + key + [c] + rest, key, OneUnit) == Some([c])
  {
    var line := pre + key + [c] + rest;
    var p := |pre| + |key|;
    assert line[..p] == pre + key && line[p] == c;
    assert RunFits(line, p, 1, OneUnit);
    FirstMatch(line, pre, key, OneUnit);
    assert line[p..p + 1] == [c];
  }

  /** ... and a value that ends the line, with no white space after it, is not found. */
  lemma FieldAtLineEnd(pre: Str, key: Str, v: Str)
    requires forall k :: 0 <= k < |v| ==> !IsJsSpace(v[k])
    requires forall k :: 0 <= k < |pre| ==> !OccursAt(pre + key, key, k)
    ensures Field(pre + key + v, key, AtSpace) == None
  {
    var line := pre + key + v;
    var p := |pre| + |key|;
    forall q | 0 <= q ensures !MatchAt(line, key, AtSpace, q) {
      if |key| <= q < p {
        assert !OccursAt(pre + key, key, q - |key|);
        SliceInPrefix(line, pre + key, q - |key|, q);
      }
    }
  }

  // The field names of the BMFont text format, as code units.
  const SizeKey: Str := [115, 105, 122, 101, 61]  // "size="
  const BoldKey: Str := [98, 111, 108, 100, 61]  // "bold="
  const ItalicKey: Str := [105, 116, 97, 108, 105, 99, 61]  // "italic="
  const PaddingKey: Str := [112, 97, 100, 100, 105, 110, 103, 61]  // "padding="
  const LineHeightKey: Str := [108, 105, 110, 101, 72, 101, 105, 103, 104, 116, 61]  // "lineHeight="
  const BaseKey: Str := [98, 97, 115, 101, 61]  // "base="
  const ScaleWKey: Str := [115, 99, 97, 108, 101, 87, 61]  // "scaleW="
  const ScaleHKey: Str := [115, 99, 97, 108, 101, 72, 61]  // "scaleH="
  const PagesKey: Str := [112, 97, 103, 101, 115, 61]  // "pages="
  const IdKey: Str := [105, 100, 61]  // "id="
  const FileKey: Str := [102, 105, 108, 101, 61, 34]  // 'file="'
  const XKey: Str := [120, 61]  // "x="
  const YKey: Str := [121, 61]  // "y="
  const WidthKey: Str := [119, 105, 100, 116, 104, 61]  // "width="
  const HeightKey: Str := [104, 101, 105, 103, 104, 116, 61]  // "height="
  const XOffsetKey: Str := [120, 111, 102, 102, 115, 101, 116, 61]  // "xoffset="
  const YOffsetKey: Str := [121, 111, 102, 102, 115, 101, 116, 61]  // "yoffset="
  const XAdvanceKey: Str := [120, 97, 100, 118, 97, 110, 99, 101, 61]  // "xadvance="
  const PageKey: Str := [112, 97, 103, 101, 61]  // "page="
  const ChnlKey: Str := [99, 104, 110, 108, 61]  // "chnl="
  const CharWord: Str := [99, 104, 97, 114]  // "char"
  const FntExt: Str := [46, 102, 110, 116]  // ".fnt"
  const JsonExt: Str := [46, 106, 115, 111, 110]  // ".json"

  /** `Number(line.match(...)[0])` for a field ended by white space. */
  function NumField(line: Str, key: Str): (r: Option<JsNum>)
    ensures r.Some? <==> Field(line, key, AtSpace).Some?
  {
    match Field(line, key, AtSpace)
    case None => None
    case Some(v) => Some(ToNumber(v))
  }

  /** The `info` line's fields; the padding stays text. */
  datatype Info = Info(size: JsNum, bold: JsNum, italic: JsNum, padding: Str)

  /** The `common` line's fields. */
  datatype Common = Common(lineHeight: JsNum, base: JsNum, scaleW: JsNum, scaleH: JsNum, pages: JsNum)

  /** A `page` line: the page's id and image file. */
  datatype Page = Page(id: JsNum, file: Str)

  /** A `char` line. */
  datatype Glyph = Glyph(
    id: JsNum, x: JsNum, y: JsNum, width: JsNum, height: JsNum,
    xoffset: JsNum, yoffset: JsNum, xadvance: JsNum, page: JsNum, chnl: JsNum)

  /** The object `parse` writes as JSON. */
  datatype FontJson = FontJson(
    info: Info, spacing: Str, outline: int,
    common: Common, packed: int, alphaChnl: int, redChnl: int, greenChnl: int, blueChnl: int,
    pageData: seq<Page>, charData: seq<Glyph>)

  /** What `parse` does: writes the JSON next to the font, fails (an exception is
      logged and nothing is written), or never returns. */
  datatype Parsed = Written(path: Str, json: FontJson) | Failed | Hangs

  function ReadInfo(line: Str): (r: Option<Info>)
    ensures r.Some? <==> (Field(line, SizeKey, AtSpace).Some? && Field(line, BoldKey, AtSpace).Some?
      && Field(line, ItalicKey, AtSpace).Some? && Field(line, PaddingKey, AtSpace).Some?)
  {
    var size, bold, italic := NumField(line, SizeKey), NumField(line, BoldKey), NumField(line, ItalicKey);
    var padding := Field(line, PaddingKey, AtSpace);
    if size.Some? && bold.Some? && italic.Some? && padding.Some?
    then Some(Info(size.value, bold.value, italic.value, padding.value))
    else None
  }

  function ReadCommon(line: Str): (r: Option<Common>)
    ensures r.Some? <==> (Field(line, LineHeightKey, AtSpace).Some? && Field(line, BaseKey, AtSpace).Some?
      && Field(line, ScaleWKey, AtSpace).Some? && Field(line, ScaleHKey, AtSpace).Some?
      && Field(line, PagesKey, AtSpace).Some?)
  {
    var lineHeight, base := NumField(line, LineHeightKey), NumField(line, BaseKey);
    var scaleW, scaleH, pages := NumField(line, ScaleWKey), NumField(line, ScaleHKey), NumField(line, PagesKey);
    if lineHeight.Some? && base.Some? && scaleW.Some? && scaleH.Some? && pages.Some?
    then Some(Common(lineHeight.value, base.value, scaleW.value, scaleH.value, pages.value))
    else None
  }

  function ReadPage(line: Str): (r: Option<Page>)
    ensures r.Some? <==> Field(line, IdKey, AtSpace).Some? && Field(line, FileKey, AtQuote).Some?
  {
    var id, file := NumField(line, IdKey), Field(line, FileKey, AtQuote);
    if id.Some? && file.Some? then Some(Page(id.value, file.value)) else None
  }

  /** A `char` line; the channel is read by a pattern without lookahead, so it keeps
      one unit. */
  function ReadGlyph(line: Str): (r: Option<Glyph>)
    ensures r.Some? ==> (Field(line, ChnlKey, OneUnit).Some?
      && r.value.chnl == ToNumber(Field(line, ChnlKey, OneUnit).value))
  {
    var id, x, y := NumField(line, IdKey), NumField(line, XKey), NumField(line, YKey);
    var width, height := NumField(line, WidthKey), NumField(line, HeightKey);
    var xoffset, yoffset, xadvance := NumField(line, XOffsetKey), NumField(line, YOffsetKey), NumField(line, XAdvanceKey);
    var page, chnl := NumField(line, PageKey), Field(line, ChnlKey, OneUnit);
    if id.Some? && x.Some? && y.Some? && width.Some? && height.Some? && xoffset.Some? && yoffset.Some?
      && xadvance.Some? && page.Some? && chnl.Some?
    then Some(Glyph(id.value, x.value, y.value, width.value, height.value,
                    xoffset.value, yoffset.value, xadvance.value, page.value, ToNumber(chnl.value)))
    else None
  }

  /** The `n` page lines from line `i`, each read with `read` (`ReadPage`); a missing
      line or a field not found throws. */
  function ReadPages(lines: seq<Str>, i: nat, n: nat, read: Str -> Option<Page>): (r: Option<seq<Page>>)
    decreases n
    ensures r.Some? <==> ((n == 0 || i + n <= |lines|)
      && forall k :: i <= k < i + n && k < |lines| ==> read(lines[k]).Some?)
    ensures r.Some? ==> (|r.value| == n
      && forall k :: 0 <= k < n ==> i + k < |lines| && read(lines[i + k]) == Some(r.value[k]))
  {
    if n == 0 then Some([])
    else if i >= |lines| then None
    else
      var p, ps := read(lines[i]), ReadPages(lines, i + 1, n - 1, read);
      if p.Some? && ps.Some? then Some([p.value] + ps.value) else None
  }

  /** `/char/.test(line)`. */
  predicate HasCharWord(line: Str)
  {
    IndexOfSub(line, CharWord, 0) >= 0
  }

  /** The lines the glyph loop reads, in order. */
  function CharLines(lines: seq<Str>): (r: seq<Str>)
    ensures |r| <= |lines|
    ensures forall k :: 0 <= k < |r| ==> HasCharWord(r[k])
  {
    if |lines| == 0 then []
    else (if HasCharWord(lines[0]) then [lines[0]] else []) + CharLines(lines[1..])
  }

  /** The glyph loop from index `i`, reading each line with `read` (`ReadGlyph`): a
      negative index reads `undefined`, which holds no "char"; lines without "char" are
      skipped. */
  function ReadGlyphs(lines: seq<Str>, i: int, read: Str -> Option<Glyph>): (r: Option<seq<Glyph>>)
    decreases |lines| - i
  {
    if i >= |lines| then Some([])
    else if i < 0 || !HasCharWord(lines[i]) then ReadGlyphs(lines, i + 1, read)
    else
      var g, gs := read(lines[i]), ReadGlyphs(lines, i + 1, read);
      if g.Some? && gs.Some? then Some([g.value] + gs.value) else None
  }

  /** The glyph loop reads exactly the lines holding "char" from index `i` on, in
      order, and fails when one of them lacks a field. */
  lemma {:induction false} GlyphsReadCharLines(lines: seq<Str>, i: int, read: Str -> Option<Glyph>)
    decreases |lines| - i
    ensures var cl := CharLines(lines[Clamp(i, |lines|)..]);
      ReadGlyphs(lines, i, read).Some? <==> forall k :: 0 <= k < |cl| ==> read(cl[k]).Some?
    ensures var cl := CharLines(lines[Clamp(i, |lines|)..]); var r := ReadGlyphs(lines, i, read);
      r.Some? ==> |r.value| == |cl| && forall k :: 0 <= k < |cl| ==> read(cl[k]) == Some(r.value[k])
  {
    if i < |lines| {
      GlyphsReadCharLines(lines, i + 1, read);
      if 0 <= i {
        CharLinesStep(lines, i);
        if HasCharWord(lines[i]) {
          ReadsCons(lines[i], CharLines(lines[i + 1..]), ReadGlyphs(lines, i + 1, read), read);
        } else {
          assert CharLines(lines[i..]) == CharLines(lines[i + 1..]);
        }
      } else {
        assert Clamp(i, |lines|) == Clamp(i + 1, |lines|) == 0;
      }
    }
  }

  /** One more line read in front of the rest. */
  lemma ReadsCons(x: Str, cl: seq<Str>, rest: Option<seq<Glyph>>, read: Str -> Option<Glyph>)
    requires rest.Some? <==> forall k :: 0 <= k < |cl| ==> read(cl[k]).Some?
    requires rest.Some? ==> |rest.value| == |cl| && forall k :: 0 <= k < |cl| ==> read(cl[k]) == Some(rest.value[k])
    ensures var all := [x] + cl; var r := if read(x).Some? && rest.Some? then Some([read(x).value] + rest.value) else None;
      && (r.Some? <==> forall k :: 0 <= k < |all| ==> read(all[k]).Some?)
      && (r.Some? ==> |r.value| == |all| && forall k :: 0 <= k < |all| ==> read(all[k]) == Some(r.value[k]))
  {
    var all := [x] + cl;
    if forall k :: 0 <= k < |all| ==> read(all[k]).Some? {
      assert read(all[0]).Some?;
      forall k | 0 <= k < |cl| ensures read(cl[k]).Some? {
        assert all[k + 1] == cl[k];
      }
    }
  }

  lemma CharLinesStep(lines: seq<Str>, i: nat)
    requires i < |lines|
    ensures CharLines(lines[i..]) == (if HasCharWord(lines[i]) then [lines[i]] else []) + CharLines(lines[i + 1..])
  {
    assert lines[i..][1..] == lines[i + 1..];
  }

  /** The page loop `for (i = 2; i < 2 + pages; i++)` runs once per whole number below
      `pages`. */
  function PageCount(v: real): (n: nat)
    ensures v <= n as real
    ensures n > 0 ==> ((n - 1) as real) < v
  {
    if v <= 0.0 then 0
    else if v.Floor as real == v then v.Floor
    else v.Floor + 1
  }

  predicate IsWhole(v: real) { v.Floor as real == v }

  /** `fontPath.replace(".fnt", ".json")`: the first ".fnt" anywhere in the path. */
  function JsonPath(fontPath: Str): (r: Str)
    ensures IndexOfSub(fontPath, FntExt, 0) < 0 ==> r == fontPath
  {
    ReplaceFirst(fontPath, FntExt, JsonExt)
  }

  /** A font file `stem.fnt` whose stem holds no ".fnt" gets the JSON file `stem.json`. */
  lemma JsonBesideFont(stem: Str)
    requires IndexOfSub(stem, FntExt, 0) < 0
    ensures JsonPath(stem + FntExt) == stem + JsonExt
  {
    var s := stem + FntExt;
    assert OccursAt(s, FntExt, |stem|) by { assert s[|stem|..] == FntExt; }
    var k := IndexOfSub(s, FntExt, 0);
    if k < |stem| {
      if k + 4 <= |stem| {
        assert s[k..k + 4] == stem[k..k + 4];
        assert OccursAt(stem, FntExt, k);
      } else {
        NoStraddle(stem, k);
      }
    }
    assert s[..|stem|] == stem && s[|stem| + 4..] == [];
  }

  /** ".fnt" cannot begin inside the stem and run into the appended ".fnt": no unit
      after its first is a dot. */
  lemma NoStraddle(stem: Str, k: int)
    requires |stem| - 4 < k < |stem|
    ensures !OccursAt(stem + FntExt, FntExt, k)
  {
    var s := stem + FntExt;
    assert s[|stem|] == 46;
  }

  function Font(info: Info, common: Common, pages: seq<Page>, glyphs: seq<Glyph>): (r: FontJson)
  {
    FontJson(info, [], 0, common, 0, 0, 0, 0, 0, pages, glyphs)
  }

  /** `parse`, given the file's contents: line 0 is `info`, line 1 `common`, then the
      page lines, then every later line holding "char". */
  function ParseFnt(data: Str, fontPath: Str): (r: Parsed)
    ensures var lines := SplitLines(data);
      var header := ReadInfo(lines[0]).Some? && |lines| > 1 && ReadCommon(lines[1]).Some?;
      && (!header ==> r.Failed?)
      && (header && ReadCommon(lines[1]).value.pages.PosInf? ==> r.Failed?)
      && (r.Hangs? <==> header && ReadCommon(lines[1]).value.pages.NegInf?)
      && (r.Written? ==> (r.path == JsonPath(fontPath) && r.json.info == ReadInfo(lines[0]).value
            && r.json.common == ReadCommon(lines[1]).value))
  {
    var lines := SplitLines(data);
    FromHeader(lines, fontPath, ReadInfo(lines[0]), if |lines| > 1 then ReadCommon(lines[1]) else None)
  }

  /** The rest of `parse` once the `info` and `common` lines are read (None: a field
      was not found, or there is no `common` line). */
  function FromHeader(lines: seq<Str>, fontPath: Str, info: Option<Info>, common: Option<Common>): (r: Parsed)
    ensures info.None? || common.None? ==> r.Failed?
    ensures info.Some? && common.Some? && common.value.pages.PosInf? ==> r.Failed?
    ensures r.Hangs? <==> info.Some? && common.Some? && common.value.pages.NegInf?
    ensures r.Written? ==> (r.path == JsonPath(fontPath) && r.json.info == info.value
      && r.json.common == common.value)
    ensures r.Written? ==> (r.json.spacing == [] && r.json.outline == 0 && r.json.packed == 0
      && r.json.alphaChnl == 0 && r.json.redChnl == 0 && r.json.greenChnl == 0 && r.json.blueChnl == 0)
  {
    if info.None? || common.None? then Failed
    else
      match common.value.pages
      case PosInf => Failed
      case NegInf => Hangs
      case NaN => Written(JsonPath(fontPath), Font(info.value, common.value, [], []))
      case Finite(v) =>
        var pages := ReadPages(lines, 2, PageCount(v), ReadPage);
        var glyphs := if IsWhole(v) then ReadGlyphs(lines, 3 + v.Floor, ReadGlyph) else Some([]);
        if pages.None? || glyphs.None? then Failed
        else Written(JsonPath(fontPath), Font(info.value, common.value, pages.value, glyphs.value))
  }

  /** The page entries come from the lines after `common`, one per page the loop counts;
      a page count that is not a number gives none. */
  lemma ParsedPages(lines: seq<Str>, fontPath: Str, info: Option<Info>, common: Option<Common>)
    requires FromHeader(lines, fontPath, info, common).Written?
    ensures var json := FromHeader(lines, fontPath, info, common).json;
      match json.common.pages
      case Finite(v) => (|json.pageData| == PageCount(v)
        && forall k :: 0 <= k < PageCount(v) ==> 2 + k < |lines| && ReadPage(lines[2 + k]) == Some(json.pageData[k]))
      case NaN => json.pageData == [] && json.charData == []
      case _ => false
  {
  }

  /** With a whole page count `n` the glyphs are the lines holding "char" from line
      `n + 3` on, in order; with a fractional count the loop only reads `undefined` and
      there are none. */
  lemma ParsedGlyphs(lines: seq<Str>, fontPath: Str, info: Option<Info>, common: Option<Common>)
    requires FromHeader(lines, fontPath, info, common).Written? && common.Some? && common.value.pages.Finite?
    ensures var json := FromHeader(lines, fontPath, info, common).json;
      var v := common.value.pages.value;
      var cl := CharLines(lines[Clamp(3 + v.Floor, |lines|)..]);
      && (IsWhole(v) ==> (|json.charData| == |cl|
            && forall k :: 0 <= k < |cl| ==> ReadGlyph(cl[k]) == Some(json.charData[k])))
      && (!IsWhole(v) ==> json.charData == [])
  {
    GlyphsReadCharLines(lines, 3 + common.value.pages.value.Floor, ReadGlyph);
  }

  /** A `char` line that lacks a field makes the whole parse fail. */
  lemma BadGlyphFails(lines: seq<Str>, fontPath: Str, info: Info, common: Common, k: nat)
    requires common.pages.Finite? && IsWhole(common.pages.value)
    requires var cl := CharLines(lines[Clamp(3 + common.pages.value.Floor, |lines|)..]);
      k < |cl| && ReadGlyph(cl[k]).None?
    ensures FromHeader(lines, fontPath, Some(info), Some(common)).Failed?
  {
    GlyphsReadCharLines(lines, 3 + common.pages.value.Floor, ReadGlyph);
  }
}

=== FILE: html_parser.dfy ===
/** The markup parser of the rich-text label (`HtmlTextParser`): a scanner that splits
    the text at `<...>` tags, keeps a stack of style frames, and emits one run per piece
    of text carrying the style on top of the stack. Tags are turned into frames by small
    grammars (`color=`, `size=`, `br/`, `img src=... /`, `cg`, `face`, `outline`,
    `underlay`, `glow`, `on`/`u`/`s`/`b`/`i`) whose regular expressions are written out
    here as functions over UTF-16 code units. */
module HtmlParser {
  import opened Wrappers
  import opened Js

  // ---------------------------------------------------------------------------------
  // Style frames
  // ---------------------------------------------------------------------------------

  /** The fields a style frame (`IHtmlTextParserStack`) may carry. */
  datatype Field =
    | Color | Size | Event | IsNewLine | IsImage | Src | ImageWidth | ImageHeight
    | ImageOffset | ImageAlign | Underline | Strikethrough | Offset | Italic | Bold
    | ColorGradient | Face | Outline | Underlay | Glow

  /** A field's value: a string, a number, a flag, the event handler object, or one of
      the nested style objects. */
  datatype Value =
    | Text(s: Str)
    | Num(n: JsNum)
    | Flag(b: bool)
    | Handlers(h: map<Keyword, Str>)
    | GradientStyle(lb: Str, rb: Str, lt: Str, rt: Str)
    | FaceStyle(color: Str, dilate: JsNum, softness: JsNum)
    | OutlineStyle(color: Str, thickness: JsNum)
    | UnderlayStyle(color: Str, x: JsNum, y: JsNum, dilate: JsNum, softness: JsNum)
    | GlowStyle(color: Str, offset: JsNum, inner: JsNum, outer: JsNum, power: JsNum)
  {
    /** JavaScript truthiness: the empty string, 0, NaN and false are falsy; objects are not. */
    predicate Truthy() {
      match this
      case Text(s) => |s| > 0
      case Num(n) => n.Truthy()
      case Flag(b) => b
      case _ => true
    }
  }

  /** A style frame: the fields present, as a JavaScript object literal has them. */
  type Frame = map<Field, Value>

  /** `frame[k]` is present and truthy. */
  predicate Has(f: Frame, k: Field) {
    k in f && f[k].Truthy()
  }

  /** One parsed run: its text and the frame it was emitted under (none outside any tag). */
  datatype Run = Run(text: Str, style: Option<Frame>)

  /** A run is a line break or an image marker, with empty text and a frame saying so. */
  predicate IsMarker(run: Run) {
    run.text == [] && run.style.Some? && (Has(run.style.value, IsNewLine) || Has(run.style.value, IsImage))
  }

  /** A run carries text, or it is a line-break or image marker. */
  predicate WellFormedRun(run: Run) {
    |run.text| > 0 || IsMarker(run)
  }

  predicate RunsWellFormed(runs: seq<Run>) {
    forall i :: 0 <= i < |runs| ==> WellFormedRun(runs[i])
  }

  lemma AppendWellFormed(a: seq<Run>, b: seq<Run>)
    requires RunsWellFormed(a) && RunsWellFormed(b)
    ensures RunsWellFormed(a + b)
  {
  }

  const LT := 60
  const GT := 62
  const SLASH := 47
  const EQUALS := 61
  const DQUOTE := 34
  const SQUOTE := 39

  /** The frame of a nested tag: every field of the parent whose child value is missing
      or falsy takes the parent's value; the child keeps the rest. */
  function Inherit(child: Frame, parent: Frame): (r: Frame)
    ensures r.Keys == child.Keys + parent.Keys
    ensures forall k :: Has(child, k) ==> r[k] == child[k]
    ensures forall k :: k in parent && !Has(child, k) ==> r[k] == parent[k]
    ensures forall k :: k in child && k !in parent ==> r[k] == child[k]
  {
    map k | k in child.Keys + parent.Keys ::
      if k in parent && !Has(child, k) then parent[k] else child[k]
  }

  /** No truthy style of the parent is lost by nesting: each truthy parent field is
      truthy in the nested frame, and it keeps the parent's value unless the child set a
      truthy value of its own. */
  lemma InheritKeepsParentStyle(child: Frame, parent: Frame, k: Field)
    requires Has(parent, k)
    ensures Has(Inherit(child, parent), k)
    ensures !Has(child, k) ==> Inherit(child, parent)[k] == parent[k]
  {
  }

  /** Nesting under an empty frame changes nothing, and nesting a frame under itself
      gives it back. */
  lemma InheritIdentities(f: Frame)
    ensures Inherit(f, map[]) == f
    ensures Inherit(f, f) == f
  {
    assert Inherit(f, map[]).Keys == f.Keys;
    assert Inherit(f, f).Keys == f.Keys;
  }

  // ---------------------------------------------------------------------------------
  // Regular-expression building blocks
  // ---------------------------------------------------------------------------------

  predicate StartsWith(a: Str, p: Str) {
    |p| <= |a| && a[..|p|] == p
  }

  /** The pattern `\s*kw\s*=` (without the leading `\s*` unless `lead`) matched at `p`:
      the length of the match. */
  function KeyAt(a: Str, p: nat, kw: Str, lead: bool): (r: Option<nat>)
    requires p <= |a|
    ensures r.Some? ==> p + r.value <= |a| && r.value >= |kw| + 1 && a[p + r.value - 1] == EQUALS
    ensures r.Some? && !lead ==> a[p..p + |kw|] == kw
  {
    var q := p + (if lead then LeadingSpaces(a[p..]) else 0);
    if q + |kw| <= |a| && a[q..q + |kw|] == kw then
      var e := q + |kw| + LeadingSpaces(a[q + |kw|..]);
      if e < |a| && a[e] == EQUALS then Some(e + 1 - p) else None
    else None
  }

  /** The attribute names the attribute loops look for. */
  datatype Keyword =
    | SrcAttr | HeightAttr | WidthAttr | AlignAttr | OffsetAttr | ClickAttr | ParamAttr
    | LbAttr | RbAttr | LtAttr | RtAttr | ColorAttr | DilateAttr | SoftnessAttr
    | ThicknessAttr | XAttr | YAttr | InnerAttr | OuterAttr | PowerAttr

  /** How an attribute name is written in markup. */
  function Spelling(k: Keyword): (r: Str)
    ensures |r| > 0
  {
    match k
    case SrcAttr => S("src")
    case HeightAttr => S("height")
    case WidthAttr => S("width")
    case AlignAttr => S("align")
    case OffsetAttr => S("offset")
    case ClickAttr => S("click")
    case ParamAttr => S("param")
    case LbAttr => S("lb")
    case RbAttr => S("rb")
    case LtAttr => S("lt")
    case RtAttr => S("rt")
    case ColorAttr => S("color")
    case DilateAttr => S("dilate")
    case SoftnessAttr => S("softness")
    case ThicknessAttr => S("thickness")
    case XAttr => S("x")
    case YAttr => S("y")
    case InnerAttr => S("inner")
    case OuterAttr => S("outer")
    case PowerAttr => S("power")
  }

  /** A match of an alternation of keywords: where it starts, its length, and which
      alternative matched. */
  datatype KeyMatch = KeyMatch(pos: nat, len: nat, kw: nat)

  /** The first alternative from `i` on that matches at `p`. */
  function AltAt(a: Str, p: nat, kws: seq<Keyword>, i: nat): (r: Option<KeyMatch>)
    requires p <= |a|
    decreases |kws| - i
    ensures r.Some? ==> (r.value.pos == p && i <= r.value.kw < |kws|
      && KeyAt(a, p, Spelling(kws[r.value.kw]), true) == Some(r.value.len))
    ensures r.None? && i <= |kws| ==> forall kw :: kw in kws[i..] ==> KeyAt(a, p, Spelling(kw), true).None?
  {
    if i >= |kws| then None
    else
      var k := KeyAt(a, p, Spelling(kws[i]), true);
      if k.Some? then Some(KeyMatch(p, k.value, i)) else AltAt(a, p, kws, i + 1)
  }

  /** `re.exec(a)` for `\s*kw1\s*=|\s*kw2\s*=|...`: the earliest position with a match,
      and there the first alternative that matches. */
  function FindKey(a: Str, kws: seq<Keyword>, p: nat): (r: Option<KeyMatch>)
    requires p <= |a|
    decreases |a| - p
    ensures r.Some? ==> (p <= r.value.pos && r.value.kw < |kws|
      && r.value.pos + r.value.len <= |a|
      && KeyAt(a, r.value.pos, Spelling(kws[r.value.kw]), true) == Some(r.value.len))
  {
    if p == |a| then None
    else match AltAt(a, p, kws, 0)
      case Some(m) => Some(m)
      case None => FindKey(a, kws, p + 1)
  }

  /** One `keyword=value` pair read by an attribute loop. */
  datatype Pair = Pair(key: Keyword, value: Str)

  /** What an attribute loop reads, and the attribute text left when no keyword is found. */
  datatype Scan = Scan(pairs: seq<Pair>, rest: Str)

  /** `getRightQuotationIndex`: the closing quote of the first quote character in `s`.
      When that quote is the last unit, the search restarts at 0 and finds the opening
      quote itself. */
  function RightQuotation(s: Str): (r: int)
    ensures -1 <= r < |s|
    ensures r >= 0 ==> s[r] == DQUOTE || s[r] == SQUOTE
    ensures DQUOTE !in s && SQUOTE !in s ==> r == -1
  {
    var sq := IndexOf(s, SQUOTE, 0);
    var dq := IndexOf(s, DQUOTE, 0);
    if sq > -1 && (sq < dq || dq == -1) then IndexOf(s, SQUOTE, if sq + 1 >= |s| then -1 else sq + 1)
    else if dq > -1 && (dq < sq || sq == -1) then IndexOf(s, DQUOTE, if dq + 1 >= |s| then -1 else dq + 1)
    else -1
  }

  /** `getRightQuotationIndex` closes the first quote of `s`, whichever kind it is: it
      gives the next quote of the same kind after it, -1 when there is none, and the
      quote itself when that quote is the last unit. */
  lemma RightQuotationClosesFirstQuote(s: Str, i: nat)
    requires i < |s| && IsQuote(s[i])
    requires forall j :: 0 <= j < i ==> !IsQuote(s[j])
    ensures i == |s| - 1 ==> RightQuotation(s) == i
    ensures i < |s| - 1 ==> (RightQuotation(s) == -1 <==> forall j :: i < j < |s| ==> s[j] != s[i])
    ensures i < |s| - 1 && RightQuotation(s) != -1 ==>
              i < RightQuotation(s) && s[RightQuotation(s)] == s[i]
              && forall j :: i < j < RightQuotation(s) ==> s[j] != s[i]
  {
    var other := if s[i] == SQUOTE then DQUOTE else SQUOTE;
    IndexOfIsFirst(s, s[i], 0);
    IndexOfIsFirst(s, other, 0);
    assert IndexOf(s, s[i], 0) == i;
    var o := IndexOf(s, other, 0);
    assert o == -1 || o > i;
    if i < |s| - 1 {
      IndexOfIsFirst(s, s[i], i + 1);
    }
  }

  /** The attribute loops of `_attributeToObject`: find the next keyword, cut the text at
      its first occurrence, take the value up to the next space (after the closing quote
      for `src`), and go on with what follows the value. When there is no space the
      whole remainder is scanned again, which is what `substring(-1)` gives. */
  function Pairs(a: Str, kws: seq<Keyword>): (r: Scan)
    decreases |a|
    ensures |r.rest| <= |a|
    ensures forall i :: 0 <= i < |r.pairs| ==> r.pairs[i].key in kws
  {
    match FindKey(a, kws, 0)
    case None => Scan([], a)
    case Some(m) =>
      var step := PairAt(a, kws, m);
      var tail := Pairs(step.1, kws);
      var r := Scan([step.0] + tail.pairs, tail.rest);
      assert r.pairs[0].key in kws && r.pairs[1..] == tail.pairs;
      r
  }

  /** One turn of an attribute loop, for the match `m`: the pair read and the text the
      loop goes on with. */
  function PairAt(a: Str, kws: seq<Keyword>, m: KeyMatch): (r: (Pair, Str))
    requires m.kw < |kws| && m.pos + m.len <= |a| && m.len > 0
    ensures r.0.key == kws[m.kw] && |r.1| < |a|
  {
    var text := a[m.pos..m.pos + m.len];
    assert OccursAt(a, text, m.pos);
    var k := IndexOfSub(a, text, 0);
    var rem := Trim(a[k + m.len..]);
    var kw := kws[m.kw];
    var rq := if kw == SrcAttr then RightQuotation(rem) else -1;
    var ns := IndexOf(rem, SPACE, if rq + 1 >= |rem| then -1 else rq + 1);
    var value := if ns > -1 then rem[..ns] else rem;
    (Pair(kw, value), Trim(SubstringFrom(rem, ns)))
  }

  // ---------------------------------------------------------------------------------
  // Event attributes
  // ---------------------------------------------------------------------------------

  /** `click` and then `=` after optional white space, at the start of `s`. */
  function ClickAt(s: Str): (r: Option<nat>)
    ensures r.Some? ==> 0 < r.value <= |s| && s[r.value - 1] == EQUALS
  {
    KeyAt(s, 0, S("click"), false)
  }

  /** `param` and then `=` after optional white space, at `p`. */
  function ParamAt(s: Str, p: nat): (r: Option<nat>)
    requires p <= |s|
    ensures r.Some? ==> 0 < r.value && p + r.value <= |s| && s[p + r.value - 1] == EQUALS
  {
    KeyAt(s, p, S("param"), false)
  }

  /** `eventRegx.exec(s)` for `^(click)(\s)*=|(param)(\s)*=`: only `click` is anchored,
      so `param=` may be found anywhere; alternative 0 is `click`, 1 is `param`. */
  function EventKey(s: Str, p: nat): (r: Option<KeyMatch>)
    requires p <= |s|
    decreases |s| - p
    ensures r.Some? ==> r.value.kw <= 1 && r.value.pos + r.value.len <= |s| && r.value.len > 0
  {
    if p == |s| then None
    else
      var click := if p == 0 then ClickAt(s) else None;
      var param := ParamAt(s, p);
      if click.Some? then Some(KeyMatch(0, click.value, 0))
      else if param.Some? then Some(KeyMatch(p, param.value, 1))
      else EventKey(s, p + 1)
  }

  /** A found event key lies at or after the search start and ends with `=`. */
  lemma {:induction false} EventKeyEndsAtEquals(s: Str, p: nat)
    requires p <= |s| && EventKey(s, p).Some?
    decreases |s| - p
    ensures EventKey(s, p).value.pos >= p
    ensures s[EventKey(s, p).value.pos + EventKey(s, p).value.len - 1] == EQUALS
  {
    var click := if p == 0 then ClickAt(s) else None;
    if p < |s| && click.None? && ParamAt(s, p).None? {
      EventKeyEndsAtEquals(s, p + 1);
    }
  }

  /** No white space at either end. */
  predicate Trimmed(v: Str) {
    |v| == 0 || (!IsJsSpace(v[0]) && !IsJsSpace(v[|v| - 1]))
  }

  /** Index of the first white-space unit, or |s|. */
  function FirstSpace(s: Str): (n: nat)
    ensures n <= |s|
    ensures forall k :: 0 <= k < n ==> !IsJsSpace(s[k])
    ensures n < |s| ==> IsJsSpace(s[n])
  {
    if |s| == 0 || IsJsSpace(s[0]) then 0 else 1 + FirstSpace(s[1..])
  }

  /** `_processEventHandler`: each `click=`/`param=` is followed by a value; a value in
      matching double or single quotes is stored trimmed under the key (a later one
      overwrites an earlier one); any other value is skipped up to white space. The
      match length is cut from the front of the text even when `param=` was found
      further in, as the source does. */
  function EventHandlers(s: Str): (r: map<Keyword, Str>)
    decreases |s|
    ensures forall k :: k in r ==> k == ClickAttr || k == ParamAttr
    ensures forall k :: k in r ==> Trimmed(r[k])
  {
    match EventKey(s, 0)
    case None => map[]
    case Some(m) =>
      var step := EventAt(s, m);
      var name := if m.kw == 0 then ClickAttr else ParamAttr;
      var tail := EventHandlers(step.1);
      var head := if step.0.Some? then map[name := step.0.value] else map[];
      HandlerUnion(head, tail);
      head + tail
  }

  /** Only `click` and `param` are stored, and every stored value is trimmed. */
  predicate HandlerMap(h: map<Keyword, Str>) {
    forall k :: k in h ==> (k == ClickAttr || k == ParamAttr) && Trimmed(h[k])
  }

  /** Merging two handler maps gives a handler map. */
  lemma HandlerUnion(a: map<Keyword, Str>, b: map<Keyword, Str>)
    requires HandlerMap(a) && HandlerMap(b)
    ensures HandlerMap(a + b)
  {
  }

  /** One turn of the event loop for the match `m`: the value stored (if it was quoted)
      and the text the loop goes on with. */
  function EventAt(s: Str, m: KeyMatch): (r: (Option<Str>, Str))
    requires m.pos + m.len <= |s| && m.len > 0
    ensures |r.1| < |s|
    ensures r.0.Some? ==> Trimmed(r.0.value)
  {
    var u := s[m.len..];
    var t := Trim(u);
    assert |t| <= |u| < |s|;
    var q := if |t| > 0 && (t[0] == DQUOTE || t[0] == SQUOTE) then t[0] else -1;
    var close := if q >= 0 then IndexOf(t, q, 1) else -1;
    var index := if q >= 0 then close + 1 else FirstSpace(t);
    assert 0 <= index <= |t|;
    var rest := Trim(t[index..]);
    assert |rest| <= |t[index..]| <= |t|;
    if q >= 0 && close > -1 then
      assert 1 <= close <= |t|;
      (Some(Trim(t[1..close])), rest)
    else (None, rest)
  }

  /** Trimming text without white space at its ends gives it back. */
  lemma TrimTrimmed(v: Str)
    requires Trimmed(v)
    ensures Trim(v) == v
  {
    if |v| > 0 {
      assert LeadingSpaces(v) == 0;
      assert TrailingSpaces(v) == 0;
    }
  }

  /** Text starting with `click=` has its event key at the start. */
  lemma ClickKeyAtStart(s: Str)
    requires StartsWith(s, S("click="))
    ensures EventKey(s, 0) == Some(KeyMatch(0, 6, 0))
  {
    assert s[0..5] == S("click=")[..5] == S("click");
    assert s[5] == EQUALS;
    assert LeadingSpaces(s[5..]) == 0;
  }

  /** A double-quoted click value is stored, trimmed, without its quotes. */
  lemma QuotedClickIsStored(v: Str)
    requires DQUOTE !in v && Trimmed(v)
    ensures EventHandlers(S("click=") + ([DQUOTE] + v + [DQUOTE])) == map[ClickAttr := v]
  {
    var s := S("click=") + ([DQUOTE] + v + [DQUOTE]);
    assert s[..6] == S("click=");
    ClickKeyAtStart(s);
    QuotedValue(s, v);
    assert EventKey([], 0) == None;
  }

  lemma QuotedValue(s: Str, v: Str)
    requires DQUOTE !in v && Trimmed(v) && s == S("click=") + ([DQUOTE] + v + [DQUOTE])
    ensures EventAt(s, KeyMatch(0, 6, 0)) == (Some(v), [])
  {
    var t := s[6..];
    assert t == [DQUOTE] + v + [DQUOTE];
    TrimTrimmed(t);
    assert t[|v| + 1] == DQUOTE;
    assert forall j :: 1 <= j <= |v| ==> t[j] == v[j - 1];
    IndexOfIsFirst(t, DQUOTE, 1);
    assert IndexOf(t, DQUOTE, 1) == |v| + 1;
    assert t[1..|v| + 1] == v;
    TrimTrimmed(v);
    assert t[|v| + 2..] == [];
  }

  /** An unquoted value is skipped: nothing is stored. */
  lemma UnquotedClickIsDropped(v: Str)
    requires |v| > 0 && v[0] != DQUOTE && v[0] != SQUOTE
    requires forall k :: 0 <= k < |v| ==> !IsJsSpace(v[k])
    ensures EventHandlers(S("click=") + v) == map[]
  {
    var s := S("click=") + v;
    assert s[..6] == S("click=");
    ClickKeyAtStart(s);
    UnquotedValue(s, v);
    assert EventKey([], 0) == None;
  }

  lemma UnquotedValue(s: Str, v: Str)
    requires |v| > 0 && v[0] != DQUOTE && v[0] != SQUOTE
    requires forall k :: 0 <= k < |v| ==> !IsJsSpace(v[k])
    requires s == S("click=") + v
    ensures EventAt(s, KeyMatch(0, 6, 0)) == (None, [])
  {
    assert s[6..] == v;
    TrimTrimmed(v);
    assert FirstSpace(v) == |v|;
    assert v[|v|..] == [];
  }

  /** Text without `=` holds no event attribute. */
  lemma NoEqualsNoHandlers(s: Str)
    requires EQUALS !in s
    ensures EventHandlers(s) == map[]
  {
    if EventKey(s, 0).Some? {
      EventKeyEndsAtEquals(s, 0);
      assert false;
    }
  }

  // ---------------------------------------------------------------------------------
  // _attributeToObject
  // ---------------------------------------------------------------------------------

  /** `^(color|size)(\s)*=`: the match length and whether it was `color`. */
  function ColorSizeHeader(a: Str): (r: Option<(nat, bool)>)
    ensures r.Some? ==> 0 < r.value.0 <= |a|
  {
    if KeyAt(a, 0, S("color"), false).Some? then Some((KeyAt(a, 0, S("color"), false).value, true))
    else if KeyAt(a, 0, S("size"), false).Some? then Some((KeyAt(a, 0, S("size"), false).value, false))
    else None
  }

  /** `^(br(\s)*\/)`. */
  predicate IsBreakTag(a: Str) {
    StartsWith(a, S("br")) &&
    var q := 2 + LeadingSpaces(a[2..]);
    q < |a| && a[q] == SLASH
  }

  /** `^(img(\s)*src(\s)*=[^>]+\/)`: after `src=`, at least one unit other than `>`
      and then a `/` before any `>`. */
  predicate IsImageTag(a: Str) {
    StartsWith(a, S("img")) &&
    var q := 3 + LeadingSpaces(a[3..]);
    match KeyAt(a, q, S("src"), false)
    case None => false
    case Some(n) =>
      var e := q + n;
      var gt := IndexOf(a, GT, e);
      var limit := if gt < 0 then |a| else gt;
      var slash := IndexOf(a, SLASH, e + 1);
      0 <= slash < limit
  }

  /** `s.replace(/^"|"$/g, '')`: one leading and one trailing double quote removed. */
  function StripDoubleQuotes(s: Str): (r: Str)
    ensures |r| <= |s|
    ensures |s| >= 2 && s[0] == DQUOTE && s[|s| - 1] == DQUOTE ==> r == s[1..|s| - 1]
    ensures (|s| == 0 || s[0] != DQUOTE) && (|s| == 0 || s[|s| - 1] != DQUOTE) ==> r == s
  {
    var t := if |s| > 0 && s[0] == DQUOTE then s[1..] else s;
    if |t| > 0 && t[|t| - 1] == DQUOTE then t[..|t| - 1] else t
  }

  /** `s.slice(1, -1)`. */
  function Unquote(s: Str): (r: Str)
    ensures |s| >= 2 ==> r == s[1..|s| - 1]
    ensures |s| < 2 ==> r == []
  {
    if |s| >= 2 then s[1..|s| - 1] else []
  }

  /** The event part shared by the attribute loops: `click` replaces the handler object,
      `param` sets its `param` entry (double quotes stripped) when a handler object
      already exists. */
  function EventField(f: Frame, kw: Keyword, v: Str): (r: Frame)
    ensures kw != ClickAttr && kw != ParamAttr ==> r == f
    ensures kw == ParamAttr && !(Event in f && f[Event].Handlers?) ==> r == f
    ensures forall k :: k != Event ==> (k in r <==> k in f) && (k in f ==> r[k] == f[k])
  {
    var f1 := if kw == ClickAttr then f[Event := Handlers(EventHandlers(S("click=") + v))] else f;
    if kw == ParamAttr && Event in f1 && f1[Event].Handlers? then
      f1[Event := Handlers(f1[Event].h[ParamAttr := StripDoubleQuotes(v)])]
    else f1
  }

  /** An image attribute value with its trailing `/` dropped. */
  function DropSlash(v: Str): Str {
    if |v| > 0 && v[|v| - 1] == SLASH then v[..|v| - 1] else v
  }

  predicate IsQuote(c: int) { c == DQUOTE || c == SQUOTE }

  /** A value that starts with a quote character (the `charCodeAt(0)` switch). */
  predicate StartsQuoted(v: Str) { |v| > 0 && IsQuote(v[0]) }

  /** What `src` stores: the value without its trailing `/`, and without its quotes
      when it starts with one. */
  function SrcValue(v0: Str): Str {
    var v := DropSlash(v0);
    if StartsQuoted(v) then Unquote(v) else v
  }

  /** One pair of the image loop: a trailing `/` is dropped from the value; `src` marks
      the frame as an image and stores the source without quotes, reporting whether it
      was quoted; the other attributes are set by `ImageAttr`, and `click`/`param` go
      to the event object. */
  function ImageField(f: Frame, kw: Keyword, v0: Str): (r: (Frame, bool))
    ensures r.1 ==> kw == SrcAttr
    ensures r.1 <==> kw == SrcAttr && StartsQuoted(DropSlash(v0))
    ensures kw == SrcAttr ==> Has(r.0, IsImage)
    ensures kw == SrcAttr && StartsQuoted(DropSlash(v0)) ==> Src in r.0 && r.0[Src] == Text(Unquote(DropSlash(v0)))
    ensures kw == SrcAttr && !StartsQuoted(DropSlash(v0)) ==> Src in r.0 && r.0[Src] == Text(DropSlash(v0))
    ensures kw != SrcAttr ==> (Src in r.0 <==> Src in f) && (Src in f ==> r.0[Src] == f[Src])
    ensures Has(f, IsImage) ==> Has(r.0, IsImage)
  {
    var v := DropSlash(v0);
    (EventField(ImageAttr(f, kw, v), kw, v), kw == SrcAttr && StartsQuoted(v))
  }

  /** The non-event attributes of the image loop: `src` marks the frame as an image and
      stores the source; `height`/`width` are read by `parseInt`; `align` is unquoted and
      lower cased; `offset` is kept as text. Only `src` touches the image mark and the
      source. */
  function ImageAttr(f: Frame, kw: Keyword, v: Str): (r: Frame)
    ensures kw == SrcAttr ==> r == f[IsImage := Flag(true)][Src := Text(if StartsQuoted(v) then Unquote(v) else v)]
    ensures kw != SrcAttr ==> (Src in r <==> Src in f) && (Src in f ==> r[Src] == f[Src])
    ensures kw != SrcAttr ==> (IsImage in r <==> IsImage in f) && (IsImage in f ==> r[IsImage] == f[IsImage])
  {
    if kw == SrcAttr then f[IsImage := Flag(true)][Src := Text(if StartsQuoted(v) then Unquote(v) else v)]
    else if kw == HeightAttr then f[ImageHeight := Num(ParseInt(v, 0))]
    else if kw == WidthAttr then f[ImageWidth := Num(ParseInt(v, 0))]
    // `toLowerCase` also folds letters outside ASCII; the align keywords the
    // layout compares against are ASCII, so only ASCII folding is modelled
    else if kw == AlignAttr then f[ImageAlign := Text(AsciiLower(if StartsQuoted(v) then Unquote(v) else v))]
    else if kw == OffsetAttr then f[ImageOffset := Text(v)]
    else f
  }

  /** A `src` pair whose value starts with a quote: the pair that validates an image. */
  predicate QuotedSrc(p: Pair) { p.key == SrcAttr && StartsQuoted(DropSlash(p.value)) }

  predicate HasQuotedSrc(ps: seq<Pair>) {
    exists i :: 0 <= i < |ps| && QuotedSrc(ps[i])
  }

  /** Pair `i` is the last `src` pair of `ps`. */
  predicate LastSrcAt(ps: seq<Pair>, i: int) {
    0 <= i < |ps| && ps[i].key == SrcAttr && forall j :: i < j < |ps| ==> ps[j].key != SrcAttr
  }

  /** The image attribute loop: the fields it sets, and whether a quoted `src` was seen.
      The last `src` pair decides the stored source. */
  function ImageFields(ps: seq<Pair>, f: Frame, valid: bool): (r: (Frame, bool))
    decreases |ps|
    ensures valid ==> r.1
    ensures r.1 ==> valid || exists i :: 0 <= i < |ps| && ps[i].key == SrcAttr
    ensures r.1 <==> valid || HasQuotedSrc(ps)
    ensures (valid ==> Has(f, IsImage)) ==> (r.1 ==> Has(r.0, IsImage))
    ensures Has(f, IsImage) ==> Has(r.0, IsImage)
    ensures (exists i :: 0 <= i < |ps| && ps[i].key == SrcAttr) ==> Has(r.0, IsImage)
  {
    if |ps| == 0 then (f, valid)
    else
      var step := ImageField(f, ps[0].key, ps[0].value);
      var r := ImageFields(ps[1..], step.0, valid || step.1);
      QuotedSrcSplit(ps);
      SrcSplit(ps);
      r
  }

  /** The source the image loop stores is that of the last `src` pair. */
  lemma {:induction false} ImageFieldsSrc(ps: seq<Pair>, f: Frame, valid: bool)
    decreases |ps|
    ensures var r := ImageFields(ps, f, valid);
      forall i :: LastSrcAt(ps, i) ==> Src in r.0 && r.0[Src] == Text(SrcValue(ps[i].value))
  {
    if |ps| > 0 {
      var step := ImageField(f, ps[0].key, ps[0].value);
      var r := ImageFields(ps[1..], step.0, valid || step.1);
      assert ImageFields(ps, f, valid) == r;
      ImageFieldsSrc(ps[1..], step.0, valid || step.1);
      ImageFieldsKeepSrc(ps[1..], step.0, valid || step.1);
      LastSrcStep(ps, step.0, r.0);
    }
  }

  /** Without a `src` pair the image loop leaves the source as it was. */
  lemma {:induction false} ImageFieldsKeepSrc(ps: seq<Pair>, f: Frame, valid: bool)
    decreases |ps|
    ensures var r := ImageFields(ps, f, valid);
      (forall i :: 0 <= i < |ps| ==> ps[i].key != SrcAttr) ==>
        (Src in r.0 <==> Src in f) && (Src in f ==> r.0[Src] == f[Src])
  {
    if |ps| > 0 && forall i :: 0 <= i < |ps| ==> ps[i].key != SrcAttr {
      var step := ImageField(f, ps[0].key, ps[0].value);
      assert ImageFields(ps, f, valid) == ImageFields(ps[1..], step.0, valid || step.1);
      assert forall i :: 0 <= i < |ps[1..]| ==> ps[1..][i].key != SrcAttr by {
        forall i | 0 <= i < |ps[1..]| ensures ps[1..][i].key != SrcAttr { assert ps[1..][i] == ps[i + 1]; }
      }
      ImageFieldsKeepSrc(ps[1..], step.0, valid || step.1);
    }
  }

  /** A quoted `src` lies in `ps` iff it is the first pair or lies in the rest. */
  lemma QuotedSrcSplit(ps: seq<Pair>)
    requires |ps| > 0
    ensures HasQuotedSrc(ps) <==> QuotedSrc(ps[0]) || HasQuotedSrc(ps[1..])
  {
    var t := ps[1..];
    if exists i :: 0 <= i < |ps| && QuotedSrc(ps[i]) {
      var i :| 0 <= i < |ps| && QuotedSrc(ps[i]);
      if i > 0 { assert QuotedSrc(t[i - 1]); }
    }
    if exists i :: 0 <= i < |t| && QuotedSrc(t[i]) {
      var i :| 0 <= i < |t| && QuotedSrc(t[i]);
      assert QuotedSrc(ps[i + 1]);
    }
  }

  /** A `src` pair lies in `ps` iff it is the first pair or lies in the rest. */
  lemma SrcSplit(ps: seq<Pair>)
    requires |ps| > 0
    ensures (exists i :: 0 <= i < |ps| && ps[i].key == SrcAttr)
        <==> ps[0].key == SrcAttr || exists i :: 0 <= i < |ps[1..]| && ps[1..][i].key == SrcAttr
  {
    var t := ps[1..];
    if exists i :: 0 <= i < |ps| && ps[i].key == SrcAttr {
      var i :| 0 <= i < |ps| && ps[i].key == SrcAttr;
      if i > 0 { assert t[i - 1].key == SrcAttr; }
    }
    if exists i :: 0 <= i < |t| && t[i].key == SrcAttr {
      var i :| 0 <= i < |t| && t[i].key == SrcAttr;
      assert ps[i + 1].key == SrcAttr;
    }
  }

  /** The last `src` pair of `ps` is the first pair when the rest has none, and
      otherwise the last `src` pair of the rest; `g` is the frame after the first pair
      and `r` the frame after the rest. */
  lemma LastSrcStep(ps: seq<Pair>, g: Frame, r: Frame)
    requires |ps| > 0
    requires ps[0].key == SrcAttr ==> Src in g && g[Src] == Text(SrcValue(ps[0].value))
    requires forall i :: LastSrcAt(ps[1..], i) ==> Src in r && r[Src] == Text(SrcValue(ps[1..][i].value))
    requires (forall i :: 0 <= i < |ps[1..]| ==> ps[1..][i].key != SrcAttr) ==>
               (Src in r <==> Src in g) && (Src in g ==> r[Src] == g[Src])
    ensures forall i :: LastSrcAt(ps, i) ==> Src in r && r[Src] == Text(SrcValue(ps[i].value))
  {
    var t := ps[1..];
    forall i | LastSrcAt(ps, i)
      ensures Src in r && r[Src] == Text(SrcValue(ps[i].value))
    {
      if i > 0 {
        assert t[i - 1] == ps[i];
        assert LastSrcAt(t, i - 1);
      } else {
        assert forall j :: 0 <= j < |t| ==> t[j] == ps[j + 1];
      }
    }
  }

  /** The keyword lists of the attribute loops, in the order of their alternations. */
  const ImageKeys := [SrcAttr, HeightAttr, WidthAttr, AlignAttr, OffsetAttr, ClickAttr, ParamAttr]
  const GradientKeys := [LbAttr, RbAttr, LtAttr, RtAttr]
  const FaceKeys := [ColorAttr, DilateAttr, SoftnessAttr, ClickAttr, ParamAttr]
  const OutlineKeys := [ColorAttr, ThicknessAttr, ClickAttr, ParamAttr]
  const UnderlayKeys := [ColorAttr, XAttr, YAttr, DilateAttr, SoftnessAttr, ClickAttr, ParamAttr]
  const GlowKeys := [ColorAttr, OffsetAttr, InnerAttr, OuterAttr, PowerAttr, ClickAttr, ParamAttr]

  /** The defaults of the style blocks. */
  const White := S("#ffffff")
  const DefaultGradient := GradientStyle(White, White, White, White)
  const DefaultFace := FaceStyle(White, Finite(0.5), Finite(0.01))
  const DefaultOutline := OutlineStyle(White, Finite(0.1))
  const DefaultUnderlay := UnderlayStyle(White, Finite(0.0), Finite(0.0), Finite(0.5), Finite(0.1))
  const DefaultGlow := GlowStyle(S("#000000"), Finite(0.5), Finite(0.01), Finite(0.01), Finite(1.0))

  /** One keyword of a style block applied to the block's object; numbers go through
      `Number(...)`. */
  function SetStyleField(style: Value, kw: Keyword, v: Str): (r: Value)
    ensures r.GradientStyle? == style.GradientStyle? && r.FaceStyle? == style.FaceStyle?
    ensures r.OutlineStyle? == style.OutlineStyle? && r.UnderlayStyle? == style.UnderlayStyle?
    ensures r.GlowStyle? == style.GlowStyle?
  {
    match style
    case GradientStyle(lb, rb, lt, rt) =>
      if kw == LbAttr then GradientStyle(v, rb, lt, rt)
      else if kw == RbAttr then GradientStyle(lb, v, lt, rt)
      else if kw == LtAttr then GradientStyle(lb, rb, v, rt)
      else if kw == RtAttr then GradientStyle(lb, rb, lt, v)
      else style
    case FaceStyle(c, d, s) =>
      if kw == ColorAttr then FaceStyle(v, d, s)
      else if kw == DilateAttr then FaceStyle(c, ToNumber(v), s)
      else if kw == SoftnessAttr then FaceStyle(c, d, ToNumber(v))
      else style
    case OutlineStyle(c, t) =>
      if kw == ColorAttr then OutlineStyle(v, t)
      else if kw == ThicknessAttr then OutlineStyle(c, ToNumber(v))
      else style
    case UnderlayStyle(c, x, y, d, s) =>
      if kw == ColorAttr then UnderlayStyle(v, x, y, d, s)
      else if kw == XAttr then UnderlayStyle(c, ToNumber(v), y, d, s)
      else if kw == YAttr then UnderlayStyle(c, x, ToNumber(v), d, s)
      else if kw == DilateAttr then UnderlayStyle(c, x, y, ToNumber(v), s)
      else if kw == SoftnessAttr then UnderlayStyle(c, x, y, d, ToNumber(v))
      else style
    case GlowStyle(c, o, i, u, w) =>
      if kw == ColorAttr then GlowStyle(v, o, i, u, w)
      else if kw == OffsetAttr then GlowStyle(c, ToNumber(v), i, u, w)
      else if kw == InnerAttr then GlowStyle(c, o, ToNumber(v), u, w)
      else if kw == OuterAttr then GlowStyle(c, o, i, ToNumber(v), w)
      else if kw == PowerAttr then GlowStyle(c, o, i, u, ToNumber(v))
      else style
    case _ => style
  }

  /** A style block's loop over its pairs: the block's object and the frame's events. */
  function StyleFields(ps: seq<Pair>, style: Value, f: Frame): (r: (Value, Frame))
    decreases |ps|
    ensures |ps| == 0 ==> r == (style, f)
    ensures r.0.GradientStyle? == style.GradientStyle? && r.0.FaceStyle? == style.FaceStyle?
    ensures r.0.OutlineStyle? == style.OutlineStyle? && r.0.UnderlayStyle? == style.UnderlayStyle?
    ensures r.0.GlowStyle? == style.GlowStyle?
  {
    if |ps| == 0 then (style, f)
    else StyleFields(ps[1..], SetStyleField(style, ps[0].key, ps[0].value), EventField(f, ps[0].key, ps[0].value))
  }

  /** The text a block regex `^(name(\s)*[^>]*)` matches: everything before the first `>`. */
  function UpToGreater(a: Str): (r: Str)
    ensures |r| <= |a| && r == a[..|r|] && GT !in r
  {
    var g := IndexOf(a, GT, 0);
    IndexOfIsFirst(a, GT, 0);
    if g < 0 then a else a[..g]
  }

  /** A style block (`cg`, `face`, `outline`, `underlay`, `glow`): when the attribute
      starts with the block's name, the text after the name up to the first `>` is
      scanned for the block's keywords, and the field is set to the defaults updated by
      what was found. Returns the attribute text the next block looks at. */
  function StyleBlock(a: Str, name: Str, kws: seq<Keyword>, field: Field, defaults: Value, f: Frame): (r: (Str, Frame))
    ensures !StartsWith(a, name) ==> r == (a, f)
    ensures StartsWith(a, name) ==> field in r.1
    ensures StartsWith(a, name) && |Trim(SubstringFrom(UpToGreater(a), |name|))| == 0 ==> r == ([], f[field := defaults])
    ensures forall k :: k != field && k != Event ==> (k in r.1 <==> k in f) && (k in f ==> r.1[k] == f[k])
  {
    if !StartsWith(a, name) then (a, f)
    else
      var body := Trim(SubstringFrom(UpToGreater(a), |name|));
      if |body| == 0 then (body, f[field := defaults])
      else
        var sc := Pairs(body, kws);
        var sf := StyleFields(sc.pairs, defaults, f);
        StyleFieldsKeep(sc.pairs, defaults, f);
        (sc.rest, sf.1[field := sf.0])
  }

  /** The style loop only touches the event field of the frame. */
  lemma {:induction false} StyleFieldsKeep(ps: seq<Pair>, style: Value, f: Frame)
    decreases |ps|
    ensures var r := StyleFields(ps, style, f).1;
      forall k :: k != Event ==> (k in r <==> k in f) && (k in f ==> r[k] == f[k])
  {
    if |ps| > 0 {
      StyleFieldsKeep(ps[1..], SetStyleField(style, ps[0].key, ps[0].value), EventField(f, ps[0].key, ps[0].value));
    }
  }

  /** `u=n` and `s=n`: the number after `=`, else 0. */
  function OffsetOf(rest: Str): (r: JsNum)
    ensures (|rest| == 0 || rest[0] != EQUALS) ==> r == Finite(0.0)
  {
    if |rest| > 0 && rest[0] == EQUALS then ToNumber(rest[1..]) else Finite(0.0)
  }

  /** `^(on|u|s|b|i)(\s)*`: `u` and `s` set the decoration and its offset, `i` italic,
      `b` bold, `on` nothing; a non-empty remainder is read as event attributes. */
  function SimpleTag(a: Str, f: Frame): (r: Frame)
  {
    var n := if StartsWith(a, S("on")) then 2
             else if |a| > 0 && (a[0] == 117 || a[0] == 115 || a[0] == 98 || a[0] == 105) then 1
             else 0;
    if n == 0 then f
    else
      // trimming after the keyword also drops the `(\s)*` the header matched
      var rest := Trim(a[n..]);
      var f1 :=
        if a[0] == 117 then f[Underline := Flag(true)][Offset := Num(OffsetOf(rest))]
        else if a[0] == 115 then f[Strikethrough := Flag(true)][Offset := Num(OffsetOf(rest))]
        else if a[0] == 105 then f[Italic := Flag(true)]
        else if a[0] == 98 then f[Bold := Flag(true)]
        else f;
      if |rest| == 0 then f1 else f1[Event := Handlers(EventHandlers(rest))]
  }

  /** What one tag produces: its frame, and the runs it appends by itself (`br`, `img`). */
  datatype Parsed = Parsed(frame: Frame, runs: seq<Run>)

  const NewLineFrame: Frame := map[IsNewLine := Flag(true)]

  /** `_attributeToObject`. */
  function AttributeToObject(attribute: Str): (r: Parsed)
    ensures forall i :: 0 <= i < |r.runs| ==> IsMarker(r.runs[i])
    ensures |r.runs| <= 1
  {
    var a := Trim(attribute);
    match ColorSizeHeader(a)
    case Some((len, isColor)) =>
      var v := Trim(a[len..]);
      if |v| == 0 then Parsed(map[], [])
      else
        var ns := IndexOf(v, SPACE, 0);
        var f0 := if isColor then map[Color := Text(if ns > -1 then Trim(v[..ns]) else v)]
                  else map[Size := Num(ParseInt(v, 0))];
        var f := if ns > -1 then f0[Event := Handlers(EventHandlers(Trim(v[ns + 1..])))] else f0;
        Parsed(f, [])
    case None =>
      if IsBreakTag(a) then Parsed(NewLineFrame, [Run([], Some(NewLineFrame))])
      else if IsImageTag(a) then Parsed(map[], ImageRuns(a))
      else Parsed(StyleTags(a), [])
  }

  /** An `img` tag: the frame its attributes describe is emitted as a run of its own
      when `src` was quoted; the tag itself contributes an empty frame. */
  function ImageRuns(a: Str): (r: seq<Run>)
    ensures |r| <= 1
    ensures forall i :: 0 <= i < |r| ==> IsMarker(r[i]) && Has(r[i].style.value, IsImage)
    ensures |r| == 1 <==> HasQuotedSrc(Pairs(a, ImageKeys).pairs)
  {
    var ps := Pairs(a, ImageKeys).pairs;
    var img := ImageFields(ps, map[], false);
    if img.1 && Has(img.0, IsImage) then [Run([], Some(img.0))] else []
  }

  /** The image run carries the source of the tag's last `src` pair, unquoted. */
  lemma ImageRunSrc(a: Str)
    requires |ImageRuns(a)| == 1
    ensures var ps := Pairs(a, ImageKeys).pairs; var style := ImageRuns(a)[0].style.value;
      forall i :: LastSrcAt(ps, i) ==> Src in style && style[Src] == Text(SrcValue(ps[i].value))
  {
    ImageFieldsSrc(Pairs(a, ImageKeys).pairs, map[], false);
  }

  /** The style blocks in order, each looking at what the previous one left of the
      attribute, then the one-letter tags. */
  function StyleTags(a: Str): (r: Frame)
  {
    var b1 := StyleBlock(a, S("cg"), GradientKeys, ColorGradient, DefaultGradient, map[]);
    var b2 := StyleBlock(b1.0, S("face"), FaceKeys, Face, DefaultFace, b1.1);
    var b3 := StyleBlock(b2.0, S("outline"), OutlineKeys, Outline, DefaultOutline, b2.1);
    var b4 := StyleBlock(b3.0, S("underlay"), UnderlayKeys, Underlay, DefaultUnderlay, b3.1);
    var b5 := StyleBlock(b4.0, S("glow"), GlowKeys, Glow, DefaultGlow, b4.1);
    SimpleTag(b5.0, b5.1)
  }

  // ---------------------------------------------------------------------------------
  // The scanner
  // ---------------------------------------------------------------------------------

  /** The parser's state: the style stack and the runs emitted so far. */
  datatype State = State(stack: seq<Frame>, runs: seq<Run>)

  function Top(stack: seq<Frame>): (r: Option<Frame>)
    ensures r.Some? <==> |stack| > 0
  {
    if |stack| == 0 then None else Some(stack[|stack| - 1])
  }

  /** `stack.pop()`: popping an empty stack leaves it empty. */
  function Pop(stack: seq<Frame>): (r: seq<Frame>)
    ensures |stack| > 0 ==> r == stack[..|stack| - 1]
    ensures |stack| == 0 ==> r == []
  {
    if |stack| == 0 then stack else stack[..|stack| - 1]
  }

  /** The entities replaced in text, in the order they are replaced: the five XML
      predefined entities and `&nbsp;` (which becomes a plain space). */
  const Entities: seq<(Str, Str)> :=
    [(S("&lt;"), S("<")), (S("&gt;"), S(">")), (S("&amp;"), S("&")),
     (S("&quot;"), S("\"")), (S("&apos;"), S("'")), (S("&nbsp;"), S(" "))]

  predicate EntityTable(es: seq<(Str, Str)>) {
    forall i :: 0 <= i < |es| ==> |es[i].0| > 0 && es[i].0[0] == 38 && |es[i].1| == 1
  }

  lemma EntitiesWellFormed()
    ensures EntityTable(Entities)
  {
  }

  /** Every entity in turn replaced at all of its occurrences. */
  function ReplaceEach(s: Str, es: seq<(Str, Str)>): (r: Str)
    requires EntityTable(es)
    decreases |es|
  {
    if |es| == 0 then s else ReplaceEach(ReplaceAll(s, es[0].0, es[0].1), es[1..])
  }

  /** `_escapeSpecialSymbol`. */
  function EscapeSpecialSymbol(s: Str): (r: Str)
  {
    EntitiesWellFormed();
    ReplaceEach(s, Entities)
  }

  /** A pattern starting with `&` does not occur in text without `&`. */
  lemma NoAmpersandNoMatch(s: Str, pat: Str)
    requires 38 !in s && |pat| > 0 && pat[0] == 38
    ensures IndexOfSub(s, pat, 0) == -1
  {
    var k := IndexOfSub(s, pat, 0);
  }

  lemma {:induction false} ReplaceEachNoAmpersand(s: Str, es: seq<(Str, Str)>)
    requires EntityTable(es) && 38 !in s
    decreases |es|
    ensures ReplaceEach(s, es) == s
  {
    if |es| > 0 {
      NoAmpersandNoMatch(s, es[0].0);
      ReplaceEachNoAmpersand(s, es[1..]);
    }
  }

  /** Text without `&` is not changed by unescaping. */
  lemma EscapeWithoutAmpersand(s: Str)
    requires 38 !in s
    ensures EscapeSpecialSymbol(s) == s
  {
    EntitiesWellFormed();
    ReplaceEachNoAmpersand(s, Entities);
  }

  /** Replacing by a single unit never empties non-empty text. */
  lemma {:induction false} ReplaceEachKeepsNonEmpty(s: Str, es: seq<(Str, Str)>)
    requires EntityTable(es) && |s| > 0
    decreases |es|
    ensures |ReplaceEach(s, es)| > 0
  {
    if |es| > 0 {
      var t := ReplaceAll(s, es[0].0, es[0].1);
      ReplaceEachKeepsNonEmpty(t, es[1..]);
    }
  }

  /** `_processResult`: empty text emits nothing; other text is unescaped and emitted
      with the top frame of the stack (no style when the stack is empty). */
  function ProcessResult(st: State, value: Str): (r: State)
    ensures r.stack == st.stack
    ensures |value| == 0 ==> r == st
    ensures |value| > 0 ==> (|r.runs| == |st.runs| + 1 && r.runs[..|st.runs|] == st.runs
      && |r.runs[|st.runs|].text| > 0 && r.runs[|st.runs|].style == Top(st.stack))
    ensures RunsWellFormed(st.runs) ==> RunsWellFormed(r.runs)
  {
    if |value| == 0 then st
    else
      EntitiesWellFormed();
      ReplaceEachKeepsNonEmpty(value, Entities);
      State(st.stack, st.runs + [Run(EscapeSpecialSymbol(value), Top(st.stack))])
  }

  /** `_addToStack`: on an empty stack the tag's frame is pushed as it is; otherwise a
      line-break or image frame is dropped and any other frame is pushed after
      inheriting from the top frame. The runs the tag emits by itself are appended. */
  function AddToStack(st: State, tag: Str): (r: State)
    ensures var p := AttributeToObject(tag);
      r.runs == st.runs + p.runs
      && (|st.stack| == 0 ==> r.stack == [p.frame])
      && (|st.stack| > 0 && (Has(p.frame, IsNewLine) || Has(p.frame, IsImage)) ==> r.stack == st.stack)
      && (|st.stack| > 0 && !Has(p.frame, IsNewLine) && !Has(p.frame, IsImage) ==>
            r.stack == st.stack + [Inherit(p.frame, st.stack[|st.stack| - 1])])
  {
    var p := AttributeToObject(tag);
    if |st.stack| == 0 then State([p.frame], st.runs + p.runs)
    else if Has(p.frame, IsNewLine) || Has(p.frame, IsImage) then State(st.stack, st.runs + p.runs)
    else State(st.stack + [Inherit(p.frame, st.stack[|st.stack| - 1])], st.runs + p.runs)
  }

  /** Where the loop finds its next tag. */
  datatype TagPos = NoTag | TagAt(begin: nat, end: int)

  /** The tag search of `parse` from the cursor: the first `>` and the last `<` before
      it; when that `<` lies before the cursor, the first `<` after the `>` and the
      first `>` after that one (-1 when there is none). */
  function FindTag(s: Str, start: nat): (r: TagPos)
    ensures r.TagAt? ==> r.begin < |s| && s[r.begin] == LT && r.begin + 1 >= start
    ensures r.TagAt? ==> ((r.end == -1 && r.begin > start) || (start <= r.end < |s| && r.begin < r.end && s[r.end] == GT))
  {
    var e0 := IndexOf(s, GT, start);
    if e0 < 0 then NoTag
    else
      var b0 := LastIndexOf(s, LT, e0);
      if b0 < start - 1 then
        var b1 := IndexOf(s, LT, e0 + 1);
        if b1 < 0 then NoTag else TagAt(b1, IndexOf(s, GT, b1 + 1))
      else if b0 < 0 then NoTag
      else TagAt(b0, e0)
  }

  /** The loop of `parse` from the cursor `start`. When no tag is left, one frame is
      popped and the rest of the text is emitted; otherwise the tag is handled and the
      cursor moves past it. */
  function ParseFrom(s: Str, start: nat, st: State): (r: State)
    decreases |s| - start, 2
  {
    if start >= |s| then st else Resume(s, start, st, FindTag(s, start))
  }

  /** A tag found from the cursor lies past it, so moving past the tag advances. */
  predicate Advances(t: TagPos, start: nat)
  {
    t.TagAt? ==> (t.end == -1 && t.begin >= start) || t.end >= start
  }

  /** The loop body once the search from the cursor has given `t`. */
  function Resume(s: Str, start: nat, st: State, t: TagPos): (r: State)
    requires start < |s| && Advances(t, start)
    decreases |s| - start, 1
  {
    if t.NoTag? then ProcessResult(State(Pop(st.stack), st.runs), s[start..])
    else PastTag(s, start, st, t)
  }

  /** The tag `t` is handled and the loop goes on past it. */
  function PastTag(s: Str, start: nat, st: State, t: TagPos): (r: State)
    requires start < |s| && t.TagAt? && Advances(t, start)
    decreases |s| - start, 0
  {
    ParseFrom(s, After(t), AtTag(s, start, t.begin, t.end, st))
  }

  /** Where the cursor goes after a tag: past its `>`, or past its `<` when unclosed. */
  function After(t: TagPos): (r: nat)
    requires t.TagAt? && t.end >= -1
    ensures r > t.begin || r > t.end
  {
    if t.end == -1 then t.begin + 1 else t.end + 1
  }

  /** One tag found at `b`..`e`: the text before it is emitted (an empty tag `<>` stays in
      the text); then an unclosed tag is skipped, a closing tag pops one frame, and any
      other tag goes through `_addToStack`. */
  function AtTag(s: Str, start: nat, b: nat, e: int, st: State): (r: State)
    ensures RunsWellFormed(st.runs) ==> RunsWellFormed(r.runs)
  {
    var tag := Substring(s, b + 1, e);
    var text := if tag == [] then Substring(s, start, e + 1) else Substring(s, start, b);
    var st1 := ProcessResult(st, text);
    if e == -1 then st1
    else if b + 1 < |s| && s[b + 1] == SLASH then State(Pop(st1.stack), st1.runs)
    else
      var p := AttributeToObject(tag);
      assert RunsWellFormed(p.runs);
      assert RunsWellFormed(st1.runs) ==> RunsWellFormed(st1.runs + p.runs) by {
        if RunsWellFormed(st1.runs) { AppendWellFormed(st1.runs, p.runs); }
      }
      AddToStack(st1, tag)
  }

  /** `parse`: the result list and the stack are reset on entry, so the result depends on
      the input text alone. */
  function Parse(s: Str): (r: seq<Run>)
  {
    ParseFrom(s, 0, State([], [])).runs
  }

  // ---------------------------------------------------------------------------------
  // Properties of the scanner
  // ---------------------------------------------------------------------------------

  lemma {:induction false} ParseFromWellFormed(s: Str, start: nat, st: State)
    requires RunsWellFormed(st.runs)
    decreases |s| - start
    ensures RunsWellFormed(ParseFrom(s, start, st).runs)
  {
    if start < |s| {
      var t := FindTag(s, start);
      if t.TagAt? {
        assert ParseFrom(s, start, st) == PastTag(s, start, st, t);
        ParseFromWellFormed(s, After(t), AtTag(s, start, t.begin, t.end, st));
      }
    }
  }

  /** A tag step only appends to the result list. */
  lemma AtTagKeepsRuns(s: Str, start: nat, b: nat, e: int, st: State)
    ensures st.runs <= AtTag(s, start, b, e, st).runs
  {
    var tag := Substring(s, b + 1, e);
    var text := if tag == [] then Substring(s, start, e + 1) else Substring(s, start, b);
    var st1 := ProcessResult(st, text);
    assert st.runs <= st1.runs;
    if e != -1 && !(b + 1 < |s| && s[b + 1] == SLASH) {
      assert st1.runs <= AddToStack(st1, tag).runs;
    }
  }

  /** The loop only appends to the result list, so the runs a parser object already holds
      stay in front of the new ones: `parse` clears the list and the stack on entry, or a
      second call would return the first call's runs ahead of its own. */
  lemma {:induction false} ParseKeepsEarlierRuns(s: Str, start: nat, st: State)
    decreases |s| - start
    ensures st.runs <= ParseFrom(s, start, st).runs
  {
    if start < |s| {
      var t := FindTag(s, start);
      if t.TagAt? {
        assert ParseFrom(s, start, st) == PastTag(s, start, st, t);
        var st1 := AtTag(s, start, t.begin, t.end, st);
        AtTagKeepsRuns(s, start, t.begin, t.end, st);
        ParseKeepsEarlierRuns(s, After(t), st1);
      } else {
        assert ParseFrom(s, start, st) == Resume(s, start, st, NoTag);
      }
    }
  }

  /** Every run `parse` returns has text, except the runs of `<br/>` and `<img ... />`. */
  lemma ParseRunsWellFormed(s: Str)
    ensures RunsWellFormed(Parse(s))
  {
    ParseFromWellFormed(s, 0, State([], []));
  }

  /** Text without `<` is a single run with no style. */
  lemma TextWithoutTagIsOneRun(s: Str)
    requires |s| > 0 && LT !in s
    ensures Parse(s) == [Run(EscapeSpecialSymbol(s), None)]
  {
    var e0 := IndexOf(s, GT, 0);
    if e0 >= 0 {
      assert LastIndexOf(s, LT, e0) == -1;
    }
    assert FindTag(s, 0) == NoTag;
    assert ParseFrom(s, 0, State([], [])) == Resume(s, 0, State([], []), NoTag);
    assert s[0..] == s;
  }

  /** A tag `<...>` found from the cursor: its `>` is the first one from the cursor and no
      other `<` lies inside it. */
  lemma FindsPlainTag(s: Str, start: nat, b: nat, e: nat)
    requires start <= b < e < |s| && s[b] == LT && s[e] == GT
    requires forall k :: start <= k < e ==> s[k] != GT
    requires forall k :: b < k < e ==> s[k] != LT
    ensures FindTag(s, start) == TagAt(b, e)
  {
    IndexOfIsFirst(s, GT, start);
    assert IndexOf(s, GT, start) == e;
    var b0 := LastIndexOf(s, LT, e);
    LastIndexOfIsLast(s, LT, e);
    assert b0 >= b;
    assert b0 == b;
  }

  /** No `>` from the cursor on: no tag. */
  lemma FindsNoTag(s: Str, start: nat)
    requires forall k :: start <= k < |s| ==> s[k] != GT
    ensures FindTag(s, start) == NoTag
  {
    assert IndexOf(s, GT, start) == -1;
  }

  /** `color=` followed by a value that does not start with white space. */
  lemma ColorHeader(x: Str)
    requires |x| > 0 && !IsJsSpace(x[0])
    ensures ColorSizeHeader(S("color=") + x) == Some((6, true))
  {
    var a := S("color=") + x;
    assert a[0..5] == S("color");
    assert a[5..][0] == EQUALS;
    assert LeadingSpaces(a[5..]) == 0;
  }

  /** `color=x` with a value free of white space gives a frame holding just the colour. */
  lemma ColorTag(x: Str)
    requires |x| > 0 && forall k :: 0 <= k < |x| ==> !IsJsSpace(x[k])
    ensures AttributeToObject(S("color=") + x) == Parsed(map[Color := Text(x)], [])
  {
    var a := S("color=") + x;
    assert !IsJsSpace(a[0]) && a[|a| - 1] == x[|x| - 1];
    TrimTrimmed(a);
    ColorHeader(x);
    assert a[6..] == x;
    TrimTrimmed(x);
    assert IsJsSpace(SPACE);
    assert IndexOf(x, SPACE, 0) == -1;
  }

  /** `size=` followed by a value that does not start with white space. */
  lemma SizeHeader(x: Str)
    requires |x| > 0 && !IsJsSpace(x[0])
    ensures ColorSizeHeader(S("size=") + x) == Some((5, false))
  {
    var a := S("size=") + x;
    assert a[0] == 115;
    assert a[0..4] == S("size");
    assert a[4..][0] == EQUALS;
    assert LeadingSpaces(a[4..]) == 0;
  }

  /** `size=x` with a value free of white space gives a frame holding just the size,
      read by `parseInt`. */
  lemma SizeTag(x: Str)
    requires |x| > 0 && forall k :: 0 <= k < |x| ==> !IsJsSpace(x[k])
    ensures AttributeToObject(S("size=") + x) == Parsed(map[Size := Num(ParseInt(x, 0))], [])
  {
    var a := S("size=") + x;
    assert !IsJsSpace(a[0]) && a[|a| - 1] == x[|x| - 1];
    TrimTrimmed(a);
    SizeHeader(x);
    assert a[5..] == x;
    TrimTrimmed(x);
    assert IsJsSpace(SPACE);
    assert IndexOf(x, SPACE, 0) == -1;
  }

  /** A one-letter attribute is too short for the `color`, `size`, `br` and `img`
      headers. */
  lemma ShortHeaders(c: int)
    ensures ColorSizeHeader([c]).None? && !IsBreakTag([c]) && !IsImageTag([c])
  {
    assert |S("color")| == 5 && |S("size")| == 4 && |S("br")| == 2 && |S("img")| == 3;
  }

  /** ... and for the names of the style blocks. */
  lemma ShortStyleTags(c: int)
    ensures StyleTags([c]) == SimpleTag([c], map[])
  {
    var a: Str := [c];
    assert |S("cg")| == 2 && |S("face")| == 4 && |S("outline")| == 7 && |S("underlay")| == 8 && |S("glow")| == 4;
    var b1 := StyleBlock(a, S("cg"), GradientKeys, ColorGradient, DefaultGradient, map[]);
    assert b1 == (a, map[]);
    var b2 := StyleBlock(b1.0, S("face"), FaceKeys, Face, DefaultFace, b1.1);
    assert b2 == (a, map[]);
    var b3 := StyleBlock(b2.0, S("outline"), OutlineKeys, Outline, DefaultOutline, b2.1);
    assert b3 == (a, map[]);
    var b4 := StyleBlock(b3.0, S("underlay"), UnderlayKeys, Underlay, DefaultUnderlay, b3.1);
    assert b4 == (a, map[]);
  }

  /** The one-letter tags read by the `on|u|s|b|i` branch. */
  lemma OneLetterSimpleTag(c: int)
    requires c == 117 || c == 115 || c == 98 || c == 105
    ensures c == 117 ==> SimpleTag([c], map[]) == map[Underline := Flag(true), Offset := Num(Finite(0.0))]
    ensures c == 115 ==> SimpleTag([c], map[]) == map[Strikethrough := Flag(true), Offset := Num(Finite(0.0))]
    ensures c == 98 ==> SimpleTag([c], map[]) == map[Bold := Flag(true)]
    ensures c == 105 ==> SimpleTag([c], map[]) == map[Italic := Flag(true)]
  {
    var a: Str := [c];
    assert |S("on")| == 2;
    assert !StartsWith(a, S("on"));
    assert a[1..] == [];
    assert Trim(a[1..]) == [];
  }

  /** A one-letter tag `u`, `s`, `b` or `i` goes to the `on|u|s|b|i` branch with nothing
      else set (see `OneLetterSimpleTag` for the frame it gets). */
  lemma OneLetterTag(c: int)
    requires c == 117 || c == 115 || c == 98 || c == 105
    ensures AttributeToObject([c]) == Parsed(SimpleTag([c], map[]), [])
  {
    var a: Str := [c];
    assert !IsJsSpace(c);
    TrimTrimmed(a);
    ShortHeaders(c);
    ShortStyleTags(c);
  }

  /** A closing tag `</...>`: the text before it is emitted, then one frame is popped. */
  lemma ClosingTagStep(s: Str, start: nat, b: nat, e: nat, st: State)
    requires start <= b && b + 1 < e < |s| && s[b + 1] == SLASH
    ensures AtTag(s, start, b, e, st) == State(Pop(st.stack), ProcessResult(st, s[start..b]).runs)
  {
    assert Substring(s, b + 1, e) == s[b + 1..e];
  }

  /** Any other non-empty tag: the text before it is emitted, then the tag goes through
      `_addToStack`. */
  lemma OpeningTagStep(s: Str, start: nat, b: nat, e: nat, st: State)
    requires start <= b && b + 1 < e < |s| && s[b + 1] != SLASH
    ensures AtTag(s, start, b, e, st) == AddToStack(ProcessResult(st, s[start..b]), s[b + 1..e])
  {
    assert Substring(s, b + 1, e) == s[b + 1..e];
  }

  /** The loop moves past a closed tag `<...>` with no `>` before it and no `<` inside. */
  lemma ParseStep(s: Str, start: nat, st: State, b: nat, e: nat)
    requires start <= b < e < |s| && s[b] == LT && s[e] == GT
    requires forall k :: start <= k < e ==> s[k] != GT
    requires forall k :: b < k < e ==> s[k] != LT
    ensures ParseFrom(s, start, st) == ParseFrom(s, e + 1, AtTag(s, start, b, e, st))
  {
    ResumesAtTag(s, start, st, b, e);
    MovesPastTag(s, start, st, b, e);
  }

  lemma AfterClosedTag(b: nat, e: nat)
    ensures After(TagAt(b, e)) == e + 1
  {
  }

  lemma ResumesAtTag(s: Str, start: nat, st: State, b: nat, e: nat)
    requires start <= b < e < |s| && s[b] == LT && s[e] == GT
    requires forall k :: start <= k < e ==> s[k] != GT
    requires forall k :: b < k < e ==> s[k] != LT
    ensures ParseFrom(s, start, st) == Resume(s, start, st, TagAt(b, e))
  {
    FindsPlainTag(s, start, b, e);
  }

  lemma MovesPastTag(s: Str, start: nat, st: State, b: nat, e: nat)
    requires start <= b < e < |s|
    ensures Resume(s, start, st, TagAt(b, e)) == ParseFrom(s, e + 1, AtTag(s, start, b, e, st))
  {
    ResumePastTag(s, start, st, b, e);
    FromAfterClosedTag(s, b, e, AtTag(s, start, b, e, st));
  }

  lemma FromAfterClosedTag(s: Str, b: nat, e: nat, st: State)
    ensures ParseFrom(s, After(TagAt(b, e)), st) == ParseFrom(s, e + 1, st)
  {
    AfterClosedTag(b, e);
  }

  lemma ResumePastTag(s: Str, start: nat, st: State, b: nat, e: nat)
    requires start <= b < e < |s|
    ensures Resume(s, start, st, TagAt(b, e)) == ParseFrom(s, After(TagAt(b, e)), AtTag(s, start, b, e, st))
  {
    assert Resume(s, start, st, TagAt(b, e)) == PastTag(s, start, st, TagAt(b, e));
  }

  /** `<c>x</c>` for a one-letter tag and plain text `x`: one run holding `x` in the
      tag's style; the closing tag empties the stack again. */
  lemma OneLetterSpan(c: int, x: Str)
    requires c == 117 || c == 115 || c == 98 || c == 105
    requires |x| > 0 && LT !in x && GT !in x && 38 !in x
    ensures Parse([LT, c, GT] + x + [LT, SLASH, c, GT]) == [Run(x, Some(SimpleTag([c], map[])))]
  {
    var s := [LT, c, GT] + x + [LT, SLASH, c, GT];
    SpanOpens(c, s);
    SpanCloses(s, x, c, SimpleTag([c], map[]));
  }

  /** The opening one-letter tag pushes its frame on the empty stack. */
  lemma SpanOpens(c: int, s: Str)
    requires c == 117 || c == 115 || c == 98 || c == 105
    requires |s| > 3 && s[0] == LT && s[1] == c && s[2] == GT
    ensures ParseFrom(s, 0, State([], [])) == ParseFrom(s, 3, State([SimpleTag([c], map[])], []))
  {
    ShortTagStep(s, State([], []));
    FromOpenedTag(c, s);
  }

  /** The loop moves past a three-unit tag `<x>` at the start. */
  lemma ShortTagStep(s: Str, st: State)
    requires |s| > 3 && s[0] == LT && s[1] != LT && s[1] != GT && s[2] == GT
    ensures ParseFrom(s, 0, st) == ParseFrom(s, 3, AtTag(s, 0, 0, 2, st))
  {
    assert forall k :: 0 <= k < 2 ==> s[k] != GT;
    ParseStep(s, 0, st, 0, 2);
  }

  lemma FromOpenedTag(c: int, s: Str)
    requires c == 117 || c == 115 || c == 98 || c == 105
    requires |s| > 3 && s[0] == LT && s[1] == c && s[2] == GT
    ensures ParseFrom(s, 3, AtTag(s, 0, 0, 2, State([], []))) == ParseFrom(s, 3, State([SimpleTag([c], map[])], []))
  {
    OpensOnEmptyStack(c, s);
  }

  lemma OpensOnEmptyStack(c: int, s: Str)
    requires c == 117 || c == 115 || c == 98 || c == 105
    requires |s| > 3 && s[0] == LT && s[1] == c && s[2] == GT
    ensures AtTag(s, 0, 0, 2, State([], [])) == State([SimpleTag([c], map[])], [])
  {
    OpeningTagStep(s, 0, 0, 2, State([], []));
    assert s[1..2] == [c];
    assert ProcessResult(State([], []), s[0..0]) == State([], []);
    OneLetterTag(c);
  }

  /** Plain text then a closing tag ending the input: the text is emitted in the top
      frame's style, and the frame is popped. */
  lemma SpanCloses(s: Str, x: Str, c: int, f: Frame)
    requires |x| > 0 && LT !in x && GT !in x && 38 !in x && c != LT && c != GT
    requires |s| == |x| + 7 && s[3..|x| + 3] == x && s[|x| + 3..] == [LT, SLASH, c, GT]
    ensures ParseFrom(s, 3, State([f], [])) == State([], [Run(x, Some(f))])
  {
    var n := |x|;
    var st1 := State([f], []);
    assert forall k :: 3 <= k < n + 6 ==> s[k] != GT by {
      forall k | 3 <= k < n + 6 ensures s[k] != GT {
        if k < n + 3 { assert s[k] == x[k - 3]; }
        else { assert s[k] == s[n + 3..][k - n - 3]; }
      }
    }
    assert s[n + 3] == LT && s[n + 4] == SLASH && s[n + 6] == GT && s[n + 5] == c by {
      assert s[n + 3..][0] == LT && s[n + 3..][1] == SLASH && s[n + 3..][3] == GT;
      assert s[n + 5] == s[n + 3..][2];
    }
    ParseStep(s, 3, st1, n + 3, n + 6);
    ClosingTagStep(s, 3, n + 3, n + 6, st1);
    EscapeWithoutAmpersand(x);
  }

  /** `br/` is a line break: a newline frame, and an empty run carrying it. */
  lemma BreakTag()
    ensures AttributeToObject(S("br/")) == Parsed(NewLineFrame, [Run([], Some(NewLineFrame))])
  {
    var a := S("br/");
    assert a == [98, 114, SLASH];
    TrimTrimmed(a);
    assert |S("color")| == 5 && |S("size")| == 4;
    assert ColorSizeHeader(a).None?;
    assert a[..2] == S("br") && a[2..] == [SLASH];
    assert IsBreakTag(a);
  }

  /** Inside a span a line break emits its run and leaves the style stack as it was, so
      the text after it keeps the span's style. */
  lemma BreakKeepsStack(st: State)
    requires |st.stack| > 0
    ensures AddToStack(st, S("br/")) == State(st.stack, st.runs + [Run([], Some(NewLineFrame))])
  {
    BreakTag();
    assert Has(NewLineFrame, IsNewLine);
  }

  /** An `img` tag matches none of the `color`, `size` and `br` headers, so it gives an
      empty frame of its own and its attributes only as a run. */
  lemma ImageTag(attribute: Str)
    requires IsImageTag(Trim(attribute))
    ensures AttributeToObject(attribute) == Parsed(map[], ImageRuns(Trim(attribute)))
  {
    NoOtherHeader(Trim(attribute));
  }

  /** Text starting with `img` has no `color`, `size` or `br` header. */
  lemma NoOtherHeader(a: Str)
    requires StartsWith(a, S("img"))
    ensures ColorSizeHeader(a).None? && !IsBreakTag(a)
  {
    assert a[0] == a[..3][0] == 105;
  }

  /** Inside a span an `img` tag is pushed like a style tag: the frame it gives is
      empty, so the image test of `_addToStack` never holds and a copy of the top frame
      is pushed. The closing tag of the span then pops that copy, and the span's style
      stays on the stack for the text after it. */
  lemma ImageTagPushesTopCopy(st: State, tag: Str)
    requires |st.stack| > 0 && IsImageTag(Trim(tag))
    ensures AddToStack(st, tag) == State(st.stack + [st.stack[|st.stack| - 1]], st.runs + ImageRuns(Trim(tag)))
  {
    ImageTag(tag);
    EmptyChildIsParent(st.stack[|st.stack| - 1]);
  }

  /** An empty frame nested under `parent` is `parent`. */
  lemma EmptyChildIsParent(parent: Frame)
    ensures Inherit(map[], parent) == parent
  {
    assert Inherit(map[], parent).Keys == parent.Keys;
  }

  /** No keyword of `kws` from `i` on matches at `p` when the unit there is not white
      space and starts none of them. */
  lemma {:induction false} NoKeyAt(a: Str, p: nat, kws: seq<Keyword>, i: nat)
    requires p < |a| && !IsJsSpace(a[p])
    requires forall j :: i <= j < |kws| ==> Spelling(kws[j])[0] != a[p]
    decreases |kws| - i
    ensures AltAt(a, p, kws, i).None?
  {
    if i < |kws| {
      var kw := Spelling(kws[i]);
      assert LeadingSpaces(a[p..]) == 0;
      if p + |kw| <= |a| { assert a[p..p + |kw|][0] == a[p]; }
      NoKeyAt(a, p, kws, i + 1);
    }
  }

  /** Text without `=` holds no attribute keyword. */
  lemma NoEqualsNoKey(a: Str, kws: seq<Keyword>, p: nat)
    requires p <= |a| && EQUALS !in a
    ensures FindKey(a, kws, p).None?
  {
    var r := FindKey(a, kws, p);
    if r.Some? {
      assert false;
    }
  }

  /** The prefix `img src=` unit by unit. */
  lemma ImgSrcUnits(a: Str)
    requires |a| >= 8 && a[..8] == S("img src=")
    ensures a[0] == 105 && a[1] == 109 && a[2] == 103 && a[3] == SPACE
    ensures a[4] == 115 && a[5] == 114 && a[6] == 99 && a[7] == EQUALS
  {
    assert a[..8][0] == a[0] && a[..8][1] == a[1] && a[..8][2] == a[2] && a[..8][3] == a[3];
    assert a[..8][4] == a[4] && a[..8][5] == a[5] && a[..8][6] == a[6] && a[..8][7] == a[7];
  }

  /** No image keyword starts with a letter of `img`. */
  lemma ImageKeyInitials()
    ensures forall j :: 0 <= j < |ImageKeys| ==> Spelling(ImageKeys[j])[0] != 105
    ensures forall j :: 0 <= j < |ImageKeys| ==> Spelling(ImageKeys[j])[0] != 109
    ensures forall j :: 0 <= j < |ImageKeys| ==> Spelling(ImageKeys[j])[0] != 103
  {
    forall j | 0 <= j < |ImageKeys|
      ensures Spelling(ImageKeys[j])[0] != 105 && Spelling(ImageKeys[j])[0] != 109 && Spelling(ImageKeys[j])[0] != 103
    {
      var c := Spelling(ImageKeys[j])[0];
      assert c == 115 || c == 104 || c == 119 || c == 97 || c == 111 || c == 99 || c == 112;
    }
  }

  /** `\s*src\s*=` matches ` src=` at the space of `img src=`. */
  lemma SrcKeyAt(a: Str)
    requires |a| >= 8 && a[..8] == S("img src=")
    ensures KeyAt(a, 3, S("src"), true) == Some(5)
  {
    ImgSrcUnits(a);
    assert LeadingSpaces(a[3..]) == 1 by { assert a[3..][1..] == a[4..]; }
    assert a[4..7] == [115, 114, 99] == S("src");
    assert LeadingSpaces(a[7..]) == 0;
  }

  /** The image loop finds its first keyword in `img src=` at the space before `src`. */
  lemma SrcKeyFound(a: Str)
    requires |a| >= 8 && a[..8] == S("img src=")
    ensures FindKey(a, ImageKeys, 0) == Some(KeyMatch(3, 5, 0))
  {
    ImgSrcUnits(a);
    ImageKeyInitials();
    NoKeyAt(a, 0, ImageKeys, 0);
    NoKeyAt(a, 1, ImageKeys, 0);
    NoKeyAt(a, 2, ImageKeys, 0);
    SrcKeyAt(a);
    assert AltAt(a, 3, ImageKeys, 0) == Some(KeyMatch(3, 5, 0));
    assert FindKey(a, ImageKeys, 3) == Some(KeyMatch(3, 5, 0));
    assert FindKey(a, ImageKeys, 2) == FindKey(a, ImageKeys, 3);
    assert FindKey(a, ImageKeys, 1) == FindKey(a, ImageKeys, 2);
  }

  /** ... and cuts the attribute after the `=`. */
  lemma SrcKeyCut(a: Str)
    requires |a| >= 8 && a[..8] == S("img src=")
    ensures IndexOfSub(a, a[3..8], 0) == 3
  {
    ImgSrcUnits(a);
    var pat := a[3..8];
    assert pat[0] == SPACE;
    assert IndexOfSub(a, pat, 3) == 3;
    assert a[2..7][0] != SPACE;
    assert IndexOfSub(a, pat, 2) == 3;
    assert a[1..6][0] != SPACE;
    assert IndexOfSub(a, pat, 1) == 3;
    assert a[0..5][0] != SPACE;
  }

  /** `img src=` then `v`, split back into its parts. */
  lemma ImgSrcParts(v: Str)
    ensures var a := S("img src=") + v; |a| == |v| + 8 && a[..8] == S("img src=") && a[8..] == v
  {
  }

  /** Without a space, `indexOf(' ', k)` finds nothing from anywhere. */
  lemma NoSpaceFound(v: Str, from: int)
    requires SPACE !in v
    ensures IndexOf(v, SPACE, from) == -1
  {
    var r := IndexOf(v, SPACE, from);
    if r >= 0 { assert false; }
  }

  /** The one turn of the image loop on `img src=` then `v`: the pair `src = v`, and
      `v` left to scan. */
  lemma SrcPairAt(v: Str)
    requires forall k :: 0 <= k < |v| ==> !IsJsSpace(v[k]) && v[k] != EQUALS
    ensures PairAt(S("img src=") + v, ImageKeys, KeyMatch(3, 5, 0)) == (Pair(SrcAttr, v), v)
  {
    var a := S("img src=") + v;
    ImgSrcParts(v);
    SrcKeyCut(a);
    TrimTrimmed(v);
    assert IsJsSpace(SPACE);
    NoSpaceFound(v, if RightQuotation(v) + 1 >= |v| then -1 else RightQuotation(v) + 1);
    assert SubstringFrom(v, -1) == v;
  }

  /** A value without white space or `=` after `img src=` is read as one `src` pair
      holding the whole value. */
  lemma SrcPairs(v: Str)
    requires forall k :: 0 <= k < |v| ==> !IsJsSpace(v[k]) && v[k] != EQUALS
    ensures Pairs(S("img src=") + v, ImageKeys).pairs == [Pair(SrcAttr, v)]
  {
    var a := S("img src=") + v;
    ImgSrcParts(v);
    SrcKeyFound(a);
    SrcPairAt(v);
    NoEqualsNoKey(v, ImageKeys, 0);
    assert Pairs(v, ImageKeys) == Scan([], v);
  }

  /** `img src=` followed by a value that has a `/` after its first unit and no `>` is
      an image tag. */
  lemma SrcIsImageTag(v: Str)
    requires |v| > 1 && GT !in v && SLASH in v[1..]
    ensures IsImageTag(S("img src=") + v)
  {
    var a := S("img src=") + v;
    ImgSrcParts(v);
    ImgSrcUnits(a);
    assert a[..3] == S("img") by { assert a[..3] == [105, 109, 103]; }
    assert LeadingSpaces(a[3..]) == 1 by { assert a[3..][1..] == a[4..]; }
    assert KeyAt(a, 4, S("src"), false) == Some(4) by {
      assert a[4..7] == [115, 114, 99] == S("src");
      assert LeadingSpaces(a[7..]) == 0;
    }
    assert IndexOf(a, GT, 8) == -1 by {
      var g := IndexOf(a, GT, 8);
      if g >= 0 { assert false; }
    }
    var j :| 0 <= j < |v[1..]| && v[1..][j] == SLASH;
    assert a[9 + j] == SLASH;
    IndexOfIsFirst(a, SLASH, 9);
  }

  /** The image loop over the single pair `src = v`. */
  lemma SrcFields(v: Str)
    ensures ImageFields([Pair(SrcAttr, v)], map[], false)
         == (map[IsImage := Flag(true), Src := Text(SrcValue(v))], StartsQuoted(DropSlash(v)))
  {
    var step := ImageField(map[], SrcAttr, v);
    assert step.0 == map[IsImage := Flag(true), Src := Text(SrcValue(v))];
    assert ImageFields([Pair(SrcAttr, v)], map[], false) == ImageFields([], step.0, step.1);
  }

  /** The `img` tags with a plain `src` value: a value that starts with a quote gives
      exactly one image run whose source is the value without its trailing `/` and its
      quotes; any other value gives no run. Either way the tag's own frame is empty. */
  lemma SrcImageTag(v: Str)
    requires |v| > 1 && GT !in v && SLASH in v[1..]
    requires forall k :: 0 <= k < |v| ==> !IsJsSpace(v[k]) && v[k] != EQUALS
    ensures AttributeToObject(S("img src=") + v).frame == map[]
    ensures StartsQuoted(DropSlash(v)) ==>
              AttributeToObject(S("img src=") + v).runs
                == [Run([], Some(map[IsImage := Flag(true), Src := Text(Unquote(DropSlash(v)))]))]
    ensures !StartsQuoted(DropSlash(v)) ==> AttributeToObject(S("img src=") + v).runs == []
  {
    var a := S("img src=") + v;
    assert !IsJsSpace(a[0]) && a[|a| - 1] == v[|v| - 1];
    TrimTrimmed(a);
    SrcIsImageTag(v);
    ImageTag(a);
    SrcPairs(v);
    SrcFields(v);
  }

  /** `img src='x'/` gives one image run for the source `x`. */
  lemma QuotedImageTag()
    ensures AttributeToObject(S("img src='x'/"))
         == Parsed(map[], [Run([], Some(map[IsImage := Flag(true), Src := Text(S("x"))]))])
  {
    var v := S("'x'/");
    assert v == [SQUOTE, 120, SQUOTE, SLASH];
    assert S("img src='x'/") == S("img src=") + v;
    assert v[1..][2] == SLASH;
    assert DropSlash(v) == [SQUOTE, 120, SQUOTE];
    assert Unquote(DropSlash(v)) == S("x");
    SrcImageTag(v);
  }

  /** `img src=x/` names its source without quotes: the tag gives no run. */
  lemma UnquotedImageTag()
    ensures AttributeToObject(S("img src=x/")) == Parsed(map[], [])
  {
    var v := S("x/");
    assert v == [120, SLASH];
    assert S("img src=x/") == S("img src=") + v;
    assert v[1..][0] == SLASH;
    assert DropSlash(v) == [120];
    SrcImageTag(v);
  }

  /** A tag left open at the end of the input loses its style: when no tag is left the
      loop pops a frame before emitting the remaining text. */
  lemma UnclosedSpanLosesStyle(c: int, x: Str)
    requires c == 117 || c == 115 || c == 98 || c == 105
    requires |x| > 0 && GT !in x && 38 !in x
    ensures Parse([LT, c, GT] + x) == [Run(x, None)]
  {
    var s := [LT, c, GT] + x;
    SpanOpens(c, s);
    assert forall k :: 3 <= k < |s| ==> s[k] != GT by {
      forall k | 3 <= k < |s| ensures s[k] != GT {
        assert s[k] == x[k - 3];
      }
    }
    var st := State([SimpleTag([c], map[])], []);
    TailStep(s, 3, st);
    assert s[3..] == x;
    EscapeWithoutAmpersand(x);
    assert ProcessResult(State([], []), x) == State([], [Run(x, None)]);
    assert ParseFrom(s, 0, State([], [])) == State([], [Run(x, None)]);
  }

  /** No `>` left: one frame is popped and the rest of the text is emitted. */
  lemma TailStep(s: Str, start: nat, st: State)
    requires start < |s| && forall k :: start <= k < |s| ==> s[k] != GT
    ensures ParseFrom(s, start, st) == ProcessResult(State(Pop(st.stack), st.runs), s[start..])
  {
    FindsNoTag(s, start);
    assert ParseFrom(s, start, st) == Resume(s, start, st, NoTag);
  }

  /** An empty attribute gives an empty frame. */
  lemma EmptyAttribute()
    ensures AttributeToObject([]) == Parsed(map[], [])
  {
    TrimTrimmed([]);
    EmptyHeaders();
    ShortStyleTagsEmpty();
  }

  lemma EmptyHeaders()
    ensures ColorSizeHeader([]).None? && !IsBreakTag([]) && !IsImageTag([])
  {
    assert |S("color")| == 5 && |S("size")| == 4 && |S("br")| == 2 && |S("img")| == 3;
  }

  lemma ShortStyleTagsEmpty()
    ensures StyleTags([]) == map[]
  {
    var a: Str := [];
    assert |S("cg")| == 2 && |S("face")| == 4 && |S("outline")| == 7 && |S("underlay")| == 8 && |S("glow")| == 4;
    assert |S("on")| == 2;
  }

  /** `<>` is not a tag: it stays in the text before it, and it still pushes an empty
      frame, so the text after it becomes a run of its own. */
  lemma EmptyTagStaysInText(x: Str, y: Str)
    requires LT !in x && GT !in x && 38 !in x
    requires |y| > 0 && LT !in y && GT !in y && 38 !in y
    ensures Parse(x + [LT, GT] + y) == [Run(x + [LT, GT], None), Run(y, None)]
  {
    var s := x + [LT, GT] + y;
    EmptyTagSplit(x, y, s);
    EmptyTagFirst(s, |x|);
    PlainTail(s, |x| + 2, y, [Run(x + [LT, GT], None)]);
  }

  lemma EmptyTagSplit(x: Str, y: Str, s: Str)
    requires LT !in x && GT !in x && 38 !in x && s == x + [LT, GT] + y
    ensures |x| + 1 < |s| && s[|x|] == LT && s[|x| + 1] == GT
    ensures s[..|x| + 2] == x + [LT, GT] && s[|x| + 2..] == y
    ensures forall k :: 0 <= k < |x| ==> s[k] != GT && s[k] != LT && s[k] != 38
  {
    forall k | 0 <= k < |x| ensures s[k] != GT && s[k] != LT && s[k] != 38 { assert s[k] == x[k]; }
    assert s[..|x| + 2] == x + [LT, GT];
    assert s[|x| + 2..] == y;
  }

  /** Plain text up to the end below a single frame is emitted without style. */
  lemma PlainTail(s: Str, start: nat, y: Str, runs: seq<Run>)
    requires |y| > 0 && GT !in y && 38 !in y && start <= |s| && s[start..] == y
    ensures ParseFrom(s, start, State([map[]], runs)) == State([], runs + [Run(y, None)])
  {
    assert forall k :: start <= k < |s| ==> s[k] != GT by {
      forall k | start <= k < |s| ensures s[k] != GT { assert s[k] == y[k - start]; }
    }
    TailStep(s, start, State([map[]], runs));
    EscapeWithoutAmpersand(y);
  }

  /** Up to the first `<>` of text holding no other `<`, `>` or `&`. */
  lemma EmptyTagFirst(s: Str, n: nat)
    requires n + 1 < |s| && s[n] == LT && s[n + 1] == GT
    requires forall k :: 0 <= k < n ==> s[k] != GT && s[k] != LT && s[k] != 38
    ensures ParseFrom(s, 0, State([], [])) == ParseFrom(s, n + 2, State([map[]], [Run(s[..n + 2], None)]))
  {
    ParseStep(s, 0, State([], []), n, n + 1);
    EmptyTagStep(s, n);
  }

  /** The step at `<>`: the text up to and including it is emitted, then the empty frame
      is pushed. */
  lemma EmptyTagStep(s: Str, n: nat)
    requires n + 1 < |s| && s[n] == LT && s[n + 1] == GT
    requires forall k :: 0 <= k < n ==> s[k] != 38
    ensures AtTag(s, 0, n, n + 1, State([], [])) == State([map[]], [Run(s[..n + 2], None)])
  {
    var t := s[..n + 2];
    assert 38 !in t by {
      forall k | 0 <= k < |t| ensures t[k] != 38 { assert t[k] == s[k]; }
    }
    assert Substring(s, n + 1, n + 1) == [];
    assert Substring(s, 0, n + 2) == s[..n + 2];
    EscapeWithoutAmpersand(s[..n + 2]);
    EmptyAttribute();
  }

  /** The entity table as code units. */
  lemma EntityUnits()
    ensures Entities == [([38, 108, 116, 59], [LT]), ([38, 103, 116, 59], [GT]),
                         ([38, 97, 109, 112, 59], [38]), ([38, 113, 117, 111, 116, 59], [DQUOTE]),
                         ([38, 97, 112, 111, 115, 59], [SQUOTE]), ([38, 110, 98, 115, 112, 59], [SPACE])]
  {
    assert S("&lt;") == [38, 108, 116, 59] && S("<") == [LT];
    assert S("&gt;") == [38, 103, 116, 59] && S(">") == [GT];
    assert S("&amp;") == [38, 97, 109, 112, 59] && S("&") == [38];
    assert S("&quot;") == [38, 113, 117, 111, 116, 59] && S("\"") == [DQUOTE];
    assert S("&apos;") == [38, 97, 112, 111, 115, 59] && S("'") == [SQUOTE];
    assert S("&nbsp;") == [38, 110, 98, 115, 112, 59] && S(" ") == [SPACE];
  }

  /** The entities are replaced one after the other over the whole text, so an escaped
      ampersand followed by the name of a later entity is decoded twice: `&amp;quot;`
      becomes `"` rather than `&quot;`. */
  lemma EscapedAmpersandDecodedTwice()
    ensures EscapeSpecialSymbol(S("&amp;quot;")) == [DQUOTE]
  {
    assert S("&amp;quot;") == [38, 97, 109, 112, 59, 113, 117, 111, 116, 59];
    EntitiesWellFormed();
    DecodeTwiceUnits();
  }

  lemma DecodeTwiceUnits()
    ensures EntityTable(Entities)
    ensures ReplaceEach([38, 97, 109, 112, 59, 113, 117, 111, 116, 59], Entities) == [DQUOTE]
  {
    EntityUnits();
    EntitiesWellFormed();
    var e := Entities;
    DecodeSkipsFirstTwo([38, 97, 109, 112, 59, 113, 117, 111, 116, 59], e);
    assert e[2..][0] == ([38, 97, 109, 112, 59], [38]);
    assert e[2..][1] == ([38, 113, 117, 111, 116, 59], [DQUOTE]);
    DecodeLastFour(e[2..]);
  }

  /** `&lt;` and `&gt;` do not occur in text such as `&amp;quot;`, whose second unit is
      `a` and whose only `&` is the first unit. */
  lemma DecodeSkipsFirstTwo(s: Str, es: seq<(Str, Str)>)
    requires EntityTable(es) && |es| >= 2
    requires es[0].0 == [38, 108, 116, 59] && es[1].0 == [38, 103, 116, 59]
    requires |s| > 1 && s[1] == 97 && forall k :: 0 < k < |s| ==> s[k] != 38
    ensures ReplaceEach(s, es) == ReplaceEach(s, es[2..])
  {
    var es1 := es[1..];
    assert es1[0] == es[1];
    NotPrefixAt(s, es[0].0, 1);
    SkipEntity(s, es);
    NotPrefixAt(s, es1[0].0, 1);
    SkipEntity(s, es1);
    assert es1[1..] == es[2..];
  }

  /** A unit that differs keeps `b` from being a prefix of `a`. */
  lemma NotPrefixAt(a: Str, b: Str, k: nat)
    requires k < |b| && k < |a| && a[k] != b[k]
    ensures !(|b| <= |a| && a[..|b|] == b)
  {
  }

  /** `&amp;` turns `&amp;quot;` into `&quot;`, which `&quot;` then decodes. */
  lemma DecodeLastFour(es: seq<(Str, Str)>)
    requires EntityTable(es) && |es| >= 2
    requires es[0] == ([38, 97, 109, 112, 59], [38]) && es[1] == ([38, 113, 117, 111, 116, 59], [DQUOTE])
    ensures ReplaceEach([38, 97, 109, 112, 59, 113, 117, 111, 116, 59], es) == [DQUOTE]
  {
    AmpersandFirst(es[0].0 + es[1].0[1..], es);
    assert es[0].0 + es[1].0[1..] == [38, 97, 109, 112, 59, 113, 117, 111, 116, 59];
    assert es[0].1 + es[1].0[1..] == es[1].0;
    DecodeQuot(es[1..]);
  }

  /** Text made of the first entity's name and then `&`-free text: that name is
      replaced. */
  lemma AmpersandFirst(s: Str, es: seq<(Str, Str)>)
    requires EntityTable(es) && |es| >= 2
    requires es[0].0 == [38, 97, 109, 112, 59] && es[1].0 == [38, 113, 117, 111, 116, 59]
    requires s == es[0].0 + es[1].0[1..]
    ensures ReplaceEach(s, es) == ReplaceEach(es[0].1 + es[1].0[1..], es[1..])
  {
    assert s[..5] == es[0].0 && s[5..] == es[1].0[1..];
    LeadingEntity(s, es);
  }

  lemma DecodeQuot(es: seq<(Str, Str)>)
    requires EntityTable(es) && |es| >= 1
    requires es[0] == ([38, 113, 117, 111, 116, 59], [DQUOTE])
    ensures ReplaceEach([38, 113, 117, 111, 116, 59], es) == [DQUOTE]
  {
    var s3: Str := [38, 113, 117, 111, 116, 59];
    assert s3[..6] == es[0].0 && s3[6..] == [];
    LeadingEntity(s3, es);
    assert es[0].1 + s3[6..] == [DQUOTE];
    ReplaceEachNoAmpersand([DQUOTE], es[1..]);
  }

  /** An entity whose name does not occur leaves the text alone. */
  lemma SkipEntity(s: Str, es: seq<(Str, Str)>)
    requires EntityTable(es) && |es| > 0
    requires forall k :: 0 < k < |s| ==> s[k] != 38
    requires !(|es[0].0| <= |s| && s[..|es[0].0|] == es[0].0)
    ensures ReplaceEach(s, es) == ReplaceEach(s, es[1..])
  {
    NoOccurrence(s, es[0].0);
  }

  /** An entity whose name starts `&`-free text is replaced there. */
  lemma LeadingEntity(s: Str, es: seq<(Str, Str)>)
    requires EntityTable(es) && |es| > 0
    requires |es[0].0| <= |s| && s[..|es[0].0|] == es[0].0
    requires forall k :: |es[0].0| <= k < |s| ==> s[k] != 38
    ensures ReplaceEach(s, es) == ReplaceEach(es[0].1 + s[|es[0].0|..], es[1..])
  {
    LeadingMatchReplaced(s, es[0].0, es[0].1);
  }

  /** A pattern starting with `&` cannot occur in text whose only `&` is its first unit,
      unless it occurs right there. */
  lemma NoOccurrence(s: Str, pat: Str)
    requires |pat| > 0 && pat[0] == 38
    requires forall k :: 0 < k < |s| ==> s[k] != 38
    requires !(|pat| <= |s| && s[..|pat|] == pat)
    ensures IndexOfSub(s, pat, 0) == -1
  {
    var k := IndexOfSub(s, pat, 0);
  }

  /** Text that is the pattern followed by `&`-free text: the one occurrence is
      replaced. */
  lemma LeadingMatchReplaced(s: Str, pat: Str, rep: Str)
    requires |pat| > 0 && pat[0] == 38 && |pat| <= |s| && s[..|pat|] == pat
    requires forall k :: |pat| <= k < |s| ==> s[k] != 38
    ensures ReplaceAll(s, pat, rep) == rep + s[|pat|..]
  {
    LeadingOccurrence(s, pat);
    var t := s[|pat|..];
    NoAmpersandFrom(s, |pat|);
    NoAmpersandNoMatch(t, pat);
    assert ReplaceAll(s, pat, rep) == s[..0] + rep + ReplaceAll(t, pat, rep);
    assert s[..0] + rep == rep;
  }

  /** A text that starts with `pat` has its first occurrence at 0. */
  lemma LeadingOccurrence(s: Str, pat: Str)
    requires |pat| <= |s| && s[..|pat|] == pat
    ensures IndexOfSub(s, pat, 0) == 0
  {
    assert s[0..|pat|] == pat;
  }

  /** No `&` from `n` on leaves none in the rest. */
  lemma NoAmpersandFrom(s: Str, n: nat)
    requires n <= |s| && forall k :: n <= k < |s| ==> s[k] != 38
    ensures 38 !in s[n..]
  {
    var t := s[n..];
    forall k | 0 <= k < |t| ensures t[k] != 38 { assert t[k] == s[k + n]; }
  }
}


=== FILE: js.dfy ===
/** The JavaScript string and number primitives the text engine relies on,
    stated over UTF-16 code units (`seq<int>`), with the edge cases the
    ECMAScript library gives them: index clamping and argument swapping in
    `substring`, negative start positions in `indexOf`, the white-space set
    of `trim` and `\s`, and the grammars of `parseInt` and `Number`. */
module Js {
  import opened Wrappers

  /** A JavaScript string: a sequence of UTF-16 code units. */
  type Str = seq<int>

  /** Converts a Dafny literal (ASCII text only in this model) to code units. */
  function S(s: string): (r: Str)
    ensures |r| == |s|
    ensures forall i :: 0 <= i < |s| ==> r[i] == s[i] as int
  {
    seq(|s|, i requires 0 <= i < |s| => s[i] as int)
  }

  const LF := 10
  const CR := 13
  const SPACE := 32

  predicate IsHighSurrogate(c: int) { 0xD800 <= c <= 0xDBFF }
  predicate IsLowSurrogate(c: int) { 0xDC00 <= c <= 0xDFFF }

  /** ECMAScript WhiteSpace plus LineTerminator: what `trim` strips and `\s` matches. */
  predicate IsJsSpace(c: int) {
    (9 <= c <= 13) || c == 32 || c == 160 || c == 0x1680 || (0x2000 <= c <= 0x200A)
    || c == 0x2028 || c == 0x2029 || c == 0x202F || c == 0x205F || c == 0x3000 || c == 0xFEFF
  }

  predicate IsAsciiLetter(c: int) { (65 <= c <= 90) || (97 <= c <= 122) }
  predicate IsDigit(c: int) { 48 <= c <= 57 }

  function Min(a: int, b: int): int { if a <= b then a else b }
  function Max(a: int, b: int): int { if a >= b then a else b }

  function Clamp(i: int, n: nat): (r: nat)
    ensures r <= n
    ensures 0 <= i <= n ==> r == i
    ensures i < 0 ==> r == 0
    ensures i > n ==> r == n
  {
    if i < 0 then 0 else if i > n then n else i
  }

  /** `s.substring(a, b)`: both ends clamped to the string, swapped when out of order. */
  function Substring(s: Str, a: int, b: int): (r: Str)
    ensures |r| <= |s|
    ensures 0 <= a <= b <= |s| ==> r == s[a..b]
    ensures 0 <= b <= a <= |s| ==> r == s[b..a]
    ensures a <= 0 ==> r == s[..Clamp(b, |s|)]
  {
    var x := Clamp(a, |s|);
    var y := Clamp(b, |s|);
    if x <= y then s[x..y] else s[y..x]
  }

  /** `s.substring(a)`: from a clamped start to the end. */
  function SubstringFrom(s: Str, a: int): (r: Str)
    ensures 0 <= a <= |s| ==> r == s[a..]
    ensures a < 0 ==> r == s
    ensures a >= |s| ==> r == []
  {
    Substring(s, a, |s|)
  }

  /** `s.substr(start, len)` for a non-negative start (all the engine uses). */
  function Substr(s: Str, start: nat, len: int): (r: Str)
    ensures start + len <= |s| && len >= 0 ==> r == s[start..start + len]
  {
    var a := Min(start, |s|);
    var b := Min(a + Max(len, 0), |s|);
    s[a..b]
  }

  /** `s.indexOf(c, from)` for a one-unit search string; a negative `from` counts as 0.
      That no earlier unit matches is `IndexOfIsFirst`. */
  function IndexOf(s: Str, c: int, from: int): (r: int)
    decreases |s| - from
    ensures -1 <= r < |s|
    ensures r >= 0 ==> r >= from && s[r] == c
  {
    if from < 0 then IndexOf(s, c, 0)
    else if from >= |s| then -1
    else if s[from] == c then from
    else IndexOf(s, c, from + 1)
  }

  /** `indexOf` finds the first match: no unit from `from` up to the result (up to the
      end when there is none) is `c`. */
  lemma {:induction false} IndexOfIsFirst(s: Str, c: int, from: int)
    decreases |s| - from
    ensures IndexOf(s, c, from) >= 0 ==> forall k :: Max(from, 0) <= k < IndexOf(s, c, from) ==> s[k] != c
    ensures IndexOf(s, c, from) == -1 ==> forall k :: Max(from, 0) <= k < |s| ==> s[k] != c
  {
    if from < 0 {
      IndexOfIsFirst(s, c, 0);
    } else if from < |s| && s[from] != c {
      IndexOfIsFirst(s, c, from + 1);
    }
  }

  /** In `x + [c] + rest` with no `c` in `x`, the first `c` is the one after `x`. */
  lemma IndexAfterPrefix(x: Str, c: int, rest: Str)
    requires c !in x
    ensures IndexOf(x + [c] + rest, c, 0) == |x|
  {
    var s := x + [c] + rest;
    assert s[|x|] == c;
    assert forall j :: 0 <= j < |x| ==> s[j] == x[j];
    IndexOfIsFirst(s, c, 0);
  }

  /** Backward search helper: the largest k <= i with s[k] == c, or -1. */
  function LastIndexAt(s: Str, c: int, i: int): (r: int)
    requires -1 <= i < |s|
    decreases i + 1
    ensures -1 <= r <= i
    ensures r >= 0 ==> s[r] == c
  {
    if i < 0 then -1
    else if s[i] == c then i
    else LastIndexAt(s, c, i - 1)
  }

  /** The backward search finds the last match: no unit after the result up to `i` is `c`. */
  lemma {:induction false} LastIndexAtIsLast(s: Str, c: int, i: int)
    requires -1 <= i < |s|
    decreases i + 1
    ensures forall k :: LastIndexAt(s, c, i) < k <= i ==> s[k] != c
  {
    if i >= 0 && s[i] != c {
      LastIndexAtIsLast(s, c, i - 1);
    }
  }

  /** `s.lastIndexOf(c, pos)` for a one-unit search string: the start is clamped to the string. */
  function LastIndexOf(s: Str, c: int, pos: int): (r: int)
    ensures -1 <= r < |s|
    ensures r >= 0 ==> r <= Max(pos, 0) && s[r] == c
  {
    LastIndexAt(s, c, Min(Clamp(pos, |s|), |s| - 1))
  }

  /** `lastIndexOf` finds the last match at or before the clamped start. */
  lemma LastIndexOfIsLast(s: Str, c: int, pos: int)
    ensures forall k :: LastIndexOf(s, c, pos) < k <= Max(pos, 0) && k < |s| ==> s[k] != c
  {
    LastIndexAtIsLast(s, c, Min(Clamp(pos, |s|), |s| - 1));
  }

  predicate OccursAt(s: Str, pat: Str, k: int) {
    0 <= k && k + |pat| <= |s| && s[k..k + |pat|] == pat
  }

  /** `s.indexOf(pat, from)` for a search string of any length. */
  function IndexOfSub(s: Str, pat: Str, from: int): (r: int)
    decreases |s| - from
    ensures -1 <= r <= |s|
    ensures r >= 0 ==> r >= from && OccursAt(s, pat, r)
    ensures r >= 0 ==> forall k :: Max(from, 0) <= k < r ==> !OccursAt(s, pat, k)
    ensures r == -1 ==> forall k :: Max(from, 0) <= k ==> !OccursAt(s, pat, k)
  {
    if from < 0 then IndexOfSub(s, pat, 0)
    else if from + |pat| > |s| then -1
    else if s[from..from + |pat|] == pat then from
    else IndexOfSub(s, pat, from + 1)
  }

  /** Number of leading white-space units. */
  function LeadingSpaces(s: Str): (n: nat)
    ensures n <= |s|
    ensures forall k {:trigger IsJsSpace(s[k])} :: 0 <= k < n ==> IsJsSpace(s[k])
    ensures n < |s| ==> !IsJsSpace(s[n])
  {
    if |s| == 0 || !IsJsSpace(s[0]) then 0 else 1 + LeadingSpaces(s[1..])
  }

  /** Number of trailing white-space units. */
  function TrailingSpaces(s: Str): (n: nat)
    ensures n <= |s|
    ensures forall k {:trigger IsJsSpace(s[k])} :: |s| - n <= k < |s| ==> IsJsSpace(s[k])
    ensures n < |s| ==> !IsJsSpace(s[|s| - n - 1])
  {
    if |s| == 0 || !IsJsSpace(s[|s| - 1]) then 0 else 1 + TrailingSpaces(s[..|s| - 1])
  }

  /** `s.trim()`: white space is dropped from the front, then from the back, one unit at
      a time. `TrimIsSlice` states the result as the slice of `s` between its leading and
      trailing white space. */
  function Trim(s: Str): (r: Str)
    decreases |s|
    ensures |r| <= |s|
    ensures |r| > 0 ==> !IsJsSpace(r[0]) && !IsJsSpace(r[|r| - 1])
    ensures (forall k :: 0 <= k < |s| ==> IsJsSpace(s[k])) ==> r == []
  {
    if |s| > 0 && IsJsSpace(s[0]) then Trim(s[1..])
    else if |s| > 0 && IsJsSpace(s[|s| - 1]) then Trim(s[..|s| - 1])
    else s
  }

  /** `Trim(s)` is the slice of `s` after its leading white space, and only white space
      follows it. */
  predicate TrimmedSlice(s: Str)
  {
    LeadingSpaces(s) + |Trim(s)| <= |s|
    && Trim(s) == s[LeadingSpaces(s)..LeadingSpaces(s) + |Trim(s)|]
    && forall k {:trigger IsJsSpace(s[k])} :: LeadingSpaces(s) + |Trim(s)| <= k < |s| ==> IsJsSpace(s[k])
  }

  /** What `trim` keeps is what lies between the leading and the trailing white space. */
  lemma {:induction false} TrimIsSlice(s: Str)
    decreases |s|, 1
    ensures TrimmedSlice(s)
  {
    if |s| > 0 && IsJsSpace(s[0]) {
      TrimSliceFront(s);
    } else if |s| > 0 && IsJsSpace(s[|s| - 1]) {
      TrimSliceBack(s);
    } else {
      assert LeadingSpaces(s) == 0;
      assert s[0..|s|] == s;
    }
  }

  /** A leading white-space unit: the slice moves one place to the right. */
  lemma {:induction false} TrimSliceFront(s: Str)
    requires |s| > 0 && IsJsSpace(s[0])
    decreases |s|, 0
    ensures TrimmedSlice(s)
  {
    var u := s[1..];
    TrimIsSlice(u);
    assert Trim(s) == Trim(u);
    assert LeadingSpaces(s) == 1 + LeadingSpaces(u);
    var a, b := LeadingSpaces(u), LeadingSpaces(u) + |Trim(u)|;
    SliceOfTail(s, a, b);
    forall k | b + 1 <= k < |s|
      ensures IsJsSpace(s[k])
    {
      assert s[k] == u[k - 1];
    }
  }

  lemma SliceOfTail(s: Str, a: nat, b: nat)
    requires 0 < |s| && a <= b <= |s| - 1
    ensures s[1..][a..b] == s[a + 1..b + 1]
  {
    forall k | 0 <= k < b - a ensures s[1..][a..b][k] == s[a + 1..b + 1][k] {
      assert s[1..][a..b][k] == s[a + 1 + k];
    }
  }

  /** A trailing white-space unit after a non-space first unit: the slice starts at 0 and
      does not reach the last unit. */
  lemma {:induction false} TrimSliceBack(s: Str)
    requires |s| > 0 && !IsJsSpace(s[0]) && IsJsSpace(s[|s| - 1])
    decreases |s|, 0
    ensures TrimmedSlice(s)
  {
    var u := s[..|s| - 1];
    TrimIsSlice(u);
    assert Trim(s) == Trim(u);
    assert |s| > 1 && u[0] == s[0];
    assert LeadingSpaces(s) == 0 && LeadingSpaces(u) == 0;
    var n := |Trim(u)|;
    assert u[..n] == s[..n];
    forall k | n <= k < |s|
      ensures IsJsSpace(s[k])
    {
      if k < |s| - 1 { assert s[k] == u[k]; }
    }
  }

  /** `s.toLowerCase()` restricted to the ASCII letters: letters outside ASCII are kept
      as they are. */
  function AsciiLower(s: Str): (r: Str)
    ensures |r| == |s|
    ensures forall k :: 0 <= k < |s| ==> r[k] == (if 65 <= s[k] <= 90 then s[k] + 32 else s[k])
  {
    if |s| == 0 then [] else [if 65 <= s[0] <= 90 then s[0] + 32 else s[0]] + AsciiLower(s[1..])
  }

  /** `s.replace(pat, rep)` with a string pattern: only the first occurrence is replaced. */
  function ReplaceFirst(s: Str, pat: Str, rep: Str): (r: Str)
    ensures IndexOfSub(s, pat, 0) == -1 ==> r == s
    ensures IndexOfSub(s, pat, 0) >= 0 ==>
      var k := IndexOfSub(s, pat, 0); r == s[..k] + rep + s[k + |pat|..]
  {
    var k := IndexOfSub(s, pat, 0);
    if k < 0 then s else s[..k] + rep + s[k + |pat|..]
  }

  /** `s.replace(/pat/g, rep)` for a non-empty literal pattern, scanning left to right. */
  function ReplaceAll(s: Str, pat: Str, rep: Str): (r: Str)
    requires |pat| > 0
    decreases |s|
    ensures IndexOfSub(s, pat, 0) == -1 ==> r == s
    ensures IndexOfSub(s, pat, 0) >= 0 ==> |r| >= |rep|
  {
    var k := IndexOfSub(s, pat, 0);
    if k < 0 then s else s[..k] + rep + ReplaceAll(s[k + |pat|..], pat, rep)
  }

  /** Splits on every occurrence of the unit `sep` (`s.split(sep)`). `SplitPartsLackSep`
      states that no part holds the separator. */
  function Split(s: Str, sep: int): (r: seq<Str>)
    decreases |s|
    ensures |r| >= 1
  {
    var k := IndexOf(s, sep, 0);
    if k < 0 then [s] else [s[..k]] + Split(s[k + 1..], sep)
  }

  /** No part of a split holds the separator. */
  lemma {:induction false} SplitPartsLackSep(s: Str, sep: int)
    decreases |s|
    ensures forall i :: 0 <= i < |Split(s, sep)| ==> sep !in Split(s, sep)[i]
  {
    var k := IndexOf(s, sep, 0);
    IndexOfIsFirst(s, sep, 0);
    if k < 0 {
      assert Split(s, sep) == [s];
      assert forall j :: 0 <= j < |s| ==> s[j] != sep;
    } else {
      var head := s[..k];
      var rest := Split(s[k + 1..], sep);
      SplitPartsLackSep(s[k + 1..], sep);
      assert sep !in head by {
        forall j | 0 <= j < k ensures head[j] != sep { assert head[j] == s[j]; }
      }
      assert Split(s, sep) == [head] + rest;
      forall i | 0 <= i < |Split(s, sep)| ensures sep !in Split(s, sep)[i] {
        if i > 0 { assert Split(s, sep)[i] == rest[i - 1]; }
      }
    }
  }

  /** `parts.join(sep)` for a one-unit separator. */
  function Join(parts: seq<Str>, sep: int): (r: Str)
    ensures |parts| == 1 ==> r == parts[0]
  {
    if |parts| == 0 then []
    else if |parts| == 1 then parts[0]
    else parts[0] + [sep] + Join(parts[1..], sep)
  }

  /** Joining parts that do not contain the separator and splitting the result again
      gives the parts back. */
  lemma {:induction false} SplitJoin(parts: seq<Str>, sep: int)
    requires |parts| >= 1
    requires forall i :: 0 <= i < |parts| ==> sep !in parts[i]
    ensures Split(Join(parts, sep), sep) == parts
  {
    var p := parts[0];
    if |parts| == 1 {
      assert IndexOf(p, sep, 0) == -1;
    } else {
      var rest := Join(parts[1..], sep);
      var s := p + [sep] + rest;
      assert s[|p|] == sep;
      IndexAfterPrefix(p, sep, rest);
      assert s[..|p|] == p;
      assert s[|p| + 1..] == rest;
      SplitJoin(parts[1..], sep);
      assert [p] + parts[1..] == parts;
    }
  }

  // ---------------------------------------------------------------------
  // Numbers

  /** An IEEE double as the engine sees it: finite values are exact reals here. */
  datatype JsNum = Finite(value: real) | NaN | PosInf | NegInf {
    /** JavaScript truthiness: 0 and NaN are falsy. */
    predicate Truthy() {
      match this
      case Finite(v) => v != 0.0
      case NaN => false
      case _ => true
    }
  }

  /** Value of a digit in the given radix, or -1. */
  function DigitValue(c: int, radix: nat): (d: int)
    requires 2 <= radix <= 36
    ensures -1 <= d < radix
    ensures radix == 10 ==> (d >= 0 <==> IsDigit(c))
    ensures IsDigit(c) && c - 48 < radix ==> d == c - 48
  {
    var v := if 48 <= c <= 57 then c - 48
             else if 97 <= c <= 122 then c - 97 + 10
             else if 65 <= c <= 90 then c - 65 + 10
             else 99;
    if v < radix then v else -1
  }

  predicate AllDigits(s: Str, radix: nat)
    requires 2 <= radix <= 36
  {
    forall k :: 0 <= k < |s| ==> DigitValue(s[k], radix) >= 0
  }

  /** Positional value of a digit string (most significant first). */
  function DigitsValue(s: Str, radix: nat): (v: nat)
    requires 2 <= radix <= 36
    requires AllDigits(s, radix)
  {
    if |s| == 0 then 0 else DigitsValue(s[..|s| - 1], radix) * radix + DigitValue(s[|s| - 1], radix)
  }

  /** Length of the longest prefix made of digits of `radix`. */
  function DigitRun(s: Str, radix: nat): (n: nat)
    requires 2 <= radix <= 36
    ensures n <= |s|
    ensures AllDigits(s[..n], radix)
    ensures n < |s| ==> DigitValue(s[n], radix) < 0
  {
    if |s| == 0 || DigitValue(s[0], radix) < 0 then 0
    else
      var n := 1 + DigitRun(s[1..], radix);
      assert s[..n] == [s[0]] + s[1..][..n - 1];
      n
  }

  predicate StartsWithHexPrefix(s: Str) {
    |s| >= 2 && s[0] == 48 && (s[1] == 120 || s[1] == 88)
  }

  /** Unsigned digits of `parseInt` after the sign: the longest digit prefix, NaN when empty. */
  function ParseDigitsPrefix(body: Str, base: nat): (r: Option<nat>)
    requires base == 10 || base == 16
    ensures r.None? <==> DigitRun(body, base) == 0
  {
    var n := DigitRun(body, base);
    if n == 0 then None else Some(DigitsValue(body[..n], base))
  }

  /** The integer `parseInt(s, radix)` reads, or None where it returns NaN.
      Radix is 10 or 16, or 0 for "not given" (then a 0x prefix selects 16).
      Leading white space and one sign are skipped and the longest digit prefix is read. */
  function ParseIntValue(s: Str, radix: nat): (r: Option<int>)
    requires radix == 0 || radix == 10 || radix == 16
  {
    var t := s[LeadingSpaces(s)..];
    var neg := |t| > 0 && t[0] == 45;
    var u := if |t| > 0 && (t[0] == 45 || t[0] == 43) then t[1..] else t;
    var hex := radix == 16 || (radix == 0 && StartsWithHexPrefix(u));
    var body := if hex && StartsWithHexPrefix(u) then u[2..] else u;
    match ParseDigitsPrefix(body, if hex then 16 else 10)
    case None => None
    case Some(v) => Some(if neg then -(v as int) else v as int)
  }

  /** `parseInt(s, radix)` as a number. */
  function ParseInt(s: Str, radix: nat): (r: JsNum)
    requires radix == 0 || radix == 10 || radix == 16
    ensures r.Finite? || r.NaN?
    ensures r.NaN? <==> ParseIntValue(s, radix).None?
  {
    match ParseIntValue(s, radix)
    case None => NaN
    case Some(v) => Finite(v as real)
  }

  /** `parseInt(s, radix) || 0`: NaN collapses to 0. */
  function ParseIntOrZero(s: Str, radix: nat): (r: int)
    requires radix == 0 || radix == 10 || radix == 16
    ensures ParseInt(s, radix).NaN? ==> r == 0
    ensures ParseInt(s, radix).Finite? ==> r as real == ParseInt(s, radix).value
  {
    ParseIntValue(s, radix).GetOr(0)
  }

  function Pow10(n: nat): (r: real)
    ensures r >= 1.0
  {
    if n == 0 then 1.0 else 10.0 * Pow10(n - 1)
  }

  /** Decimal mantissa: digits with at most one '.', and at least one digit. */
  function ParseMantissa(mant: Str): (r: Option<real>)
    ensures r.Some? ==> r.value >= 0.0
    ensures AllDigits(mant, 10) && |mant| > 0 ==> r == Some(DigitsValue(mant, 10) as real)
  {
    var ip := DigitRun(mant, 10);
    var hasDot := ip < |mant| && mant[ip] == 46;
    var frac := if hasDot then mant[ip + 1..] else [];
    var fp := DigitRun(frac, 10);
    if ip + (if hasDot then 1 + fp else 0) != |mant| || ip + fp == 0 then None
    else
      assert mant[..ip] == mant || hasDot;
      Some((DigitsValue(mant[..ip], 10) as real) + (DigitsValue(frac[..fp], 10) as real) / Pow10(fp))
  }

  /** Exponent part after `e`/`E`: an optional sign and at least one digit. */
  function ParseExponent(ex: Str): (r: Option<int>)
  {
    var neg := |ex| > 0 && ex[0] == 45;
    var ed := if |ex| > 0 && (ex[0] == 45 || ex[0] == 43) then ex[1..] else ex;
    if |ed| == 0 || !AllDigits(ed, 10) then None
    else Some(if neg then -(DigitsValue(ed, 10) as int) else DigitsValue(ed, 10) as int)
  }

  /** Position of the exponent marker, or |t| when there is none. */
  function ExponentMarker(t: Str): (e: nat)
    ensures e <= |t|
    ensures e < |t| ==> t[e] == 101 || t[e] == 69
    ensures forall k :: 0 <= k < e ==> t[k] != 101 && t[k] != 69
  {
    if |t| == 0 then 0
    else if t[0] == 101 || t[0] == 69 then 0
    else 1 + ExponentMarker(t[1..])
  }

  lemma NonNegScale(m: real, p: real)
    requires m >= 0.0 && p >= 1.0
    ensures m * p >= 0.0 && m / p >= 0.0
  {
  }

  /** Unsigned decimal literal: a mantissa optionally followed by an exponent. */
  function ParseUnsignedDecimal(t: Str): (r: Option<real>)
    ensures r.Some? ==> r.value >= 0.0
  {
    var e := ExponentMarker(t);
    match ParseMantissa(t[..e])
    case None => None
    case Some(m) =>
      if e == |t| then Some(m)
      else match ParseExponent(t[e + 1..])
        case None => None
        case Some(x) =>
          var p := Pow10(if x >= 0 then x else -x);
          NonNegScale(m, p);
          if x >= 0 then Some(m * p) else Some(m / p)
  }

  /** The text is "Infinity". */
  predicate IsInfinityWord(t: Str)
  {
    |t| == 8 && t[0] == 73 && t[1] == 110 && t[2] == 102 && t[3] == 105
    && t[4] == 110 && t[5] == 105 && t[6] == 116 && t[7] == 121
  }

  /** `Number(s)`: white space around the literal is ignored, the empty string is 0,
      `Infinity` may carry a sign, 0x/0o/0b literals are unsigned, and anything else
      that is not a decimal literal is NaN. */
  function ToNumber(s: Str): (r: JsNum)
    ensures (forall k :: 0 <= k < |s| ==> IsJsSpace(s[k])) ==> r == Finite(0.0)
  {
    var t := Trim(s);
    if |t| == 0 then Finite(0.0)
    else if IsInfinityWord(t) || (t[0] == 43 && IsInfinityWord(t[1..])) then PosInf
    else if t[0] == 45 && IsInfinityWord(t[1..]) then NegInf
    else if |t| > 2 && t[0] == 48 && (t[1] == 120 || t[1] == 88) then
      (if AllDigits(t[2..], 16) then Finite(DigitsValue(t[2..], 16) as real) else NaN)
    else if |t| > 2 && t[0] == 48 && (t[1] == 111 || t[1] == 79) then
      (if AllDigits(t[2..], 8) then Finite(DigitsValue(t[2..], 8) as real) else NaN)
    else if |t| > 2 && t[0] == 48 && (t[1] == 98 || t[1] == 66) then
      (if AllDigits(t[2..], 2) then Finite(DigitsValue(t[2..], 2) as real) else NaN)
    else
      var neg := t[0] == 45;
      var body := if t[0] == 45 || t[0] == 43 then t[1..] else t;
      match ParseUnsignedDecimal(body)
      case Some(v) => Finite(if neg then -v else v)
      case None => NaN
  }
}

=== FILE: layout.dfy ===
/** Single-style layout of `TmpAssembler`: overflow limits, the word tokenizer, the
    wrap pass that records one `LetterInfo` per code unit, ellipsis truncation, the
    corrective shrink pass and the per-line alignment offsets. Both ports of the
    assembler are covered; `Port` selects the few places where they differ. */
module Layout {
  import opened Wrappers
  import opened Js
  import opened TmpUtils
  import opened FontConfig

  /** The current port (extensions/) and the older port (assets/scripts/). */
  datatype Port = Extensions | Older

  /** `TmpOverflow`: NONE, CLAMP, ELLIPSIS, SHRINK, RESIZE_HEIGHT. */
  datatype Overflow = NoOverflow | Clamp | Ellipsis | Shrink | ResizeHeight

  datatype HAlign = AlignLeft | AlignCenter | AlignRight
  datatype VAlign = AlignTop | AlignMiddle | AlignBottom

  const UnderlineCode := 95
  const EllipsisCode := 46
  const EllipsisNum := 3
  /** `_lineSpacing` is a module constant that nothing assigns. */
  const LineSpacing: real := 0.0

  /** `TmpLetterInfo`. The `hash` field is left out: it is always the decimal code of `ch`. */
  datatype LetterInfo = LetterInfo(
    valid: bool, ch: Str, x: real, y: real, line: int, quadsIndex: nat, visible: bool)

  /** A freshly constructed `TmpLetterInfo`. */
  const FreshLetter := LetterInfo(true, [], 0.0, 0.0, 0, 0, true)

  function RealAbs(x: real): real { if x < 0.0 then -x else x }
  function RealMax(a: real, b: real): real { if a >= b then a else b }
  function RealMin(a: real, b: real): real { if a <= b then a else b }

  // ---------------------------------------------------------------------------
  // Overflow limits (`_updateProperties` wrap flag + `_setupBMFontOverflowMetrics`)
  // ---------------------------------------------------------------------------

  datatype Limits = Limits(isWrap: bool, labelWidth: real, labelHeight: real, maxLineWidth: real)

  /** Wrap flag and size limits chosen by the overflow mode, for a content box of
      `width` x `height` (the margin is always 0). The older port has no SHRINK case. */
  function OverflowLimits(port: Port, overflow: Overflow, enableWrapText: bool, width: real, height: real): (r: Limits)
    ensures r.maxLineWidth == r.labelWidth
    ensures overflow == NoOverflow ==> !r.isWrap && r.labelWidth == 0.0 && r.labelHeight == 0.0
    ensures overflow == ResizeHeight ==> r.isWrap && r.labelWidth == width && r.labelHeight == 0.0
    ensures overflow == Shrink ==> (r.isWrap <==> port == Older && enableWrapText)
    ensures overflow == Clamp || overflow == Ellipsis ==> r.isWrap == enableWrapText
    ensures overflow != NoOverflow && overflow != ResizeHeight ==>
      r.labelWidth == width && r.labelHeight == height
  {
    var isWrap :=
      if overflow == NoOverflow then false
      else if overflow == ResizeHeight then true
      else if overflow == Shrink then port == Older && enableWrapText
      else enableWrapText;
    var w := if overflow == NoOverflow then 0.0 else width;
    var h := if overflow == NoOverflow || overflow == ResizeHeight then 0.0 else height;
    Limits(isWrap, w, h, w)
  }

  /** The two ports choose different limits only for SHRINK with wrapping enabled. */
  lemma PortsDifferOnlyUnderShrink(overflow: Overflow, enableWrapText: bool, width: real, height: real)
    ensures OverflowLimits(Extensions, overflow, enableWrapText, width, height)
         != OverflowLimits(Older, overflow, enableWrapText, width, height)
        <==> overflow == Shrink && enableWrapText
  {
  }

  // ---------------------------------------------------------------------------
  // The per-pass setup and glyph metrics
  // ---------------------------------------------------------------------------

  /** Everything a wrap pass reads: the string, the font, the overflow mode and the
      derived limits, the current scale (`_bmfontScale`), and the italic shear factor
      (the sine of the 15 degree slant, left as a parameter). */
  datatype Setup = Setup(
    port: Port, text: Str, cfg: Config, overflow: Overflow,
    isWrap: bool, maxLineWidth: real, labelWidth: real, labelHeight: real,
    scale: real, spacingX: real, lineHeight: real,
    contentHeight: real, italic: bool, italicSin: real, ellipsisWidth: real)

  /** Pen advance of one glyph. */
  function Advance(s: Setup, g: Glyph): real { g.xAdvance * s.scale + s.spacingX }

  /** Horizontal shift of a slanted glyph: half its scaled height along the slant. */
  function Shear(s: Setup, g: Glyph): real
    ensures Shear(s, g) >= 0.0
    ensures !s.italic ==> Shear(s, g) == 0.0
  {
    if s.italic then RealAbs(g.h * s.scale / 2.0 * s.italicSin) else 0.0
  }

  /** How far a glyph reaches right of its drawing x in the overflow tests: the rest of
      its advance in the current port, its bitmap width in the older one. */
  function RightExtent(s: Setup, g: Glyph): real
  {
    if s.port == Extensions then (g.xAdvance - g.offsetX) * s.scale else g.w * s.scale
  }

  /** `getLetterDefinitionForChar(text.charAt(i))`. */
  function GlyphAt(s: Setup, i: nat): Option<Glyph>
    requires i < |s.text|
  {
    GetLetterDefinitionForChar(s.cfg, [s.text[i]])
  }

  /** `_getFontScale`: the shrink scale under SHRINK, else 1. */
  function FontScale(s: Setup): real { if s.overflow == Shrink then s.scale else 1.0 }

  /** `_ellipsisWidth`: three dot advances, or 0 when the font has no '.'. */
  function EllipsisWidth(cfg: Config, scale: real, spacingX: real): (r: real)
    ensures EllipsisCode !in cfg.letters ==> r == 0.0
    ensures EllipsisCode in cfg.letters ==>
      r / EllipsisNum as real == cfg.letters[EllipsisCode].xAdvance * scale + spacingX
  {
    if EllipsisCode in cfg.letters
    then (cfg.letters[EllipsisCode].xAdvance * scale + spacingX) * EllipsisNum as real
    else 0.0
  }

  // ---------------------------------------------------------------------------
  // Word tokenizer (`_getFirstWordLen`)
  // ---------------------------------------------------------------------------

  /** A first character that forms a token on its own. */
  predicate BreaksAlone(s: Setup, i: nat)
    requires i < |s.text|
  {
    IsUnicodeCJK([s.text[i]]) || s.text[i] == LF || IsUnicodeSpace([s.text[i]]) || GlyphAt(s, i).None?
  }

  /** Character `i` overflows when its right edge, with the pen at `pen`, passes a
      positive line width (white space never overflows). */
  predicate Overflows(s: Setup, i: nat, pen: real)
    requires i < |s.text| && GlyphAt(s, i).Some?
  {
    var g := GlyphAt(s, i).value;
    pen + g.offsetX * s.scale + RightExtent(s, g) > s.maxLineWidth
      && !IsUnicodeSpace([s.text[i]]) && s.maxLineWidth > 0.0
  }

  /** Character `i` continues the current word when the pen is at `pen`. */
  predicate Extends(s: Setup, i: nat, pen: real)
    requires i < |s.text|
  {
    GlyphAt(s, i).Some? && !Overflows(s, i, pen)
      && s.text[i] != LF && !IsUnicodeSpace([s.text[i]]) && !IsUnicodeCJK([s.text[i]])
  }

  /** The pen after advancing from `pen` over characters `k .. e-1`. */
  function PenAfter(s: Setup, pen: real, k: nat, e: nat): real
    requires k <= e <= |s.text|
    requires forall j :: k <= j < e ==> GlyphAt(s, j).Some?
    decreases e - k
  {
    if k == e then pen else PenAfter(s, pen + Advance(s, GlyphAt(s, k).value), k + 1, e)
  }

  /** End of the word that continues at `k` with the pen at `pen`. */
  function WordEnd(s: Setup, k: nat, pen: real): (e: nat)
    requires k <= |s.text|
    ensures k <= e <= |s.text|
    ensures forall j :: k <= j < e ==> GlyphAt(s, j).Some?
    ensures forall j :: k <= j < e ==> Extends(s, j, PenAfter(s, pen, k, j))
    ensures e < |s.text| ==> !Extends(s, e, PenAfter(s, pen, k, e))
    decreases |s.text| - k
  {
    if k == |s.text| || !Extends(s, k, pen) then k
    else
      var p := pen + Advance(s, GlyphAt(s, k).value);
      var e := WordEnd(s, k + 1, p);
      assert forall j :: k < j <= e ==> PenAfter(s, pen, k, j) == PenAfter(s, p, k + 1, j);
      e
  }

  /** The pen at character `j` of the word starting at `start`: the first glyph's
      advance plus those of the characters in between. */
  function WordPen(s: Setup, start: nat, j: nat): real
    requires start < j <= |s.text| && GlyphAt(s, start).Some?
    requires forall i :: start < i < j ==> GlyphAt(s, i).Some?
  {
    PenAfter(s, Advance(s, GlyphAt(s, start).value), start + 1, j)
  }

  /** `_getFirstWordLen(text, start, text.length)`: the length of the token that
      starts at `start`. A CJK, '\n', white-space or glyph-less first character is a
      token of its own; otherwise the token runs while characters have glyphs, are
      not '\n', white space or CJK, and do not overflow, and it stops at the first
      character that fails. */
  function FirstWordLen(s: Setup, start: nat): (r: nat)
    requires start < |s.text|
    ensures 1 <= r <= |s.text| - start
    ensures BreaksAlone(s, start) ==> r == 1
    ensures !BreaksAlone(s, start) ==> forall j :: start < j < start + r ==> GlyphAt(s, j).Some?
    ensures !BreaksAlone(s, start) ==> forall j :: start < j < start + r ==> Extends(s, j, WordPen(s, start, j))
    ensures !BreaksAlone(s, start) && start + r < |s.text| ==>
      !Extends(s, start + r, WordPen(s, start, start + r))
  {
    if BreaksAlone(s, start) then 1
    else WordEnd(s, start + 1, Advance(s, GlyphAt(s, start).value)) - start
  }

  /** No token contains a line feed. */
  lemma TokenHasNoLineFeed(s: Setup, start: nat, j: nat)
    requires start < |s.text| && s.text[start] != LF
    requires start <= j < start + FirstWordLen(s, start)
    ensures s.text[j] != LF
  {
    if j > start {
      assert !BreaksAlone(s, start);
      assert Extends(s, j, PenAfter(s, Advance(s, GlyphAt(s, start).value), start + 1, j));
    }
  }

  // ---------------------------------------------------------------------------
  // Recording letters (`_recordPlaceholderInfo`, `_recordLetterInfo`)
  // ---------------------------------------------------------------------------

  /** Entry `i` exists afterwards: a fresh one is appended when `i` is one past the end. */
  function Slot(letters: seq<LetterInfo>, i: nat): (r: seq<LetterInfo>)
    requires i <= |letters|
  {
    if i == |letters| then letters + [FreshLetter] else letters
  }

  /** Marks entry `i` as a placeholder for `ch`: not rendered, all else kept. */
  function RecordPlaceholder(letters: seq<LetterInfo>, i: nat, ch: Str): (r: seq<LetterInfo>)
    requires i <= |letters|
    ensures |r| == if i == |letters| then i + 1 else |letters|
    ensures r[i].ch == ch && !r[i].valid
    ensures i < |letters| ==> r[i] == letters[i].(ch := ch, valid := false)
    ensures forall j :: 0 <= j < |r| && j != i ==> r[j] == letters[j]
  {
    var l := Slot(letters, i);
    l[i := l[i].(ch := ch, valid := false)]
  }

  /** Records glyph `ch` at entry `i`: line, position and the glyph's own validity;
      quad index and visibility are kept. */
  function RecordLetter(letters: seq<LetterInfo>, i: nat, cfg: Config, ch: Str, x: real, y: real, line: int): (r: seq<LetterInfo>)
    requires i <= |letters| && |ch| > 0 && ch[0] in cfg.letters
    ensures |r| == if i == |letters| then i + 1 else |letters|
    ensures r[i].ch == ch && r[i].valid == cfg.letters[ch[0]].valid
    ensures r[i].x == x && r[i].y == y && r[i].line == line
    ensures i < |letters| ==> r[i].quadsIndex == letters[i].quadsIndex && r[i].visible == letters[i].visible
    ensures forall j :: 0 <= j < |r| && j != i ==> r[j] == letters[j]
  {
    var l := Slot(letters, i);
    l[i := l[i].(line := line, ch := ch, valid := cfg.letters[ch[0]].valid, x := x, y := y)]
  }

  // ---------------------------------------------------------------------------
  // Ellipsis (`_recordEllipsis`)
  // ---------------------------------------------------------------------------

  predicate EllipsisMode(s: Setup) { s.overflow == Ellipsis && EllipsisCode in s.cfg.letters }

  /** The list ends with three '.' entries. */
  predicate EndsInDots(letters: seq<LetterInfo>)
  {
    |letters| >= EllipsisNum
      && forall k :: |letters| - EllipsisNum <= k < |letters| ==> letters[k].ch == [EllipsisCode]
  }

  /** The ellipsis fits after a recorded letter: its right edge plus the ellipsis width
      is within the line. A letter without a glyph counts as zero wide. */
  predicate FitsEllipsis(s: Setup, info: LetterInfo)
  {
    var g := GetLetterDefinitionForChar(s.cfg, info.ch);
    var w := if g.Some? then g.value.w else 0.0;
    s.maxLineWidth >= info.x + w * s.scale + s.ellipsisWidth
  }

  /** How many entries survive the pop loop. */
  function KeepFitting(s: Setup, letters: seq<LetterInfo>): (n: nat)
    ensures n <= |letters|
    ensures n > 0 ==> FitsEllipsis(s, letters[n - 1])
    ensures forall k :: n <= k < |letters| ==> !FitsEllipsis(s, letters[k])
    decreases |letters|
  {
    if |letters| == 0 || FitsEllipsis(s, letters[|letters| - 1]) then |letters|
    else KeepFitting(s, letters[..|letters| - 1])
  }

  /** Pen position after a kept letter (zero metrics for a glyph-less one). */
  function ResumeX(s: Setup, info: LetterInfo): real
  {
    var g := GetLetterDefinitionForChar(s.cfg, info.ch);
    var xAdvance := if g.Some? then g.value.xAdvance else 0.0;
    var offsetX := if g.Some? then g.value.offsetX else 0.0;
    info.x + (xAdvance - offsetX) * s.scale + s.spacingX
  }

  /** Pops trailing letters until the ellipsis fits after the last one, then records
      three dots one advance apart on line `lineIndex`, starting where the last kept
      letter ends (or at 0 when none is kept). */
  function RecordEllipsis(s: Setup, letters: seq<LetterInfo>, nextTokenY: real, lineIndex: int): (r: seq<LetterInfo>)
    requires EllipsisCode in s.cfg.letters
    ensures EndsInDots(r)
    ensures |r| == KeepFitting(s, letters) + EllipsisNum
    ensures r[..|r| - EllipsisNum] == letters[..KeepFitting(s, letters)]
    ensures forall k :: |r| - EllipsisNum <= k < |r| ==> r[k].line == lineIndex
    ensures forall k :: |r| - EllipsisNum < k < |r| ==>
      r[k].x == r[k - 1].x + Advance(s, s.cfg.letters[EllipsisCode])
  {
    var n := KeepFitting(s, letters);
    var kept := letters[..n];
    var nextX := if n == 0 then 0.0 else ResumeX(s, kept[n - 1]);
    var dot := s.cfg.letters[EllipsisCode];
    var y := nextTokenY - dot.offsetY * s.scale;
    var x0 := nextX + dot.offsetX * s.scale;
    var l1 := RecordLetter(kept, n, s.cfg, [EllipsisCode], x0, y, lineIndex);
    var l2 := RecordLetter(l1, n + 1, s.cfg, [EllipsisCode], x0 + Advance(s, dot), y, lineIndex);
    RecordLetter(l2, n + 2, s.cfg, [EllipsisCode], x0 + 2.0 * Advance(s, dot), y, lineIndex)
  }

  /** With a consistent ellipsis width, the three dots span exactly that width. */
  lemma EllipsisWidthIsDotsSpan(s: Setup, letters: seq<LetterInfo>, nextTokenY: real, lineIndex: int)
    requires EllipsisCode in s.cfg.letters
    requires s.ellipsisWidth == EllipsisWidth(s.cfg, s.scale, s.spacingX)
    ensures var r := RecordEllipsis(s, letters, nextTokenY, lineIndex);
      r[|r| - 1].x + Advance(s, s.cfg.letters[EllipsisCode]) - r[|r| - EllipsisNum].x == s.ellipsisWidth
  {
    var r := RecordEllipsis(s, letters, nextTokenY, lineIndex);
    var a := Advance(s, s.cfg.letters[EllipsisCode]);
    var n := |r|;
    assert n >= 3 && EndsInDots(r);
    assert r[n - 1].x == r[n - 2].x + a;
    assert r[n - 2].x == r[n - 3].x + a;
    assert s.ellipsisWidth / 3.0 == a;
    ThreeStepsSpan(r[n - 3].x, r[n - 2].x, r[n - 1].x, a, s.ellipsisWidth);
  }

  lemma ThreeStepsSpan(x1: real, x2: real, x3: real, a: real, w: real)
    requires x2 == x1 + a && x3 == x2 + a && w / 3.0 == a
    ensures x3 + a - x1 == w
  {
  }

  /** The older port's pop loop: it reads the glyph of each examined letter without a
      null check, so a glyph-less letter (a '\r' or unknown character placeholder)
      reached by the loop is a fault, modelled as `None`. */
  function KeepFittingAsWritten(s: Setup, letters: seq<LetterInfo>): (r: Option<nat>)
    ensures r.Some? ==> r.value == KeepFitting(s, letters)
    decreases |letters|
  {
    if |letters| == 0 then Some(0)
    else
      var g := GetLetterDefinitionForChar(s.cfg, letters[|letters| - 1].ch);
      if g.None? then None
      else if FitsEllipsis(s, letters[|letters| - 1]) then Some(|letters|)
      else KeepFittingAsWritten(s, letters[..|letters| - 1])
  }

  /** The older port's ellipsis: the same as `RecordEllipsis` whenever it does not fault. */
  function RecordEllipsisAsWritten(s: Setup, letters: seq<LetterInfo>, nextTokenY: real, lineIndex: int): (r: Option<seq<LetterInfo>>)
    requires EllipsisCode in s.cfg.letters
    ensures r.Some? ==> r.value == RecordEllipsis(s, letters, nextTokenY, lineIndex)
  {
    var n :- KeepFittingAsWritten(s, letters);
    Some(RecordEllipsis(s, letters, nextTokenY, lineIndex))
  }

  /** A font holding only '.' (advance 10). */
  const DotOnlyFont := Config(FontJson(10.0, 10.0, []),
    map[EllipsisCode := Glyph(0.0, 0.0, 10.0, 10.0, 0.0, 0.0, 0, true, 10.0)], map[])

  /** The text "\r\n" laid out in a box one line high under ELLIPSIS with that font. */
  const CrLfSetup := Setup(Older, [CR, LF], DotOnlyFont, Ellipsis, true, 100.0, 100.0, 10.0,
    1.0, 0.0, 10.0, 10.0, false, 0.0, 30.0)

  /** On "\r\n" the '\r' is recorded as a placeholder; the '\n' then reaches the line
      limit and the older pop loop looks up the placeholder's missing glyph and faults,
      while the guarded loop keeps it (it is zero wide) and appends three dots. */
  lemma EllipsisAfterCarriageReturnFaults()
    ensures var letters := RecordPlaceholder([], 0, [CR]);
      && EllipsisMode(CrLfSetup)
      && LastLineReached(CrLfSetup, 0)
      && RecordEllipsisAsWritten(CrLfSetup, letters, 0.0, 0).None?
      && |RecordEllipsis(CrLfSetup, letters, 0.0, 0)| == 4
  {
    var letters := RecordPlaceholder([], 0, [CR]);
    assert letters == [FreshLetter.(ch := [CR], valid := false)];
    assert GetLetterDefinitionForChar(CrLfSetup.cfg, letters[0].ch).None?;
    assert FitsEllipsis(CrLfSetup, letters[0]);
    assert KeepFitting(CrLfSetup, letters) == 1;
    assert (10.0 / 10.0).Floor == 1;
  }

  // ---------------------------------------------------------------------------
  // The wrap pass (`_multilineTextWrap` with `_getFirstWordLen`)
  // ---------------------------------------------------------------------------

  /** `ellipsisMaxLines = max(1, floor(height / lineHeight))`. A zero line height gives
      an infinite or NaN quotient, which no line index ever reaches (`None`), except
      that a negative height gives -Infinity and so the maximum 1. */
  function EllipsisMaxLines(height: real, lineHeight: real): (r: Option<int>)
    ensures r.Some? ==> r.value >= 1
    ensures r.None? <==> lineHeight == 0.0 && height >= 0.0
    ensures lineHeight > 0.0 && height < lineHeight ==> r == Some(1)
    ensures lineHeight > 0.0 && height >= lineHeight ==>
      r.value as real * lineHeight <= height < (r.value + 1) as real * lineHeight
  {
    if lineHeight == 0.0 then (if height < 0.0 then Some(1) else None)
    else
      FloorBrackets(height, lineHeight);
      Some(Max(1, (height / lineHeight).Floor))
  }

  /** A positive divisor brackets the dividend between two consecutive multiples. */
  lemma FloorBrackets(x: real, d: real)
    ensures d > 0.0 ==> (x / d).Floor as real * d <= x < ((x / d).Floor + 1) as real * d
    ensures d > 0.0 && x >= d ==> (x / d).Floor >= 1
  {
    if d > 0.0 {
      var q := x / d;
      var f := q.Floor;
      assert f as real <= q < f as real + 1.0;
      assert q * d == x;
      MulMono(f as real, q, d);
      MulMono(q, (f + 1) as real, d);
      assert x < (f + 1) as real * d by {
        assert q < (f + 1) as real;
        assert (f + 1) as real * d - q * d == ((f + 1) as real - q) * d;
      }
    }
  }

  /** The line at `lineIndex` is the last one the ellipsis allows. */
  predicate LastLineReached(s: Setup, lineIndex: int)
  {
    var m := EllipsisMaxLines(s.contentHeight, s.lineHeight);
    m.Some? && lineIndex + 1 >= m.value
  }

  /** Whether code unit `c` ends up rendered: '\n', '\r' and glyph-less units are
      placeholders, every other unit takes its glyph's validity. */
  predicate ValidFor(s: Setup, c: int)
  {
    c != LF && c != CR && c in s.cfg.letters && s.cfg.letters[c].valid
  }

  /** Entry `info` was recorded for code unit `i`, on a line no later than `maxLine`
      if it is rendered. */
  predicate Records(s: Setup, info: LetterInfo, i: nat, maxLine: int)
    requires i < |s.text|
  {
    info.ch == [s.text[i]] && info.valid == ValidFor(s, s.text[i])
      && (info.valid ==> 0 <= info.line <= maxLine)
  }

  /** The outcome of laying out one token. */
  datatype Token =
    | Placed(letters: seq<LetterInfo>, nextLetterX: real, tokenRight: real, highY: real, lowY: real)
    | Wrapped(letters: seq<LetterInfo>)
    | Truncated(letters: seq<LetterInfo>)

  /** Lays out the token `index .. index+tokenLen-1` starting at pen `nextTokenX` on
      line `lineIndex`. It stops early to start a new line (only when wrapping is on,
      the line is positive, and the token does not start the line) or to truncate
      with an ellipsis. */
  method PlaceToken(s: Setup, letters: seq<LetterInfo>, index: nat, tokenLen: nat,
                    lineIndex: nat, nextTokenX: real, nextTokenY: real,
                    letterRight: real, highestY: real, lowestY: real)
    returns (t: Token)
    requires index + tokenLen <= |s.text| && index <= |letters|
    requires forall j :: index <= j < index + tokenLen ==> s.text[j] != LF
    ensures t.Wrapped? ==> s.isWrap && s.maxLineWidth > 0.0 && nextTokenX > 0.0
    ensures t.Truncated? ==> EllipsisMode(s) && EndsInDots(t.letters)
    ensures !t.Truncated? ==> index <= |t.letters| <= Max(|letters|, index + tokenLen)
    ensures !t.Truncated? ==> forall i :: 0 <= i < index ==> t.letters[i] == letters[i]
    ensures t.Placed? ==> index + tokenLen <= |t.letters|
    ensures t.Placed? ==> forall i :: index <= i < index + tokenLen ==> Records(s, t.letters[i], i, lineIndex)
    ensures t.Placed? && s.port == Extensions && letterRight >= nextTokenX ==> t.tokenRight >= t.nextLetterX
    ensures t.Placed? && s.port == Extensions && !s.italic && letterRight == nextTokenX ==>
      t.tokenRight == t.nextLetterX
    ensures t.Placed? ==> t.highY >= highestY && t.lowY <= lowestY
  {
    var cur := letters;
    var nextLetterX := nextTokenX;
    var tokenRight := letterRight;
    var hi, lo := highestY, lowestY;
    var tmp := 0;
    while tmp < tokenLen
      invariant 0 <= tmp <= tokenLen
      invariant index + tmp <= |cur| <= Max(|letters|, index + tokenLen)
      invariant forall i :: 0 <= i < index ==> cur[i] == letters[i]
      invariant forall i :: index <= i < index + tmp ==> Records(s, cur[i], i, lineIndex)
      invariant s.port == Extensions && letterRight >= nextTokenX ==> tokenRight >= nextLetterX
      invariant s.port == Extensions && !s.italic && letterRight == nextTokenX ==> tokenRight == nextLetterX
      invariant hi >= highestY && lo <= lowestY
    {
      var li := index + tmp;
      var c := s.text[li];
      var g := GetLetterDefinitionForChar(s.cfg, [c]);
      if c == CR || g.None? {
        cur := RecordPlaceholder(cur, li, [c]);
      } else {
        var d := g.value;
        var letterX := nextLetterX + d.offsetX * s.scale + Shear(s, d);
        var over := letterX + RightExtent(s, d) > s.maxLineWidth;
        if EllipsisMode(s) && over && (!s.isWrap || LastLineReached(s, lineIndex)) {
          return Truncated(RecordEllipsis(s, cur, nextTokenY, lineIndex));
        }
        if s.isWrap && s.maxLineWidth > 0.0 && nextTokenX > 0.0 && over && !IsUnicodeSpace([c]) {
          return Wrapped(cur);
        }
        var y := nextTokenY - d.offsetY * s.scale;
        cur := RecordLetter(cur, li, s.cfg, [c], letterX, y, lineIndex);
        nextLetterX := nextLetterX + Advance(s, d);
        tokenRight := (if s.port == Extensions then nextLetterX else letterX + d.w * s.scale) + Shear(s, d);
        if hi < y { hi := y; }
        if lo > y - d.h * s.scale { lo := y - d.h * s.scale; }
      }
      tmp := tmp + 1;
    }
    return Placed(cur, nextLetterX, tokenRight, hi, lo);
  }

  /** Number of occurrences of code unit `c`. */
  function CountUnit(s: Str, c: int): nat
  {
    if |s| == 0 then 0 else CountUnit(s[..|s| - 1], c) + (if s[|s| - 1] == c then 1 else 0)
  }

  /** A stretch without `c` adds no occurrence. */
  lemma {:induction false} CountUnitSkips(s: Str, c: int, a: nat, b: nat)
    requires a <= b <= |s|
    requires forall j :: a <= j < b ==> s[j] != c
    ensures CountUnit(s[..b], c) == CountUnit(s[..a], c)
    decreases b - a
  {
    if a < b {
      CountUnitSkips(s, c, a, b - 1);
      assert s[..b][..b - 1] == s[..b - 1];
    }
  }

  /** What one pass leaves behind. */
  datatype Wrap = Wrap(
    letters: seq<LetterInfo>, linesWidth: seq<real>, numberOfLines: nat,
    desiredHeight: real, longestLine: real, highestY: real, lowestY: real,
    nextTokenX: real, letterRight: real, useEllipsis: bool)

  /** `_textDesiredHeight` for `n` lines. */
  function DesiredHeight(s: Setup, n: nat): real
  {
    n as real * s.lineHeight * FontScale(s) + (if n > 1 then (n - 1) as real * LineSpacing else 0.0)
  }

  /** `_richTextDeltaX`: how far the pen of the next token is from the right edge
      of the last line. */
  function RichTextDeltaX(w: Wrap): real { w.nextTokenX - w.letterRight }

  /** The loop variables of a wrap pass. */
  datatype Cursor = Cursor(
    letters: seq<LetterInfo>, linesWidth: seq<real>, index: nat, lineIndex: nat,
    nextTokenX: real, nextTokenY: real, longestLine: real, letterRight: real,
    highestY: real, lowestY: real, useEllipsis: bool)

  const Start := Cursor([], [], 0, 0, 0.0, 0.0, 0.0, 0.0, 0.0, 0.0, false)

  /** What holds between iterations of the pass. */
  predicate CursorInv(s: Setup, letters0: seq<LetterInfo>, c: Cursor)
  {
    && c.index <= |s.text|
    && |c.linesWidth| == c.lineIndex
    && c.highestY >= 0.0 && c.lowestY <= 0.0
    && (c.useEllipsis ==> EllipsisMode(s) && EndsInDots(c.letters))
    && (!c.useEllipsis ==>
          && c.index <= |c.letters| <= Max(|letters0|, |s.text|)
          && (forall i :: 0 <= i < c.index ==> Records(s, c.letters[i], i, c.lineIndex))
          && (!s.isWrap ==> c.lineIndex == CountUnit(s.text[..c.index], LF))
          && 0.0 <= c.longestLine && c.letterRight <= c.longestLine
          && (forall i :: 0 <= i < |c.linesWidth| ==> c.linesWidth[i] <= c.longestLine)
          && (s.port == Extensions ==> c.letterRight >= c.nextTokenX)
          && (s.port == Extensions && !s.italic ==> c.letterRight == c.nextTokenX))
  }

  /** Work left: two per unread unit, plus one while the line already has content
      (a token may be retried once, from the start of a fresh line). */
  function Remaining(s: Setup, c: Cursor): nat
    requires c.index <= |s.text|
  {
    2 * (|s.text| - c.index) + (if c.nextTokenX > 0.0 then 1 else 0)
  }

  /** Closes the current line and opens the next one. */
  function BreakLine(s: Setup, c: Cursor): (d: Cursor)
    ensures d.linesWidth == c.linesWidth + [c.letterRight] && d.lineIndex == c.lineIndex + 1
    ensures d.letterRight == 0.0 && d.nextTokenX == 0.0
    ensures d.letters == c.letters && d.index == c.index && d.useEllipsis == c.useEllipsis
    ensures d.longestLine == c.longestLine && d.highestY == c.highestY && d.lowestY == c.lowestY
  {
    c.(linesWidth := c.linesWidth + [c.letterRight], letterRight := 0.0,
       lineIndex := c.lineIndex + 1, nextTokenX := 0.0,
       nextTokenY := c.nextTokenY - (s.lineHeight * FontScale(s) + LineSpacing))
  }

  /** Truncates with an ellipsis. */
  function Truncate(s: Setup, c: Cursor, letters: seq<LetterInfo>): (d: Cursor)
    requires EllipsisMode(s) && EndsInDots(letters)
    ensures d.useEllipsis && d.letters == letters
  {
    c.(letters := letters, useEllipsis := true,
       letterRight := EllipsisRight(s, letters, c.letterRight))
  }

  /** The '\n' branch of the loop. */
  method StepLineFeed(s: Setup, letters0: seq<LetterInfo>, c: Cursor) returns (d: Cursor)
    requires CursorInv(s, letters0, c) && !c.useEllipsis
    requires c.index < |s.text| && s.text[c.index] == LF
    ensures CursorInv(s, letters0, d)
    ensures d.useEllipsis || (d.index <= |s.text| && Remaining(s, d) < Remaining(s, c))
  {
    if EllipsisMode(s) && LastLineReached(s, c.lineIndex) {
      d := Truncate(s, c, RecordEllipsis(s, c.letters, c.nextTokenY, c.lineIndex));
    } else {
      var b := BreakLine(s, c);
      assert s.text[..c.index + 1] == s.text[..c.index] + [LF];
      d := b.(letters := RecordPlaceholder(c.letters, c.index, [LF]), index := c.index + 1);
    }
  }

  /** The token branch of the loop. */
  method StepToken(s: Setup, letters0: seq<LetterInfo>, c: Cursor) returns (d: Cursor)
    requires CursorInv(s, letters0, c) && !c.useEllipsis
    requires c.index < |s.text| && s.text[c.index] != LF
    ensures CursorInv(s, letters0, d)
    ensures d.useEllipsis || (d.index <= |s.text| && Remaining(s, d) < Remaining(s, c))
  {
    var tokenLen := FirstWordLen(s, c.index);
    forall j | c.index <= j < c.index + tokenLen ensures s.text[j] != LF {
      TokenHasNoLineFeed(s, c.index, j);
    }
    var t := PlaceToken(s, c.letters, c.index, tokenLen, c.lineIndex, c.nextTokenX,
                        c.nextTokenY, c.letterRight, c.highestY, c.lowestY);
    match t {
      case Truncated(l) =>
        d := Truncate(s, c, l);
      case Wrapped(l) =>
        d := BreakLine(s, c).(letters := l);
      case Placed(l, nextLetterX, tokenRight, hi, lo) =>
        CountUnitSkips(s.text, LF, c.index, c.index + tokenLen);
        d := c.(letters := l, nextTokenX := nextLetterX, letterRight := tokenRight,
                highestY := RealMax(c.highestY, hi), lowestY := RealMin(c.lowestY, lo),
                longestLine := RealMax(c.longestLine, tokenRight), index := c.index + tokenLen);
    }
  }

  /** One wrap pass over `s.text`, starting from the letter list `letters0` (empty on
      the first pass, the previous pass's list on the shrink redo). Without ellipsis
      every code unit gets its own entry, every rendered entry sits on an existing
      line, and without wrapping the lines are exactly those the '\n's make. */
  method WrapPass(s: Setup, letters0: seq<LetterInfo>) returns (w: Wrap)
    ensures |w.linesWidth| == w.numberOfLines >= 1
    ensures w.desiredHeight == DesiredHeight(s, w.numberOfLines)
    ensures w.useEllipsis ==> EllipsisMode(s) && EndsInDots(w.letters)
    ensures !w.useEllipsis ==> |s.text| <= |w.letters| <= Max(|letters0|, |s.text|)
    ensures !w.useEllipsis ==> forall i :: 0 <= i < |s.text| ==> Records(s, w.letters[i], i, w.numberOfLines - 1)
    ensures !w.useEllipsis && !s.isWrap ==> w.numberOfLines == CountUnit(s.text, LF) + 1
    ensures !w.useEllipsis ==> 0.0 <= w.longestLine && forall i :: 0 <= i < |w.linesWidth| ==> w.linesWidth[i] <= w.longestLine
    ensures !w.useEllipsis && s.port == Extensions ==> RichTextDeltaX(w) <= 0.0
    ensures !w.useEllipsis && s.port == Extensions && !s.italic ==> RichTextDeltaX(w) == 0.0
    ensures w.highestY >= 0.0 && w.lowestY <= 0.0
  {
    var c := Start.(letters := letters0);
    assert s.text[..0] == [];
    while c.index < |s.text| && !c.useEllipsis
      invariant CursorInv(s, letters0, c)
      decreases if c.useEllipsis then 0 else 1, Remaining(s, c)
    {
      if s.text[c.index] == LF {
        c := StepLineFeed(s, letters0, c);
      } else {
        c := StepToken(s, letters0, c);
      }
    }
    assert !c.useEllipsis ==> s.text[..c.index] == s.text;
    var n := c.lineIndex + 1;
    w := Wrap(c.letters, c.linesWidth + [c.letterRight], n, DesiredHeight(s, n), c.longestLine,
              c.highestY, c.lowestY, c.nextTokenX, c.letterRight, c.useEllipsis);
  }

  /** The line's right edge after an ellipsis: the last dot's advance end in the
      current port; the older port leaves it where it was. */
  function EllipsisRight(s: Setup, letters: seq<LetterInfo>, letterRight: real): real
    requires EllipsisCode in s.cfg.letters && |letters| > 0
  {
    if s.port == Extensions then
      var dot := s.cfg.letters[EllipsisCode];
      letters[|letters| - 1].x + (dot.xAdvance - dot.offsetX) * s.scale + s.spacingX
    else letterRight
  }

  // ---------------------------------------------------------------------------
  // Content size and clipping band after a pass
  // ---------------------------------------------------------------------------

  datatype Frame = Frame(width: real, height: real, tailoredTopY: real, tailoredBottomY: real)

  /** Content size after a pass: the label's own size where it is positive, else the
      measured one rounded by `round2` (`toFixed(2)`); and the vertical band outside
      which CLAMP clips (widened to the glyphs' reach in every other mode). */
  function Measured(s: Setup, w: Wrap, round2: real -> real): (f: Frame)
    ensures s.labelWidth > 0.0 ==> f.width == s.labelWidth
    ensures s.labelWidth <= 0.0 ==> f.width == round2(w.longestLine)
    ensures s.labelHeight > 0.0 ==> f.height == s.labelHeight
    ensures s.labelHeight <= 0.0 ==> f.height == round2(w.desiredHeight)
    ensures s.overflow == Clamp ==> f.tailoredTopY == f.height && f.tailoredBottomY == 0.0
    ensures f.tailoredTopY >= f.height
    ensures w.lowestY <= 0.0 ==> f.tailoredBottomY <= 0.0
  {
    var width := if s.labelWidth <= 0.0 then round2(w.longestLine) else s.labelWidth;
    var height := if s.labelHeight <= 0.0 then round2(w.desiredHeight) else s.labelHeight;
    var top := if s.overflow != Clamp && w.highestY > 0.0 then height + w.highestY else height;
    var bottom := if s.overflow != Clamp && w.lowestY < -w.desiredHeight then w.desiredHeight + w.lowestY else 0.0;
    Frame(width, height, top, bottom)
  }

  // ---------------------------------------------------------------------------
  // Shrink (`_alignText`)
  // ---------------------------------------------------------------------------

  /** The widest line, never below 0. */
  function WidestLine(ws: seq<real>): (r: real)
    ensures r >= 0.0
    ensures forall i :: 0 <= i < |ws| ==> ws[i] <= r
    ensures r == 0.0 || exists i :: 0 <= i < |ws| && ws[i] == r
  {
    if |ws| == 0 then 0.0 else RealMax(WidestLine(ws[..|ws| - 1]), ws[|ws| - 1])
  }

  datatype Rescale = Rescale(scale: real, redo: bool)

  /** The scale at which a `measured` extent, laid out at `scale`, shrinks to `size`;
      the old scale when it already fits. */
  function FitScale(size: real, measured: real, scale: real): (r: real)
    requires 0.0 <= size
    ensures measured <= size ==> r == scale
    ensures 0.0 <= scale ==> 0.0 <= r <= scale
    ensures measured > size && 0.0 < scale ==> r < scale
    ensures measured > size ==> r * measured == size * scale
  {
    if measured > size then
      var q := size / measured;
      RatioBelowOne(size, measured);
      assert 0.0 <= scale ==> q * scale <= scale by { if 0.0 < scale { MulMono(q, 1.0, scale); } }
      assert 0.0 < scale ==> q * scale < scale by {
        if 0.0 < scale { assert q * scale < 1.0 * scale; }
      }
      q * scale
    else scale
  }

  /** A ratio of a smaller to a larger non-negative size. */
  lemma RatioBelowOne(a: real, b: real)
    requires 0.0 <= a < b
    ensures 0.0 <= a / b < 1.0
    ensures (a / b) * b == a
  {
    var q := a / b;
    assert q * b == a;
    if q >= 1.0 { MulMono(1.0, q, b); }
    if q < 0.0 { MulMono(q, 0.0, b); }
  }

  /** Any scale no larger than the fitting one makes the extent fit. */
  lemma FitBound(m: real, size: real, measured: real, scale: real)
    requires 0.0 <= size && m <= FitScale(size, measured, scale)
    ensures measured > size ==> m * measured <= size * scale
  {
    if measured > size {
      MulMono(m, FitScale(size, measured, scale), measured);
    }
  }

  /** Multiplying by a positive amount keeps order. */
  lemma MulMono(m: real, f: real, b: real)
    requires m <= f && 0.0 < b
    ensures m * b <= f * b
  {
  }

  /** The shrink decision for a text `desired` high whose widest line is `maxWidth`:
      scale down so that both fit the content box, and redo the pass if either did
      not fit. */
  function ShrinkScale(scale: real, desired: real, maxWidth: real, width: real, height: real): (r: Rescale)
    requires 0.0 <= width && 0.0 <= height
    ensures r.redo <==> desired > height || maxWidth > width
    ensures !r.redo ==> r.scale == scale
    ensures 0.0 <= scale ==> 0.0 <= r.scale <= scale
    ensures r.redo && 0.0 < scale ==> r.scale < scale
    ensures desired > height ==> r.scale * desired <= height * scale
    ensures maxWidth > width ==> r.scale * maxWidth <= width * scale
  {
    var m := RealMin(FitScale(height, desired, scale), FitScale(width, maxWidth, scale));
    FitBound(m, height, desired, scale);
    FitBound(m, width, maxWidth, scale);
    Rescale(m, desired > height || maxWidth > width)
  }

  /** The result of `_alignText` before quads: the last pass, its frame, and the
      final scale and font size. */
  datatype Aligned = Aligned(wrap: Wrap, frame: Frame, scale: real, fontSize: real, passes: nat)

  /** `_alignText` up to the alignment offsets: one wrap pass, then under SHRINK with
      a positive font size the shrink decision and, if something did not fit, exactly
      one more pass at the smaller scale over the same letter list. */
  method AlignText(s: Setup, fontSize: real, originFontSize: real, letters0: seq<LetterInfo>, round2: real -> real)
    returns (a: Aligned)
    requires 0.0 <= s.lineHeight && 0.0 <= s.scale
    requires forall x: real :: 0.0 <= x ==> 0.0 <= round2(x)
    ensures a.passes == 1 || a.passes == 2
    ensures a.passes == 2 ==> s.overflow == Shrink && fontSize > 0.0
    ensures a.passes == 2 ==> a.fontSize == a.scale * originFontSize
    ensures a.passes == 2 && 0.0 < s.scale ==> a.scale < s.scale
    ensures a.passes == 1 ==> a.fontSize == fontSize && a.scale == s.scale
    ensures 0.0 <= a.scale <= s.scale
    ensures |a.wrap.linesWidth| == a.wrap.numberOfLines >= 1
    ensures !a.wrap.useEllipsis ==> |s.text| <= |a.wrap.letters| && forall i :: 0 <= i < |s.text| ==>
      Records(s, a.wrap.letters[i], i, a.wrap.numberOfLines - 1)
  {
    var w := WrapPass(s, letters0);
    var f := Measured(s, w, round2);
    a := Aligned(w, f, s.scale, fontSize, 1);
    if s.overflow == Shrink && fontSize > 0.0 {
      DesiredHeightNonNeg(s, w.numberOfLines);
      assert 0.0 <= f.width && 0.0 <= f.height;
      var rs := ShrinkScale(s.scale, w.desiredHeight, WidestLine(w.linesWidth), f.width, f.height);
      a := a.(scale := rs.scale);
      if rs.redo {
        var s2 := s.(scale := rs.scale);
        var w2 := WrapPass(s2, w.letters);
        assert forall i :: 0 <= i < |s.text| && i < |w2.letters| ==>
          Records(s2, w2.letters[i], i, w2.numberOfLines - 1) == Records(s, w2.letters[i], i, w2.numberOfLines - 1);
        a := Aligned(w2, Measured(s2, w2, round2), rs.scale, rs.scale * originFontSize, 2);
      }
    }
  }

  /** Non-negative line height and scale give a non-negative text height. */
  lemma DesiredHeightNonNeg(s: Setup, n: nat)
    requires 0.0 <= s.lineHeight && 0.0 <= s.scale
    ensures 0.0 <= DesiredHeight(s, n)
  {
    var a := s.lineHeight * FontScale(s);
    assert 0.0 <= a;
    assert 0.0 <= n as real * a;
  }

  // ---------------------------------------------------------------------------
  // Alignment (`_computeAlignmentOffset`)
  // ---------------------------------------------------------------------------

  /** `_linesOffsetX`: LEFT starts every line at 0; CENTER leaves equal margins on
      both sides of each line; RIGHT puts each line's right edge on the box edge. */
  function LinesOffsetX(h: HAlign, numberOfLines: nat, linesWidth: seq<real>, width: real): (r: seq<real>)
    ensures h == AlignLeft ==> |r| == numberOfLines && forall i :: 0 <= i < |r| ==> r[i] == 0.0
    ensures h != AlignLeft ==> |r| == |linesWidth|
    ensures |linesWidth| == numberOfLines ==> |r| == numberOfLines
    ensures h == AlignCenter ==> forall i :: 0 <= i < |r| ==> r[i] == width - (r[i] + linesWidth[i])
    ensures h == AlignRight ==> forall i :: 0 <= i < |r| ==> r[i] + linesWidth[i] == width
  {
    match h
    case AlignLeft => seq(numberOfLines, _ => 0.0)
    case AlignCenter => seq(|linesWidth|, i requires 0 <= i < |linesWidth| => (width - linesWidth[i]) / 2.0)
    case AlignRight => seq(|linesWidth|, i requires 0 <= i < |linesWidth| => width - linesWidth[i])
  }

  /** `_letterOffsetY`: the box top for TOP; for BOTTOM a position fixed by the text
      alone (the box height cancels out); CENTER halfway between the two. */
  function LetterOffsetY(v: VAlign, height: real, desired: real, lineHeight: real,
                         fontScale: real, originFontSize: real, scale: real): (r: real)
    ensures v == AlignTop ==> r == height
    ensures v == AlignBottom ==> r == desired - lineHeight * fontScale + originFontSize * scale
  {
    var blank := height - desired + lineHeight * fontScale - originFontSize * scale;
    match v
    case AlignTop => height
    case AlignBottom => height - blank
    case AlignMiddle => height - blank / 2.0
  }

  /** CENTER is the average of TOP and BOTTOM. */
  lemma MiddleIsHalfway(height: real, desired: real, lineHeight: real, fontScale: real,
                        originFontSize: real, scale: real)
    ensures LetterOffsetY(AlignMiddle, height, desired, lineHeight, fontScale, originFontSize, scale)
         == (LetterOffsetY(AlignTop, height, desired, lineHeight, fontScale, originFontSize, scale)
           + LetterOffsetY(AlignBottom, height, desired, lineHeight, fontScale, originFontSize, scale)) / 2.0
  {
  }
}

=== FILE: quads.dfy ===
/** Quad emission for a laid-out label: each valid letter's atlas rectangle is clipped to
    the label box under CLAMP and becomes one four-vertex quad; underline and
    strikethrough are drawn as three stretched pieces of a dedicated glyph; the index
    buffer repeats one two-triangle pattern per quad. */
module Quads {
  import opened Wrappers
  import opened Js
  import opened TmpUtils
  import opened FontConfig
  import opened Layout

  /** An axis-aligned rectangle: texels for an atlas rectangle, pixels for a position
      rectangle (whose `y` is the TOP edge). */
  datatype Rect = Rect(x: real, y: real, width: real, height: real)

  /** An RGBA colour, components on the 0..255 scale. */
  datatype Color = Color(r: real, g: real, b: real, a: real)

  const White := Color(255.0, 255.0, 255.0, 255.0)

  /** One vertex of the render data. */
  datatype Vert = Vert(x: real, y: real, z: real, u: real, v: real, colorExtra: Color, textureIdx: int)

  /** A quad before it is written: atlas page, atlas rectangle, pixel rectangle. */
  datatype Quad = Quad(textureId: int, uv: Rect, pos: Rect)

  /** The italic slant of the vertices: `on` is the component's `enableItalic`, and
      `sin`/`cos` are those of the 15-degree italic angle, taken as given numbers. */
  datatype Slant = Slant(on: bool, sin: real, cos: real)

  /** How far a slanted quad's top corners move right and its bottom corners left: for
      h half the quad's height, the horizontal part |h sin| of the vector (0, h) turned
      by the italic angle, which is (-h sin, h cos). */
  function SlantX(sl: Slant, height: real): (r: real)
    ensures r >= 0.0 && (!sl.on ==> r == 0.0)
  {
    if sl.on then RealAbs(height / 2.0 * sl.sin) else 0.0
  }

  /** How far a slanted quad's top and bottom edges move toward its middle: |h - h cos|,
      what the turned vector loses in height. */
  function SlantY(sl: Slant, height: real): (r: real)
    ensures r >= 0.0 && (!sl.on ==> r == 0.0)
  {
    if sl.on then RealAbs(height / 2.0 - height / 2.0 * sl.cos) else 0.0
  }

  /** The four vertices of a quad, in the order left-bottom, right-bottom, left-top,
      right-top. Upright, they are the corners of the position rectangle. Slanted, the
      top corners move right and the bottom corners left by `SlantX`, and both edges
      move toward the middle by `SlantY`. */
  function QuadVerts(tex: Texture, q: Quad, sl: Slant): (r: seq<Vert>)
    requires tex.width != 0.0 && tex.height != 0.0
    ensures |r| == 4
    ensures !sl.on ==> r[0].x == r[2].x == q.pos.x && r[2].y == r[3].y == q.pos.y
    ensures !sl.on ==> r[2].y - r[0].y == q.pos.height && r[3].y - r[1].y == q.pos.height
    ensures r[2].x - r[0].x == 2.0 * SlantX(sl, q.pos.height)
    ensures r[0].y - (q.pos.y - q.pos.height) == SlantY(sl, q.pos.height)
    ensures r[1].x - r[0].x == q.pos.width && r[3].x - r[2].x == q.pos.width
    ensures r[1].y == r[0].y && r[3].y == r[2].y
    ensures r[0].x + r[3].x == 2.0 * q.pos.x + q.pos.width && r[1].x + r[2].x == 2.0 * q.pos.x + q.pos.width
    ensures r[0].y + r[3].y == 2.0 * q.pos.y - q.pos.height
    ensures r[0].u * tex.width == q.uv.x && r[1].u * tex.width == q.uv.x + q.uv.width
    ensures r[2].v * tex.height == q.uv.y && r[0].v * tex.height == q.uv.y + q.uv.height
    ensures r[2].u == r[0].u && r[3].u == r[1].u && r[1].v == r[0].v && r[3].v == r[2].v
    ensures forall k :: 0 <= k < 4 ==> r[k].colorExtra == White && r[k].textureIdx == q.textureId && r[k].z == 0.0
  {
    var l := q.uv.x / tex.width;
    var rr := (q.uv.x + q.uv.width) / tex.width;
    var b := (q.uv.y + q.uv.height) / tex.height;
    var t := q.uv.y / tex.height;
    var pl := q.pos.x;
    var pr := q.pos.x + q.pos.width;
    var pb := q.pos.y - q.pos.height;
    var pt := q.pos.y;
    var dx := SlantX(sl, q.pos.height);
    var dy := SlantY(sl, q.pos.height);
    [Vert(pl - dx, pb + dy, 0.0, l, b, White, q.textureId), Vert(pr - dx, pb + dy, 0.0, rr, b, White, q.textureId),
     Vert(pl + dx, pt - dy, 0.0, l, t, White, q.textureId), Vert(pr + dx, pt - dy, 0.0, rr, t, White, q.textureId)]
  }

  /** The half-height vector turned by a true angle: its parts have the signs the
      slant assumes, and the side they span is as long as the upright one. */
  lemma TurnedHalfHeight(h: real, sn: real, c: real)
    requires h >= 0.0 && sn * sn + c * c == 1.0 && c >= 0.0
    ensures c <= 1.0
    ensures RealAbs(h * sn) == h * RealAbs(sn) && RealAbs(h - h * c) == h - h * c
    ensures (2.0 * (h * RealAbs(sn))) * (2.0 * (h * RealAbs(sn))) + (2.0 * (h * c)) * (2.0 * (h * c))
            == (2.0 * h) * (2.0 * h)
  {
    var s := RealAbs(sn);
    assert s * s == sn * sn;
    assert (c - 1.0) * (c + 1.0) == c * c - 1.0 <= 0.0;
    assert h * c <= h;
    assert (2.0 * (h * s)) * (2.0 * (h * s)) + (2.0 * (h * c)) * (2.0 * (h * c)) == 4.0 * (h * h) * (s * s + c * c);
  }

  /** With a true angle (sin^2 + cos^2 = 1, cos >= 0) each slanted side of a quad of
      non-negative height is the upright side turned about its midpoint: it keeps its
      length and leans right by the angle. */
  lemma SlantTurnsSides(tex: Texture, q: Quad, sl: Slant)
    requires tex.width != 0.0 && tex.height != 0.0
    requires sl.on && sl.sin * sl.sin + sl.cos * sl.cos == 1.0 && sl.cos >= 0.0 && q.pos.height >= 0.0
    ensures var r := QuadVerts(tex, q, sl);
      var dx, dy := r[2].x - r[0].x, r[2].y - r[0].y;
      dx * dx + dy * dy == q.pos.height * q.pos.height
      && dx >= 0.0 && dy >= 0.0
      && dx * sl.cos == dy * RealAbs(sl.sin)
      && r[3].x - r[1].x == dx && r[3].y - r[1].y == dy
  {
    var r := QuadVerts(tex, q, sl);
    var h := q.pos.height / 2.0;
    TurnedHalfHeight(h, sl.sin, sl.cos);
    assert r[2].x - r[0].x == 2.0 * (h * RealAbs(sl.sin));
    assert r[2].y - r[0].y == 2.0 * (h * sl.cos);
    assert q.pos.height == 2.0 * h;
  }

  /** The layout leaves room for the slant: a glyph's quad at the layout's scale leans
      right by exactly twice the shear the layout adds to the letter's x, so its
      bottom-left corner comes back to the unsheared pen position. */
  lemma SlantMatchesLayoutShear(s: Setup, g: Glyph, tex: Texture, q: Quad)
    requires tex.width != 0.0 && tex.height != 0.0
    requires q.pos.height == g.h * s.scale
    ensures var r := QuadVerts(tex, q, Slant(s.italic, s.italicSin, 1.0));
      r[2].x - r[0].x == 2.0 * Shear(s, g) && r[0].x == q.pos.x - Shear(s, g)
  {
  }

  /** The four vertices of quad number `q`. */
  function QuadAt(verts: seq<Vert>, q: nat): seq<Vert>
    requires 4 * q + 4 <= |verts|
  {
    verts[4 * q .. 4 * q + 4]
  }

  /** Appending vertices leaves every earlier quad in place. */
  lemma AppendKeepsQuads(verts: seq<Vert>, more: seq<Vert>, q: nat)
    requires 4 * q + 4 <= |verts|
    ensures QuadAt(verts + more, q) == QuadAt(verts, q)
  {
    assert (verts + more)[4 * q .. 4 * q + 4] == verts[4 * q .. 4 * q + 4];
  }

  // ---------------------------------------------------------------------------------
  // Index buffer
  // ---------------------------------------------------------------------------------

  /** Two triangles per quad, sharing the diagonal from vertex 1 to vertex 2. */
  const QuadPattern: seq<nat> := [0, 1, 2, 1, 3, 2]

  /** The index buffer holds 16-bit unsigned integers. */
  const IndexModulus := 0x1_0000

  /** Entry `j` of an index buffer: vertex `QuadPattern[j % 6]` of quad `j / 6`, stored
      modulo 2^16. */
  function QuadIndexAt(j: nat): (r: nat)
    ensures r < IndexModulus
  {
    (4 * (j / 6) + QuadPattern[j % 6]) % IndexModulus
  }

  /** Entry `k` of quad `i` is that quad's pattern vertex. */
  lemma QuadEntry(i: nat, k: nat)
    requires k < 6
    ensures QuadIndexAt(6 * i + k) == (4 * i + QuadPattern[k]) % IndexModulus
  {
    assert (6 * i + k) / 6 == i && (6 * i + k) % 6 == k;
  }

  /** `createQuadIndices`: the shared index buffer for `indexCount / 6` quads, or nothing
      when the count is not a whole number of quads. */
  method CreateQuadIndices(indexCount: nat) returns (r: Option<seq<nat>>)
    ensures r.None? <==> indexCount % 6 != 0
    ensures r.Some? ==> |r.value| == indexCount
    ensures r.Some? ==> forall j :: 0 <= j < indexCount ==> r.value[j] == QuadIndexAt(j)
  {
    if indexCount % 6 != 0 {
      return None;
    }
    var quadCount := indexCount / 6;
    var idx: seq<nat> := [];
    var i := 0;
    while i < quadCount
      invariant 0 <= i <= quadCount
      invariant |idx| == 6 * i
      invariant forall j :: 0 <= j < |idx| ==> idx[j] == QuadIndexAt(j)
    {
      var v := 4 * i;
      var more := [v % IndexModulus, (v + 1) % IndexModulus, (v + 2) % IndexModulus,
                   (v + 1) % IndexModulus, (v + 3) % IndexModulus, (v + 2) % IndexModulus];
      forall k | 0 <= k < 6 ensures more[k] == QuadIndexAt(6 * i + k) {
        QuadEntry(i, k);
      }
      idx := idx + more;
      i := i + 1;
    }
    return Some(idx);
  }

  /** While no more than 16384 quads are drawn the 16-bit buffer does not wrap: every
      index names one of the four vertices of its own quad. */
  lemma IndicesStayInTheirQuad(j: nat)
    requires j / 6 < 16384
    ensures QuadIndexAt(j) / 4 == j / 6
    ensures QuadIndexAt(j) % 4 == QuadPattern[j % 6]
  {
  }

  /** Past 16384 quads the buffer wraps: the first index of quad 16384 is 0 again. */
  lemma IndicesWrapPast16384Quads()
    ensures QuadIndexAt(6 * 16384) == 0
  {
  }

  /** `_reserveQuads` of the older port: room for every letter plus three pieces per
      line for each enabled decoration. */
  function ReserveCount(letters: nat, underline: bool, strike: bool, numberOfLines: nat): (r: nat)
    ensures r >= letters
    ensures !underline && !strike ==> r == letters
    ensures underline != strike ==> r == letters + 3 * numberOfLines
    ensures underline && strike ==> r == letters + 6 * numberOfLines
  {
    var extra := (if underline then 1 else 0) + (if strike then 1 else 0);
    letters + extra * numberOfLines * 3
  }

  /** The older port's reserved index data: for `count` quads, entry `i + k` of the block
      starting at `i = 6q` is `4q + QuadPattern[k]`. */
  function ReservedIndices(count: nat): (r: seq<nat>)
    ensures |r| == 6 * count
    ensures forall j :: 0 <= j < |r| ==> r[j] == 4 * (j / 6) + QuadPattern[j % 6]
  {
    if count == 0 then []
    else
      var v := 4 * (count - 1);
      ReservedIndices(count - 1) + [v, v + 1, v + 2, v + 1, v + 3, v + 2]
  }

  /** Both ports lay out the same pattern: the shared buffer of the newer port is the
      older port's reserved data, read as 16-bit values. */
  lemma PortsShareIndexPattern(count: nat)
    ensures forall j :: 0 <= j < 6 * count ==> QuadIndexAt(j) == ReservedIndices(count)[j] % IndexModulus
  {
  }

  /** The older port's `appendQuad` counters. */
  datatype Counters = Counters(verticesCount: nat, indicesCount: nat)

  function Bump(c: Counters): Counters
  {
    Counters(c.verticesCount + 4, (c.verticesCount + 4) / 2 * 3)
  }

  /** After `n` quads from a reset, the counters say `4n` vertices and `6n` indices. */
  function CountersAfter(n: nat): (r: Counters)
    ensures r.verticesCount == 4 * n && r.indicesCount == 6 * n
    ensures r.indicesCount == r.verticesCount / 2 * 3
  {
    if n == 0 then Counters(0, 0) else Bump(CountersAfter(n - 1))
  }

  // ---------------------------------------------------------------------------------
  // Clipping
  // ---------------------------------------------------------------------------------

  /** What the quad pass reads from the layout and the component. `appX`/`appY` are the
      anchor point times the content size; `lineDef` is the underline glyph, if any. */
  datatype QuadCtx = QuadCtx(
    cfg: Config, overflow: Overflow, scale: real,
    labelWidth: real, labelHeight: real, contentWidth: real,
    tailoredTopY: real, tailoredBottomY: real,
    letterOffsetY: real, linesOffsetX: seq<real>, appX: real, appY: real,
    lineDef: Option<Glyph>, underline: bool, strike: bool,
    fontSize: real, underlineOffset: real, strikethroughOffset: real, slant: Slant)

  predicate ClipsHeight(c: QuadCtx) { c.labelHeight > 0.0 && c.overflow.Clamp? }
  predicate ClipsWidth(c: QuadCtx) { c.labelWidth > 0.0 && c.overflow.Clamp? }

  /** A piece after clipping on one axis: its atlas rectangle and the pixel coordinate of
      its clipped edge (top edge vertically, left edge horizontally). */
  datatype Span = Span(uv: Rect, at: real)

  lemma DivTimes(a: real, s: real)
    requires s != 0.0
    ensures (a / s) * s == a
  {
  }

  /** Vertical CLAMP clipping of a letter whose top edge is at `py`: what sticks out above
      the box is cut off the top of the atlas rectangle, what sticks out below is cut off
      its bottom. */
  function ClipVertical(c: QuadCtx, uv: Rect, py: real): (r: Span)
    requires ClipsHeight(c) ==> c.scale > 0.0
    ensures r.uv.x == uv.x && r.uv.width == uv.width
    ensures !ClipsHeight(c) ==> r == Span(uv, py)
    ensures ClipsHeight(c) ==> r.at == RealMin(py, c.tailoredTopY)
    ensures ClipsHeight(c) ==> (r.uv.y - uv.y) * c.scale == py - r.at
    ensures ClipsHeight(c) && r.uv.height > 0.0 ==> r.at - r.uv.height * c.scale >= c.tailoredBottomY
    ensures ClipsHeight(c) && r.uv.height > 0.0 ==> r.at - r.uv.height * c.scale >= py - uv.height * c.scale
    ensures py <= c.tailoredTopY && py - uv.height * c.scale >= c.tailoredBottomY ==> r == Span(uv, py)
  {
    if !ClipsHeight(c) then Span(uv, py)
    else
      var s := c.scale;
      var top :=
        if py > c.tailoredTopY then
          var clip := py - c.tailoredTopY;
          DivTimes(clip, s);
          Span(uv.(y := uv.y + clip / s, height := uv.height - clip / s), py - clip)
        else Span(uv, py);
      if top.at - top.uv.height * s < c.tailoredBottomY then
        DivTimes(top.at - c.tailoredBottomY, s);
        Span(top.uv.(height := if top.at < c.tailoredBottomY then 0.0 else (top.at - c.tailoredBottomY) / s), top.at)
      else top
  }

  /** Horizontal CLAMP clipping of a letter whose left edge is at `px`. */
  function ClipHorizontal(c: QuadCtx, uv: Rect, px: real): (r: Span)
    requires ClipsWidth(c) ==> c.scale > 0.0
    ensures r.uv.y == uv.y && r.uv.height == uv.height
    ensures !ClipsWidth(c) ==> r == Span(uv, px)
    ensures ClipsWidth(c) ==> r.at == RealMax(px, 0.0)
    ensures ClipsWidth(c) ==> (r.uv.x - uv.x) * c.scale == r.at - px
    ensures ClipsWidth(c) ==> r.at + r.uv.width * c.scale <= c.contentWidth
    ensures ClipsWidth(c) ==> r.at + r.uv.width * c.scale <= px + uv.width * c.scale
    ensures 0.0 <= px && px + uv.width * c.scale <= c.contentWidth ==> r == Span(uv, px)
  {
    if !ClipsWidth(c) then Span(uv, px)
    else
      var s := c.scale;
      var left :=
        if px < 0.0 then
          DivTimes(-px, s);
          Span(uv.(x := uv.x + -px / s, width := uv.width - -px / s), 0.0)
        else Span(uv, px);
      if left.at + left.uv.width * s > c.contentWidth then
        var clipRight := left.at + left.uv.width * s - c.contentWidth;
        DivTimes(clipRight, s);
        Span(left.uv.(width := left.uv.width - clipRight / s), left.at)
      else left
  }

  // ---------------------------------------------------------------------------------
  // Letter quads
  // ---------------------------------------------------------------------------------

  /** The atlas page `id` exists and has a non-zero size. */
  predicate PageReady(cfg: Config, id: int)
  {
    id in cfg.textures && cfg.textures[id].width != 0.0 && cfg.textures[id].height != 0.0
  }

  /** What the pass needs to draw a valid letter: its glyph, its line's offset, its page. */
  predicate Drawable(c: QuadCtx, info: LetterInfo)
  {
    info.valid ==>
      |info.ch| > 0 && info.ch[0] in c.cfg.letters && 0 <= info.line < |c.linesOffsetX|
      && PageReady(c.cfg, c.cfg.letters[info.ch[0]].textureId)
  }

  predicate AllDrawable(c: QuadCtx, letters: seq<LetterInfo>)
  {
    forall i :: 0 <= i < |letters| ==> Drawable(c, letters[i])
  }

  /** Clipping divides by the scale, and so does the decoration split. */
  predicate CtxReady(c: QuadCtx)
  {
    (ClipsHeight(c) || ClipsWidth(c) ==> c.scale > 0.0)
    && (c.lineDef.Some? && (c.underline || c.strike) ==> c.scale > 0.0 && PageReady(c.cfg, c.lineDef.value.textureId))
  }

  function GlyphOf(c: QuadCtx, info: LetterInfo): Glyph
    requires info.valid && Drawable(c, info)
  {
    c.cfg.letters[info.ch[0]]
  }

  /** The quad of a valid letter after clipping. */
  function LetterQuad(c: QuadCtx, info: LetterInfo): (q: Quad)
    requires info.valid && Drawable(c, info) && CtxReady(c)
    ensures q.textureId == GlyphOf(c, info).textureId
    ensures q.pos.width == q.uv.width * c.scale && q.pos.height == q.uv.height * c.scale
  {
    var g := GlyphOf(c, info);
    var v := ClipVertical(c, Rect(g.u, g.v, g.w, g.h), info.y + c.letterOffsetY);
    var h := ClipHorizontal(c, v.uv, info.x + c.linesOffsetX[info.line]);
    Quad(g.textureId, h.uv, Rect(h.at - c.appX, v.at - c.appY, h.uv.width * c.scale, h.uv.height * c.scale))
  }

  /** Without CLAMP a letter's quad is its whole glyph at its pen position, shifted by its
      line's alignment offset and the label's vertical offset. */
  lemma UnclampedQuadIsWholeGlyph(c: QuadCtx, info: LetterInfo)
    requires info.valid && Drawable(c, info) && CtxReady(c) && !c.overflow.Clamp?
    ensures var g := GlyphOf(c, info);
      LetterQuad(c, info) == Quad(g.textureId, Rect(g.u, g.v, g.w, g.h),
        Rect(info.x + c.linesOffsetX[info.line] - c.appX, info.y + c.letterOffsetY - c.appY,
             g.w * c.scale, g.h * c.scale))
  {
  }

  /** Under CLAMP with a fixed box, every drawn letter lies inside the box. */
  lemma ClampedQuadInsideBox(c: QuadCtx, info: LetterInfo)
    requires info.valid && Drawable(c, info) && CtxReady(c) && ClipsHeight(c) && ClipsWidth(c)
    requires LetterQuad(c, info).uv.width > 0.0 && LetterQuad(c, info).uv.height > 0.0
    ensures var p := LetterQuad(c, info).pos;
      0.0 <= p.x + c.appX && p.x + c.appX + p.width <= c.contentWidth
      && p.y + c.appY <= c.tailoredTopY && p.y + c.appY - p.height >= c.tailoredBottomY
  {
    var g := GlyphOf(c, info);
    var v := ClipVertical(c, Rect(g.u, g.v, g.w, g.h), info.y + c.letterOffsetY);
    var h := ClipHorizontal(c, v.uv, info.x + c.linesOffsetX[info.line]);
    assert LetterQuad(c, info).uv == h.uv;
  }

  /** A letter gets a quad when it is valid and its clipped atlas rectangle has a
      positive size. */
  predicate Emits(c: QuadCtx, info: LetterInfo)
    requires Drawable(c, info) && CtxReady(c)
  {
    info.valid && LetterQuad(c, info).uv.width > 0.0 && LetterQuad(c, info).uv.height > 0.0
  }

  function ValidBefore(letters: seq<LetterInfo>, i: nat): nat
    requires i <= |letters|
  {
    if i == 0 then 0 else ValidBefore(letters, i - 1) + (if letters[i - 1].valid then 1 else 0)
  }

  /** Number of quads the letters before `i` produce. */
  function QuadsBefore(c: QuadCtx, letters: seq<LetterInfo>, i: nat): (n: nat)
    requires i <= |letters| && CtxReady(c) && AllDrawable(c, letters)
    ensures n <= ValidBefore(letters, i) <= i
  {
    if i == 0 then 0
    else QuadsBefore(c, letters, i - 1) + (if Emits(c, letters[i - 1]) then 1 else 0)
  }

  /** Quad numbers grow with the letter index. */
  lemma {:induction false} QuadsBeforeMonotone(c: QuadCtx, letters: seq<LetterInfo>, i: nat, j: nat)
    requires i <= j <= |letters| && CtxReady(c) && AllDrawable(c, letters)
    ensures QuadsBefore(c, letters, i) <= QuadsBefore(c, letters, j)
    decreases j - i
  {
    if i < j {
      QuadsBeforeMonotone(c, letters, i, j - 1);
    }
  }

  /** A clipped-out letter shares its quad number with the next letter that draws. */
  lemma {:induction false} ClippedLetterSharesIndex(c: QuadCtx, letters: seq<LetterInfo>, i: nat, j: nat)
    requires i < j < |letters| && CtxReady(c) && AllDrawable(c, letters)
    requires forall k :: i <= k < j ==> !Emits(c, letters[k])
    ensures QuadsBefore(c, letters, i) == QuadsBefore(c, letters, j)
    decreases j - i
  {
    if i < j - 1 {
      ClippedLetterSharesIndex(c, letters, i, j - 1);
    }
  }

  /** The underline record of a line: first and last letter index drawn on it. */
  datatype LineSpan = LineSpan(first: nat, last: nat)

  /** A letter that counts towards its line's underline: drawn, not whitespace, and a
      decoration is on with an underline glyph present. */
  predicate Marks(c: QuadCtx, info: LetterInfo)
    requires Drawable(c, info) && CtxReady(c)
  {
    Emits(c, info) && c.lineDef.Some? && (c.underline || c.strike) && !IsUnicodeSpace(info.ch)
  }

  /** Which letters are marked, as a sequence of flags. */
  function MarkFlags(c: QuadCtx, letters: seq<LetterInfo>): (r: seq<bool>)
    requires CtxReady(c) && AllDrawable(c, letters)
    ensures |r| == |letters|
    ensures forall i :: 0 <= i < |letters| ==> r[i] == Marks(c, letters[i])
  {
    seq(|letters|, i requires 0 <= i < |letters| => Marks(c, letters[i]))
  }

  function LinesOf(letters: seq<LetterInfo>): (r: seq<int>)
    ensures |r| == |letters| && forall i :: 0 <= i < |letters| ==> r[i] == letters[i].line
  {
    seq(|letters|, i requires 0 <= i < |letters| => letters[i].line)
  }

  /** `lines` holds, for every line with a flagged entry among the first `n`, the first
      and last such entry, and nothing else. */
  predicate LineTable(m: seq<bool>, line: seq<int>, lines: map<int, LineSpan>, n: nat)
    requires n <= |m| == |line|
  {
    (forall L :: L in lines ==>
       lines[L].first <= lines[L].last < n
       && m[lines[L].first] && line[lines[L].first] == L
       && m[lines[L].last] && line[lines[L].last] == L)
    && (forall j :: 0 <= j < n && m[j] ==>
          line[j] in lines && lines[line[j]].first <= j <= lines[line[j]].last)
  }

  /** The table of first and last marked letter per line, over the first `n` letters. */
  predicate SpansRecord(c: QuadCtx, letters: seq<LetterInfo>, lines: map<int, LineSpan>, n: nat)
    requires n <= |letters| && CtxReady(c) && AllDrawable(c, letters)
  {
    LineTable(MarkFlags(c, letters), LinesOf(letters), lines, n)
  }

  /** The letters after the quad pass: every valid one carries its quad number. */
  predicate Numbered(c: QuadCtx, letters: seq<LetterInfo>, out: seq<LetterInfo>, n: nat)
    requires n <= |letters| == |out| && CtxReady(c) && AllDrawable(c, letters)
  {
    forall k :: 0 <= k < n ==>
      out[k] == if letters[k].valid then letters[k].(quadsIndex := QuadsBefore(c, letters, k)) else letters[k]
  }

  /** The vertices hold one quad per drawn letter, at the letter's quad number. */
  predicate QuadsWritten(c: QuadCtx, letters: seq<LetterInfo>, verts: seq<Vert>, n: nat)
    requires n <= |letters| && CtxReady(c) && AllDrawable(c, letters)
  {
    forall k :: 0 <= k < n && Emits(c, letters[k]) ==>
      4 * QuadsBefore(c, letters, k) + 4 <= |verts|
      && QuadAt(verts, QuadsBefore(c, letters, k))
         == QuadVerts(c.cfg.textures[LetterQuad(c, letters[k]).textureId], LetterQuad(c, letters[k]), c.slant)
  }

  /** Recording a marked letter `i` in the line table. */
  function Mark(lines: map<int, LineSpan>, line: int, i: nat): map<int, LineSpan>
  {
    if line !in lines then lines[line := LineSpan(i, i)]
    else if lines[line].last < i then lines[line := lines[line].(last := i)]
    else lines
  }

  /** Recording a flagged entry keeps the line table exact for one more entry. */
  lemma MarkStep(m: seq<bool>, line: seq<int>, lines: map<int, LineSpan>, i: nat)
    requires i < |m| == |line| && LineTable(m, line, lines, i)
    ensures LineTable(m, line, if m[i] then Mark(lines, line[i], i) else lines, i + 1)
  {
  }

  /** Appending a drawn letter's quad keeps every earlier letter's quad in place. */
  lemma WriteStep(c: QuadCtx, letters: seq<LetterInfo>, verts: seq<Vert>, i: nat)
    requires i < |letters| && CtxReady(c) && AllDrawable(c, letters)
    requires |verts| == 4 * QuadsBefore(c, letters, i) && QuadsWritten(c, letters, verts, i)
    requires Emits(c, letters[i])
    ensures var q := LetterQuad(c, letters[i]);
      QuadsWritten(c, letters, verts + QuadVerts(c.cfg.textures[q.textureId], q, c.slant), i + 1)
  {
    var q := LetterQuad(c, letters[i]);
    var more := QuadVerts(c.cfg.textures[q.textureId], q, c.slant);
    forall k | 0 <= k < i && Emits(c, letters[k])
      ensures QuadAt(verts + more, QuadsBefore(c, letters, k)) == QuadAt(verts, QuadsBefore(c, letters, k))
    {
      QuadsBeforeMonotone(c, letters, k + 1, i);
      AppendKeepsQuads(verts, more, QuadsBefore(c, letters, k));
    }
    assert QuadAt(verts + more, QuadsBefore(c, letters, i)) == more;
  }

  /** A letter that draws nothing leaves every quad written so far in place. */
  lemma SkipStep(c: QuadCtx, letters: seq<LetterInfo>, verts: seq<Vert>, i: nat)
    requires i < |letters| && CtxReady(c) && AllDrawable(c, letters)
    requires QuadsWritten(c, letters, verts, i) && !Emits(c, letters[i])
    ensures QuadsBefore(c, letters, i + 1) == QuadsBefore(c, letters, i)
    ensures QuadsWritten(c, letters, verts, i + 1)
  {
    forall k | 0 <= k < i + 1 && Emits(c, letters[k])
      ensures 4 * QuadsBefore(c, letters, k) + 4 <= |verts|
      ensures QuadAt(verts, QuadsBefore(c, letters, k))
              == QuadVerts(c.cfg.textures[LetterQuad(c, letters[k]).textureId], LetterQuad(c, letters[k]), c.slant)
    {
      assert k != i;
    }
  }

  /** Recording letter `i`, when marked, keeps the line table exact for one more letter. */
  lemma SpansStep(c: QuadCtx, letters: seq<LetterInfo>, lines: map<int, LineSpan>, i: nat)
    requires i < |letters| && CtxReady(c) && AllDrawable(c, letters)
    requires SpansRecord(c, letters, lines, i)
    ensures SpansRecord(c, letters, if Marks(c, letters[i]) then Mark(lines, letters[i].line, i) else lines, i + 1)
  {
    MarkStep(MarkFlags(c, letters), LinesOf(letters), lines, i);
  }

  /** Giving a valid letter `i` the current quad number keeps the numbering exact for
      one more letter. */
  lemma NumberStep(c: QuadCtx, letters: seq<LetterInfo>, out: seq<LetterInfo>, quads: nat, i: nat)
    requires i < |letters| == |out| && CtxReady(c) && AllDrawable(c, letters)
    requires quads == QuadsBefore(c, letters, i) && Numbered(c, letters, out, i) && out[i] == letters[i]
    ensures Numbered(c, letters, if letters[i].valid then out[i := letters[i].(quadsIndex := quads)] else out, i + 1)
  {
  }

  /** The state of the letter loop: letters so far, vertices, line table, quad count. */
  datatype LetterPass = LetterPass(out: seq<LetterInfo>, verts: seq<Vert>, lines: map<int, LineSpan>, quads: nat)

  predicate PassInv(c: QuadCtx, letters: seq<LetterInfo>, p: LetterPass, i: nat)
    requires CtxReady(c) && AllDrawable(c, letters)
  {
    i <= |letters| && |p.out| == |letters|
    && p.quads == QuadsBefore(c, letters, i)
    && Numbered(c, letters, p.out, i)
    && (forall k :: i <= k < |letters| ==> p.out[k] == letters[k])
    && |p.verts| == 4 * p.quads
    && QuadsWritten(c, letters, p.verts, i)
    && SpansRecord(c, letters, p.lines, i)
  }

  /** One letter of the loop: a valid letter takes the current quad number; a drawn one
      appends its quad and, when marked, widens its line's record. */
  method LetterStep(c: QuadCtx, letters: seq<LetterInfo>, p: LetterPass, i: nat) returns (r: LetterPass)
    requires CtxReady(c) && AllDrawable(c, letters) && i < |letters|
    requires PassInv(c, letters, p, i)
    ensures PassInv(c, letters, r, i + 1)
  {
    var info := letters[i];
    SpansStep(c, letters, p.lines, i);
    NumberStep(c, letters, p.out, p.quads, i);
    var lines := if Marks(c, info) then Mark(p.lines, info.line, i) else p.lines;
    var out := if info.valid then p.out[i := info.(quadsIndex := p.quads)] else p.out;
    if !Emits(c, info) {
      SkipStep(c, letters, p.verts, i);
      return LetterPass(out, p.verts, lines, p.quads);
    }
    var q := LetterQuad(c, info);
    WriteStep(c, letters, p.verts, i);
    r := LetterPass(out, p.verts + QuadVerts(c.cfg.textures[q.textureId], q, c.slant), lines, p.quads + 1);
  }

  /** The letter loop of `_updateQuads`. */
  method LetterQuads(c: QuadCtx, letters: seq<LetterInfo>)
      returns (out: seq<LetterInfo>, verts: seq<Vert>, lines: map<int, LineSpan>)
    requires CtxReady(c) && AllDrawable(c, letters)
    ensures |out| == |letters|
    ensures Numbered(c, letters, out, |letters|)
    ensures |verts| == 4 * QuadsBefore(c, letters, |letters|)
    ensures QuadsWritten(c, letters, verts, |letters|)
    ensures SpansRecord(c, letters, lines, |letters|)
  {
    var p := LetterPass(letters, [], map[], 0);
    var i := 0;
    while i < |letters|
      invariant 0 <= i <= |letters|
      invariant PassInv(c, letters, p, i)
    {
      p := LetterStep(c, letters, p, i);
      i := i + 1;
    }
    return p.out, p.verts, p.lines;
  }

  // ---------------------------------------------------------------------------------
  // Underline and strikethrough
  // ---------------------------------------------------------------------------------

  /** Widths of the three pieces a decoration of `span` pixels is cut into, given the
      decoration glyph's pixel width. */
  datatype Split = Split(wLeft: real, wMid: real, wRight: real)

  function SplitLine(span: real, glyphWidth: real): (r: Split)
    ensures r.wLeft == r.wRight
    ensures r.wLeft + r.wMid + r.wRight == span
    ensures span >= glyphWidth ==> r.wLeft * 3.0 == glyphWidth
    ensures span < glyphWidth ==> r.wMid == 0.0
    ensures glyphWidth >= 0.0 ==> r.wMid >= 0.0
    ensures span >= 0.0 && glyphWidth >= 0.0 ==> r.wLeft >= 0.0
  {
    var wLeft := if span >= glyphWidth then glyphWidth / 3.0 else span / 2.0;
    Split(wLeft, span - wLeft - wLeft, wLeft)
  }

  /** Whether a decoration whose top edge ended up at `at` is cut at the bottom: only
      under CLAMP, and measured with the glyph's unclipped height. */
  predicate LineBottomClips(c: QuadCtx, at: real, glyphHeight: real)
  {
    c.overflow.Clamp? && at - glyphHeight * c.scale < c.tailoredBottomY
  }

  /** Vertical clipping of a decoration piece, with the top cut converted from pixels to
      texels like the letter path does. The top cut applies in every overflow mode once
      the label has a height. */
  function ClipLine(c: QuadCtx, uv: Rect, py: real, glyphHeight: real): (r: Span)
    requires c.scale > 0.0
    ensures r.uv.x == uv.x && r.uv.width == uv.width
    ensures c.labelHeight <= 0.0 ==> r == Span(uv, py)
    ensures c.labelHeight > 0.0 ==> r.at == RealMin(py, c.tailoredTopY)
    ensures (r.uv.y - uv.y) * c.scale == py - r.at
    ensures c.labelHeight > 0.0 && !LineBottomClips(c, r.at, glyphHeight) ==>
      r.at - r.uv.height * c.scale == py - uv.height * c.scale
    ensures c.labelHeight > 0.0 && LineBottomClips(c, r.at, glyphHeight) && r.uv.height > 0.0 ==>
      r.at - r.uv.height * c.scale == c.tailoredBottomY
  {
    if c.labelHeight <= 0.0 then Span(uv, py)
    else
      var s := c.scale;
      var top :=
        if py > c.tailoredTopY then
          var clip := py - c.tailoredTopY;
          DivTimes(clip, s);
          Span(uv.(y := uv.y + clip / s, height := uv.height - clip / s), py - clip)
        else Span(uv, py);
      if LineBottomClips(c, top.at, glyphHeight) then
        DivTimes(top.at - c.tailoredBottomY, s);
        Span(top.uv.(height := if top.at < c.tailoredBottomY then 0.0 else (top.at - c.tailoredBottomY) / s), top.at)
      else top
  }

  /** The decoration clipping as the source writes it: the top cut in pixels is
      subtracted from the atlas rectangle in texels, without dividing by the scale. */
  function ClipLineAsWritten(c: QuadCtx, uv: Rect, py: real, glyphHeight: real): (r: Span)
    requires c.scale > 0.0
    ensures r.uv.x == uv.x && r.uv.width == uv.width
    ensures c.labelHeight > 0.0 && py > c.tailoredTopY && !LineBottomClips(c, c.tailoredTopY, glyphHeight) ==>
      r.uv.y - uv.y == py - r.at
    ensures c.scale == 1.0 ==> r == ClipLine(c, uv, py, glyphHeight)
  {
    if c.labelHeight <= 0.0 then Span(uv, py)
    else
      var s := c.scale;
      var top :=
        if py > c.tailoredTopY then
          var clip := py - c.tailoredTopY;
          Span(uv.(y := uv.y + clip, height := uv.height - clip), py - clip)
        else Span(uv, py);
      if LineBottomClips(c, top.at, glyphHeight) then
        Span(top.uv.(height := if top.at < c.tailoredBottomY then 0.0 else (top.at - c.tailoredBottomY) / s), top.at)
      else top
  }

  /** A label with a 100-pixel CLAMP box and a font drawn at twice its atlas size. */
  const DoubleScaleBox := QuadCtx(
    Config(FontJson(10.0, 10.0, []), map[], map[]), Overflow.Clamp, 2.0,
    100.0, 100.0, 100.0, 100.0, 0.0, 0.0, [0.0], 0.0, 0.0,
    None, true, false, 20.0, 0.0, 0.0, Slant(false, 0.0, 1.0))

  /** An underline whose top edge is 2 px above that box, cut from a 4-texel-high glyph
      (8 px on screen): the letter path would show its lower 3 texels over 6 px, with its
      bottom edge where it was; the decoration path shows 2 texels over 4 px, so the
      bottom edge rises by 2 px. */
  lemma DecorationTopClipIgnoresScale()
    ensures var uv := Rect(0.0, 0.0, 4.0, 4.0);
      var fixed := ClipLine(DoubleScaleBox, uv, 102.0, 4.0);
      var asWritten := ClipLineAsWritten(DoubleScaleBox, uv, 102.0, 4.0);
      fixed.uv.height == 3.0 && fixed.at - fixed.uv.height * 2.0 == 102.0 - 8.0
      && asWritten.uv.height == 2.0 && asWritten.at - asWritten.uv.height * 2.0 != 102.0 - 8.0
  {
  }

  /** What `_updateLineQuads` needs from a line's record. */
  predicate SpanReady(c: QuadCtx, out: seq<LetterInfo>, span: LineSpan, L: int)
  {
    span.first < |out| && span.last < |out| && 0 <= L < |c.linesOffsetX|
    && Drawable(c, out[span.first]) && Drawable(c, out[span.last])
    && out[span.last].valid
  }

  /** The pieces of a decoration whose split is `w`, starting at `leftX`, with the left
      piece's vertical clipping `v`: left, right, then middle, each only when its
      atlas rectangle has a positive size (the middle also needs a positive width). */
  function Pieces(d: Glyph, s: real, leftX: real, w: Split, v: Span, appX: real, appY: real): (r: seq<Quad>)
    requires s > 0.0
    ensures |r| <= 3
    ensures forall k :: 0 <= k < |r| ==> r[k].textureId == d.textureId
  {
    var h := v.uv.height;
    var py := v.at;
    var midX := leftX + w.wLeft;
    var rightX := leftX + w.wLeft + w.wMid;
    var left := Quad(d.textureId, v.uv, Rect(leftX - appX, py - appY, w.wLeft, h * s));
    var rightUv := Rect(d.u + d.w - w.wRight / s, v.uv.y, w.wRight / s, h);
    var right := Quad(d.textureId, rightUv, Rect(rightX - appX, py - appY, w.wRight, h * s));
    var midW := d.w - w.wLeft * 2.0 / s;
    var mid := Quad(d.textureId, Rect(d.u + midW, v.uv.y, midW, h), Rect(midX - appX, py - appY, w.wMid, h * s));
    (if h > 0.0 && v.uv.width > 0.0 then [left] else [])
    + (if h > 0.0 && w.wRight / s > 0.0 then [right] else [])
    + (if w.wMid > 0.0 && h > 0.0 && midW > 0.0 then [mid] else [])
  }

  lemma PositiveRatio(a: real, s: real)
    requires s > 0.0
    ensures a / s > 0.0 <==> a > 0.0
  {
    if a > 0.0 {
      assert a / s > 0.0;
    } else {
      assert (a / s) * s == a;
    }
  }

  lemma ThirdOfScaled(a: real, s: real)
    requires s > 0.0
    ensures (a * s / 3.0) * 2.0 / s == a * 2.0 / 3.0
  {
  }

  /** The pieces of a decoration of positive span lie side by side, left, middle,
      right, and together cover exactly `[leftX, leftX + span]`, provided the glyph has
      a positive width and the left piece keeps its full atlas width and some height;
      the middle piece exists exactly when the span is at least the glyph's pixel
      width. */
  predicate Tiles(r: seq<Quad>, x: real, span: real, glyphWidth: real)
  {
    PieceCount(r, span, glyphWidth) && Covers(r, x, span) && SideBySide(r)
  }

  /** Two pieces, or three exactly when the span is at least the glyph's pixel width. */
  predicate PieceCount(r: seq<Quad>, span: real, glyphWidth: real)
  {
    (|r| == 2 || |r| == 3) && (|r| == 3 <==> span >= glyphWidth)
  }

  /** The first piece starts at `x` and the second (the right one) ends at `x + span`. */
  predicate Covers(r: seq<Quad>, x: real, span: real)
    requires |r| >= 2
  {
    r[0].pos.x == x && r[1].pos.x + r[1].pos.width == x + span
  }

  /** Each piece ends where the next one along the line starts: left then right, or
      left, middle (stored last), then right. */
  predicate SideBySide(r: seq<Quad>)
    requires |r| >= 2
  {
    (|r| == 2 ==> r[0].pos.x + r[0].pos.width == r[1].pos.x)
    && (|r| == 3 ==> r[0].pos.x + r[0].pos.width == r[2].pos.x
                     && r[2].pos.x + r[2].pos.width == r[1].pos.x)
  }

  lemma PiecesTile(d: Glyph, s: real, leftX: real, span: real, v: Span, appX: real, appY: real)
    requires s > 0.0
    ensures d.w > 0.0 && span > 0.0 && v.uv.height > 0.0 && v.uv.width == SplitLine(span, d.w * s).wLeft / s ==>
      Tiles(Pieces(d, s, leftX, SplitLine(span, d.w * s), v, appX, appY), leftX - appX, span, d.w * s)
  {
    var w := SplitLine(span, d.w * s);
    if d.w > 0.0 && span > 0.0 && v.uv.height > 0.0 && v.uv.width == w.wLeft / s {
      assert d.w * s > 0.0;
      assert w.wLeft > 0.0;
      PositiveRatio(w.wLeft, s);
      if span >= d.w * s {
        ThirdOfScaled(d.w, s);
        assert w.wLeft * 2.0 / s == d.w * 2.0 / 3.0;
      } else {
        assert w.wMid == 0.0;
      }
    }
  }

  /** The geometry `_updateLineQuads` computes for one line before cutting pieces. */
  datatype LineGeometry = LineGeometry(span: real, leftX: real, top: real)

  function GeometryOf(c: QuadCtx, out: seq<LetterInfo>, span: LineSpan, L: int, offsetY: real): (g: LineGeometry)
    requires SpanReady(c, out, span, L) && out[span.first].valid
  {
    var first := span.first;
    var last := if span.last > 0 then span.last else first;
    var firstInfo := out[first];
    var lastInfo := out[last];
    LineGeometry(
      lastInfo.x + GlyphOf(c, lastInfo).w * c.scale - firstInfo.x,
      firstInfo.x + c.linesOffsetX[L],
      firstInfo.y + c.letterOffsetY + GlyphOf(c, firstInfo).offsetY * c.scale + offsetY)
  }

  /** The up to three pieces of one line's decoration, `offsetY` below the first
      letter's glyph top; nothing when the first recorded letter is not valid. */
  function LinePieces(c: QuadCtx, out: seq<LetterInfo>, span: LineSpan, L: int, offsetY: real): (r: seq<Quad>)
    requires CtxReady(c) && c.lineDef.Some? && (c.underline || c.strike)
    requires SpanReady(c, out, span, L)
    ensures |r| <= 3
    ensures forall k :: 0 <= k < |r| ==> r[k].textureId == c.lineDef.value.textureId
  {
    if !out[span.first].valid then [] else PiecesFor(c, GeometryOf(c, out, span, L, offsetY))
  }

  /** The pieces cut for a line geometry: the split of its span, the left piece's
      vertical clipping (only a label with a height clips), and the pieces themselves.
      Without a label height nothing is clipped, so a positive span is tiled exactly
      from the line's left edge. */
  function PiecesFor(c: QuadCtx, g: LineGeometry): (r: seq<Quad>)
    requires CtxReady(c) && c.lineDef.Some? && (c.underline || c.strike)
    ensures |r| <= 3
    ensures forall k :: 0 <= k < |r| ==> r[k].textureId == c.lineDef.value.textureId
    ensures c.labelHeight <= 0.0 && c.lineDef.value.w > 0.0 && c.lineDef.value.h > 0.0 && g.span > 0.0 ==>
      Tiles(r, g.leftX - c.appX, g.span, c.lineDef.value.w * c.scale)
  {
    var d := c.lineDef.value;
    if c.labelHeight <= 0.0 then UnclippedPieces(d, c.scale, g.leftX, g.span, g.top, c.appX, c.appY)
    else
      var w := SplitLine(g.span, d.w * c.scale);
      var uv := Rect(d.u, d.v, w.wLeft / c.scale, d.h);
      Pieces(d, c.scale, g.leftX, w, ClipLine(c, uv, g.top, d.h), c.appX, c.appY)
  }

  /** The pieces of a decoration that is not clipped: the left piece shows the glyph's
      atlas rectangle cut to the left width, with its top edge at `top`. With a positive
      span and glyph size they tile the span. */
  function UnclippedPieces(d: Glyph, s: real, leftX: real, span: real, top: real, appX: real, appY: real): (r: seq<Quad>)
    requires s > 0.0
    ensures |r| <= 3
    ensures forall k :: 0 <= k < |r| ==> r[k].textureId == d.textureId
    ensures d.w > 0.0 && d.h > 0.0 && span > 0.0 ==> Tiles(r, leftX - appX, span, d.w * s)
  {
    var w := SplitLine(span, d.w * s);
    var v := Span(Rect(d.u, d.v, w.wLeft / s, d.h), top);
    PiecesTile(d, s, leftX, span, v, appX, appY);
    Pieces(d, s, leftX, w, v, appX, appY)
  }

  /** The decoration quads of every recorded line, in line order. */
  function DecorationQuads(c: QuadCtx, out: seq<LetterInfo>, lines: map<int, LineSpan>, offsetY: real, L: nat): (r: seq<Quad>)
    requires CtxReady(c) && c.lineDef.Some? && (c.underline || c.strike)
    requires forall k :: k in lines ==> SpanReady(c, out, lines[k], k)
    requires L <= |c.linesOffsetX|
    decreases |c.linesOffsetX| - L
    ensures |r| <= 3 * (|c.linesOffsetX| - L)
    ensures forall k :: 0 <= k < |r| ==> r[k].textureId == c.lineDef.value.textureId
  {
    if L >= |c.linesOffsetX| then []
    else (if L in lines then LinePieces(c, out, lines[L], L, offsetY) else []) + DecorationQuads(c, out, lines, offsetY, L + 1)
  }

  /** The vertices of a list of quads on one page, each slanted alike. */
  function VertsOf(tex: Texture, qs: seq<Quad>, sl: Slant): (r: seq<Vert>)
    requires tex.width != 0.0 && tex.height != 0.0
    ensures |r| == 4 * |qs|
    ensures forall q :: 0 <= q < |qs| ==> QuadAt(r, q) == QuadVerts(tex, qs[q], sl)
  {
    if |qs| == 0 then []
    else
      var r := VertsOf(tex, qs[..|qs| - 1], sl) + QuadVerts(tex, qs[|qs| - 1], sl);
      forall q | 0 <= q < |qs| - 1 ensures QuadAt(r, q) == QuadVerts(tex, qs[q], sl) {
        AppendKeepsQuads(VertsOf(tex, qs[..|qs| - 1], sl), QuadVerts(tex, qs[|qs| - 1], sl), q);
      }
      assert QuadAt(r, |qs| - 1) == QuadVerts(tex, qs[|qs| - 1], sl);
      r
  }

  /** After the letter loop every recorded line's first and last letters are valid and
      drawable, so the decoration pass can read them. */
  lemma RecordedSpansReady(c: QuadCtx, letters: seq<LetterInfo>, out: seq<LetterInfo>, lines: map<int, LineSpan>)
    requires CtxReady(c) && AllDrawable(c, letters) && |out| == |letters|
    requires Numbered(c, letters, out, |letters|) && SpansRecord(c, letters, lines, |letters|)
    ensures forall k :: k in lines ==> SpanReady(c, out, lines[k], k)
  {
    forall k | k in lines ensures SpanReady(c, out, lines[k], k) {
      var f := lines[k].first;
      var l := lines[k].last;
      assert out[f] == letters[f].(quadsIndex := QuadsBefore(c, letters, f));
      assert out[l] == letters[l].(quadsIndex := QuadsBefore(c, letters, l));
    }
  }
}

=== FILE: render.dfy ===
/** One render-data update of a label: the quad pass that chains the letter quads, the
    underline and strikethrough quads, the extra-colour pass and the index buffer,
    and the guard that lets `updateRenderData` run at most once per dirty label and
    never inside itself. */
module Render {
  import opened Wrappers
  import opened FontConfig
  import opened Layout
  import opened Quads
  import opened VertexApi

  /** Vertical offset of the underline below a line's glyph tops. */
  function UnderlineOffsetY(c: QuadCtx): real
  {
    -c.fontSize + c.underlineOffset * c.scale
  }

  /** Vertical offset of the strikethrough: half the font size, plus its own offset. */
  function StrikeOffsetY(c: QuadCtx): real
  {
    -c.fontSize / 2.0 + c.strikethroughOffset * c.scale
  }

  /** `_updateQuads` of the current port: letter quads, then the underline of every
      recorded line, then its strikethrough, then the extra colours, then the index
      buffer for every quad written. It never writes more quads than the older port's
      `_reserveQuads` sets aside for the same label. */
  method UpdateQuads(c: QuadCtx, letters: seq<LetterInfo>, g: Gradient)
      returns (out: seq<LetterInfo>, verts: seq<Vert>, indices: Option<seq<nat>>)
    requires CtxReady(c) && AllDrawable(c, letters)
    ensures |out| == |letters| && Numbered(c, letters, out, |letters|)
    ensures |verts| % 4 == 0
    ensures 4 * QuadsBefore(c, letters, |letters|) <= |verts|
    ensures |verts| <= 4 * ReserveCount(|letters|, c.underline, c.strike, |c.linesOffsetX|)
    ensures c.lineDef.None? || (!c.underline && !c.strike) ==> |verts| == 4 * QuadsBefore(c, letters, |letters|)
    ensures indices.Some? && 2 * |indices.value| == 3 * |verts|
    ensures forall j :: 0 <= j < |indices.value| ==> indices.value[j] == QuadIndexAt(j)
  {
    var lines, n;
    out, verts, lines, n := LetterPassOnly(c, letters);
    var under, mu := DecorationVerts(c, letters, out, lines, Underline);
    var strike, ms := DecorationVerts(c, letters, out, lines, Strikethrough);
    verts := verts + under + strike;
    var k := n + mu + ms;
    ReserveBound(|letters|, c.underline, c.strike, |c.linesOffsetX|, n, mu, ms);
    verts, indices := ColourAndIndex(out, verts, g, k);
  }

  /** The letter loop, seen from the rest of the pass: numbered letters, the line
      table, and one quad per drawn letter. */
  method LetterPassOnly(c: QuadCtx, letters: seq<LetterInfo>)
      returns (out: seq<LetterInfo>, verts: seq<Vert>, lines: map<int, LineSpan>, n: nat)
    requires CtxReady(c) && AllDrawable(c, letters)
    ensures |out| == |letters| && Numbered(c, letters, out, |letters|)
    ensures SpansRecord(c, letters, lines, |letters|)
    ensures n == QuadsBefore(c, letters, |letters|) && |verts| == 4 * n && n <= |letters|
  {
    out, verts, lines := LetterQuads(c, letters);
    n := QuadsBefore(c, letters, |letters|);
  }

  /** The tail of the quad pass: the extra colours, then the index buffer for the
      `k` quads written. */
  method ColourAndIndex(out: seq<LetterInfo>, verts: seq<Vert>, g: Gradient, k: nat)
      returns (r: seq<Vert>, indices: Option<seq<nat>>)
    requires |verts| == 4 * k
    ensures OnlyColorsDiffer(verts, r) && |r| == 4 * k && |r| % 4 == 0
    ensures indices.Some? && |indices.value| == 6 * k
    ensures forall j :: 0 <= j < |indices.value| ==> indices.value[j] == QuadIndexAt(j)
  {
    r := UpdateColorExtra(Extensions, out, verts, g);
    assert |r| / 2 * 3 == 6 * k;
    indices := CreateQuadIndices(|r| / 2 * 3);
  }

  /** The two decorations a line can carry. */
  datatype Decoration = Underline | Strikethrough

  /** The vertices of one decoration over every recorded line, when it is enabled and
      the font has an underline glyph: at most three quads per line. */
  method DecorationVerts(c: QuadCtx, letters: seq<LetterInfo>, out: seq<LetterInfo>,
                         lines: map<int, LineSpan>, d: Decoration)
      returns (r: seq<Vert>, quads: nat)
    requires CtxReady(c) && AllDrawable(c, letters) && |out| == |letters|
    requires Numbered(c, letters, out, |letters|) && SpansRecord(c, letters, lines, |letters|)
    ensures |r| == 4 * quads && quads <= 3 * |c.linesOffsetX|
    ensures c.lineDef.None? || !(if d == Underline then c.underline else c.strike) ==> quads == 0
  {
    var on := if d == Underline then c.underline else c.strike;
    if c.lineDef.None? || !on {
      return [], 0;
    }
    RecordedSpansReady(c, letters, out, lines);
    var tex := c.cfg.textures[c.lineDef.value.textureId];
    var offsetY := if d == Underline then UnderlineOffsetY(c) else StrikeOffsetY(c);
    var qs := DecorationQuads(c, out, lines, offsetY, 0);
    r, quads := VertsOf(tex, qs, c.slant), |qs|;
  }

  /** Letter quads plus at most three quads per line for each enabled decoration fit
      the older port's reservation. */
  lemma ReserveBound(letters: nat, underline: bool, strike: bool, numberOfLines: nat, n: nat, a: nat, b: nat)
    requires n <= letters && a <= 3 * numberOfLines && b <= 3 * numberOfLines
    requires !underline ==> a == 0
    requires !strike ==> b == 0
    ensures n + a + b <= ReserveCount(letters, underline, strike, numberOfLines)
  {
  }

  /** The older port reserves a quad for every letter, so each valid letter's quad
      number lies inside its reserved vertex data: the older port's accessors never
      read or write past it. */
  lemma ReservationCoversEveryLetter(c: QuadCtx, letters: seq<LetterInfo>, out: seq<LetterInfo>,
                                     underline: bool, strike: bool, numberOfLines: nat)
    requires CtxReady(c) && AllDrawable(c, letters) && |out| == |letters|
    requires Numbered(c, letters, out, |letters|)
    ensures forall i :: 0 <= i < |out| && out[i].valid ==>
      4 * out[i].quadsIndex + 4 <= 4 * ReserveCount(|letters|, underline, strike, numberOfLines)
  {
    forall i | 0 <= i < |out| && out[i].valid
      ensures out[i].quadsIndex < |letters|
    {
      assert out[i] == letters[i].(quadsIndex := QuadsBefore(c, letters, i));
    }
  }

  // ---------------------------------------------------------------------------------
  // updateRenderData
  // ---------------------------------------------------------------------------------

  /** What the guard of `updateRenderData` reads from a component: its identity, the
      dirty flag, whether it has render data and a font configuration. */
  datatype Component = Component(id: int, dirty: bool, hasRenderData: bool, hasFont: bool)

  /** The component after the call, the module's in-progress marker `_comp` (the id of
      the component being updated, if any), and whether the update ran. */
  datatype Guarded = Guarded(comp: Component, busy: Option<int>, ran: bool)

  /** `updateRenderData(comp)` with `busy` as the marker on entry. The current port
      returns without render data, the older port without the dirty flag; both return
      when the marker names this component or it has no font. A run sets the marker,
      updates, clears the dirty flag and resets the marker to nothing. */
  function UpdateRenderData(port: Port, busy: Option<int>, comp: Component): (r: Guarded)
    ensures r.ran <==> comp.dirty && busy != Some(comp.id) && comp.hasFont
                       && (port.Older? || comp.hasRenderData)
    ensures r.ran ==> !r.comp.dirty && r.busy.None?
    ensures !r.ran ==> r.comp == comp && r.busy == busy
    ensures r.comp == comp.(dirty := r.comp.dirty)
  {
    if port.Extensions? && !comp.hasRenderData then Guarded(comp, busy, false)
    else if port.Older? && !comp.dirty then Guarded(comp, busy, false)
    else if busy == Some(comp.id) || !comp.hasFont then Guarded(comp, busy, false)
    else if !comp.dirty then Guarded(comp, busy, false)
    else Guarded(comp.(dirty := false), None, true)
  }

  /** A call made for the same component while it is being updated does nothing. */
  lemma NestedCallDoesNothing(port: Port, comp: Component)
    ensures UpdateRenderData(port, Some(comp.id), comp) == Guarded(comp, Some(comp.id), false)
  {
  }

  /** Calling again right after an update does nothing: a run clears the dirty flag. */
  lemma SecondCallDoesNothing(port: Port, busy: Option<int>, comp: Component)
    ensures var first := UpdateRenderData(port, busy, comp);
      !UpdateRenderData(port, first.busy, first.comp).ran
  {
  }

  /** With render data present the two ports guard alike. */
  lemma PortsGuardAlike(busy: Option<int>, comp: Component)
    requires comp.hasRenderData
    ensures UpdateRenderData(Extensions, busy, comp) == UpdateRenderData(Older, busy, comp)
  {
  }
}

=== FILE: rich_layout.dfy ===
/** The line layout of the rich-text label (`_updateRichText` and its helpers): the
    parsed runs are laid out left to right into numbered lines, each run's text is cut
    at its line feeds, a label that does not fit the maximum width first finishes the
    current line word by word and is then cut into fragments, and images are scaled to
    the line height. The result is the list of line widths, the line count, the
    label's size and the segments, each knowing its line. Widths of text come from a
    measure per run (the engine's label measurement), images from their sprite rect. */
module RichLayout {
  import opened Wrappers
  import opened Js
  import opened TmpUtils
  import opened HtmlParser
  import opened RichStyle
  import opened RichSplit

  /** The extra fraction of a line added below the last baseline. */
  const BaselineRatio: real := 0.26

  /** The label height for `count` lines: the lines plus the baseline ratio. */
  function LabelHeight(count: int, lineHeight: real): real {
    (count as real + BaselineRatio) * lineHeight
  }

  // ---------------------------------------------------------------------------------
  // Segments and line state
  // ---------------------------------------------------------------------------------

  /** What a segment shows: a label with its text and the index of the run it came
      from, or an image with its height, vertical anchor and `offset=` attribute. */
  datatype SegKind = Label(text: Str, style: nat) | Image(height: real, anchorY: real, offset: Str)

  /** A segment, the (1-based) line it was placed on, and its width. */
  datatype Seg = Seg(kind: SegKind, line: int, width: real)

  /** The layout state: the widths of the finished lines, the width used on the
      current line (`_lineOffsetX`), the line count, the label width and the segments. */
  datatype Lines = Lines(widths: seq<real>, offsetX: real, count: int, labelWidth: real, segs: seq<Seg>)

  /** `_resetState`: one empty line and no segments. */
  const Reset: Lines := Lines([], 0.0, 1, 0.0, [])

  /** Every finished line has its width recorded, every segment lies on a line that
      exists, and segments come in line order. */
  predicate Counted(s: Lines) {
    |s.widths| == s.count - 1
    && (forall i :: 0 <= i < |s.segs| ==> 1 <= s.segs[i].line <= s.count)
    && (forall i, j :: 0 <= i < j < |s.segs| ==> s.segs[i].line <= s.segs[j].line)
  }

  /** Without a maximum width the label width is the widest line so far: no finished
      line and not the current one is wider, and it is 0 or one of them (which needs
      widths that are never negative). */
  predicate Widest(s: Lines) {
    0.0 <= s.labelWidth && s.offsetX <= s.labelWidth
    && (forall i :: 0 <= i < |s.widths| ==> s.widths[i] <= s.labelWidth)
    && (s.labelWidth == 0.0 || s.labelWidth == s.offsetX || s.labelWidth in s.widths)
  }

  lemma ResetCounted()
    ensures Counted(Reset) && Widest(Reset)
  {
  }

  /** `_updateLineInfo`: the current line is finished with its width and a new one
      begins. */
  function NewLine(s: Lines): (r: Lines)
    ensures Counted(s) ==> Counted(r)
    ensures |r.widths| == |s.widths| + 1
    ensures r.widths[..|s.widths|] == s.widths && r.widths[|s.widths|] == s.offsetX
    ensures r.count == s.count + 1 && r.offsetX == 0.0
    ensures r.segs == s.segs && r.labelWidth == s.labelWidth
    ensures Widest(s) ==> Widest(r)
  {
    var r := s.(widths := s.widths + [s.offsetX], offsetX := 0.0, count := s.count + 1);
    assert Widest(s) && s.labelWidth in s.widths ==> s.labelWidth in r.widths by {
      if s.labelWidth in s.widths {
        var i :| 0 <= i < |s.widths| && s.widths[i] == s.labelWidth;
        assert r.widths[i] == s.labelWidth;
      }
    }
    assert r.widths[|s.widths|] == s.offsetX;
    r
  }

  /** `_addLabelSegment`: a label on the current line, as wide as its measured text. */
  function AddLabel(s: Lines, text: Str, style: nat, m: Measure): (r: Lines)
    ensures Counted(s) ==> Counted(r)
    ensures |r.segs| == |s.segs| + 1 && r.segs[..|s.segs|] == s.segs
    ensures r.segs[|s.segs|] == Seg(Label(text, style), s.count, m(text))
    ensures r.widths == s.widths && r.offsetX == s.offsetX && r.count == s.count
    ensures r.labelWidth == s.labelWidth
  {
    s.(segs := s.segs + [Seg(Label(text, style), s.count, m(text))])
  }

  /** Without a maximum width the current line grows and the label width follows the
      widest line. */
  function Grow(s: Lines, w: real): (r: Lines)
    ensures r.offsetX == s.offsetX + w
    ensures r.labelWidth >= s.labelWidth && r.labelWidth >= r.offsetX
    ensures r.labelWidth == s.labelWidth || r.labelWidth == r.offsetX
    ensures r.widths == s.widths && r.count == s.count && r.segs == s.segs
    ensures Widest(s) && w >= 0.0 ==> Widest(r)
  {
    var off := s.offsetX + w;
    s.(offsetX := off, labelWidth := if off > s.labelWidth then off else s.labelWidth)
  }

  // ---------------------------------------------------------------------------------
  // First word
  // ---------------------------------------------------------------------------------

  /** A unit that ends a word: one in the CJK ranges or a space. */
  predicate Breaker(c: int) {
    InCjkRanges(c) || IsSpaceCode(c)
  }

  /** `isUnicodeCJK(ch) || isUnicodeSpace(ch)` on the one-unit string `charAt` gives. */
  lemma BreakerIsCharTest(c: int)
    ensures Breaker(c) <==> IsUnicodeCJK([c]) || IsUnicodeSpace([c])
  {
    CjkSingleUnit(c);
  }

  /** The first position at or after `k` holding a word breaker, or the end. */
  function WordEnd(text: Str, k: nat): (e: nat)
    requires k <= |text|
    decreases |text| - k
    ensures k <= e <= |text|
    ensures forall j :: k <= j < e ==> !Breaker(text[j])
    ensures e < |text| ==> Breaker(text[e])
  {
    if k == |text| || Breaker(text[k]) then k else WordEnd(text, k + 1)
  }

  /** `_getFirstWordLen(text, start, text.length)`: one unit when the unit at `start` is
      CJK or a space, or lies past the end (where `charAt` gives the empty string);
      otherwise the word from `start` up to the next breaker. */
  function FirstWordLen(text: Str, start: nat): (n: nat)
    ensures n >= 1
    ensures start < |text| ==> start + n <= |text|
  {
    if start >= |text| then 1
    else if Breaker(text[start]) then 1
    else WordEnd(text, start + 1) - start
  }

  /** The length found is one past the end or at a breaker, and otherwise spans exactly
      the breaker-free word starting there. */
  lemma FirstWordLenSpec(text: Str, start: nat)
    ensures var n := FirstWordLen(text, start);
      && (start >= |text| ==> n == 1)
      && (start < |text| && Breaker(text[start]) ==> n == 1)
      && (start < |text| && !Breaker(text[start]) ==>
            (forall j :: start <= j < start + n ==> !Breaker(text[j]))
            && (start + n == |text| || Breaker(text[start + n])))
  {
  }

  // ---------------------------------------------------------------------------------
  // Finishing the current line word by word
  // ---------------------------------------------------------------------------------

  /** How the word-by-word loop ended: the next word at `start` does not fit after
      `off`, or the position ran past the end of the text, where the measure of the
      empty string is the measuring function itself and the line offset is no longer
      a number. */
  datatype Fill = Broke(start: nat, off: real) | RanOff

  /** The `while (_lineOffsetX <= maxWidth)` loop of `_updateRichTextWithMaxWidth`
      from a position and offset that still fit. */
  function FillLine(str: Str, m: Measure, maxWidth: real, start: nat, off: real): (r: Fill)
    requires start <= |str| && off <= maxWidth
    decreases |str| - start
    ensures r.Broke? ==> start <= r.start < |str| && r.off <= maxWidth
    ensures r.Broke? && r.start == start ==> r.off == off
  {
    if start == |str| then RanOff
    else
      var len := FirstWordLen(str, start);
      var piece := str[start..start + len];  // `substr(start, len)`, which stays inside the text
      if off + m(piece) <= maxWidth then FillLine(str, m, maxWidth, start + len, off + m(piece))
      else Broke(start, off)
  }

  /** The loop breaks at a word that would overflow the line. */
  lemma {:induction false} FillLineBreaksAtOverflow(str: Str, m: Measure, maxWidth: real, start: nat, off: real)
    requires start <= |str| && off <= maxWidth
    decreases |str| - start
    ensures var r := FillLine(str, m, maxWidth, start, off);
      r.Broke? ==> r.off + m(str[r.start..r.start + FirstWordLen(str, r.start)]) > maxWidth
  {
    if start < |str| {
      var after: nat := start + FirstWordLen(str, start);
      var next := off + m(str[start..after]);
      if next <= maxWidth {
        FillLineGoesOn(str, m, maxWidth, start, off, after, next);
        FillLineBreaksAtOverflow(str, m, maxWidth, after, next);
      } else {
        FillLineBreaks(str, m, maxWidth, start, off, after);
      }
    }
  }

  /** The measure gives no negative widths. */
  ghost predicate NonNegative(m: Measure) {
    forall t: Str :: m(t) >= 0.0
  }

  /** Every run's measure gives no negative widths. */
  ghost predicate AllNonNegative(measureOf: nat -> Measure) {
    forall i: nat :: NonNegative(measureOf(i))
  }

  /** The measure never gains by measuring two strings together. */
  ghost predicate Subadditive(m: Measure) {
    forall a: Str, b: Str {:trigger m(a + b)} :: m(a + b) <= m(a) + m(b)
  }

  ghost predicate AllSubadditive(measureOf: nat -> Measure) {
    forall i: nat :: Subadditive(measureOf(i))
  }

  /** Subadditivity over the ways of cutting one text in two. */
  ghost predicate SubadditiveOn(str: Str, m: Measure) {
    forall i, j {:trigger m(str[..j]), m(str[i..j])} :: 0 < i <= j <= |str| ==> m(str[..j]) <= m(str[..i]) + m(str[i..j])
  }

  lemma SubadditiveCuts(str: Str, m: Measure)
    requires Subadditive(m)
    ensures SubadditiveOn(str, m)
  {
    forall i, j | 0 < i <= j <= |str|
      ensures m(str[..j]) <= m(str[..i]) + m(str[i..j])
    {
      assert str[..j] == str[..i] + str[i..j];
    }
  }

  /** A turn of the word loop whose word fits goes on after that word. */
  lemma FillLineGoesOn(str: Str, m: Measure, maxWidth: real, start: nat, off: real, after: nat, next: real)
    requires start < |str| && off <= maxWidth
    requires after == start + FirstWordLen(str, start) && next == off + m(str[start..after])
    requires next <= maxWidth
    ensures FillLine(str, m, maxWidth, start, off) == FillLine(str, m, maxWidth, after, next)
  {
  }

  /** A turn of the word loop whose word overflows breaks the line before that word. */
  lemma FillLineBreaks(str: Str, m: Measure, maxWidth: real, start: nat, off: real, after: nat)
    requires start < |str| && off <= maxWidth
    requires after == start + FirstWordLen(str, start)
    requires off + m(str[start..after]) > maxWidth
    ensures FillLine(str, m, maxWidth, start, off) == Broke(start, off)
  {
  }

  lemma WholePrefix(str: Str)
    ensures str[..|str|] == str
  {
  }

  /** When the whole label does not fit after the starting offset and the measure is
      subadditive over its cuts, the words placed so far never reach the end of the
      label: the loop always stops at a word that does not fit. The offset gained is
      at least the measure of the prefix passed over. */
  lemma {:induction false} FillLineStops(str: Str, m: Measure, maxWidth: real, start: nat, off: real, off0: real)
    requires SubadditiveOn(str, m) && |str| > 0
    requires start <= |str| && off <= maxWidth
    requires off0 + m(str) > maxWidth
    requires (start == 0 && off == off0) || (start > 0 && off >= off0 + m(str[..start]))
    decreases |str| - start
    ensures FillLine(str, m, maxWidth, start, off).Broke?
  {
    if start == |str| {
      WholePrefix(str);
      assert false;
    }
    var after: nat := start + FirstWordLen(str, start);
    var next := off + m(str[start..after]);
    if next <= maxWidth {
      GainCoversPrefix(str, m, start, after, off, off0);
      FillLineGoesOn(str, m, maxWidth, start, off, after, next);
      FillLineStops(str, m, maxWidth, after, next, off0);
    } else {
      FillLineBreaks(str, m, maxWidth, start, off, after);
    }
  }

  /** The offset after one more word still covers the measure of the prefix passed over. */
  lemma GainCoversPrefix(str: Str, m: Measure, start: nat, after: nat, off: real, off0: real)
    requires SubadditiveOn(str, m) && start < after <= |str|
    requires (start == 0 && off == off0) || (start > 0 && off >= off0 + m(str[..start]))
    ensures off + m(str[start..after]) >= off0 + m(str[..after])
  {
    if start == 0 {
      assert str[..after] == str[0..after];
    } else {
      assert m(str[..after]) <= m(str[..start]) + m(str[start..after]);
    }
  }

  /** `_updateRichTextWithMaxWidth` after the word loop: the rest of the label, with the
      width it measures, goes on the current line when it fits and is cut into
      fragments by `fragmentText` otherwise, each fragment on a line of its own. */
  function Place(s: Lines, str: Str, width: real, style: nat, m: Measure, maxWidth: real): (r: Lines)
    ensures Counted(s) ==> Counted(r)
    ensures r.labelWidth == s.labelWidth
    ensures width <= maxWidth ==> r == AddLabel(s.(offsetX := s.offsetX + width), str, style, m)
  {
    if width > maxWidth then PlaceFragments(s, FragmentText(str, width, maxWidth, m), style, m)
    else AddLabel(s.(offsetX := s.offsetX + width), str, style, m)
  }

  /** The fragment loop: fragment `k` goes on line `count + k`, each line but the last
      is finished after its fragment. */
  function PlaceFragments(s: Lines, frags: seq<Str>, style: nat, m: Measure): (r: Lines)
    decreases |frags|
    ensures Counted(s) ==> Counted(r)
    ensures r.labelWidth == s.labelWidth
    ensures |frags| > 0 ==> r.count == s.count + |frags| - 1
    ensures |r.segs| == |s.segs| + |frags| && r.segs[..|s.segs|] == s.segs
    ensures forall k :: 0 <= k < |frags| ==>
      r.segs[|s.segs| + k] == Seg(Label(frags[k], style), s.count + k, m(frags[k]))
  {
    if |frags| == 0 then s
    else
      var s1 := AddLabel(s, frags[0], style, m).(offsetX := s.offsetX + m(frags[0]));
      if |frags| == 1 then s1
      else
        var r := PlaceFragments(NewLine(s1), frags[1..], style, m);
        assert forall k :: 1 <= k < |frags| ==> frags[1..][k - 1] == frags[k];
        r
  }

  /** The word loop and what follows it: the words that fit become a segment on the
      current line, the line is finished, and the rest of the label is placed; `None`
      when the loop runs off the end. */
  function FinishLine(s: Lines, str: Str, style: nat, m: Measure, maxWidth: real): (r: Option<Lines>)
    requires |str| > 0 && s.offsetX <= maxWidth
    ensures r.None? <==> FillLine(str, m, maxWidth, 0, s.offsetX).RanOff?
    ensures r.Some? && Counted(s) ==> Counted(r.value)
    ensures r.Some? ==> r.value.labelWidth == s.labelWidth
  {
    FinishAt(s, str, FillLine(str, m, maxWidth, 0, s.offsetX), style, m, maxWidth)
  }

  /** What follows the word loop, given where it stopped. */
  function FinishAt(s: Lines, str: Str, f: Fill, style: nat, m: Measure, maxWidth: real): (r: Option<Lines>)
    requires f.Broke? ==> f.start < |str|
    ensures r.None? <==> f.RanOff?
    ensures r.Some? && Counted(s) ==> Counted(r.value)
    ensures r.Some? ==> r.value.labelWidth == s.labelWidth
  {
    match f
    case RanOff => None
    case Broke(k, off) => Some(BreakAt(s.(offsetX := off), str, k, style, m, maxWidth))
  }

  /** The label broken before position `k`: its first `k` units (if any) end the
      current line, and the rest starts the next one. */
  function BreakAt(s: Lines, str: Str, k: nat, style: nat, m: Measure, maxWidth: real): (r: Lines)
    requires k < |str|
    ensures Counted(s) ==> Counted(r)
    ensures r.labelWidth == s.labelWidth
    ensures k > 0 ==> |r.segs| > |s.segs| && r.segs[|s.segs|] == Seg(Label(str[..k], style), s.count, m(str[..k]))
    ensures r.count > s.count
  {
    if k > 0 then
      var rest := Substr(str, k, |str|);
      assert rest == str[k..];
      var s1 := NewLine(AddLabel(s, str[..k], style, m));
      Place(s1, rest, m(rest), style, m, maxWidth)
    else
      Place(NewLine(s), str, m(str), style, m, maxWidth)
  }

  /** `_updateRichTextWithMaxWidth(label, measure(label))`. When the line already has
      something on it and the label would overflow it, words of the label are added
      to the line while they fit, the words that fit become a segment, and the line
      is finished. `None` is the run-off outcome of the word loop, which a
      subadditive measure never reaches. */
  function WithMaxWidth(s: Lines, str: Str, style: nat, m: Measure, maxWidth: real): (r: Option<Lines>)
    requires |str| > 0
    ensures r.Some? && Counted(s) ==> Counted(r.value)
    ensures r.Some? ==> r.value.labelWidth == s.labelWidth
    ensures Subadditive(m) ==> r.Some?
    ensures 0.0 <= s.offsetX && s.offsetX + m(str) <= maxWidth ==>
      r == Some(AddLabel(s.(offsetX := s.offsetX + m(str)), str, style, m))
  {
    var width := m(str);
    if s.offsetX > 0.0 && width + s.offsetX > maxWidth && s.offsetX <= maxWidth then
      assert Subadditive(m) ==> FillLine(str, m, maxWidth, 0, s.offsetX).Broke? by {
        if Subadditive(m) {
          SubadditiveCuts(str, m);
          FillLineStops(str, m, maxWidth, 0, s.offsetX, s.offsetX);
        }
      }
      FinishLine(s, str, style, m, maxWidth)
    else
      Some(Place(s, str, width, style, m, maxWidth))
  }

  // ---------------------------------------------------------------------------------
  // Images
  // ---------------------------------------------------------------------------------

  /** A sprite frame's rect; the engine never hands out a frame of negative width or of
      zero height. */
  datatype Rect = Rect(width: real, height: real)
  type SpriteRect = r: Rect | r.width >= 0.0 && r.height > 0.0 witness Rect(1.0, 1.0)

  datatype Extent = Extent(width: real, height: real)

  /** The sprite is scaled to the requested height, or to the line height when none is
      requested, keeping its aspect ratio; a requested width then overrides the width. */
  function ImageSize(rect: SpriteRect, expectWidth: real, expectHeight: real, lineHeight: real): (z: Extent)
    ensures z.height == (if expectHeight > 0.0 then expectHeight else lineHeight)
    ensures expectWidth > 0.0 ==> z.width == expectWidth
    ensures expectWidth <= 0.0 ==> z.width * rect.height == rect.width * z.height
    ensures lineHeight >= 0.0 ==> z.width >= 0.0
  {
    var scale := if expectHeight > 0.0 then expectHeight / rect.height else lineHeight / rect.height;
    var w := rect.width * scale;
    var h := rect.height * scale;
    Extent(if expectWidth > 0.0 then expectWidth else w, h)
  }

  /** `style.imageWidth || 0` and `style.imageHeight || 0`: the parsed number, or 0 when
      the field is missing or NaN. */
  function Expected(f: Frame, k: Field): (v: real)
    ensures v != 0.0 ==> k in f && f[k] == Num(Finite(v))
  {
    if k in f && f[k].Num? && f[k].n.Finite? then f[k].n.value else 0.0
  }

  const TopAlign: Str := [116, 111, 112]
  const CenterAlign: Str := [99, 101, 110, 116, 101, 114]

  /** The image's vertical anchor from its `align=` attribute. */
  function AnchorOf(f: Frame): (y: real)
    ensures y == 1.0 <==> Get(f, ImageAlign) == Some(Text(TopAlign))
    ensures y == 0.5 <==> Get(f, ImageAlign) == Some(Text(CenterAlign))
    ensures y == 0.0 || y == 0.5 || y == 1.0
  {
    var a := Get(f, ImageAlign);
    if a == Some(Text(TopAlign)) then 1.0
    else if a == Some(Text(CenterAlign)) then 0.5
    else 0.0
  }

  /** The image's `offset=` text when it is a non-empty string, else the empty string
      a pooled segment is reset to. */
  function OffsetOf(f: Frame): (o: Str)
    ensures |o| > 0 <==> ImageOffset in f && f[ImageOffset].Text? && |f[ImageOffset].s| > 0
    ensures |o| > 0 ==> o == f[ImageOffset].s
  {
    if ImageOffset in f && f[ImageOffset].Text? then f[ImageOffset].s else []
  }

  /** The sprite frame an image marker names: looked up only for a non-empty `src`. */
  function SpriteOf(f: Frame, atlas: Str -> Option<SpriteRect>): (r: Option<SpriteRect>)
    ensures r.Some? ==> Src in f && f[Src].Text? && |f[Src].s| > 0 && r == atlas(f[Src].s)
  {
    if Src in f && f[Src].Text? && |f[Src].s| > 0 then atlas(f[Src].s) else None
  }

  /** An image of the given size placed on the layout: with a maximum width it moves
      to a new line when it would overflow the current one; without one the label
      width follows the line. */
  function PlaceImage(s: Lines, z: Extent, anchorY: real, offset: Str, maxWidth: real): (r: Lines)
    ensures Counted(s) ==> Counted(r)
    ensures |r.segs| == |s.segs| + 1 && r.segs[..|s.segs|] == s.segs
    ensures r.segs[|s.segs|] == Seg(Image(z.height, anchorY, offset), r.count, z.width)
    ensures r.count == s.count + (if maxWidth > 0.0 && s.offsetX + z.width > maxWidth then 1 else 0)
    ensures maxWidth > 0.0 ==> r.labelWidth == s.labelWidth
    ensures r.offsetX == (if r.count == s.count then s.offsetX else 0.0) + z.width
    ensures maxWidth <= 0.0 && z.width >= 0.0 && Widest(s) ==> Widest(r)
  {
    if maxWidth > 0.0 then
      var s1 := if s.offsetX + z.width > maxWidth then NewLine(s) else s;
      s1.(offsetX := s1.offsetX + z.width, segs := s1.segs + [Seg(Image(z.height, anchorY, offset), s1.count, z.width)])
    else
      var s1 := Grow(s, z.width);
      s1.(segs := s1.segs + [Seg(Image(z.height, anchorY, offset), s1.count, z.width)])
  }

  /** `_addRichTextImageElement`: nothing happens when the sprite is missing (the source
      only warns); otherwise the scaled image is placed. */
  function AddImage(s: Lines, f: Frame, atlas: Str -> Option<SpriteRect>, lineHeight: real, maxWidth: real): (r: Lines)
    ensures Counted(s) ==> Counted(r)
    ensures SpriteOf(f, atlas).None? ==> r == s
    ensures SpriteOf(f, atlas).Some? ==>
      r == PlaceImage(s, ImageSize(SpriteOf(f, atlas).value, Expected(f, ImageWidth), Expected(f, ImageHeight), lineHeight),
                      AnchorOf(f), OffsetOf(f), maxWidth)
  {
    match SpriteOf(f, atlas)
    case None => s
    case Some(rect) =>
      var z := ImageSize(rect, Expected(f, ImageWidth), Expected(f, ImageHeight), lineHeight);
      PlaceImage(s, z, AnchorOf(f), OffsetOf(f), maxWidth)
  }

  // ---------------------------------------------------------------------------------
  // The run loop
  // ---------------------------------------------------------------------------------

  /** `_isLastComponentCR`: the text is empty or ends with a line feed. */
  function IsLastCR(s: Str): (b: bool)
    ensures b <==> |s| == 0 || s[|s| - 1] == LF
  {
    |s| - 1 == LastIndexOf(s, LF, |s|)
  }

  /** The layout state with the loop's `lastEmptyLine` flag. */
  datatype Pass = Pass(s: Lines, lastEmpty: bool)

  /** The loop goes on, or the line offset stopped being a number, or the fuel of the
      2048-pixel split ran out. */
  datatype Walk = Going(p: Pass) | Garbled | NoFuel

  /** Counted, and after an empty line the current line is empty and holds no segment. */
  predicate Tracked(p: Pass) {
    Counted(p.s)
    && (p.lastEmpty ==> p.s.offsetX == 0.0 && forall i :: 0 <= i < |p.s.segs| ==> p.s.segs[i].line < p.s.count)
  }

  /** The lines of one run's text, from line `j` on. An empty line finishes the current
      line and sets the flag, except an empty last line after a trailing line feed;
      any other line clears the flag, is placed, and finishes the line unless it is
      the last. */
  function LayText(p: Pass, lines: seq<Str>, j: nat, endsCR: bool, style: nat, m: Measure, maxWidth: real): (r: Walk)
    requires j <= |lines|
    decreases |lines| - j
    ensures !r.NoFuel?
    ensures r.Going? && Counted(p.s) ==> Counted(r.p.s)
    ensures r.Going? && Tracked(p) ==> Tracked(r.p)
    ensures r.Going? && maxWidth > 0.0 ==> r.p.s.labelWidth == p.s.labelWidth
    ensures maxWidth <= 0.0 ==> r.Going?
    ensures Subadditive(m) ==> r.Going?
    ensures r.Going? && maxWidth <= 0.0 && NonNegative(m) && Widest(p.s) ==> Widest(r.p.s)
  {
    if j == |lines| then Going(p)
    else if lines[j] == [] then
      if endsCR && j == |lines| - 1 then Going(p)
      else LayText(Pass(NewLine(p.s), true), lines, j + 1, endsCR, style, m, maxWidth)
    else
      var more := |lines| > 1 && j < |lines| - 1;
      if maxWidth > 0.0 then
        match WithMaxWidth(p.s, lines[j], style, m, maxWidth)
        case None => Garbled
        case Some(s1) => LayText(Pass(if more then NewLine(s1) else s1, false), lines, j + 1, endsCR, style, m, maxWidth)
      else
        var s1 := Grow(AddLabel(p.s, lines[j], style, m), m(lines[j]));
        LayText(Pass(if more then NewLine(s1) else s1, false), lines, j + 1, endsCR, style, m, maxWidth)
  }

  /** A run is a `<br/>` marker: empty text and a truthy new-line flag. */
  predicate IsBreak(run: Run) {
    run.text == [] && run.style.Some? && Has(run.style.value, IsNewLine)
  }

  /** A run is an image marker and an atlas is set. */
  predicate IsPlacedImage(run: Run, atlas: Option<Str -> Option<SpriteRect>>) {
    run.text == [] && run.style.Some? && Has(run.style.value, IsImage) && atlas.Some?
  }

  /** One run of the loop in `_updateRichText`. The current port first passes the text
      through the 2048-pixel split (the parts joined by line feeds); the older port
      splits the text as it is. As written, an image leaves the `lastEmptyLine` flag
      as it was; corrected, a placed image clears it as a placed label does. */
  function LayRun(port: RichPort, p: Pass, run: Run, i: nat, measureOf: nat -> Measure,
                  atlas: Option<Str -> Option<SpriteRect>>, maxWidth: real, lineHeight: real,
                  fuel: nat, asWritten: bool): (r: Walk)
    ensures r.Going? && Counted(p.s) ==> Counted(r.p.s)
    ensures r.Going? && !asWritten && Tracked(p) ==> Tracked(r.p)
    ensures r.Going? && maxWidth > 0.0 ==> r.p.s.labelWidth == p.s.labelWidth
    ensures r.NoFuel? ==> port.AssetsPort?
    ensures maxWidth <= 0.0 || Subadditive(measureOf(i)) ==> !r.Garbled?
    ensures r.Going? && maxWidth <= 0.0 && lineHeight >= 0.0 && NonNegative(measureOf(i)) && Widest(p.s) ==> Widest(r.p.s)
  {
    if IsBreak(run) then
      Going(Pass(NewLine(p.s), p.lastEmpty))
    else if IsPlacedImage(run, atlas) then
      var f := run.style.value;
      var placed := SpriteOf(f, atlas.value).Some?;
      Going(Pass(AddImage(p.s, f, atlas.value, lineHeight, maxWidth), if placed && !asWritten then false else p.lastEmpty))
    else
      var m := measureOf(i);
      var parts := if port.AssetsPort? then SplitIn2048(run.text, m, maxWidth, fuel, asWritten) else Some([run.text]);
      match parts
      case None => NoFuel
      case Some(ps) =>
        var text := Join(ps, LF);
        LayText(p, Split(text, LF), 0, IsLastCR(text), i, m, maxWidth)
  }

  /** The runs from `i` on. */
  function LayRuns(port: RichPort, p: Pass, runs: seq<Run>, i: nat, measureOf: nat -> Measure,
                   atlas: Option<Str -> Option<SpriteRect>>, maxWidth: real, lineHeight: real,
                   fuel: nat, asWritten: bool): (r: Walk)
    requires i <= |runs|
    decreases |runs| - i
    ensures r.Going? && Counted(p.s) ==> Counted(r.p.s)
    ensures r.Going? && !asWritten && Tracked(p) ==> Tracked(r.p)
    ensures r.Going? && maxWidth > 0.0 ==> r.p.s.labelWidth == p.s.labelWidth
    ensures r.NoFuel? ==> port.AssetsPort?
    ensures r.Going? && maxWidth <= 0.0 && lineHeight >= 0.0 && AllNonNegative(measureOf) && Widest(p.s) ==> Widest(r.p.s)
    ensures maxWidth <= 0.0 || AllSubadditive(measureOf) ==> !r.Garbled?
  {
    if i == |runs| then Going(p)
    else
      match LayRun(port, p, runs[i], i, measureOf, atlas, maxWidth, lineHeight, fuel, asWritten)
      case Going(q) => LayRuns(port, q, runs, i + 1, measureOf, atlas, maxWidth, lineHeight, fuel, asWritten)
      case Garbled => Garbled
      case NoFuel => NoFuel
  }

  /** The result of a layout: the line widths (`_linesWidth`), the line count, the
      label's size and the segments; or a garbled offset, or the split's fuel ran out. */
  datatype Laid =
    | Arranged(widths: seq<real>, count: int, labelWidth: real, labelHeight: real, segs: seq<Seg>)
    | OffsetGarbled
    | FuelOut

  /** The closing step of `_updateRichText`: the current line's width is recorded
      unless the last thing laid out was an empty line; a maximum width becomes the
      label width; the height is the line count plus the baseline ratio, in lines. */
  function Close(w: Walk, maxWidth: real, lineHeight: real): (r: Laid)
    ensures r.Arranged? <==> w.Going?
    ensures r.FuelOut? <==> w.NoFuel?
    ensures r.Arranged? ==> r.count == w.p.s.count && r.segs == w.p.s.segs
    ensures r.Arranged? && Counted(w.p.s) ==> LinesExist(r)
    ensures r.Arranged? && Tracked(w.p) ==> LinesHaveWidths(r)
    ensures r.Arranged? && Tracked(w.p) && Widest(w.p.s) && maxWidth <= 0.0 ==> WidestLine(r)
    ensures r.Arranged? && maxWidth > 0.0 ==> r.labelWidth == maxWidth
    ensures r.Arranged? ==> r.labelHeight == LabelHeight(r.count, lineHeight)
  {
    match w
    case Garbled => OffsetGarbled
    case NoFuel => FuelOut
    case Going(p) =>
      var widths := if p.lastEmpty then p.s.widths else p.s.widths + [p.s.offsetX];
      assert Widest(p.s) && p.s.labelWidth in p.s.widths ==> p.s.labelWidth in widths by {
        if p.s.labelWidth in p.s.widths && !p.lastEmpty {
          var i :| 0 <= i < |p.s.widths| && p.s.widths[i] == p.s.labelWidth;
          assert widths[i] == p.s.labelWidth;
        }
      }
      assert !p.lastEmpty ==> widths[|p.s.widths|] == p.s.offsetX;
      Arranged(widths, p.s.count, if maxWidth > 0.0 then maxWidth else p.s.labelWidth,
               LabelHeight(p.s.count, lineHeight), p.s.segs)
  }

  /** At least one line; every segment on an existing line, in line order. */
  predicate LinesExist(r: Laid)
    requires r.Arranged?
  {
    r.count >= 1 && |r.widths| >= r.count - 1
    && (forall i :: 0 <= i < |r.segs| ==> 1 <= r.segs[i].line <= r.count)
    && (forall i, j :: 0 <= i < j < |r.segs| ==> r.segs[i].line <= r.segs[j].line)
  }

  /** Every segment's line has a recorded width, so `_linesWidth[line - 1]` is a number. */
  predicate LinesHaveWidths(r: Laid)
    requires r.Arranged?
  {
    forall i :: 0 <= i < |r.segs| ==> 1 <= r.segs[i].line <= |r.widths|
  }

  /** The label width is the widest recorded line, or 0. */
  predicate WidestLine(r: Laid)
    requires r.Arranged?
  {
    (forall i :: 0 <= i < |r.widths| ==> r.widths[i] <= r.labelWidth)
    && (r.labelWidth == 0.0 || r.labelWidth in r.widths)
  }

  /** `_updateRichText` once a new layout is needed: reset, lay out every run, close. */
  function UpdateRichText(port: RichPort, runs: seq<Run>, measureOf: nat -> Measure,
                          atlas: Option<Str -> Option<SpriteRect>>, maxWidth: real, lineHeight: real,
                          fuel: nat, asWritten: bool): (r: Laid)
  {
    Close(Walked(port, runs, measureOf, atlas, maxWidth, lineHeight, fuel, asWritten), maxWidth, lineHeight)
  }

  /** The run loop from the reset state. */
  function Walked(port: RichPort, runs: seq<Run>, measureOf: nat -> Measure,
                  atlas: Option<Str -> Option<SpriteRect>>, maxWidth: real, lineHeight: real,
                  fuel: nat, asWritten: bool): (w: Walk)
    ensures w.NoFuel? ==> port.AssetsPort?
  {
    LayRuns(port, Pass(Reset, false), runs, 0, measureOf, atlas, maxWidth, lineHeight, fuel, asWritten)
  }

  /** Every layout has at least one line, puts every segment on an existing line and
      keeps the segments in line order, and is as tall as its lines plus the baseline
      ratio; with a maximum width that is its width. Its only failures are the split's
      fuel (in the current port) and a garbled offset, which needs a maximum width and
      a measure that gains by measuring two strings together. */
  lemma LayoutLinesExist(port: RichPort, runs: seq<Run>, measureOf: nat -> Measure,
                         atlas: Option<Str -> Option<SpriteRect>>, maxWidth: real, lineHeight: real,
                         fuel: nat, asWritten: bool)
    ensures var r := UpdateRichText(port, runs, measureOf, atlas, maxWidth, lineHeight, fuel, asWritten);
      && (r.Arranged? ==> LinesExist(r))
      && (r.Arranged? ==> r.labelHeight == LabelHeight(r.count, lineHeight))
      && (r.Arranged? && maxWidth > 0.0 ==> r.labelWidth == maxWidth)
      && (r.FuelOut? ==> port.AssetsPort?)
      && (maxWidth <= 0.0 || AllSubadditive(measureOf) ==> !r.OffsetGarbled?)
  {
    var w := Walked(port, runs, measureOf, atlas, maxWidth, lineHeight, fuel, asWritten);
    WalkedCounted(port, runs, measureOf, atlas, maxWidth, lineHeight, fuel, asWritten);
    assert UpdateRichText(port, runs, measureOf, atlas, maxWidth, lineHeight, fuel, asWritten) == Close(w, maxWidth, lineHeight);
  }

  /** The run loop from the reset state keeps the lines counted and garbles no offset
      without a maximum width or with subadditive measures. */
  lemma WalkedCounted(port: RichPort, runs: seq<Run>, measureOf: nat -> Measure,
                      atlas: Option<Str -> Option<SpriteRect>>, maxWidth: real, lineHeight: real,
                      fuel: nat, asWritten: bool)
    ensures var w := Walked(port, runs, measureOf, atlas, maxWidth, lineHeight, fuel, asWritten);
      && (w.Going? ==> Counted(w.p.s))
      && (maxWidth <= 0.0 || AllSubadditive(measureOf) ==> !w.Garbled?)
  {
    ResetCounted();
  }

  /** Corrected, every segment's line has a recorded width. */
  lemma CorrectedLinesHaveWidths(port: RichPort, runs: seq<Run>, measureOf: nat -> Measure,
                                 atlas: Option<Str -> Option<SpriteRect>>, maxWidth: real, lineHeight: real, fuel: nat)
    ensures var r := UpdateRichText(port, runs, measureOf, atlas, maxWidth, lineHeight, fuel, false);
      r.Arranged? ==> LinesHaveWidths(r)
  {
    ResetCounted();
    var w := Walked(port, runs, measureOf, atlas, maxWidth, lineHeight, fuel, false);
    assert w.Going? ==> Tracked(w.p);
  }

  /** Without a maximum width, with measures and line height that give no negative
      widths, the corrected layout's label width is its widest line. */
  lemma CorrectedLabelWidthIsWidestLine(port: RichPort, runs: seq<Run>, measureOf: nat -> Measure,
                                        atlas: Option<Str -> Option<SpriteRect>>, maxWidth: real, lineHeight: real, fuel: nat)
    requires maxWidth <= 0.0 && lineHeight >= 0.0 && AllNonNegative(measureOf)
    ensures var r := UpdateRichText(port, runs, measureOf, atlas, maxWidth, lineHeight, fuel, false);
      r.Arranged? ==> WidestLine(r)
  {
    ResetCounted();
    var w := Walked(port, runs, measureOf, atlas, maxWidth, lineHeight, fuel, false);
    assert w.Going? ==> Tracked(w.p) && Widest(w.p.s);
  }

  // ---------------------------------------------------------------------------------
  // The two ports
  // ---------------------------------------------------------------------------------

  /** A run the 2048-pixel split leaves whole is laid out alike by both ports. */
  lemma RunPortsAgree(p: Pass, run: Run, i: nat, measureOf: nat -> Measure,
                      atlas: Option<Str -> Option<SpriteRect>>, maxWidth: real, lineHeight: real,
                      fuel: nat, asWritten: bool)
    requires measureOf(i)(run.text) < SplitWidth
    ensures LayRun(AssetsPort, p, run, i, measureOf, atlas, maxWidth, lineHeight, fuel, asWritten)
         == LayRun(PackagesPort, p, run, i, measureOf, atlas, maxWidth, lineHeight, fuel, asWritten)
  {
    assert Join([run.text], LF) == run.text;
  }

  /** When no run measures 2048 pixels or more, the current port lays out exactly as
      the older one. */
  lemma {:induction false} RunsPortsAgree(p: Pass, runs: seq<Run>, i: nat, measureOf: nat -> Measure,
                                          atlas: Option<Str -> Option<SpriteRect>>, maxWidth: real, lineHeight: real,
                                          fuel: nat, asWritten: bool)
    requires i <= |runs|
    requires forall k :: i <= k < |runs| ==> measureOf(k)(runs[k].text) < SplitWidth
    decreases |runs| - i
    ensures LayRuns(AssetsPort, p, runs, i, measureOf, atlas, maxWidth, lineHeight, fuel, asWritten)
         == LayRuns(PackagesPort, p, runs, i, measureOf, atlas, maxWidth, lineHeight, fuel, asWritten)
  {
    if i < |runs| {
      RunPortsAgree(p, runs[i], i, measureOf, atlas, maxWidth, lineHeight, fuel, asWritten);
      var w := LayRun(AssetsPort, p, runs[i], i, measureOf, atlas, maxWidth, lineHeight, fuel, asWritten);
      if w.Going? {
        RunsPortsAgree(w.p, runs, i + 1, measureOf, atlas, maxWidth, lineHeight, fuel, asWritten);
      }
    }
  }

  lemma PortsAgreeBelow2048(runs: seq<Run>, measureOf: nat -> Measure,
                            atlas: Option<Str -> Option<SpriteRect>>, maxWidth: real, lineHeight: real,
                            fuel: nat, asWritten: bool)
    requires forall k :: 0 <= k < |runs| ==> measureOf(k)(runs[k].text) < SplitWidth
    ensures UpdateRichText(AssetsPort, runs, measureOf, atlas, maxWidth, lineHeight, fuel, asWritten)
         == UpdateRichText(PackagesPort, runs, measureOf, atlas, maxWidth, lineHeight, fuel, asWritten)
  {
    RunsPortsAgree(Pass(Reset, false), runs, 0, measureOf, atlas, maxWidth, lineHeight, fuel, asWritten);
  }

  // ---------------------------------------------------------------------------------
  // An image after a trailing line feed
  // ---------------------------------------------------------------------------------

  /** Ten pixels a unit. */
  function Tens(t: Str): real { 10.0 * |t| as real }
  function TensFor(i: nat): Measure { Tens }

  /** Every name finds a 20 by 20 sprite. */
  function Squares(name: Str): Option<SpriteRect> { Some(Rect(20.0, 20.0)) }

  /** The runs of a line feed followed by `<img src='a'/>`. */
  const FeedThenImage: seq<Run> :=
    [Run([LF], None), Run([], Some(map[IsImage := Flag(true), Src := Text([97])]))]

  /** After the line feed: one finished empty line, the flag set. */
  const AfterFeed: Lines := Lines([0.0], 0.0, 2, 0.0, [])

  lemma FeedRun(fuel: nat, asWritten: bool)
    ensures LayRun(AssetsPort, Pass(Reset, false), FeedThenImage[0], 0, TensFor, Some(Squares), 0.0, 20.0, fuel, asWritten)
         == Going(Pass(AfterFeed, true))
  {
    var text: Str := [LF];
    assert SplitIn2048(text, Tens, 0.0, fuel, asWritten) == Some([text]);
    FeedSplits();
    FeedLines();
  }

  lemma FeedSplits()
    ensures Split([LF], LF) == [[], []] && IsLastCR([LF])
  {
    assert IndexOf([LF], LF, 0) == 0;
    assert IndexOf([], LF, 0) == -1;
  }

  lemma FeedLines()
    ensures LayText(Pass(Reset, false), [[], []], 0, true, 0, Tens, 0.0) == Going(Pass(AfterFeed, true))
  {
    assert NewLine(Reset) == AfterFeed;
    assert LayText(Pass(AfterFeed, true), [[], []], 1, true, 0, Tens, 0.0) == Going(Pass(AfterFeed, true));
  }

  /** The marker's frame: an image named "a", with no size, alignment or offset. */
  lemma ImageFrame()
    ensures var f := FeedThenImage[1].style.value;
      && !IsBreak(FeedThenImage[1]) && IsPlacedImage(FeedThenImage[1], Some(Squares))
      && SpriteOf(f, Squares) == Some(Rect(20.0, 20.0))
      && Expected(f, ImageWidth) == 0.0 && Expected(f, ImageHeight) == 0.0
      && AnchorOf(f) == 0.0 && OffsetOf(f) == []
  {
    var f := FeedThenImage[1].style.value;
    assert !Has(f, IsNewLine) && Has(f, IsImage);
  }

  /** After the image: the line holds 20 pixels and the label is 20 pixels wide. */
  const AfterImage: Lines := Lines([0.0], 20.0, 2, 20.0, [Seg(Image(20.0, 0.0, []), 2, 20.0)])

  lemma SquarePlaced()
    ensures AddImage(AfterFeed, FeedThenImage[1].style.value, Squares, 20.0, 0.0) == AfterImage
  {
    ImageFrame();
    SquareSize();
    SquareOnLine();
  }

  lemma SquareSize()
    ensures ImageSize(Rect(20.0, 20.0), 0.0, 0.0, 20.0) == Extent(20.0, 20.0)
  {}

  lemma SquareOnLine()
    ensures PlaceImage(AfterFeed, Extent(20.0, 20.0), 0.0, [], 0.0) == AfterImage
  {
    assert Grow(AfterFeed, 20.0) == AfterFeed.(offsetX := 20.0, labelWidth := 20.0);
  }

  lemma ImageRun(fuel: nat, asWritten: bool)
    ensures LayRun(AssetsPort, Pass(AfterFeed, true), FeedThenImage[1], 1, TensFor, Some(Squares), 0.0, 20.0, fuel, asWritten)
         == Going(Pass(AfterImage, asWritten))
  {
    ImageFrame();
    SquarePlaced();
  }

  /** Both runs laid out, with the flag as each variant leaves it. */
  lemma FeedThenImageWalk(fuel: nat, asWritten: bool)
    ensures Walked(AssetsPort, FeedThenImage, TensFor, Some(Squares), 0.0, 20.0, fuel, asWritten)
         == Going(Pass(AfterImage, asWritten))
  {
    FeedRun(fuel, asWritten);
    ImageRun(fuel, asWritten);
    var tail := LayRuns(AssetsPort, Pass(AfterImage, asWritten), FeedThenImage, 2, TensFor, Some(Squares), 0.0, 20.0, fuel, asWritten);
    assert tail == Going(Pass(AfterImage, asWritten));
    var mid := LayRuns(AssetsPort, Pass(AfterFeed, true), FeedThenImage, 1, TensFor, Some(Squares), 0.0, 20.0, fuel, asWritten);
    assert mid == tail;
  }

  /** As written, the image lands on line 2 while only line 1 has a recorded width: the
      position pass reads `_linesWidth[1]`, which is undefined, and centred or
      right-aligned text places the image at NaN. The label width is not among the
      recorded widths either. */
  lemma ImageAfterFeedHasNoWidth(fuel: nat)
    ensures var r := UpdateRichText(AssetsPort, FeedThenImage, TensFor, Some(Squares), 0.0, 20.0, fuel, true);
      && r.Arranged? && r.widths == [0.0] && r.count == 2 && r.labelWidth == 20.0
      && |r.segs| == 1 && r.segs[0].line == 2
      && !LinesHaveWidths(r) && !WidestLine(r)
  {
    FeedThenImageWalk(fuel, true);
  }

  /** Corrected, the image clears the flag and its line's width is recorded. */
  lemma ImageAfterFeedCorrected(fuel: nat)
    ensures var r := UpdateRichText(AssetsPort, FeedThenImage, TensFor, Some(Squares), 0.0, 20.0, fuel, false);
      && r.Arranged? && r.widths == [0.0, 20.0] && r.count == 2 && r.labelWidth == 20.0
      && |r.segs| == 1 && r.segs[0].line == 2
      && LinesHaveWidths(r) && WidestLine(r)
  {
    FeedThenImageWalk(fuel, false);
    var r := UpdateRichText(AssetsPort, FeedThenImage, TensFor, Some(Squares), 0.0, 20.0, fuel, false);
    assert r.widths[1] == 20.0;
  }
}

=== FILE: rich_position.dfy ===
/** The placement pass of rich text (`_updateRichTextPosition`): every segment laid out
    by the run loop gets a position in the label's node space. A cursor walks along
    each line; the line's horizontal offset comes from the alignment and the line's
    recorded width, the vertical position from the line number. Images are lifted by
    their vertical anchor and moved by their `offset=` attribute. */
module RichPosition {
  import opened Wrappers
  import opened Js
  import opened RichStyle
  import opened RichLayout

  /** The label's horizontal alignment; the engine's enum values are 0, 1 and 2. */
  datatype HAlign = Left | Center | Right

  function AlignFactor(a: HAlign): (f: real)
    ensures f == 0.0 <==> a.Left?
    ensures f == 1.0 <==> a.Center?
    ensures f == 2.0 <==> a.Right?
  {
    match a
    case Left => 0.0
    case Center => 1.0
    case Right => 2.0
  }

  /** `_linesWidth[line - 1]`: `undefined` off the array, which turns every sum it
      enters into NaN. */
  function LineWidth(widths: seq<real>, line: int): (w: Option<real>)
    ensures w.Some? <==> 1 <= line <= |widths|
    ensures w.Some? ==> w.value == widths[line - 1]
  {
    if 1 <= line <= |widths| then Some(widths[line - 1]) else None
  }

  /** The x offset of a line whose width is `lw` (None: NaN). The current port measures
      it from the node's anchor; the older port always uses a centred anchor. Left
      alignment never reads the line's width. Read in terms of the label's box, whose
      left edge is at `-labelWidth * anchorX`: a left-aligned line starts at the left
      edge, a centred line has its middle in the middle of the box, and a right-aligned
      line ends at the right edge. */
  function LineOffset(port: RichPort, align: HAlign, labelWidth: real, anchorX: real, lw: Option<real>): (o: Option<real>)
    ensures o.None? <==> !align.Left? && lw.None?
    ensures var left := -labelWidth * (if port.AssetsPort? then anchorX else 0.5);
      && (align.Left? ==> o == Some(left))
      && (align.Center? && o.Some? ==> o.value + lw.value / 2.0 == left + labelWidth / 2.0)
      && (align.Right? && o.Some? ==> o.value + lw.value == left + labelWidth)
  {
    match port
    case AssetsPort =>
      var base := labelWidth * (AlignFactor(align) * 0.5 - anchorX);
      (match align
       case Left =>
         assert base == -labelWidth * (if port.AssetsPort? then anchorX else 0.5);
         Some(base)
       case Center => if lw.Some? then Some(base - lw.value / 2.0) else None
       case Right => if lw.Some? then Some(base - lw.value) else None)
    case PackagesPort =>
      match align
      case Left => Some(-labelWidth / 2.0)
      case Center => if lw.Some? then Some(-lw.value / 2.0) else None
      case Right => if lw.Some? then Some(labelWidth / 2.0 - lw.value) else None
  }

  /** The y of a line: the last line sits on the bottom of the label's box (at
      `-labelHeight * anchorY`, with a centred anchor in the older port), and every
      earlier line one line height higher. */
  function LineY(port: RichPort, lineHeight: real, count: int, line: int, labelHeight: real, anchorY: real): (y: real)
  {
    lineHeight * (count - line) as real - labelHeight * (if port.AssetsPort? then anchorY else 0.5)
  }

  /** Consecutive lines are one line height apart, and the last line is at the bottom
      of the box. */
  lemma LinesStack(port: RichPort, lineHeight: real, count: int, line: int, labelHeight: real, anchorY: real)
    ensures LineY(port, lineHeight, count, line, labelHeight, anchorY)
          - LineY(port, lineHeight, count, line + 1, labelHeight, anchorY) == lineHeight
    ensures LineY(port, lineHeight, count, count, labelHeight, anchorY)
         == -labelHeight * (if port.AssetsPort? then anchorY else 0.5)
  {
    assert (count - line) as real == (count - (line + 1)) as real + 1.0;
  }

  /** The lift of an image above its line: a line node is `1 + BaselineRatio` lines
      tall, so the image's anchor point goes half the extra height above the line's
      bottom, plus its anchor fraction of the line height. */
  function ImageLift(lineHeight: real, anchorY: real): (d: real)
    ensures anchorY == 0.0 || anchorY == 0.5 || anchorY == 1.0 ==>
      d == lineHeight * BaselineRatio / 2.0 + anchorY * lineHeight
  {
    var lineHeightReal := lineHeight * (1.0 + BaselineRatio);
    if anchorY == 1.0 then lineHeight + (lineHeightReal - lineHeight) / 2.0
    else if anchorY == 0.5 then lineHeightReal / 2.0
    else (lineHeightReal - lineHeight) / 2.0
  }

  // ---------------------------------------------------------------------------------
  // Image offsets
  // ---------------------------------------------------------------------------------

  const Comma := 44

  /** `Number.isInteger`: a finite number without a fraction. */
  predicate IsInteger(n: JsNum)
  {
    n.Finite? && n.value.Floor as real == n.value
  }

  /** A parsed offset component is applied only when it is an integer. */
  function Component(n: JsNum): (v: real)
    ensures v != 0.0 ==> IsInteger(n) && v == n.value
    ensures IsInteger(n) ==> v == n.value
  {
    if IsInteger(n) then n.value else 0.0
  }

  datatype Shift = Shift(dx: real, dy: real)

  const NoShift := Shift(0.0, 0.0)

  /** The `offset=` attribute of an image: a single value moves it up, two
      comma-separated values move it right and up; anything else, and any part that
      `parseFloat` does not read as an integer, does nothing. */
  function ImageShift(offset: Str, parseFloat: Str -> JsNum): (d: Shift)
    ensures d.dx != 0.0 ==> Comma in offset
    ensures |offset| == 0 ==> d == NoShift
  {
    if |offset| == 0 then NoShift
    else
      var parts := Split(offset, Comma);
      if |parts| == 1 && |parts[0]| > 0 then Shift(0.0, Component(parseFloat(parts[0])))
      else if |parts| == 2 then Shift(Component(parseFloat(parts[0])), Component(parseFloat(parts[1])))
      else
        assert Comma in offset by { if Comma !in offset { NoCommaOnePart(offset); } }
        NoShift
  }

  lemma NoCommaOnePart(s: Str)
    requires Comma !in s
    ensures Split(s, Comma) == [s]
  {
    SplitJoin([s], Comma);
  }

  /** An offset without a comma moves the image up by its value. */
  lemma SingleOffset(y: Str, parseFloat: Str -> JsNum)
    requires |y| > 0 && Comma !in y
    ensures ImageShift(y, parseFloat) == Shift(0.0, Component(parseFloat(y)))
  {
    NoCommaOnePart(y);
  }

  /** An offset `x,y` moves the image right by x and up by y, each only when it is an
      integer. */
  lemma PairOffset(x: Str, y: Str, parseFloat: Str -> JsNum)
    requires Comma !in x && Comma !in y
    ensures ImageShift(x + [Comma] + y, parseFloat)
         == Shift(Component(parseFloat(x)), Component(parseFloat(y)))
  {
    SplitJoin([x, y], Comma);
    assert Join([x, y], Comma) == x + [Comma] + Join([y], Comma);
  }

  /** Three or more comma-separated values are ignored. */
  lemma LongOffsetIgnored(x: Str, y: Str, z: Str, parseFloat: Str -> JsNum)
    requires Comma !in x && Comma !in y
    ensures ImageShift(x + [Comma] + y + [Comma] + z, parseFloat) == NoShift
  {
    var s := x + [Comma] + y + [Comma] + z;
    var parts := Split(s, Comma);
    assert s == x + [Comma] + (y + [Comma] + z);
    FirstPiece(x, y + [Comma] + z);
    FirstPiece(y, z);
    assert |parts| >= 3;
  }

  lemma FirstPiece(x: Str, rest: Str)
    requires Comma !in x
    ensures Split(x + [Comma] + rest, Comma) == [x] + Split(rest, Comma)
  {
    var s := x + [Comma] + rest;
    IndexAfterPrefix(x, Comma, rest);
    assert s[..|x|] == x;
    assert s[|x| + 1..] == rest;
  }

  // ---------------------------------------------------------------------------------
  // The cursor
  // ---------------------------------------------------------------------------------

  /** `nextTokenX` and `nextLineIndex`. */
  datatype Cursor = Cursor(x: real, line: int)

  const Start := Cursor(0.0, 1)

  /** A segment on a later line starts that line at x = 0. */
  function Enter(c: Cursor, line: int): (r: Cursor)
    ensures line >= c.line ==> r.line == line
    ensures r.x == (if line > c.line then 0.0 else c.x)
  {
    if line > c.line then Cursor(0.0, line) else c
  }

  /** A segment on the cursor's line moves it on by its width and the label's
      `richTextDeltaX`. */
  function Leave(c: Cursor, seg: Seg, delta: real): (r: Cursor)
    ensures r.line == c.line
    ensures r.x == c.x + (if seg.line == c.line then seg.width + delta else 0.0)
  {
    if seg.line == c.line then c.(x := c.x + seg.width + delta) else c
  }

  /** What the placement needs besides the layout: the port, the label's alignment and
      anchor, the line height, each label segment's `richTextDeltaX` (falsy values are
      0) by segment index, and `parseFloat`. */
  datatype Placing = Placing(port: RichPort, align: HAlign, anchorX: real, anchorY: real, lineHeight: real,
                             delta: nat -> real, parseFloat: Str -> JsNum)

  /** The extra advance after segment i: images carry no text component. */
  function DeltaOf(p: Placing, seg: Seg, i: nat): (d: real)
    ensures seg.kind.Image? ==> d == 0.0
  {
    if seg.kind.Label? then p.delta(i) else 0.0
  }

  /** A segment's position (`x` None: NaN). */
  datatype Pos = Pos(x: Option<real>, y: real)

  /** The position of one segment, given the cursor's x when it is reached. */
  function SegPos(p: Placing, r: Laid, seg: Seg, tokenX: real): (q: Pos)
    requires r.Arranged?
    ensures q.x.Some? <==> p.align.Left? || 1 <= seg.line <= |r.widths|
    ensures seg.kind.Label? ==>
      q == Pos(q.x, LineY(p.port, p.lineHeight, r.count, seg.line, r.labelHeight, p.anchorY))
    ensures seg.kind.Label? && q.x.Some? ==>
      q.x.value == tokenX + LineOffset(p.port, p.align, r.labelWidth, p.anchorX, LineWidth(r.widths, seg.line)).value
  {
    var off := LineOffset(p.port, p.align, r.labelWidth, p.anchorX, LineWidth(r.widths, seg.line));
    var x := if off.Some? then Some(tokenX + off.value) else None;
    var y := LineY(p.port, p.lineHeight, r.count, seg.line, r.labelHeight, p.anchorY);
    match seg.kind
    case Label(_, _) => Pos(x, y)
    case Image(_, anchorY, offset) =>
      var sh := ImageShift(offset, p.parseFloat);
      Pos(if x.Some? then Some(x.value + sh.dx) else None, y + ImageLift(p.lineHeight, anchorY) + sh.dy)
  }

  /** The loop over the segments from index i with the cursor c. */
  function PlaceFrom(p: Placing, r: Laid, i: nat, c: Cursor): (ps: seq<Pos>)
    requires r.Arranged? && i <= |r.segs|
    decreases |r.segs| - i
    ensures |ps| == |r.segs| - i
    ensures forall k :: 0 <= k < |ps| ==> (ps[k].x.Some? <==> p.align.Left? || 1 <= r.segs[i + k].line <= |r.widths|)
  {
    if i == |r.segs| then []
    else
      var seg := r.segs[i];
      var c1 := Enter(c, seg.line);
      [SegPos(p, r, seg, c1.x)] + PlaceFrom(p, r, i + 1, Leave(c1, seg, DeltaOf(p, seg, i)))
  }

  /** `_updateRichTextPosition`: one position per segment. A position's x is a number
      exactly when the text is left-aligned or the segment's line has a recorded width. */
  function Positions(p: Placing, r: Laid): (ps: seq<Pos>)
    requires r.Arranged?
    ensures |ps| == |r.segs|
    ensures forall k :: 0 <= k < |ps| ==> (ps[k].x.Some? <==> p.align.Left? || 1 <= r.segs[k].line <= |r.widths|)
  {
    PlaceFrom(p, r, 0, Start)
  }

  /** A layout whose every line has a width gets numeric positions everywhere. */
  lemma PositionsAreNumbers(p: Placing, r: Laid)
    requires r.Arranged? && LinesHaveWidths(r)
    ensures forall k :: 0 <= k < |r.segs| ==> Positions(p, r)[k].x.Some?
  {
  }

  // ---------------------------------------------------------------------------------
  // What the cursor holds
  // ---------------------------------------------------------------------------------

  /** The advances of the first k segments that lie on the given line. */
  function LineSum(p: Placing, segs: seq<Seg>, k: nat, line: int): (x: real)
    requires k <= |segs|
  {
    if k == 0 then 0.0
    else LineSum(p, segs, k - 1, line)
         + (if segs[k - 1].line == line then segs[k - 1].width + DeltaOf(p, segs[k - 1], k - 1) else 0.0)
  }

  lemma {:induction false} LineSumAbsent(p: Placing, segs: seq<Seg>, k: nat, line: int)
    requires k <= |segs|
    requires forall j :: 0 <= j < k ==> segs[j].line != line
    ensures LineSum(p, segs, k, line) == 0.0
  {
    if k > 0 {
      LineSumAbsent(p, segs, k - 1, line);
    }
  }

  /** Segments in line order, all on lines from 1 on. */
  predicate InLineOrder(segs: seq<Seg>)
  {
    (forall i :: 0 <= i < |segs| ==> 1 <= segs[i].line)
    && (forall i, j :: 0 <= i < j < |segs| ==> segs[i].line <= segs[j].line)
  }

  /** The cursor after the first i segments, in closed form. */
  function CursorFor(p: Placing, segs: seq<Seg>, i: nat): (c: Cursor)
    requires i <= |segs|
  {
    if i == 0 then Start else Cursor(LineSum(p, segs, i, segs[i - 1].line), segs[i - 1].line)
  }

  /** Entering segment i puts the cursor at the advances of the earlier segments on its
      line, and leaving it gives the closed form for i + 1. */
  lemma CursorStep(p: Placing, segs: seq<Seg>, i: nat)
    requires InLineOrder(segs) && i < |segs|
    ensures Enter(CursorFor(p, segs, i), segs[i].line).x == LineSum(p, segs, i, segs[i].line)
    ensures Leave(Enter(CursorFor(p, segs, i), segs[i].line), segs[i], DeltaOf(p, segs[i], i))
         == CursorFor(p, segs, i + 1)
  {
    var line := segs[i].line;
    var c := CursorFor(p, segs, i);
    if line > c.line {
      assert forall j :: 0 <= j < i ==> segs[j].line != line by {
        forall j | 0 <= j < i ensures segs[j].line != line {
          if i > 0 { assert segs[j].line <= segs[i - 1].line; }
        }
      }
      LineSumAbsent(p, segs, i, line);
    } else {
      if i == 0 {
        LineSumAbsent(p, segs, 0, line);
      } else {
        assert segs[i - 1].line <= line;
      }
    }
  }

  /** The loop from segment i, entered with the closed-form cursor, places each
      segment at the advances of the earlier segments on its line. */
  lemma {:induction false} PlaceFromAtLineSums(p: Placing, r: Laid, i: nat)
    requires r.Arranged? && InLineOrder(r.segs) && i <= |r.segs|
    decreases |r.segs| - i
    ensures var ps := PlaceFrom(p, r, i, CursorFor(p, r.segs, i));
      forall k :: i <= k < |r.segs| ==> ps[k - i] == SegPos(p, r, r.segs[k], LineSum(p, r.segs, k, r.segs[k].line))
  {
    if i < |r.segs| {
      var seg := r.segs[i];
      var c1 := Enter(CursorFor(p, r.segs, i), seg.line);
      CursorStep(p, r.segs, i);
      PlaceFromAtLineSums(p, r, i + 1);
      var ps := PlaceFrom(p, r, i, CursorFor(p, r.segs, i));
      var tail := PlaceFrom(p, r, i + 1, CursorFor(p, r.segs, i + 1));
      assert ps == [SegPos(p, r, seg, c1.x)] + tail;
      forall k | i <= k < |r.segs|
        ensures ps[k - i] == SegPos(p, r, r.segs[k], LineSum(p, r.segs, k, r.segs[k].line))
      {
        if k > i {
          assert ps[k - i] == tail[k - (i + 1)];
        }
      }
    }
  }

  /** Every segment of a layout in line order is placed with the cursor at the sum of
      the widths and deltas of the earlier segments on its line. */
  lemma PlacedAtLineSums(p: Placing, r: Laid)
    requires r.Arranged? && LinesExist(r)
    ensures forall k :: 0 <= k < |r.segs| ==>
      Positions(p, r)[k] == SegPos(p, r, r.segs[k], LineSum(p, r.segs, k, r.segs[k].line))
  {
    PlaceFromAtLineSums(p, r, 0);
  }

  /** So the first segment of a line starts at the line's offset, and a label that
      follows another segment on the same line starts where that one ends. */
  lemma SegmentsAbut(p: Placing, r: Laid, k: nat)
    requires r.Arranged? && LinesExist(r) && k < |r.segs|
    requires r.segs[k].kind.Label?
    requires p.align.Left? || 1 <= r.segs[k].line <= |r.widths|
    ensures var off := LineOffset(p.port, p.align, r.labelWidth, p.anchorX, LineWidth(r.widths, r.segs[k].line)).value;
      var x := Positions(p, r)[k].x.value;
      && (k == 0 || r.segs[k - 1].line < r.segs[k].line ==> x == off)
      && (k > 0 && r.segs[k - 1].line == r.segs[k].line ==>
            x == off + LineSum(p, r.segs, k - 1, r.segs[k].line) + r.segs[k - 1].width + DeltaOf(p, r.segs[k - 1], k - 1))
  {
    PlacedAtLineSums(p, r);
    var line := r.segs[k].line;
    if k == 0 || r.segs[k - 1].line < line {
      LineSumAbsent(p, r.segs, k, line);
    }
  }

  // ---------------------------------------------------------------------------------
  // The two ports
  // ---------------------------------------------------------------------------------

  /** The older port places segments as the current one does for a node anchored at
      its centre. */
  lemma {:induction false} PackagesPlaceAsCentred(p: Placing, r: Laid, i: nat, c: Cursor)
    requires r.Arranged? && i <= |r.segs|
    decreases |r.segs| - i
    ensures PlaceFrom(p.(port := PackagesPort), r, i, c)
         == PlaceFrom(p.(port := AssetsPort, anchorX := 0.5, anchorY := 0.5), r, i, c)
  {
    if i < |r.segs| {
      var seg := r.segs[i];
      var c1 := Enter(c, seg.line);
      var a := p.(port := PackagesPort);
      var b := p.(port := AssetsPort, anchorX := 0.5, anchorY := 0.5);
      var lw := LineWidth(r.widths, seg.line);
      assert LineOffset(PackagesPort, p.align, r.labelWidth, p.anchorX, lw)
          == LineOffset(AssetsPort, p.align, r.labelWidth, 0.5, lw);
      assert SegPos(a, r, seg, c1.x) == SegPos(b, r, seg, c1.x);
      assert DeltaOf(a, seg, i) == DeltaOf(b, seg, i);
      PackagesPlaceAsCentred(p, r, i + 1, Leave(c1, seg, DeltaOf(a, seg, i)));
    }
  }

  lemma PackagesPositionsCentred(p: Placing, r: Laid)
    requires r.Arranged?
    ensures Positions(p.(port := PackagesPort), r) == Positions(p.(port := AssetsPort, anchorX := 0.5, anchorY := 0.5), r)
  {
    PackagesPlaceAsCentred(p, r, 0, Start);
  }

  // ---------------------------------------------------------------------------------
  // The image after empty lines, placed
  // ---------------------------------------------------------------------------------

  function Centred(port: RichPort): Placing
  {
    Placing(port, Center, 0.5, 0.5, 20.0, (i: nat) => 0.0, (s: Str) => NaN)
  }

  /** As written, the image after a line feed is placed with a NaN x once the text is
      centred, because its line has no recorded width. */
  lemma ImageAfterFeedPlacedAtNaN(fuel: nat)
    ensures var r := UpdateRichText(AssetsPort, FeedThenImage, TensFor, Some(Squares), 0.0, 20.0, fuel, true);
      r.Arranged? && |Positions(Centred(AssetsPort), r)| == 1 && Positions(Centred(AssetsPort), r)[0].x.None?
  {
    ImageAfterFeedHasNoWidth(fuel);
  }

  /** Corrected, it sits at the start of line 2, centred: 10 pixels left of the middle. */
  lemma ImageAfterFeedPlacedCorrected(fuel: nat)
    ensures var r := UpdateRichText(AssetsPort, FeedThenImage, TensFor, Some(Squares), 0.0, 20.0, fuel, false);
      r.Arranged? && |Positions(Centred(AssetsPort), r)| == 1 && Positions(Centred(AssetsPort), r)[0].x == Some(-10.0)
  {
    ImageAfterFeedCorrected(fuel);
    var r := UpdateRichText(AssetsPort, FeedThenImage, TensFor, Some(Squares), 0.0, 20.0, fuel, false);
    var p := Centred(AssetsPort);
    assert Positions(p, r) == [SegPos(p, r, r.segs[0], 0.0)];
  }
}

=== FILE: rich_split.dfy ===
/** The 2048-pixel pre-split of the current rich-text port: a run whose text measures
    2048 pixels or more is cut into parts, so that no single label texture grows past
    that size. Positions in the cutting loop are real numbers (the source halves them
    and adds whole steps to them) and every `substring` truncates them first, so after
    the first guess the loop is modelled on their truncations. */
module RichSplit {
  import opened Wrappers
  import opened Js
  import opened TmpUtils

  /** Texts measuring at least this many pixels are cut. */
  const SplitWidth: real := 2048.0

  /** The `leftTryTimes` budget of the cutting loop. */
  const TryBudget: int := 1000

  /** The parts laid end to end. */
  function Concat(parts: seq<Str>): (r: Str)
  {
    if |parts| == 0 then [] else Concat(parts[..|parts| - 1]) + parts[|parts| - 1]
  }

  lemma ConcatAppend(parts: seq<Str>, p: Str)
    ensures Concat(parts + [p]) == Concat(parts) + p
  {
    assert (parts + [p])[..|parts|] == parts;
  }

  // ---------------------------------------------------------------------------------
  // Positions
  // ---------------------------------------------------------------------------------

  /** The loop's positions are real numbers, but after the first guess they only move
      by whole numbers, every `substring` truncates them and they are only compared
      with the text's length. So the loop is modelled on their truncations: moving a
      position by a whole number moves its truncation by the same number ... */
  lemma TruncShift(x: real, n: int)
    requires x >= 0.0 && x + n as real >= 0.0
    ensures TruncToInt(x + n as real) == TruncToInt(x) + n
  {
  }

  /** ... and a position lies before the end of the text exactly when its truncation
      does. */
  lemma TruncBelow(x: real, n: int)
    requires x >= 0.0
    ensures x < n as real <==> TruncToInt(x) < n
  {
  }

  // ---------------------------------------------------------------------------------
  // The first guess
  // ---------------------------------------------------------------------------------

  lemma HalfFloorDrops(e: real)
    requires e >= 2.0
    ensures 0 <= (e / 2.0).Floor < e.Floor
  {
  }

  /** The first loop of `splitLongStringOver2048`: the end of the first part, starting
      at half the text, is halved while that prefix is wider than the limit, but never
      below 1 (the halving that would go below 1 is undone). */
  function Halve(text: Str, m: Measure, limit: real, end: real): (e: real)
    requires end >= 0.0
    decreases end.Floor
    ensures 0.0 <= e <= end
    ensures e == end || e >= 1.0
    ensures m(Substring(text, 0, TruncToInt(e))) <= limit || e / 2.0 < 1.0
  {
    if m(Substring(text, 0, TruncToInt(end))) <= limit || end / 2.0 < 1.0 then end
    else
      HalfFloorDrops(end);
      Halve(text, m, limit, end / 2.0)
  }

  // ---------------------------------------------------------------------------------
  // The cutting loop
  // ---------------------------------------------------------------------------------

  /** The loop state: `curStart` and `curEnd` (truncated), `leftTryTimes`,
      `curWordStep` and the parts pushed so far. `curString` is always the text between
      the two positions and `leftString` the text after the end, so neither is stored. */
  datatype Cursor = Cursor(start: int, end: int, tries: int, step: int, parts: seq<Str>)

  /** The first inner loop: while the current part is narrower than the limit, the end
      moves one step on (the step becomes the length of an English word part at the
      start of the rest, when there is one). Each turn costs a try; the loop also stops
      when the tries reach exactly 0. Once the tries are negative it only stops on
      width, so it is given fuel. */
  function Expand(text: Str, m: Measure, limit: real, c: Cursor, fuel: nat): (r: Option<Cursor>)
    requires c.step >= 1
    decreases fuel
    ensures r.Some? ==> r.value.start == c.start && r.value.parts == c.parts && r.value.end >= c.end
    ensures r.Some? ==> r.value.tries == 0 || m(Substring(text, r.value.start, r.value.end)) >= limit
    ensures r.Some? && c.step == 1 ==> r.value.step == 1
  {
    if c.tries == 0 || m(Substring(text, c.start, c.end)) >= limit then Some(c)
    else if fuel == 0 then None
    else
      var word := EnglishWordPartAtFirst(SubstringFrom(text, c.end));
      var step := if word.Some? && |word.value| > 0 then |word.value| else c.step;
      Expand(text, m, limit, c.(end := c.end + step, step := step, tries := c.tries - 1), fuel - 1)
  }

  /** The second inner loop: while the part has at least two units and is wider than
      the limit, the end steps back (by the last step first, then by 1). */
  function Reduce(text: Str, m: Measure, limit: real, c: Cursor): (r: Cursor)
    requires 0 <= c.start <= c.end && c.step == 1
    decreases c.end
    ensures r.start == c.start && r.parts == c.parts && r.step == 1
    ensures c.start <= r.end <= c.end
    ensures r.tries == 0 || |Substring(text, r.start, r.end)| < 2 || m(Substring(text, r.start, r.end)) <= limit
  {
    if c.tries == 0 || |Substring(text, c.start, c.end)| < 2 || m(Substring(text, c.start, c.end)) <= limit then c
    else Reduce(text, m, limit, c.(end := c.end - c.step, step := 1, tries := c.tries - 1))
  }

  /** A part of two or more units ending inside an English word gives that word part
      back to the next part, unless the part is the word part alone. */
  function DropWordTail(text: Str, c: Cursor): (e: int)
    requires 0 <= c.start <= c.end
    ensures c.start <= e <= c.end
    ensures e < c.end ==> |Substring(text, c.start, e)| >= 1
  {
    var s := Substring(text, c.start, c.end);
    if |s| >= 2 then
      match EnglishWordPartAtLast(s)
      case Some(w) => if s != w then c.end - |w| else c.end
      case None => c.end
    else c.end
  }

  /** What a turn of the outer loop ends in: another turn, or the parts when the rest
      of the text is narrower than 2048. */
  datatype Step = Again(c: Cursor) | Finished(parts: seq<Str>)

  /** The middle of a turn: the part between the positions is pushed, and the next
      part starts where it ended and is first guessed as long as it. A sound state
      stays sound. */
  function Push(text: Str, m: Measure, limit: real, grown: Cursor): (next: Cursor)
    requires 0 <= grown.start <= grown.end && grown.step == 1
    ensures grown.start <= next.start <= next.end && next.step == 1
    ensures Tiled(text, grown) ==> Tiled(text, next)
  {
    var reduced := Reduce(text, m, limit, grown);
    var end := DropWordTail(text, reduced);
    var part := Substring(text, reduced.start, end);
    assert Tiled(text, grown) ==> Concat(reduced.parts + [part]) == text[..Min(end, |text|)] by {
      if Tiled(text, grown) {
        PushExtends(text, reduced.parts, reduced.start, end);
      }
    }
    Cursor(end, end + |part|, reduced.tries - 1, 1, reduced.parts + [part])
  }

  /** One turn of the outer loop. When the text after the guessed next part measures
      under 2048 the loop ends by pushing a last part: as written that is the text
      after the guess (`asWritten`), which leaves out the guessed part itself;
      corrected, it is the text after the pushed part, and the corrected turn keeps a
      sound state sound or ends with the whole text spelled. */
  function TakeTurn(text: Str, m: Measure, limit: real, c: Cursor, fuel: nat, asWritten: bool): (r: Option<Step>)
    requires 0 <= c.start <= c.end && c.step == 1
    ensures r.Some? && r.value.Again? ==> c.start <= r.value.c.start <= r.value.c.end && r.value.c.step == 1
    ensures !asWritten && Tiled(text, c) && r.Some? && r.value.Again? ==> Tiled(text, r.value.c)
    ensures !asWritten && Tiled(text, c) && r.Some? && r.value.Finished? ==> Concat(r.value.parts) == text
  {
    match Expand(text, m, limit, c, fuel)
    case None => None
    case Some(grown) =>
      var next := Push(text, m, limit, grown);
      var left := SubstringFrom(text, next.end);
      var rest := SubstringFrom(text, next.start);
      assert Tiled(text, c) ==> Concat(next.parts + [rest]) == text by {
        if Tiled(text, c) {
          ExpandKeepsTiling(text, m, limit, c, fuel);
          ConcatAppend(next.parts, rest);
          var j := Min(next.start, |text|);
          assert text[..j] + text[j..] == text;
        }
      }
      if m(left) < SplitWidth then
        Some(Finished(next.parts + [if asWritten then left else rest]))
      else Some(Again(next))
  }

  /** How the outer loop ended: its parts, and whether it stopped because the tries
      ran out (which drops the rest of the text). */
  datatype Outcome = Outcome(parts: seq<Str>, budgetOut: bool)

  /** The outer loop, which runs while tries remain (any non-zero count) and the start
      lies inside the text; fuel bounds its turns. */
  function Turns(text: Str, m: Measure, limit: real, c: Cursor, fuel: nat, asWritten: bool): (r: Option<Outcome>)
    requires 0 <= c.start <= c.end && c.step == 1
    decreases fuel
  {
    if c.tries == 0 then Some(Outcome(c.parts, true))
    else if c.start >= |text| then Some(Outcome(c.parts, false))
    else if fuel == 0 then None
    else
      match TakeTurn(text, m, limit, c, fuel, asWritten)
      case None => None
      case Some(Finished(parts)) => Some(Outcome(parts, false))
      case Some(Again(next)) => Turns(text, m, limit, next, fuel - 1, asWritten)
  }

  /** `splitLongStringOver2048` with the label's measure and `maxWidth` as the limit
      of one part; `None` when the fuel runs out first. */
  function SplitOver2048(text: Str, m: Measure, limit: real, fuel: nat, asWritten: bool): (r: Option<Outcome>)
  {
    var end := Halve(text, m, limit, |text| as real / 2.0);
    Turns(text, m, limit, Cursor(0, TruncToInt(end), TryBudget, 1, []), fuel, asWritten)
  }

  /** `SplitLongStringApproximatelyIn2048`: a text under 2048 pixels is one part;
      otherwise each of its lines is one part when it is under 2048 and is cut by
      `SplitOver2048` when it is not. */
  function SplitIn2048(text: Str, m: Measure, limit: real, fuel: nat, asWritten: bool): (r: Option<seq<Str>>)
    ensures m(text) < SplitWidth ==> r == Some([text])
  {
    if m(text) < SplitWidth then Some([text])
    else SplitLines(Split(text, LF), m, limit, fuel, asWritten)
  }

  function SplitLines(lines: seq<Str>, m: Measure, limit: real, fuel: nat, asWritten: bool): (r: Option<seq<Str>>)
    ensures (forall i :: 0 <= i < |lines| ==> m(lines[i]) < SplitWidth) ==> r == Some(lines)
  {
    if |lines| == 0 then Some([])
    else
      var head :=
        if m(lines[0]) < SplitWidth then Some([lines[0]])
        else match SplitOver2048(lines[0], m, limit, fuel, asWritten)
          case None => None
          case Some(o) => Some(o.parts);
      match head
      case None => None
      case Some(h) =>
        match SplitLines(lines[1..], m, limit, fuel, asWritten)
        case None => None
        case Some(t) =>
          assert [lines[0]] + lines[1..] == lines;
          Some(h + t)
  }

  // ---------------------------------------------------------------------------------
  // Every unit ends up in exactly one part (corrected exit)
  // ---------------------------------------------------------------------------------

  /** The loop state is sound: the positions are ordered and non-negative, the step is
      one unit, and the parts pushed so far spell the text up to the start. */
  predicate Tiled(text: Str, c: Cursor) {
    0 <= c.start <= c.end && c.step == 1
    && Concat(c.parts) == text[..Min(c.start, |text|)]
  }

  /** An outcome spells the text, unless it is missing or its tries ran out. */
  predicate SpellsText(text: Str, r: Option<Outcome>) {
    r.Some? && !r.value.budgetOut ==> Concat(r.value.parts) == text
  }

  /** Pushing the text from the start to a later position extends the spelled prefix
      to that position. */
  lemma PushExtends(text: Str, parts: seq<Str>, a: int, b: int)
    requires 0 <= a <= b && Concat(parts) == text[..Min(a, |text|)]
    ensures Concat(parts + [Substring(text, a, b)]) == text[..Min(b, |text|)]
  {
    ConcatAppend(parts, Substring(text, a, b));
    var i, j := Min(a, |text|), Min(b, |text|);
    assert text[..i] + text[i..j] == text[..j];
  }

  /** The loop's first word step is one unit, so the step stays 1. */
  lemma ExpandKeepsTiling(text: Str, m: Measure, limit: real, c: Cursor, fuel: nat)
    requires Tiled(text, c)
    ensures Expand(text, m, limit, c, fuel).Some? ==> Tiled(text, Expand(text, m, limit, c, fuel).value)
  {
  }

  /** The corrected loop loses nothing: unless it stops because its tries ran out, the
      parts it returns spell the text exactly. */
  lemma {:induction false} CorrectedTurnsSpellText(text: Str, m: Measure, limit: real, c: Cursor, fuel: nat)
    requires Tiled(text, c)
    decreases fuel, 1
    ensures SpellsText(text, Turns(text, m, limit, c, fuel, false))
  {
    if c.tries == 0 || c.start >= |text| || fuel == 0 {
      StoppedSpellsText(text, m, limit, c, fuel);
    } else if GoesOn(text, m, limit, c, fuel) {
      AgainSpellsText(text, m, limit, c, fuel);
    } else {
      LastTurnSpellsText(text, m, limit, c, fuel);
    }
  }

  /** The corrected turn from `c` hands a cursor to the next turn. */
  predicate GoesOn(text: Str, m: Measure, limit: real, c: Cursor, fuel: nat)
    requires 0 <= c.start <= c.end && c.step == 1
  {
    var t := TakeTurn(text, m, limit, c, fuel, false);
    t.Some? && t.value.Again?
  }

  /** A loop that stops before its turn: out of tries, past the text, or out of fuel. */
  lemma StoppedSpellsText(text: Str, m: Measure, limit: real, c: Cursor, fuel: nat)
    requires Tiled(text, c) && (c.tries == 0 || c.start >= |text| || fuel == 0)
    ensures SpellsText(text, Turns(text, m, limit, c, fuel, false))
  {
    if c.tries != 0 && c.start >= |text| {
      assert Min(c.start, |text|) == |text|;
    }
  }

  /** A turn that goes on hands a tiled cursor to the rest of the loop, which then
      spells the rest of the text. */
  lemma {:induction false} AgainSpellsText(text: Str, m: Measure, limit: real, c: Cursor, fuel: nat)
    requires Tiled(text, c) && c.tries != 0 && c.start < |text| && fuel > 0
    requires GoesOn(text, m, limit, c, fuel)
    decreases fuel, 0
    ensures SpellsText(text, Turns(text, m, limit, c, fuel, false))
  {
    var next := TakeTurn(text, m, limit, c, fuel, false).value.c;
    var rest: nat := fuel - 1;
    CorrectedTurnsSpellText(text, m, limit, next, rest);
    SameFuelSpells(text, m, limit, next, rest, fuel - 1);
    PassesOn(text, m, limit, c, fuel);
  }

  /** The loop's outcome after a turn that goes on is the rest's outcome. */
  lemma PassesOn(text: Str, m: Measure, limit: real, c: Cursor, fuel: nat)
    requires c.tries != 0 && c.start < |text| && fuel > 0 && 0 <= c.start <= c.end && c.step == 1
    requires GoesOn(text, m, limit, c, fuel)
    requires SpellsText(text, Turns(text, m, limit, TakeTurn(text, m, limit, c, fuel, false).value.c, fuel - 1, false))
    ensures SpellsText(text, Turns(text, m, limit, c, fuel, false))
  {
  }

  lemma SameFuelSpells(text: Str, m: Measure, limit: real, c: Cursor, a: nat, b: nat)
    requires a == b && 0 <= c.start <= c.end && c.step == 1
    requires SpellsText(text, Turns(text, m, limit, c, a, false))
    ensures SpellsText(text, Turns(text, m, limit, c, b, false))
  {
  }

  /** A turn that ends the loop leaves the whole text spelled, or nothing. */
  lemma LastTurnSpellsText(text: Str, m: Measure, limit: real, c: Cursor, fuel: nat)
    requires Tiled(text, c) && c.tries != 0 && c.start < |text| && fuel > 0
    requires !GoesOn(text, m, limit, c, fuel)
    ensures SpellsText(text, Turns(text, m, limit, c, fuel, false))
  {
  }

  /** `splitLongStringOver2048` with the corrected exit: the parts spell the line,
      unless the tries ran out. */
  lemma CorrectedSplitSpellsLine(text: Str, m: Measure, limit: real, fuel: nat)
    ensures SpellsText(text, SplitOver2048(text, m, limit, fuel, false))
  {
    var end := Halve(text, m, limit, |text| as real / 2.0);
    CorrectedTurnsSpellText(text, m, limit, Cursor(0, TruncToInt(end), TryBudget, 1, []), fuel);
  }

  // ---------------------------------------------------------------------------------
  // The exit as written drops a part
  // ---------------------------------------------------------------------------------

  /** Five distinct ideographs, each measuring 1000 pixels, cut with a 1000-pixel limit. */
  const Ideographs: Str := [0x4E00, 0x4E01, 0x4E02, 0x4E03, 0x4E04]

  function Wide(s: Str): real { 1000.0 * |s| as real }

  /** The first guess is 2.5 halved once: 1.25, whose truncation is 1. */
  lemma FirstGuess()
    ensures Halve(Ideographs, Wide, 1000.0, 2.5) == 1.25 && TruncToInt(1.25) == 1
  {
    assert TruncToInt(2.5) == 2 && TruncToInt(1.25) == 1;
    assert Substring(Ideographs, 0, 2) == Ideographs[..2];
    assert Substring(Ideographs, 0, 1) == Ideographs[..1];
  }

  lemma FirstTurn(fuel: nat, asWritten: bool)
    requires fuel > 0
    ensures TakeTurn(Ideographs, Wide, 1000.0, Cursor(0, 1, 1000, 1, []), fuel, asWritten)
      == Some(Again(Cursor(1, 2, 999, 1, [[0x4E00]])))
  {
    var c := Cursor(0, 1, 1000, 1, []);
    FirstGrow(fuel);
    FirstPush();
    assert SubstringFrom(Ideographs, 2) == Ideographs[2..];
  }

  lemma FirstGrow(fuel: nat)
    ensures Expand(Ideographs, Wide, 1000.0, Cursor(0, 1, 1000, 1, []), fuel) == Some(Cursor(0, 1, 1000, 1, []))
  {
    assert Substring(Ideographs, 0, 1) == [0x4E00];
  }

  lemma FirstPush()
    ensures Push(Ideographs, Wide, 1000.0, Cursor(0, 1, 1000, 1, [])) == Cursor(1, 2, 999, 1, [[0x4E00]])
  {
    var c := Cursor(0, 1, 1000, 1, []);
    assert Substring(Ideographs, 0, 1) == [0x4E00];
    assert Reduce(Ideographs, Wide, 1000.0, c) == c;
    assert DropWordTail(Ideographs, c) == 1;
  }

  lemma SecondTurn(fuel: nat, asWritten: bool)
    requires fuel > 0
    ensures TakeTurn(Ideographs, Wide, 1000.0, Cursor(1, 2, 999, 1, [[0x4E00]]), fuel, asWritten)
      == Some(Finished([[0x4E00], [0x4E01], if asWritten then [0x4E03, 0x4E04] else [0x4E02, 0x4E03, 0x4E04]]))
  {
    SecondGrow(fuel);
    SecondPush();
    var next := Cursor(2, 3, 998, 1, [[0x4E00], [0x4E01]]);
    var left, rest := SubstringFrom(Ideographs, 3), SubstringFrom(Ideographs, 2);
    assert left == [0x4E03, 0x4E04] && rest == [0x4E02, 0x4E03, 0x4E04];
    assert Wide(left) < SplitWidth;
    assert next.parts + [if asWritten then left else rest]
      == [[0x4E00], [0x4E01], if asWritten then [0x4E03, 0x4E04] else [0x4E02, 0x4E03, 0x4E04]];
  }

  lemma SecondGrow(fuel: nat)
    ensures Expand(Ideographs, Wide, 1000.0, Cursor(1, 2, 999, 1, [[0x4E00]]), fuel) == Some(Cursor(1, 2, 999, 1, [[0x4E00]]))
  {
    assert Substring(Ideographs, 1, 2) == [0x4E01];
  }

  lemma SecondPush()
    ensures Push(Ideographs, Wide, 1000.0, Cursor(1, 2, 999, 1, [[0x4E00]])) == Cursor(2, 3, 998, 1, [[0x4E00], [0x4E01]])
  {
    var c := Cursor(1, 2, 999, 1, [[0x4E00]]);
    assert Substring(Ideographs, 1, 2) == [0x4E01];
    assert Reduce(Ideographs, Wide, 1000.0, c) == c;
    assert DropWordTail(Ideographs, c) == 2;
  }

  /** As written, the loop's exit pushes the text after the guessed next part instead
      of the text after the last pushed part, so the guessed part is lost: the third
      ideograph is in no part. The corrected exit keeps it. */
  lemma ExitDropsGuessedPart(fuel: nat)
    requires fuel >= 2
    ensures SplitOver2048(Ideographs, Wide, 1000.0, fuel, true)
      == Some(Outcome([[0x4E00], [0x4E01], [0x4E03, 0x4E04]], false))
    ensures SplitOver2048(Ideographs, Wide, 1000.0, fuel, false)
      == Some(Outcome([[0x4E00], [0x4E01], [0x4E02, 0x4E03, 0x4E04]], false))
  {
    assert |Ideographs| as real / 2.0 == 2.5;
    FirstGuess();
    var c0 := Cursor(0, 1, 1000, 1, []);
    var c1 := Cursor(1, 2, 999, 1, [[0x4E00]]);
    FirstTurn(fuel, true);
    FirstTurn(fuel, false);
    SecondTurn(fuel - 1, true);
    SecondTurn(fuel - 1, false);
    assert Turns(Ideographs, Wide, 1000.0, c1, fuel - 1, true) == Some(Outcome([[0x4E00], [0x4E01], [0x4E03, 0x4E04]], false));
    assert Turns(Ideographs, Wide, 1000.0, c1, fuel - 1, false) == Some(Outcome([[0x4E00], [0x4E01], [0x4E02, 0x4E03, 0x4E04]], false));
  }

  /** The same through the pre-split: the run is one line over 2048 pixels, and the
      as-written parts spell four of its five units. */
  lemma PreSplitLosesText(fuel: nat)
    requires fuel >= 2
    ensures SplitIn2048(Ideographs, Wide, 1000.0, fuel, true) == Some([[0x4E00], [0x4E01], [0x4E03, 0x4E04]])
    ensures SplitIn2048(Ideographs, Wide, 1000.0, fuel, false) == Some([[0x4E00], [0x4E01], [0x4E02, 0x4E03, 0x4E04]])
  {
    ExitDropsGuessedPart(fuel);
    OneLongLine(fuel, true);
    OneLongLine(fuel, false);
  }

  /** A single line over 2048 pixels goes to `SplitOver2048` whole. */
  lemma OneLongLine(fuel: nat, asWritten: bool)
    ensures SplitOver2048(Ideographs, Wide, 1000.0, fuel, asWritten).Some? ==>
      SplitIn2048(Ideographs, Wide, 1000.0, fuel, asWritten) == Some(SplitOver2048(Ideographs, Wide, 1000.0, fuel, asWritten).value.parts)
  {
    assert IndexOf(Ideographs, LF, 0) == -1;
    assert Split(Ideographs, LF) == [Ideographs];
    assert [Ideographs][1..] == [];
    assert SplitLines([], Wide, 1000.0, fuel, asWritten) == Some([]);
    var o := SplitOver2048(Ideographs, Wide, 1000.0, fuel, asWritten);
    if o.Some? {
      assert o.value.parts + [] == o.value.parts;
    }
  }
}

=== FILE: rich_style.dfy ===
/** Style helpers of the rich-text component: the colour literal reader, the decision
    whether a new run list needs a fresh layout, and the label style a run's frame
    resolves to. The current port (assets/) and the older port (packages/) differ in a
    few places, selected by `RichPort`. */
module RichStyle {
  import opened Wrappers
  import opened Js
  import opened HtmlParser

  /** The current rich-text port and the older one. */
  datatype RichPort = AssetsPort | PackagesPort

  // ---------------------------------------------------------------------------------
  // Colour literals
  // ---------------------------------------------------------------------------------

  /** The four numbers a colour literal is read into, in the order the engine's colour
      constructor takes them. */
  datatype Rgba = Rgba(r: int, g: int, b: int, a: int)

  const WhiteRgba := Rgba(255, 255, 255, 255)

  const HASH := 35

  /** The literal without its leading `#`, if it has one. */
  function HexDigits(color: Str): (h: Str)
    ensures |color| > 0 && color[0] == HASH ==> h == color[1..]
    ensures !(|color| > 0 && color[0] == HASH) ==> h == color
  {
    if IndexOf(color, HASH, 0) == 0 then SubstringFrom(color, 1) else color
  }

  /** The pair of units at `i` read by `parseInt(…, 16)`. */
  function Channel(h: Str, i: nat): (n: JsNum)
    ensures n.Finite? || n.NaN?
  {
    ParseInt(Substring(h, i, i + 2), 16)
  }

  /** A colour channel: the pair at `i` read by `parseInt(…, 16) || 0`, so an unreadable
      or missing pair gives 0. */
  function ChannelOrZero(h: Str, i: nat): (v: int)
    ensures Channel(h, i).NaN? ==> v == 0
    ensures i >= |h| ==> v == 0
    ensures -15 <= v <= 255
  {
    PairRange(h, i);
    ParseIntOrZero(Substring(h, i, i + 2), 16)
  }

  /** The alpha channel: the fourth pair, or 255 when it is unreadable or missing. */
  function AlphaOrOpaque(h: Str): (v: int)
    ensures Channel(h, 6).NaN? <==> v == 255 && Channel(h, 6) != Finite(255.0)
    ensures |h| <= 6 ==> v == 255
    ensures -15 <= v <= 255
  {
    PairRange(h, 6);
    var a := ParseIntValue(Substring(h, 6, 8), 16);
    if a.None? then 255 else a.value
  }

  /** The hex path of `_convertLiteralColorValue`: an optional `#` is stripped, red,
      green and blue are the first three pairs with an unreadable pair giving 0, and
      alpha is the fourth pair, 255 when it is unreadable or missing. A pair is read as
      `parseInt` reads it, so a leading sign counts: every channel lies in -15 … 255. */
  function HexColor(color: Str): (c: Rgba)
    ensures Channel(HexDigits(color), 0).NaN? ==> c.r == 0
    ensures Channel(HexDigits(color), 2).NaN? ==> c.g == 0
    ensures Channel(HexDigits(color), 4).NaN? ==> c.b == 0
    ensures Channel(HexDigits(color), 6).NaN? <==> c.a == 255 && Channel(HexDigits(color), 6) != Finite(255.0)
    ensures InChannelRange(c)
    ensures |HexDigits(color)| <= 6 ==> c.a == 255
    ensures |HexDigits(color)| <= 4 ==> c.b == 0
  {
    var h := HexDigits(color);
    Rgba(ChannelOrZero(h, 0), ChannelOrZero(h, 2), ChannelOrZero(h, 4), AlphaOrOpaque(h))
  }

  predicate InChannelRange(c: Rgba) {
    -15 <= c.r <= 255 && -15 <= c.g <= 255 && -15 <= c.b <= 255 && -15 <= c.a <= 255
  }

  /** `parseInt` of at most two units in base 16 lies in -15 … 255, and an empty pair
      reads as NaN. */
  lemma PairRange(h: Str, i: nat)
    ensures var v := ParseIntValue(Substring(h, i, i + 2), 16);
      v.Some? ==> -15 <= v.value <= 255
    ensures i >= |h| ==> ParseIntValue(Substring(h, i, i + 2), 16).None?
  {
    var s := Substring(h, i, i + 2);
    assert |s| <= 2;
    var t := s[LeadingSpaces(s)..];
    var u := if |t| > 0 && (t[0] == 45 || t[0] == 43) then t[1..] else t;
    var body := if StartsWithHexPrefix(u) then u[2..] else u;
    var n := DigitRun(body, 16);
    if n > 0 {
      TwoDigitsAtMost255(body[..n]);
      if |t| > 0 && (t[0] == 45 || t[0] == 43) {
        OneDigitAtMost15(body[..n]);
      }
    }
  }

  lemma TwoDigitsAtMost255(d: Str)
    requires |d| <= 2 && AllDigits(d, 16)
    ensures DigitsValue(d, 16) <= 255
  {
    if |d| == 2 {
      assert d[..1][..0] == [];
    } else if |d| == 1 {
      assert d[..0] == [];
    }
  }

  lemma OneDigitAtMost15(d: Str)
    requires |d| <= 1 && AllDigits(d, 16)
    ensures DigitsValue(d, 16) <= 15
  {
    if |d| == 1 {
      assert d[..0] == [];
    }
  }

  /** `_convertLiteralColorValue`: a name the engine's colour table knows (looked up in
      upper case; the table is a parameter here) wins, otherwise the hex path. */
  function LiteralColor(named: Str -> Option<Rgba>, color: Str): (c: Rgba)
    ensures named(color).Some? ==> c == named(color).value
    ensures named(color).None? ==> c == HexColor(color)
  {
    match named(color)
    case Some(c) => c
    case None => HexColor(color)
  }

  // A formatter for the round trip: lower-case hex digits, two per channel.

  function HexDigit(d: nat): (u: int)
    requires d < 16
    ensures DigitValue(u, 16) == d
    ensures !IsJsSpace(u) && u != 45 && u != 43 && u != 120 && u != 88 && u != HASH
  {
    if d < 10 then 48 + d else 87 + d
  }

  function HexPair(v: nat): (p: Str)
    requires v < 256
    ensures |p| == 2
  {
    [HexDigit(v / 16), HexDigit(v % 16)]
  }

  predicate IsByte(v: int) { 0 <= v < 256 }

  predicate ByteColor(c: Rgba) {
    IsByte(c.r) && IsByte(c.g) && IsByte(c.b) && IsByte(c.a)
  }

  /** `#rrggbbaa` with lower-case digits. */
  function FormatRgba(c: Rgba): (s: Str)
    requires ByteColor(c)
    ensures |s| == 9 && s[0] == HASH
  {
    [HASH] + HexPair(c.r) + HexPair(c.g) + HexPair(c.b) + HexPair(c.a)
  }

  /** `#rrggbb` with lower-case digits, alpha left out. */
  function FormatRgb(c: Rgba): (s: Str)
    requires ByteColor(c)
    ensures |s| == 7 && s[0] == HASH
  {
    [HASH] + HexPair(c.r) + HexPair(c.g) + HexPair(c.b)
  }

  /** Two hex digits read back as the byte they were written from. */
  lemma ReadPair(v: nat)
    requires v < 256
    ensures ParseIntValue(HexPair(v), 16) == Some(v)
  {
    var p := HexPair(v);
    assert LeadingSpaces(p) == 0;
    assert !StartsWithHexPrefix(p);
    assert DigitRun(p[1..][1..], 16) == 0;
    assert DigitRun(p[1..], 16) == 1;
    assert DigitRun(p, 16) == 2;
    assert p[..2] == p;
    assert p[..1][..0] == [];
    assert DigitsValue(p[..1], 16) == v / 16;
    assert DigitsValue(p, 16) == (v / 16) * 16 + v % 16;
  }

  /** Four two-unit pieces laid end to end are found again at offsets 0, 2, 4 and 6. */
  lemma Quarters(p: Str, q: Str, u: Str, v: Str)
    requires |p| == 2 && |q| == 2 && |u| == 2 && |v| == 2
    ensures var h := p + q + u + v;
      h[0..2] == p && h[2..4] == q && h[4..6] == u && h[6..8] == v
  {
    var h := p + q + u + v;
    assert h[0..2] == [h[0], h[1]] == p;
    assert h[2..4] == [h[2], h[3]] == q;
    assert h[4..6] == [h[4], h[5]] == u;
    assert h[6..8] == [h[6], h[7]] == v;
  }

  /** The digits of a formatted colour are everything after its `#`. */
  lemma FormattedDigits(s: Str)
    requires |s| > 0 && s[0] == HASH
    ensures HexDigits(s) == s[1..]
  {
    assert IndexOf(s, HASH, 0) == 0;
  }

  /** A pair written from a byte is read back as that byte. */
  lemma ReadChannel(h: Str, i: nat, v: nat)
    requires v < 256 && i + 2 <= |h| && h[i..i + 2] == HexPair(v)
    ensures ChannelOrZero(h, i) == v
    ensures i == 6 ==> AlphaOrOpaque(h) == v
  {
    ReadPair(v);
  }

  /** Reading back a formatted colour gives the colour: every byte colour round-trips
      through `#rrggbbaa`. */
  lemma HexColorRoundTrip(c: Rgba)
    requires ByteColor(c)
    ensures HexColor(FormatRgba(c)) == c
  {
    var s := FormatRgba(c);
    var h := s[1..];
    FormattedDigits(s);
    assert h == HexPair(c.r) + HexPair(c.g) + HexPair(c.b) + HexPair(c.a);
    Quarters(HexPair(c.r), HexPair(c.g), HexPair(c.b), HexPair(c.a));
    ReadChannel(h, 0, c.r);
    ReadChannel(h, 2, c.g);
    ReadChannel(h, 4, c.b);
    ReadChannel(h, 6, c.a);
  }

  /** Six digits give an opaque colour. */
  lemma HexColorOpaque(c: Rgba)
    requires ByteColor(c)
    ensures HexColor(FormatRgb(c)) == c.(a := 255)
  {
    var s := FormatRgb(c);
    var h := s[1..];
    FormattedDigits(s);
    assert h == HexPair(c.r) + HexPair(c.g) + HexPair(c.b) + [];
    Quarters(HexPair(c.r), HexPair(c.g), HexPair(c.b), HexPair(0));
    ReadChannel(h, 0, c.r);
    ReadChannel(h, 2, c.g);
    ReadChannel(h, 4, c.b);
  }

  /** The `#` is optional: a literal reads the same with and without it. */
  lemma HashIsOptional(h: Str)
    requires |h| == 0 || h[0] != HASH
    ensures HexColor([HASH] + h) == HexColor(h)
  {
    assert HexDigits([HASH] + h) == h;
    assert HexDigits(h) == h;
  }

  // ---------------------------------------------------------------------------------
  // Does a next run list need a fresh layout?
  // ---------------------------------------------------------------------------------

  /** `frame[k]`: nothing when the field is absent (`undefined`). */
  function Get(f: Frame, k: Field): (v: Option<Value>)
    ensures v.Some? <==> k in f
    ensures k in f ==> v.value == f[k]
  {
    if k in f then Some(f[k]) else None
  }

  /** JavaScript `===` between a field of the previous parse and the same field of the
      next one: strings, flags and numbers compare by value except that NaN equals
      nothing, `undefined` equals itself, and two objects never compare equal because
      each parse builds its own. */
  predicate StrictEquals(a: Option<Value>, b: Option<Value>) {
    match (a, b)
    case (None, None) => true
    case (Some(Text(x)), Some(Text(y))) => x == y
    case (Some(Flag(x)), Some(Flag(y))) => x == y
    case (Some(Num(x)), Some(Num(y))) => !x.NaN? && x == y
    case _ => false
  }

  /** Strict equality implies equality of the values. */
  lemma StrictEqualsIsEquality(a: Option<Value>, b: Option<Value>)
    requires StrictEquals(a, b)
    ensures a == b
  {
  }

  /** Both runs have a style: outline by presence, italic by `===` in the current port
      and by truthiness in the older one, the rest by `===`. */
  predicate StylesDiffer(port: RichPort, a: Frame, b: Frame) {
    Has(a, Outline) != Has(b, Outline)
    || !StrictEquals(Get(a, Size), Get(b, Size))
    || (if port.AssetsPort? then !StrictEquals(Get(a, Italic), Get(b, Italic))
        else Has(a, Italic) != Has(b, Italic))
    || !StrictEquals(Get(a, IsImage), Get(b, IsImage))
    || !StrictEquals(Get(a, Src), Get(b, Src))
    || !StrictEquals(Get(a, ImageAlign), Get(b, ImageAlign))
    || !StrictEquals(Get(a, ImageHeight), Get(b, ImageHeight))
    || !StrictEquals(Get(a, ImageWidth), Get(b, ImageWidth))
    || !StrictEquals(Get(a, ImageOffset), Get(b, ImageOffset))
  }

  /** Only one of the runs has a style: it matters when it sets a size, italic, an
      image or an outline. */
  predicate LoneStyleMatters(f: Frame) {
    Has(f, Size) || Has(f, Italic) || Has(f, IsImage) || Has(f, Outline)
  }

  /** One pair of runs forces a next layout. */
  predicate RunNeedsLayout(port: RichPort, prev: Run, next: Run) {
    prev.text != next.text
    || (prev.style.Some? && next.style.Some? && StylesDiffer(port, prev.style.value, next.style.value))
    || (prev.style.Some? && next.style.None? && LoneStyleMatters(prev.style.value))
    || (prev.style.None? && next.style.Some? && LoneStyleMatters(next.style.value))
  }

  /** The loop of `_needsUpdateTextLayout` from run `i` on: the first run that forces a
      next layout, if any. */
  function FirstChange(port: RichPort, prev: seq<Run>, next: seq<Run>, i: nat): (r: Option<nat>)
    requires |prev| == |next| && i <= |prev|
    decreases |prev| - i
    ensures r.Some? ==> i <= r.value < |prev| && RunNeedsLayout(port, prev[r.value], next[r.value])
    ensures r.Some? ==> forall j :: i <= j < r.value ==> !RunNeedsLayout(port, prev[j], next[j])
    ensures r.None? ==> forall j :: i <= j < |prev| ==> !RunNeedsLayout(port, prev[j], next[j])
  {
    if i == |prev| then None
    else if RunNeedsLayout(port, prev[i], next[i]) then Some(i)
    else FirstChange(port, prev, next, i + 1)
  }

  /** `_needsUpdateTextLayout(next)` with the dirty flag and the previous run list (none
      before the first layout): a next layout is needed exactly when the flag is set,
      there is no previous list, the run counts differ, or some pair of runs forces it. */
  function NeedsUpdate(port: RichPort, dirty: bool, prev: Option<seq<Run>>, next: seq<Run>): (r: bool)
    ensures r <==> dirty || prev.None? || |prev.value| != |next|
                   || exists j :: 0 <= j < |next| && RunNeedsLayout(port, prev.value[j], next[j])
  {
    if dirty || prev.None? || |prev.value| != |next| then true
    else FirstChange(port, prev.value, next, 0).Some?
  }

  /** The fields whose change moves or resizes a run. */
  predicate IsLayoutField(k: Field) {
    k == Size || k == Italic || k == IsImage || k == Src || k == ImageAlign
    || k == ImageHeight || k == ImageWidth || k == ImageOffset
  }

  /** A field value `===` can compare with itself: absent, a string, a flag or a
      number other than NaN. */
  predicate SelfEqual(v: Option<Value>) {
    v.None? || v.value.Text? || v.value.Flag? || (v.value.Num? && !v.value.n.NaN?)
  }

  /** Two frames that agree on every layout field and on whether an outline is present,
      with nothing NaN among those fields; colour, gradient, face, underlay, glow,
      underline, strikethrough, bold and events may differ freely. */
  predicate SameLayout(a: Frame, b: Frame) {
    (forall k :: IsLayoutField(k) ==> Get(a, k) == Get(b, k) && SelfEqual(Get(a, k)))
    && Has(a, Outline) == Has(b, Outline)
  }

  /** Two runs with the same text whose styles are both absent or agree on the layout. */
  predicate SameLayoutRun(a: Run, b: Run) {
    a.text == b.text
    && a.style.Some? == b.style.Some?
    && (a.style.Some? ==> SameLayout(a.style.value, b.style.value))
  }

  lemma SameLayoutKeepsRun(port: RichPort, a: Run, b: Run)
    requires SameLayoutRun(a, b)
    ensures !RunNeedsLayout(port, a, b)
  {
    if a.style.Some? {
      var f, g := a.style.value, b.style.value;
      assert IsLayoutField(Size) && IsLayoutField(Italic) && IsLayoutField(IsImage) && IsLayoutField(Src);
      assert IsLayoutField(ImageAlign) && IsLayoutField(ImageHeight) && IsLayoutField(ImageWidth);
      assert IsLayoutField(ImageOffset);
      assert Get(f, Italic) == Get(g, Italic);
      assert Has(f, Italic) == Has(g, Italic);
    }
  }

  /** Changes that leave every run's text and layout fields alone (a colour, a
      gradient, a face, an underlay, a glow, an underline, an event) keep the layout:
      without the dirty flag no next layout is made. */
  lemma DecorationChangesKeepLayout(port: RichPort, prev: seq<Run>, next: seq<Run>)
    requires |prev| == |next|
    requires forall j :: 0 <= j < |prev| ==> SameLayoutRun(prev[j], next[j])
    ensures !NeedsUpdate(port, false, Some(prev), next)
  {
    forall j | 0 <= j < |next|
      ensures !RunNeedsLayout(port, prev[j], next[j])
    {
      SameLayoutKeepsRun(port, prev[j], next[j]);
    }
  }

  /** Setting the same markup again, when no layout field holds NaN, keeps the layout. */
  lemma SameRunsKeepLayout(port: RichPort, runs: seq<Run>)
    requires forall j, k :: 0 <= j < |runs| && runs[j].style.Some? && IsLayoutField(k)
               ==> SelfEqual(Get(runs[j].style.value, k))
    ensures !NeedsUpdate(port, false, Some(runs), runs)
  {
    DecorationChangesKeepLayout(port, runs, runs);
  }

  /** Recolouring one run keeps the layout. */
  lemma RecolourKeepsLayout(port: RichPort, runs: seq<Run>, i: nat, c: Str)
    requires i < |runs| && runs[i].style.Some?
    requires forall j, k :: 0 <= j < |runs| && runs[j].style.Some? && IsLayoutField(k)
               ==> SelfEqual(Get(runs[j].style.value, k))
    ensures var f := runs[i].style.value;
      !NeedsUpdate(port, false, Some(runs), runs[i := Run(runs[i].text, Some(f[Color := Text(c)]))])
  {
    var f := runs[i].style.value;
    var next := runs[i := Run(runs[i].text, Some(f[Color := Text(c)]))];
    assert Has(f, Outline) == Has(f[Color := Text(c)], Outline);
    DecorationChangesKeepLayout(port, runs, next);
  }

  /** A changed text always forces a next layout. */
  lemma TextChangeNeedsLayout(port: RichPort, prev: seq<Run>, next: seq<Run>, j: nat)
    requires |prev| == |next| && j < |next| && prev[j].text != next[j].text
    ensures NeedsUpdate(port, false, Some(prev), next)
  {
  }

  /** So does a different value of a layout field between two styled runs (italic only
      when its truthiness changes, in the older port) or a gained or lost outline. */
  lemma LayoutFieldChangeNeedsLayout(port: RichPort, prev: seq<Run>, next: seq<Run>, j: nat, k: Field)
    requires |prev| == |next| && j < |next| && prev[j].style.Some? && next[j].style.Some?
    requires IsLayoutField(k) && Get(prev[j].style.value, k) != Get(next[j].style.value, k)
    requires port.PackagesPort? && k == Italic ==> Has(prev[j].style.value, k) != Has(next[j].style.value, k)
    ensures NeedsUpdate(port, false, Some(prev), next)
  {
    var a, b := prev[j].style.value, next[j].style.value;
    if StrictEquals(Get(a, k), Get(b, k)) {
      StrictEqualsIsEquality(Get(a, k), Get(b, k));
    }
    assert StylesDiffer(port, a, b);
    assert RunNeedsLayout(port, prev[j], next[j]);
  }

  /** The older port relayouts in fewer cases: whatever forces it there forces it in
      the current port too. */
  lemma PackagesRelayoutImpliesAssets(dirty: bool, prev: Option<seq<Run>>, next: seq<Run>)
    requires NeedsUpdate(PackagesPort, dirty, prev, next)
    ensures NeedsUpdate(AssetsPort, dirty, prev, next)
  {
    if !dirty && prev.Some? && |prev.value| == |next| {
      var j :| 0 <= j < |next| && RunNeedsLayout(PackagesPort, prev.value[j], next[j]);
      assert RunNeedsLayout(AssetsPort, prev.value[j], next[j]);
    }
  }

  /** An absent italic and an explicit `false` differ under `===` but not by
      truthiness: the current port relayouts, the older one does not. */
  lemma ItalicUndefinedVersusFalse(x: Str)
    ensures NeedsUpdate(AssetsPort, false, Some([Run(x, Some(map[]))]), [Run(x, Some(map[Italic := Flag(false)]))])
    ensures !NeedsUpdate(PackagesPort, false, Some([Run(x, Some(map[]))]), [Run(x, Some(map[Italic := Flag(false)]))])
  {
    var a: Frame := map[];
    var b: Frame := map[Italic := Flag(false)];
    assert Get(a, Italic) == None;
    assert Get(b, Italic) == Some(Flag(false));
    assert !StrictEquals(Get(a, Italic), Get(b, Italic));
    assert RunNeedsLayout(AssetsPort, Run(x, Some(a)), Run(x, Some(b)));
    forall k | true
      ensures Get(a, k) == None
      ensures k != Italic ==> Get(b, k) == None
    {
    }
    assert !Has(b, Italic);
    assert !StylesDiffer(PackagesPort, a, b);
  }

  /** A size that `parseInt` could not read is NaN, which never equals itself: such a
      run forces a next layout every time, even against its own parse. */
  lemma NaNSizeAlwaysRelayouts(x: Str)
    ensures NeedsUpdate(AssetsPort, false, Some([Run(x, Some(map[Size := Num(NaN)]))]),
                        [Run(x, Some(map[Size := Num(NaN)]))])
  {
    var f: Frame := map[Size := Num(NaN)];
    assert !StrictEquals(Get(f, Size), Get(f, Size));
    assert RunNeedsLayout(AssetsPort, Run(x, Some(f)), Run(x, Some(f)));
  }

  // ---------------------------------------------------------------------------------
  // The style a label takes from its run
  // ---------------------------------------------------------------------------------

  datatype Gradient4 = Gradient4(lb: Rgba, rb: Rgba, lt: Rgba, rt: Rgba)
  datatype FaceLook = FaceLook(color: Rgba, dilate: JsNum, softness: JsNum)
  datatype OutlineLook = OutlineLook(color: Rgba, thickness: JsNum)
  datatype UnderlayLook = UnderlayLook(color: Rgba, x: JsNum, y: JsNum, dilate: JsNum, softness: JsNum)
  datatype GlowLook = GlowLook(color: Rgba, offset: JsNum, inner: JsNum, outer: JsNum, power: JsNum)

  /** What `_applyTextAttribute` sets on a label: colours, the face, italic, the
      underline and strikethrough offsets (none when off), the optional outline,
      underlay and glow, and the font size. */
  datatype LabelStyle = LabelStyle(
    color: Rgba, gradient: Option<Gradient4>, face: FaceLook, italic: bool,
    underline: Option<JsNum>, strikethrough: Option<JsNum>,
    outline: Option<OutlineLook>, underlay: Option<UnderlayLook>, glow: Option<GlowLook>,
    fontSize: JsNum)

  const DefaultFaceLook := FaceLook(WhiteRgba, Finite(0.5), Finite(0.01))

  /** `textStyle.offset || 0`. */
  function OffsetOr0(f: Frame): (n: JsNum)
    ensures n.Truthy() ==> Get(f, Offset) == Some(Num(n))
  {
    if Has(f, Offset) && f[Offset].Num? then f[Offset].n else Finite(0.0)
  }

  /** The text colour: the run's colour literal when it has a non-empty one, otherwise
      white in the current port and the node's own colour in the older one. */
  function TextColor(port: RichPort, named: Str -> Option<Rgba>, nodeColor: Rgba, f: Option<Frame>): (c: Rgba)
    ensures f.Some? && Has(f.value, Color) && f.value[Color].Text? ==> c == LiteralColor(named, f.value[Color].s)
    ensures f.None? || !Has(f.value, Color) ==> c == (if port.AssetsPort? then WhiteRgba else nodeColor)
  {
    if f.Some? && Has(f.value, Color) && f.value[Color].Text? then LiteralColor(named, f.value[Color].s)
    else if port.AssetsPort? then WhiteRgba
    else nodeColor
  }

  /** The four gradient corners, when the frame has a gradient. */
  function GradientOf(named: Str -> Option<Rgba>, t: Frame): (g: Option<Gradient4>)
    ensures g.Some? <==> Has(t, ColorGradient) && t[ColorGradient].GradientStyle?
    ensures g.Some? ==> (g.value.lb == LiteralColor(named, t[ColorGradient].lb)
      && g.value.rb == LiteralColor(named, t[ColorGradient].rb)
      && g.value.lt == LiteralColor(named, t[ColorGradient].lt)
      && g.value.rt == LiteralColor(named, t[ColorGradient].rt))
  {
    if Has(t, ColorGradient) && t[ColorGradient].GradientStyle? then
      var g := t[ColorGradient];
      Some(Gradient4(LiteralColor(named, g.lb), LiteralColor(named, g.rb),
                     LiteralColor(named, g.lt), LiteralColor(named, g.rt)))
    else None
  }

  /** The face: the frame's face object, or white with dilate 0.5 and softness 0.01. */
  function FaceOf(named: Str -> Option<Rgba>, t: Frame): (face: FaceLook)
    ensures !Has(t, Face) ==> face == DefaultFaceLook
    ensures Has(t, Face) && t[Face].FaceStyle? ==>
      face == FaceLook(LiteralColor(named, t[Face].color), t[Face].dilate, t[Face].softness)
  {
    if Has(t, Face) && t[Face].FaceStyle? then
      FaceLook(LiteralColor(named, t[Face].color), t[Face].dilate, t[Face].softness)
    else DefaultFaceLook
  }

  function OutlineOf(named: Str -> Option<Rgba>, t: Frame): (o: Option<OutlineLook>)
    ensures o.Some? <==> Has(t, Outline) && t[Outline].OutlineStyle?
    ensures o.Some? ==> (o.value.color == LiteralColor(named, t[Outline].color)
      && o.value.thickness == t[Outline].thickness)
  {
    if Has(t, Outline) && t[Outline].OutlineStyle? then
      Some(OutlineLook(LiteralColor(named, t[Outline].color), t[Outline].thickness))
    else None
  }

  function UnderlayOf(named: Str -> Option<Rgba>, t: Frame): (u: Option<UnderlayLook>)
    ensures u.Some? <==> Has(t, Underlay) && t[Underlay].UnderlayStyle?
    ensures u.Some? ==> (u.value.color == LiteralColor(named, t[Underlay].color)
      && u.value.x == t[Underlay].x && u.value.y == t[Underlay].y
      && u.value.dilate == t[Underlay].dilate && u.value.softness == t[Underlay].softness)
  {
    if Has(t, Underlay) && t[Underlay].UnderlayStyle? then
      var u := t[Underlay];
      Some(UnderlayLook(LiteralColor(named, u.color), u.x, u.y, u.dilate, u.softness))
    else None
  }

  function GlowOf(named: Str -> Option<Rgba>, t: Frame): (g: Option<GlowLook>)
    ensures g.Some? <==> Has(t, Glow) && t[Glow].GlowStyle?
    ensures g.Some? ==> (g.value.color == LiteralColor(named, t[Glow].color)
      && g.value.offset == t[Glow].offset && g.value.inner == t[Glow].inner
      && g.value.outer == t[Glow].outer && g.value.power == t[Glow].power)
  {
    if Has(t, Glow) && t[Glow].GlowStyle? then
      var g := t[Glow];
      Some(GlowLook(LiteralColor(named, g.color), g.offset, g.inner, g.outer, g.power))
    else None
  }

  /** The run's size when it has a truthy one, else the component's font size. */
  function SizeOf(t: Frame, fontSize: real): (n: JsNum)
    ensures Has(t, Size) && t[Size].Num? ==> n == t[Size].n
    ensures !Has(t, Size) ==> n == Finite(fontSize)
  {
    if Has(t, Size) && t[Size].Num? then t[Size].n else Finite(fontSize)
  }

  /** `_applyTextAttribute` for a label whose run has the frame `f` (none for a run
      outside every tag). Every style the parser stores as an object is read from
      that object; a field holding some other kind of value, which the parser never
      stores, counts as absent. */
  function ApplyTextAttribute(port: RichPort, named: Str -> Option<Rgba>, nodeColor: Rgba,
                              fontSize: real, f: Option<Frame>): (st: LabelStyle)
    ensures st.color == TextColor(port, named, nodeColor, f)
    ensures st.italic <==> f.Some? && Has(f.value, Italic)
    ensures st.underline.Some? <==> f.Some? && Has(f.value, Underline)
    ensures st.strikethrough.Some? <==> f.Some? && Has(f.value, Strikethrough)
    ensures st.underline.Some? ==> st.underline.value == OffsetOr0(f.value)
    ensures st.strikethrough.Some? ==> st.strikethrough.value == OffsetOr0(f.value)
    ensures st.outline.Some? ==> f.Some? && Has(f.value, Outline)
    ensures st.gradient.Some? ==> f.Some? && Has(f.value, ColorGradient)
    ensures st.underlay.Some? ==> f.Some? && Has(f.value, Underlay)
    ensures st.glow.Some? ==> f.Some? && Has(f.value, Glow)
    ensures f.Some? ==> (st.gradient == GradientOf(named, f.value) && st.outline == OutlineOf(named, f.value)
      && st.underlay == UnderlayOf(named, f.value) && st.glow == GlowOf(named, f.value))
    ensures f.Some? && Has(f.value, Size) && f.value[Size].Num? ==> st.fontSize == f.value[Size].n
    ensures f.None? || !Has(f.value, Size) ==> st.fontSize == Finite(fontSize)
    ensures f.None? || !Has(f.value, Face) ==> st.face == DefaultFaceLook
    ensures f.Some? && Has(f.value, Face) && f.value[Face].FaceStyle? ==>
      st.face == FaceLook(LiteralColor(named, f.value[Face].color), f.value[Face].dilate, f.value[Face].softness)
  {
    var color := TextColor(port, named, nodeColor, f);
    match f
    case None =>
      LabelStyle(color, None, DefaultFaceLook, false, None, None, None, None, None, Finite(fontSize))
    case Some(t) =>
      LabelStyle(color, GradientOf(named, t), FaceOf(named, t), Has(t, Italic),
                 if Has(t, Underline) then Some(OffsetOr0(t)) else None,
                 if Has(t, Strikethrough) then Some(OffsetOr0(t)) else None,
                 OutlineOf(named, t), UnderlayOf(named, t), GlowOf(named, t), SizeOf(t, fontSize))
  }

  /** A label outside every tag gets the plain look: white text (the node colour in the
      older port), the default face, no decoration and the component's font size. */
  lemma UnstyledLabel(port: RichPort, named: Str -> Option<Rgba>, nodeColor: Rgba, fontSize: real)
    ensures ApplyTextAttribute(port, named, nodeColor, fontSize, None)
      == LabelStyle(if port.AssetsPort? then WhiteRgba else nodeColor, None, DefaultFaceLook,
                    false, None, None, None, None, None, Finite(fontSize))
  {
  }

  /** The two ports resolve a style alike, except for the colour of a run without one. */
  lemma PortsDifferOnlyInFallbackColour(named: Str -> Option<Rgba>, nodeColor: Rgba, fontSize: real, f: Option<Frame>)
    ensures ApplyTextAttribute(AssetsPort, named, nodeColor, fontSize, f)
      == ApplyTextAttribute(PackagesPort, named, nodeColor, fontSize, f)
           .(color := TextColor(AssetsPort, named, nodeColor, f))
    ensures f.Some? && Has(f.value, Color) && f.value[Color].Text? ==>
      ApplyTextAttribute(AssetsPort, named, nodeColor, fontSize, f)
        == ApplyTextAttribute(PackagesPort, named, nodeColor, fontSize, f)
  {
  }

  /** A run nested in a coloured tag without a colour of its own is drawn in the outer
      colour: the parser's merge carries the colour down and the label reads it. */
  lemma NestedRunTakesOuterColour(port: RichPort, named: Str -> Option<Rgba>, nodeColor: Rgba,
                                  fontSize: real, child: Frame, parent: Frame)
    requires Has(parent, Color) && parent[Color].Text? && !Has(child, Color)
    ensures ApplyTextAttribute(port, named, nodeColor, fontSize, Some(Inherit(child, parent))).color
      == LiteralColor(named, parent[Color].s)
  {
    InheritKeepsParentStyle(child, parent, Color);
  }

  // ---------------------------------------------------------------------------------
  // Click metadata
  // ---------------------------------------------------------------------------------

  /** A segment's click handler name and parameter; `None` is `null` / `undefined`. */
  datatype Click = Click(handler: Option<Str>, param: Option<Str>)

  /** The event object of a frame, if it has one. */
  function EventOf(f: Option<Frame>): (h: Option<map<Keyword, Str>>)
    ensures h.Some? ==> f.Some? && Event in f.value
  {
    if f.Some? && Event in f.value && f.value[Event].Handlers? then Some(f.value[Event].h) else None
  }

  /** `h[k]`, or nothing when the entry is absent. */
  function Entry(h: map<Keyword, Str>, k: Keyword): Option<Str> {
    if k in h then Some(h[k]) else None
  }

  /** `s || ""` for an optional string. */
  function OrEmpty(v: Option<Str>): (r: Str)
    ensures v.Some? && |v.value| > 0 ==> r == v.value
    ensures v.None? || |v.value| == 0 ==> r == []
  {
    if v.Some? then v.value else []
  }

  /** The click data a label gets. The current port starts from empty strings and takes
      `click || ""` and `param || ""` from an event. The older port keeps the label's
      previous handler unless the event names one, sets the parameter to `param || ""`,
      and clears the handler (keeping the parameter) when there is no event. */
  function LabelClick(port: RichPort, previous: Click, f: Option<Frame>): (c: Click)
    ensures port.AssetsPort? ==> c.handler.Some? && c.param.Some?
    ensures port.AssetsPort? && EventOf(f).None? ==> c == Click(Some([]), Some([]))
    ensures port.PackagesPort? && EventOf(f).None? ==> c == Click(None, previous.param)
    ensures EventOf(f).Some? ==> c.param == Some(OrEmpty(Entry(EventOf(f).value, ParamAttr)))
    ensures port.PackagesPort? && EventOf(f).Some? && OrEmpty(Entry(EventOf(f).value, ClickAttr)) == [] ==>
      c.handler == previous.handler
  {
    match EventOf(f)
    case None => if port.AssetsPort? then Click(Some([]), Some([])) else Click(None, previous.param)
    case Some(h) =>
      var click := OrEmpty(Entry(h, ClickAttr));
      var param := OrEmpty(Entry(h, ParamAttr));
      if port.AssetsPort? then Click(Some(click), Some(param))
      else Click(if |click| > 0 then Some(click) else previous.handler, Some(param))
  }

  /** The click data an image gets. The current port starts from empty strings and
      copies the event's entries as they are, absent ones included. The older port,
      on a fresh node, sets the handler only for a non-empty `click`, and the parameter
      to `param || ""` only when there is an event. */
  function ImageClick(port: RichPort, f: Option<Frame>): (c: Click)
    ensures port.AssetsPort? && EventOf(f).None? ==> c == Click(Some([]), Some([]))
    ensures port.AssetsPort? && EventOf(f).Some? ==>
      c == Click(Entry(EventOf(f).value, ClickAttr), Entry(EventOf(f).value, ParamAttr))
    ensures port.PackagesPort? && EventOf(f).None? ==> c == Click(None, None)
    ensures port.PackagesPort? && EventOf(f).Some? ==>
      c.param.Some? && (c.handler.Some? ==> |c.handler.value| > 0)
  {
    match EventOf(f)
    case None => if port.AssetsPort? then Click(Some([]), Some([])) else Click(None, None)
    case Some(h) =>
      if port.AssetsPort? then Click(Entry(h, ClickAttr), Entry(h, ParamAttr))
      else
        var click := OrEmpty(Entry(h, ClickAttr));
        Click(if |click| > 0 then Some(click) else None, Some(OrEmpty(Entry(h, ParamAttr))))
  }

  /** A quoted `click` on an image gives the same handler in both ports, and an event
      without a `param` gives the current port no parameter at all where the older
      port gives an empty one. */
  lemma ImageClickPorts(f: Frame, h: map<Keyword, Str>)
    requires Event in f && f[Event] == Handlers(h)
    requires ClickAttr in h && |h[ClickAttr]| > 0 && ParamAttr !in h
    ensures ImageClick(AssetsPort, Some(f)) == Click(Some(h[ClickAttr]), None)
    ensures ImageClick(PackagesPort, Some(f)) == Click(Some(h[ClickAttr]), Some([]))
  {
  }
}

=== FILE: tmp_utils.dfy ===
/** Text utilities shared by the layout and rich-text passes: a substring that
    never splits a UTF-16 surrogate pair, the white-space and CJK predicates
    that decide where words end, the word regexes of the line breaker, and the
    greedy line filler `fragmentText` (modelled both as written and corrected). */
module TmpUtils {
  import opened Wrappers
  import opened Js

  // ---------------------------------------------------------------------
  // Surrogate-safe substring

  /** No lone surrogate: every high surrogate is followed by a low one and
      every low surrogate is preceded by a high one (Unicode Standard, section 3.8). */
  predicate WellFormed(s: Str) {
    (forall k :: 0 <= k < |s| && IsHighSurrogate(s[k]) ==> k + 1 < |s| && IsLowSurrogate(s[k + 1]))
    && (forall k :: 0 <= k < |s| && IsLowSurrogate(s[k]) ==> k > 0 && IsHighSurrogate(s[k - 1]))
  }

  /** `s[i]` compared against a surrogate range: an index outside the string is
      `undefined`, and every comparison with `undefined` is false. */
  predicate LowAt(s: Str, i: int) { 0 <= i < |s| && IsLowSurrogate(s[i]) }
  predicate HighAt(s: Str, i: int) { 0 <= i < |s| && IsHighSurrogate(s[i]) }

  /** The start index of `_safeSubstring`: one unit back when it is on a low surrogate. */
  function StartBack(s: Str, start: int): (ns: int)
    ensures LowAt(s, start) ==> ns == start - 1 && HighAt(s, ns) == (start > 0 && IsHighSurrogate(s[start - 1]))
    ensures !LowAt(s, start) ==> ns == start
  {
    if LowAt(s, start) then start - 1 else start
  }

  /** `_safeSubstring(s, start, end?)`: a start on a low surrogate moves back one
      unit; an end just after a high surrogate moves back one unit, except that a
      one-unit range on a high surrogate is widened to the whole pair. */
  function SafeSubstring(s: Str, start: int, end: Option<int>): (r: Str)
    ensures |r| <= |s|
    ensures end.None? ==> r == s[|s| - |r|..]
    ensures end.Some? && start <= 0 ==> r == s[..|r|]
    // the start moves back off a low surrogate
    ensures end.None? ==> r == SubstringFrom(s, StartBack(s, start))
    // the end moves back off a high surrogate just before it
    ensures end.Some? && end.value - 1 != start && HighAt(s, end.value - 1)
      ==> r == Substring(s, StartBack(s, start), end.value - 1)
    ensures end.Some? && end.value - 1 != start && !HighAt(s, end.value - 1)
      ==> r == Substring(s, StartBack(s, start), end.value)
    // a one-unit range on a high surrogate takes the whole pair
    ensures end.Some? && end.value - 1 == start && HighAt(s, start) ==> r == Substring(s, start, start + 2)
    ensures end.Some? && end.value - 1 == start && !HighAt(s, start)
      ==> r == Substring(s, StartBack(s, start), start + 1)
  {
    var ns := StartBack(s, start);
    match end
    case None => SubstringFrom(s, ns)
    case Some(e) =>
      var ne := if e - 1 != start then (if HighAt(s, e - 1) then e - 1 else e)
                else if HighAt(s, start) then e + 1 else e;
      Substring(s, ns, ne)
  }

  function SafeFrom(s: Str, start: int): (r: Str)
    ensures r == SafeSubstring(s, start, None)
  {
    SafeSubstring(s, start, None)
  }

  function SafeRange(s: Str, start: int, end: int): (r: Str)
    ensures r == SafeSubstring(s, start, Some(end))
  {
    SafeSubstring(s, start, Some(end))
  }

  /** A slice of a well-formed string that neither starts on a low surrogate nor
      ends on a high surrogate is itself well-formed. */
  lemma SliceKeepsPairs(s: Str, a: int, b: int)
    requires WellFormed(s)
    requires 0 <= a <= b <= |s|
    requires a < b ==> !IsLowSurrogate(s[a]) && !IsHighSurrogate(s[b - 1])
    ensures WellFormed(s[a..b])
  {
  }

  /** The surrogate-safe substring of a well-formed string, for an in-order range
      inside the string (the only way the engine calls it), never splits a pair. */
  lemma SafeSubstringKeepsPairs(s: Str, start: int, end: Option<int>)
    requires WellFormed(s)
    requires 0 <= start <= |s|
    requires end.Some? ==> start <= end.value <= |s|
    ensures WellFormed(SafeSubstring(s, start, end))
  {
    var ns := StartBack(s, start);
    assert 0 <= ns <= start;
    assert ns < |s| ==> !IsLowSurrogate(s[ns]);
    match end
    case None =>
      SliceKeepsPairs(s, ns, |s|);
    case Some(e) =>
      var ne := if e - 1 != start then (if HighAt(s, e - 1) then e - 1 else e)
                else if HighAt(s, start) then e + 1 else e;
      if e - 1 != start {
        if e == start {
          assert ne == ns;
          assert SafeSubstring(s, start, end) == s[ns..ne];
          SliceKeepsPairs(s, ns, ne);
        } else {
          assert ns < ne <= |s|;
          assert !IsHighSurrogate(s[ne - 1]);
          assert SafeSubstring(s, start, end) == s[ns..ne];
          SliceKeepsPairs(s, ns, ne);
        }
      } else if HighAt(s, start) {
        assert ns == start && ne == start + 2 <= |s|;
        assert SafeSubstring(s, start, end) == s[ns..ne];
        SliceKeepsPairs(s, ns, ne);
      } else {
        assert SafeSubstring(s, start, end) == s[ns..ne];
        SliceKeepsPairs(s, ns, ne);
      }
  }

  /** The test string of the source: '😉' then '🚗', two surrogate pairs. */
  const WinkCar: Str := [0xD83D, 0xDE09, 0xD83D, 0xDE97]

  /** Each case documented next to `_safeSubstring`. */
  lemma SafeSubstringDocumentedCases()
    ensures SafeFrom(WinkCar, 1) == WinkCar
    ensures SafeRange(WinkCar, 0, 1) == WinkCar[..2]
    ensures SafeRange(WinkCar, 0, 2) == WinkCar[..2]
    ensures SafeRange(WinkCar, 0, 3) == WinkCar[..2]
    ensures SafeRange(WinkCar, 0, 4) == WinkCar
    ensures SafeRange(WinkCar, 1, 2) == SafeRange(WinkCar, 1, 3) == WinkCar[..2]
    ensures SafeRange(WinkCar, 2, 3) == SafeRange(WinkCar, 2, 4) == WinkCar[2..]
  {
    RangesFromZero();
    RangesInsideText();
  }

  lemma RangesFromZero()
    ensures SafeRange(WinkCar, 0, 1) == WinkCar[..2]
    ensures SafeRange(WinkCar, 0, 2) == WinkCar[..2]
    ensures SafeRange(WinkCar, 0, 3) == WinkCar[..2]
    ensures SafeRange(WinkCar, 0, 4) == WinkCar
  {
    assert !LowAt(WinkCar, 0) && StartBack(WinkCar, 0) == 0;
    assert HighAt(WinkCar, 0) && !HighAt(WinkCar, 1) && HighAt(WinkCar, 2) && !HighAt(WinkCar, 3);
    assert Substring(WinkCar, 0, 2) == WinkCar[..2];
    assert Substring(WinkCar, 0, 4) == WinkCar;
  }

  lemma RangesInsideText()
    ensures SafeRange(WinkCar, 1, 2) == SafeRange(WinkCar, 1, 3) == WinkCar[..2]
    ensures SafeRange(WinkCar, 2, 3) == SafeRange(WinkCar, 2, 4) == WinkCar[2..]
  {
    assert LowAt(WinkCar, 1) && StartBack(WinkCar, 1) == 0;
    assert !LowAt(WinkCar, 2) && StartBack(WinkCar, 2) == 2;
    assert !HighAt(WinkCar, 1) && HighAt(WinkCar, 2) && !HighAt(WinkCar, 3);
    assert Substring(WinkCar, 0, 2) == WinkCar[..2];
    assert Substring(WinkCar, 2, 4) == WinkCar[2..];
  }

  // ---------------------------------------------------------------------
  // Character classes

  /** The code set of `isUnicodeSpace`. */
  predicate IsSpaceCode(c: int) {
    (9 <= c <= 13) || c == 32 || c == 133 || c == 160 || c == 5760 || (8192 <= c <= 8202)
    || c == 8232 || c == 8233 || c == 8239 || c == 8287 || c == 12288
  }

  /** `isUnicodeSpace(ch)`: only the first code unit is looked at; for the empty
      string `charCodeAt(0)` is NaN and every comparison fails. */
  predicate IsUnicodeSpace(s: Str) {
    |s| > 0 && IsSpaceCode(s[0])
  }

  /** The space set is the one of `trim` and `\s` except for NEL (133), which it
      adds, and the byte-order mark (0xFEFF), which it leaves out. */
  lemma SpaceCodesAgainstJsSpaces(c: int)
    ensures IsSpaceCode(c) <==> (IsJsSpace(c) && c != 0xFEFF) || c == 133
  {
  }

  /** A string counts as a space exactly when its first unit does. */
  lemma SpaceLooksAtFirstUnitOnly(s: Str, t: Str)
    requires |s| > 0
    ensures IsUnicodeSpace(s + t) <==> IsUnicodeSpace([s[0]])
  {
    assert (s + t)[0] == s[0];
  }

  predicate InChineseRange(c: int) { (0x4E00 <= c <= 0x9FFF) || (0x3400 <= c <= 0x4DFF) }
  predicate InJapaneseRange(c: int) {
    (0x3000 <= c <= 0x303F) || (0x3040 <= c <= 0x309F) || (0x30A0 <= c <= 0x30FF)
    || (0xFF00 <= c <= 0xFFEF) || (0x4E00 <= c <= 0x9FAF) || (0x2605 <= c <= 0x2606)
    || (0x2190 <= c <= 0x2195) || c == 0x203B
  }
  predicate InKoreanMiddleRange(c: int) {
    (0x3130 <= c <= 0x318F) || (0xA960 <= c <= 0xA97F) || (0xAC00 <= c <= 0xD7AF)
  }

  /** `isUnicodeCJK(ch)`: the Chinese pattern is anchored at both ends, so every unit
      must be Chinese; the Japanese pattern matches anywhere (a fresh `/g` regex per
      call, so no state survives); the Korean pattern is three alternatives: a Jamo
      first unit, a unit in the middle ranges anywhere, or a Jamo-extension last unit. */
  predicate IsUnicodeCJK(s: Str) {
    (|s| > 0 && forall k :: 0 <= k < |s| ==> InChineseRange(s[k]))
    || (exists k :: 0 <= k < |s| && InJapaneseRange(s[k]))
    || (|s| > 0 && 0x1100 <= s[0] <= 0x11FF)
    || (exists k :: 0 <= k < |s| && InKoreanMiddleRange(s[k]))
    || (|s| > 0 && 0xD7B0 <= s[|s| - 1] <= 0xD7FF)
  }

  /** The union of the CJK ranges, written independently of the regexes. */
  predicate InCjkRanges(c: int) {
    (0x3400 <= c <= 0x4DFF) || (0x4E00 <= c <= 0x9FFF) || (0x3000 <= c <= 0x30FF)
    || (0xFF00 <= c <= 0xFFEF) || (0x2605 <= c <= 0x2606) || (0x2190 <= c <= 0x2195)
    || c == 0x203B || (0x1100 <= c <= 0x11FF) || (0x3130 <= c <= 0x318F)
    || (0xA960 <= c <= 0xA97F) || (0xAC00 <= c <= 0xD7FF)
  }

  /** For one code unit, `isUnicodeCJK` is range membership. */
  lemma CjkSingleUnit(c: int)
    ensures IsUnicodeCJK([c]) <==> InCjkRanges(c)
  {
    assert [c][0] == c;
    if InCjkRanges(c) {
      if 0x3000 <= c <= 0x30FF || 0xFF00 <= c <= 0xFFEF || 0x2605 <= c <= 0x2606
         || 0x2190 <= c <= 0x2195 || c == 0x203B {
        assert InJapaneseRange([c][0]);
      } else if 0x3130 <= c <= 0x318F || 0xA960 <= c <= 0xA97F || 0xAC00 <= c <= 0xD7AF {
        assert InKoreanMiddleRange([c][0]);
      }
    }
  }

  /** A string is CJK only if some unit of it lies in the CJK ranges. */
  lemma CjkNeedsCjkUnit(s: Str)
    requires IsUnicodeCJK(s)
    ensures exists k :: 0 <= k < |s| && InCjkRanges(s[k])
  {
    if |s| > 0 && forall k :: 0 <= k < |s| ==> InChineseRange(s[k]) {
      assert InCjkRanges(s[0]);
    } else if exists k :: 0 <= k < |s| && InJapaneseRange(s[k]) {
      var k :| 0 <= k < |s| && InJapaneseRange(s[k]);
      assert InCjkRanges(s[k]);
    } else if |s| > 0 && 0x1100 <= s[0] <= 0x11FF {
      assert InCjkRanges(s[0]);
    } else if exists k :: 0 <= k < |s| && InKoreanMiddleRange(s[k]) {
      var k :| 0 <= k < |s| && InKoreanMiddleRange(s[k]);
      assert InCjkRanges(s[k]);
    } else {
      assert InCjkRanges(s[|s| - 1]);
    }
  }

  /** The ideographic space U+3000 is both white space and CJK. */
  lemma IdeographicSpaceIsBoth()
    ensures IsUnicodeSpace([0x3000]) && IsUnicodeCJK([0x3000])
  {
    CjkSingleUnit(0x3000);
  }

  /** The class `[a-zA-Z0-9ÄÖÜäöüßéèçàùêâîôûа-яА-ЯЁё]` of `WORD_REG`. */
  predicate IsWordChar(c: int) {
    IsAsciiLetter(c) || IsDigit(c)
    || c == 0xC4 || c == 0xD6 || c == 0xDC || c == 0xDF || c == 0xE0 || c == 0xE2
    || c == 0xE4 || (0xE7 <= c <= 0xEA) || c == 0xEE || c == 0xF4 || c == 0xF6
    || c == 0xF9 || c == 0xFB || c == 0xFC || c == 0x401 || (0x410 <= c <= 0x44F) || c == 0x451
  }

  /** The class shared by `LAST_WORD_REG`, `LAST_ENGLISH_REG` and `FIRST_ENGLISH_REG`:
      ASCII letters and digits, Latin-1 and Latin Extended-A letters, Cyrillic and the
      Vietnamese letters. */
  predicate IsEnglishChar(c: int) {
    IsAsciiLetter(c) || IsDigit(c)
    || (0xC0 <= c <= 0xC4) || c == 0xC6 || (0xC8 <= c <= 0xCA) || c == 0xCC || c == 0xCD
    || (0xD1 <= c <= 0xD6) || c == 0xD9 || c == 0xDA || c == 0xDC || c == 0xDD
    || (0xDF <= c <= 0xE4) || (0xE6 <= c <= 0xEA) || (0xEC <= c <= 0xEF)
    || (0xF1 <= c <= 0xF6) || (0xF9 <= c <= 0xFD) || (0x102 <= c <= 0x44F) || c == 0x451
    || (0x1EA0 <= c <= 0x1EF9)
  }

  /** The punctuation of `SYMBOL_REG` that may not start a line. */
  predicate IsNoLineStartSymbol(c: int) {
    c == 0x21 || c == 0x25 || c == 0x27 || c == 0x2C || c == 0x2E || c == 0x3A || c == 0x3B
    || c == 0x3E || c == 0x3F || c == 0x5D || c == 0x7D || c == 0x2018 || c == 0x201C
    || c == 0x3001 || c == 0x3002 || c == 0x300B || c == 0xFF01 || c == 0xFF0C || c == 0xFF1F
  }

  /** Every word letter is also an English letter, and neither is white space. */
  lemma WordCharsAreEnglish(c: int)
    ensures IsWordChar(c) ==> IsEnglishChar(c)
    ensures IsEnglishChar(c) ==> !IsJsSpace(c) && !IsSpaceCode(c)
  {
  }

  /** First position at or after `i` holding a non-space unit, or |s|. */
  function NonSpaceFrom(s: Str, i: nat): (p: nat)
    requires i <= |s|
    decreases |s| - i
    ensures i <= p <= |s|
    ensures forall k :: i <= k < p ==> IsJsSpace(s[k])
    ensures p < |s| ==> !IsJsSpace(s[p])
  {
    if i == |s| || !IsJsSpace(s[i]) then i else NonSpaceFrom(s, i + 1)
  }

  /** Length of the run of word letters starting at `i`. */
  function WordRunFrom(s: Str, i: nat): (n: nat)
    requires i <= |s|
    decreases |s| - i
    ensures i + n <= |s|
    ensures forall k :: i <= k < i + n ==> IsWordChar(s[k])
    ensures i + n < |s| ==> !IsWordChar(s[i + n])
  {
    if i == |s| || !IsWordChar(s[i]) then 0 else 1 + WordRunFrom(s, i + 1)
  }

  /** Length of `WORD_REG.exec(s)[0]`: at the first non-space unit, the longest run of
      word letters, or that single unit when it is not a word letter; None when the
      string is all white space. */
  function WordMatchLen(s: Str): (r: Option<nat>)
    ensures r.None? <==> forall k :: 0 <= k < |s| ==> IsJsSpace(s[k])
    ensures r.Some? ==> 1 <= r.value <= |s| - NonSpaceFrom(s, 0)
    ensures r.Some? && IsWordChar(s[NonSpaceFrom(s, 0)]) ==>
      var p := NonSpaceFrom(s, 0);
      (forall k :: p <= k < p + r.value ==> IsWordChar(s[k]))
      && (p + r.value < |s| ==> !IsWordChar(s[p + r.value]))
    ensures r.Some? && !IsWordChar(s[NonSpaceFrom(s, 0)]) ==> r.value == 1
  {
    var p := NonSpaceFrom(s, 0);
    if p == |s| then None
    else if IsWordChar(s[p]) then Some(WordRunFrom(s, p))
    else Some(1)
  }

  /** Length of the longest suffix made of English letters. */
  function EnglishSuffixLen(s: Str): (n: nat)
    ensures n <= |s|
    ensures forall k :: |s| - n <= k < |s| ==> IsEnglishChar(s[k])
    ensures n < |s| ==> !IsEnglishChar(s[|s| - n - 1])
  {
    if |s| == 0 || !IsEnglishChar(s[|s| - 1]) then 0 else 1 + EnglishSuffixLen(s[..|s| - 1])
  }

  /** Length of `LAST_WORD_REG.exec(s)[0]` (`([E]+|\S)$`): the leftmost start that
      reaches the end wins, so the whole English suffix when the last unit is
      English, else the last unit alone when it is not white space. */
  function LastWordMatchLen(s: Str): (r: Option<nat>)
    ensures r.None? <==> |s| == 0 || IsJsSpace(s[|s| - 1])
    ensures r.Some? ==> 1 <= r.value <= |s|
    ensures r.Some? && IsEnglishChar(s[|s| - 1]) ==> r.value == EnglishSuffixLen(s)
    ensures r.Some? && !IsEnglishChar(s[|s| - 1]) ==> r.value == 1
  {
    if |s| == 0 then None
    else if IsEnglishChar(s[|s| - 1]) then Some(EnglishSuffixLen(s))
    else if !IsJsSpace(s[|s| - 1]) then Some(1)
    else None
  }

  /** `getEnglishWordPartAtLast(s)`: the match of `[E]+$`, the longest English suffix. */
  function EnglishWordPartAtLast(s: Str): (r: Option<Str>)
    ensures r.None? <==> |s| == 0 || !IsEnglishChar(s[|s| - 1])
    ensures r.Some? ==> 0 < |r.value| <= |s| && r.value == s[|s| - |r.value|..]
    ensures r.Some? ==> (forall k :: 0 <= k < |r.value| ==> IsEnglishChar(r.value[k]))
    ensures r.Some? && |r.value| < |s| ==> !IsEnglishChar(s[|s| - |r.value| - 1])
  {
    var n := EnglishSuffixLen(s);
    if n == 0 then None else Some(s[|s| - n..])
  }

  /** `getEnglishWordPartAtFirst(s)`: the match of `^[E]`, one English first unit. */
  function EnglishWordPartAtFirst(s: Str): (r: Option<Str>)
    ensures r.None? <==> |s| == 0 || !IsEnglishChar(s[0])
    ensures r.Some? ==> r.value == s[..1]
  {
    if |s| > 0 && IsEnglishChar(s[0]) then Some(s[..1]) else None
  }

  /** `a || b` on strings. */
  function OrElse(a: Str, b: Str): (r: Str)
    ensures |a| > 0 ==> r == a
    ensures |a| == 0 ==> r == b
  {
    if |a| > 0 then a else b
  }

  // ---------------------------------------------------------------------
  // fragmentText

  /** The measuring callback: width in pixels of a string. */
  type Measure = Str -> real

  /** `x | 0` for a value inside the 32-bit range: truncation toward zero. */
  function TruncToInt(x: real): (r: int)
    ensures x >= 0.0 ==> r as real <= x < r as real + 1.0
    ensures x < 0.0 ==> r as real - 1.0 < x <= r as real
  {
    if x >= 0.0 then x.Floor else -((-x).Floor)
  }

  /** State of a probe: the candidate cut, the text after it and the width of what
      stays on the line. */
  datatype Probe = Probe(fuzzyLen: int, tmpText: Str, width: real)

  /** Result of the second refinement loop: the probe, the last next-line text seen
      while the line still fitted, and the length of the last word pushed. */
  datatype Grown = Grown(probe: Probe, sLine: Str, pushNum: int)

  /** One cut of `fragmentText`: the fragment for this line and the text that remains. */
  datatype Cut = Cut(fragment: Str, rest: Str)

  const RefineBudget: nat := 100

  /** First refinement loop: while the kept part is too wide, scale the cut down in
      proportion, at most `budget` times. */
  function Shrink(text: Str, allWidth: real, maxWidth: real, measure: Measure, p: Probe, budget: nat): (q: Probe)
    requires maxWidth >= 0.0
    decreases budget
    ensures p.width <= maxWidth || budget == 0 ==> q == p
    ensures q.width > maxWidth ==> budget == 0 || p.width > maxWidth
    ensures SuffixOf(p.tmpText, text) ==> SuffixOf(q.tmpText, text)
  {
    if p.width > maxWidth && budget > 0 then
      var f := TruncToInt((p.fuzzyLen as real) * (maxWidth / p.width));
      var t := SafeFrom(text, f);
      Shrink(text, allWidth, maxWidth, measure, Probe(f, t, allWidth - measure(t)), budget - 1)
    else p
  }

  /** Second refinement loop: while there is text left and the kept part fits, move
      the next word (per `WORD_REG`, else one unit) onto the line, at most `budget` times. */
  function Grow(text: Str, allWidth: real, maxWidth: real, measure: Measure, g: Grown, budget: nat): (h: Grown)
    decreases budget
    ensures |g.probe.tmpText| == 0 || g.probe.width > maxWidth || budget == 0 ==> h == g
    ensures h.probe.fuzzyLen >= g.probe.fuzzyLen
    ensures h != g ==> h.pushNum >= 1
    ensures g.pushNum >= 0 ==> h.pushNum >= 0
    ensures SuffixOf(g.probe.tmpText, text) && SuffixOf(g.sLine, text) ==>
      SuffixOf(h.probe.tmpText, text) && SuffixOf(h.sLine, text)
  {
    var p := g.probe;
    if |p.tmpText| > 0 && p.width <= maxWidth && budget > 0 then
      var push := match WordMatchLen(p.tmpText) case Some(n) => n case None => 1;
      var f := p.fuzzyLen + push;
      var t := SafeFrom(text, f);
      Grow(text, allWidth, maxWidth, measure, Grown(Probe(f, t, allWidth - measure(t)), p.tmpText, push), budget - 1)
    else g
  }

  /** `a` is a prefix of `text`. */
  predicate PrefixOf(a: Str, text: Str) { |a| <= |text| && a == text[..|a|] }

  /** `a` is a suffix of `text`. */
  predicate SuffixOf(a: Str, text: Str) { |a| <= |text| && a == text[|text| - |a|..] }

  /** The state after the symbol and English rules: cut, next-line text, this line. */
  datatype Split3 = Split3(fuzzyLen: int, sLine: Str, sText: Str)

  /** The line is a prefix of the text and the next line a suffix of it. */
  predicate SplitOf(st: Split3, text: Str) {
    PrefixOf(st.sText, text) && SuffixOf(st.sLine, text)
  }

  /** Re-cuts the text at `f`: next line from `f`, this line up to `f`. */
  function CutAt(text: Str, f: int): (r: Split3)
    ensures r.fuzzyLen == f && SplitOf(r, text)
  {
    Split3(f, SafeFrom(text, f), SafeRange(text, 0, f))
  }

  /** A line may not start with a listed punctuation mark: pull the current line's last
      word (or last unit) down; a cut that would reach 0 is put back to 1. */
  function SymbolRule(text: Str, tmpText: Str, st: Split3): (r: Split3)
    ensures !(|OrElse(st.sLine, tmpText)| > 0 && IsNoLineStartSymbol(OrElse(st.sLine, tmpText)[0])) ==> r == st
    ensures r != st ==> r.fuzzyLen != 0
    ensures r != st && |st.sText| <= st.fuzzyLen ==> r.fuzzyLen >= 1
    ensures SplitOf(st, text) ==> SplitOf(r, text)
  {
    var head := OrElse(st.sLine, tmpText);
    if |head| > 0 && IsNoLineStartSymbol(head[0]) then
      var f0 := st.fuzzyLen - (match LastWordMatchLen(st.sText) case Some(n) => n case None => 0);
      CutAt(text, if f0 == 0 then 1 else f0)
    else st
  }

  /** An English word split across the cut moves its head to the next line, unless the
      head is the whole line. */
  function EnglishRule(text: Str, st: Split3): (r: Split3)
    ensures r != st ==> |st.sLine| > 0 && IsEnglishChar(st.sLine[0])
    ensures r != st ==> 0 < EnglishSuffixLen(st.sText) < |st.sText|
    ensures r != st ==> r.fuzzyLen == st.fuzzyLen - EnglishSuffixLen(st.sText)
    ensures SplitOf(st, text) ==> SplitOf(r, text)
  {
    if |st.sLine| > 0 && IsEnglishChar(st.sLine[0]) then
      match EnglishWordPartAtLast(st.sText)
      case Some(w) =>
        if st.sText != w then CutAt(text, st.fuzzyLen - |w|) else st
      case None => st
    else st
  }

  /** Lines 131-161: the first guess in proportion to the widths, then both
      refinement loops. */
  function Refine(text: Str, allWidth: real, maxWidth: real, measure: Measure): (g: Grown)
    requires maxWidth >= 0.0 && allWidth > maxWidth
    ensures SuffixOf(g.probe.tmpText, text) && SuffixOf(g.sLine, text)
  {
    var f0 := TruncToInt((|text| as real) * (maxWidth / allWidth));
    var t0 := SafeFrom(text, f0);
    var p1 := Shrink(text, allWidth, maxWidth, measure, Probe(f0, t0, allWidth - measure(t0)), RefineBudget);
    Grow(text, allWidth, maxWidth, measure, Grown(p1, t0, 0), RefineBudget)
  }

  /** Lines 163-174: undo the last push, and when nothing fits keep one unit (two
      for a leading high surrogate). */
  function Settle(text: Str, g: Grown): (st: Split3)
    requires |text| > 0 && SuffixOf(g.sLine, text)
    ensures SplitOf(st, text)
    ensures g.probe.fuzzyLen - g.pushNum == 0 ==> st.fuzzyLen == 1
    ensures g.probe.fuzzyLen - g.pushNum == 1 && IsHighSurrogate(text[0]) ==> st.fuzzyLen == 2
  {
    var f2 := g.probe.fuzzyLen - g.pushNum;
    if f2 == 0 then CutAt(text, 1)
    else if f2 == 1 && IsHighSurrogate(text[0]) then CutAt(text, 2)
    else Split3(f2, g.sLine, SafeRange(text, 0, f2))
  }

  /** One pass of the outer loop of `fragmentText`, as written. */
  function Step(text: Str, allWidth: real, maxWidth: real, measure: Measure): (c: Cut)
    requires maxWidth >= 0.0 && allWidth > maxWidth && |text| > 1
    ensures PrefixOf(c.fragment, text) && SuffixOf(c.rest, text)
  {
    var g := Refine(text, allWidth, maxWidth, measure);
    var st := EnglishRule(text, SymbolRule(text, g.probe.tmpText, Settle(text, g)));
    Cut(st.sText, OrElse(st.sLine, g.probe.tmpText))
  }

  /** A fragment after the first: trimmed, so non-empty with no white space at either end. */
  predicate Trimmed(t: Str) {
    |t| > 0 && !IsJsSpace(t[0]) && !IsJsSpace(t[|t| - 1])
  }

  /** Every fragment after the first is trimmed. */
  predicate TailTrimmed(rs: seq<Str>) {
    forall i :: 1 <= i < |rs| ==> Trimmed(rs[i])
  }

  /** Lines 203-211: the first fragment is kept verbatim, later ones are trimmed and
      dropped when empty. */
  function Push(acc: seq<Str>, fragment: Str): (r: seq<Str>)
    ensures |acc| == 0 ==> r == [fragment]
    ensures |acc| > 0 ==> |acc| <= |r| <= |acc| + 1 && r[..|acc|] == acc
    ensures |acc| > 0 && |r| == |acc| + 1 ==> Trimmed(r[|acc|])
    ensures TailTrimmed(acc) ==> TailTrimmed(r)
  {
    if |acc| == 0 then [fragment]
    else
      var t := Trim(fragment);
      if |t| > 0 then acc + [t] else acc
  }

  /** One pass of the outer loop, as a function of the remaining text and its width. */
  type Pass = (Str, real) -> Cut

  /** Every cut a pass makes takes its line from the front of the text and leaves a
      suffix of it for the next pass. */
  ghost predicate CutsText(pass: Pass) {
    forall t: Str, w: real {:trigger pass(t, w)} ::
      PrefixOf(pass(t, w).fragment, t) && SuffixOf(pass(t, w).rest, t)
  }

  /** The pass of `fragmentText` as written; the loop only calls it while the text is
      too wide and longer than one unit. */
  function AsWrittenPass(maxWidth: real, measure: Measure): (pass: Pass)
    ensures CutsText(pass)
  {
    (t: Str, w: real) =>
      if maxWidth >= 0.0 && w > maxWidth && |t| > 1 then Step(t, w, maxWidth, measure) else Cut([], t)
  }

  /** Lines 130-223: the outer loop, with a fuel bound: None when the fuel runs out
      before the loop condition fails. */
  function FragmentLoop(pass: Pass, text: Str, allWidth: real, maxWidth: real, measure: Measure, acc: seq<Str>, fuel: nat): (r: Option<seq<Str>>)
    decreases fuel
  {
    if allWidth > maxWidth && |text| > 1 then
      if fuel == 0 then None
      else
        var c := pass(text, allWidth);
        FragmentLoop(pass, c.rest, measure(c.rest), maxWidth, measure, Push(acc, c.fragment), fuel - 1)
    else Some(Push(acc, text))
  }

  /** `fragmentText(s, allWidth, maxWidth, measure)` as written, run for at most
      `fuel` passes of the outer loop. */
  function FragmentTextAsWritten(s: Str, allWidth: real, maxWidth: real, measure: Measure, fuel: nat): (r: Option<seq<Str>>)
    ensures |s| == 0 || maxWidth < 0.0 ==> r == Some([[]])
  {
    if |s| == 0 || maxWidth < 0.0 then Some([[]])
    else FragmentLoop(AsWrittenPass(maxWidth, measure), s, allWidth, maxWidth, measure, [], fuel)
  }

  /** A measure of 10 pixels per code unit. */
  function TenPerUnit(s: Str): (w: real)
    ensures w == 10.0 * (|s| as real)
  {
    10.0 * (|s| as real)
  }

  /** '😉!': a surrogate pair followed by an exclamation mark. */
  const WinkBang: Str := [0xD83D, 0xDE09, 0x21]

  /** On '😉!' at 30 px with room for 25 px, one pass returns the text unchanged: the
      symbol rule lowers the cut to 1, and the safe substring then moves the start of
      the next line back over the low surrogate to 0. */
  lemma WinkBangStalls()
    ensures Step(WinkBang, 30.0, 25.0, TenPerUnit) == Cut(WinkBang[..2], WinkBang)
  {
    WinkBangRefines();
    WinkBangSettles();
    WinkBangRules();
  }

  /** Settling '😉!' after the search: the cut lands after the emoji. */
  lemma WinkBangSettles()
    ensures Settle(WinkBang, Grown(Probe(3, [], 30.0), [0x21], 1)) == Split3(2, [0x21], WinkBang[..2])
  {
    assert SafeRange(WinkBang, 0, 2) == WinkBang[..2];
  }

  /** The '!' may not start a line, so the symbol rule moves the cut back to 1, and the
      safe substring widens both parts back to the whole emoji; the English rule then
      leaves the split alone. */
  lemma WinkBangRules()
    ensures var st1 := SymbolRule(WinkBang, [], Split3(2, [0x21], WinkBang[..2]));
      st1 == Split3(1, WinkBang, WinkBang[..2]) && EnglishRule(WinkBang, st1) == st1
  {
    var text := WinkBang;
    assert LastWordMatchLen(text[..2]) == Some(1);
    assert SafeFrom(text, 1) == text;
    assert SafeRange(text, 0, 1) == text[..2];
  }

  /** The width search on '😉!': the first guess of 2 units already fits, and one
      growing step reaches the end of the text, after pushing the '!'. */
  lemma WinkBangRefines()
    ensures Refine(WinkBang, 30.0, 25.0, TenPerUnit) == Grown(Probe(3, [], 30.0), [0x21], 1)
  {
    var text := WinkBang;
    var f0 := TruncToInt((|text| as real) * (25.0 / 30.0));
    assert f0 == 2;
    var t0 := SafeFrom(text, f0);
    assert t0 == [0x21];
    var p0 := Probe(2, [0x21], 30.0 - TenPerUnit(t0));
    assert p0.width == 20.0;
    var p1 := Shrink(text, 30.0, 25.0, TenPerUnit, p0, RefineBudget);
    assert p1 == p0;
    assert WordMatchLen([0x21]) == Some(1) by {
      assert NonSpaceFrom([0x21], 0) == 0;
    }
    var p2 := Probe(3, [], 30.0);
    assert SafeFrom(text, 3) == [];
    var g1 := Grown(p2, [0x21], 1);
    assert Grow(text, 30.0, 25.0, TenPerUnit, Grown(p1, t0, 0), RefineBudget)
        == Grow(text, 30.0, 25.0, TenPerUnit, g1, RefineBudget - 1);
  }

  /** Once a pass returns its own text and the width passed in is the measured one,
      the loop state repeats forever: no amount of fuel finishes it. */
  lemma {:induction false} StallIsForever(pass: Pass, text: Str, maxWidth: real, measure: Measure, acc: seq<Str>, fuel: nat)
    requires measure(text) > maxWidth && |text| > 1
    requires pass(text, measure(text)).rest == text
    ensures FragmentLoop(pass, text, measure(text), maxWidth, measure, acc, fuel) == None
    decreases fuel
  {
    if fuel > 0 {
      var c := pass(text, measure(text));
      StallIsForever(pass, text, maxWidth, measure, Push(acc, c.fragment), fuel - 1);
    }
  }

  /** `fragmentText('😉!', 30, 25, 10 px per unit)` never returns. */
  lemma FragmentTextDiverges(fuel: nat)
    ensures FragmentTextAsWritten(WinkBang, 30.0, 25.0, TenPerUnit, fuel) == None
  {
    WinkBangStalls();
    var pass := AsWrittenPass(25.0, TenPerUnit);
    assert pass(WinkBang, TenPerUnit(WinkBang)).rest == WinkBang;
    StallIsForever(pass, WinkBang, 25.0, TenPerUnit, [], fuel);
  }

  /** Length of the first code point: a well-formed pair counts as one. */
  function FirstCodePointLen(text: Str): (n: nat)
    requires |text| > 0
    ensures 1 <= n <= |text|
    ensures n == 2 <==> |text| >= 2 && IsHighSurrogate(text[0]) && IsLowSurrogate(text[1])
  {
    if |text| >= 2 && IsHighSurrogate(text[0]) && IsLowSurrogate(text[1]) then 2 else 1
  }

  /** A pass with the intended guarantee restored: when the pass would not shorten
      the text, the line takes one code point instead. */
  function FixedCut(pass: Pass, text: Str, allWidth: real): (c: Cut)
    requires CutsText(pass) && |text| > 0
    ensures |c.rest| < |text|
    ensures PrefixOf(c.fragment, text) && SuffixOf(c.rest, text)
    ensures |pass(text, allWidth).rest| < |text| ==> c == pass(text, allWidth)
  {
    var c := pass(text, allWidth);
    if |c.rest| < |text| then c
    else
      var n := FirstCodePointLen(text);
      Cut(text[..n], text[n..])
  }

  /** The outer loop with the corrected pass; the text shrinks on every pass. */
  function FragmentLoopFixed(pass: Pass, text: Str, allWidth: real, maxWidth: real, measure: Measure, acc: seq<Str>): (r: seq<Str>)
    requires CutsText(pass)
    decreases |text|
    ensures |r| >= 1
    ensures |acc| > 0 ==> |r| >= |acc| && r[..|acc|] == acc
    ensures |acc| == 0 ==> PrefixOf(r[0], text)
    ensures TailTrimmed(acc) ==> TailTrimmed(r)
  {
    if allWidth > maxWidth && |text| > 1 then
      var c := FixedCut(pass, text, allWidth);
      var acc' := Push(acc, c.fragment);
      var r := FragmentLoopFixed(pass, c.rest, measure(c.rest), maxWidth, measure, acc');
      assert r[..|acc'|] == acc';
      assert |acc| > 0 ==> r[..|acc|] == acc'[..|acc|];
      assert |acc| == 0 ==> r[0] == acc'[0];
      r
    else Push(acc, text)
  }

  /** `fragmentText` with the corrected pass: always returns, never returns an empty
      list, keeps the first fragment as a prefix of the input, and trims every later
      fragment to a non-empty string. */
  function FragmentText(s: Str, allWidth: real, maxWidth: real, measure: Measure): (r: seq<Str>)
    ensures |s| == 0 || maxWidth < 0.0 ==> r == [[]]
    ensures |s| > 0 && maxWidth >= 0.0 && (allWidth <= maxWidth || |s| == 1) ==> r == [s]
    ensures |r| >= 1
    ensures PrefixOf(r[0], s)
    ensures TailTrimmed(r)
  {
    if |s| == 0 || maxWidth < 0.0 then [[]]
    else FragmentLoopFixed(AsWrittenPass(maxWidth, measure), s, allWidth, maxWidth, measure, [])
  }

  /** Whenever the loop as written finishes from a measured start, the corrected loop
      gives the same fragments: the correction only changes runs that would hang. */
  lemma {:induction false} FixedAgreesWhenAsWrittenFinishes(pass: Pass, text: Str, maxWidth: real, measure: Measure, acc: seq<Str>, fuel: nat)
    requires CutsText(pass)
    requires FragmentLoop(pass, text, measure(text), maxWidth, measure, acc, fuel).Some?
    ensures FragmentLoop(pass, text, measure(text), maxWidth, measure, acc, fuel).value
         == FragmentLoopFixed(pass, text, measure(text), maxWidth, measure, acc)
    decreases fuel, 1
  {
    if measure(text) > maxWidth && |text| > 1 {
      var c := pass(text, measure(text));
      assert PrefixOf(c.fragment, text) && SuffixOf(c.rest, text);
      if |c.rest| >= |text| {
        assert c.rest == text;
        StallIsForever(pass, text, maxWidth, measure, acc, fuel);
      } else {
        FixedAgreesOnCut(pass, text, maxWidth, measure, acc, fuel);
      }
    }
  }

  /** A pass that shortens the text is the same step in both loops. */
  lemma {:induction false} FixedAgreesOnCut(pass: Pass, text: Str, maxWidth: real, measure: Measure, acc: seq<Str>, fuel: nat)
    requires CutsText(pass) && measure(text) > maxWidth && |text| > 1
    requires |pass(text, measure(text)).rest| < |text|
    requires FragmentLoop(pass, text, measure(text), maxWidth, measure, acc, fuel).Some?
    ensures FragmentLoop(pass, text, measure(text), maxWidth, measure, acc, fuel).value
         == FragmentLoopFixed(pass, text, measure(text), maxWidth, measure, acc)
    decreases fuel, 0
  {
    var c := pass(text, measure(text));
    var rest: nat := fuel - 1;
    var acc' := Push(acc, c.fragment);
    assert FragmentLoop(pass, text, measure(text), maxWidth, measure, acc, fuel)
        == FragmentLoop(pass, c.rest, measure(c.rest), maxWidth, measure, acc', rest);
    assert FragmentLoopFixed(pass, text, measure(text), maxWidth, measure, acc)
        == FragmentLoopFixed(pass, c.rest, measure(c.rest), maxWidth, measure, acc');
    FixedAgreesWhenAsWrittenFinishes(pass, c.rest, maxWidth, measure, acc', rest);
  }

  /** The same agreement for the entry point, when the width passed in is the measured one. */
  lemma FragmentTextAgrees(s: Str, maxWidth: real, measure: Measure, fuel: nat)
    requires FragmentTextAsWritten(s, measure(s), maxWidth, measure, fuel).Some?
    ensures FragmentTextAsWritten(s, measure(s), maxWidth, measure, fuel).value == FragmentText(s, measure(s), maxWidth, measure)
  {
    if |s| > 0 && maxWidth >= 0.0 {
      FixedAgreesWhenAsWrittenFinishes(AsWrittenPass(maxWidth, measure), s, maxWidth, measure, [], fuel);
    }
  }
}

=== FILE: vertex_api.dfy ===
/** The per-letter vertex interface of a laid-out label. The extra-colour pass fades
    hidden letters and applies the four-corner gradient. The visibility switch and the
    colour and position accessors reach a letter's four vertices through its
    `quadsIndex`. */
module VertexApi {
  import opened Wrappers
  import opened TmpUtils
  import opened Layout
  import opened Quads

  /** The component's colour gradient: on/off and the four corner colours. */
  datatype Gradient = Gradient(enabled: bool, lb: Color, rb: Color, lt: Color, rt: Color)

  /** The engine's `Color.multiply`, taken as a component-wise product on the 0..255
      scale. */
  function Multiply(c: Color, d: Color): Color
  {
    Color(c.r * d.r / 255.0, c.g * d.g / 255.0, c.b * d.b / 255.0, c.a * d.a / 255.0)
  }

  /** The extra colour of one corner: white, with alpha zeroed when the letter is hidden,
      then tinted by the corner's colour when the gradient is on. */
  function CornerColor(g: Gradient, corner: Color, visible: bool): (r: Color)
    ensures !visible ==> r.a == 0.0
    ensures !g.enabled ==> r == (if visible then White else White.(a := 0.0))
    ensures g.enabled && visible ==> r == corner
    ensures g.enabled ==> r.r == corner.r && r.g == corner.g && r.b == corner.b
  {
    var base := White.(a := if visible then 255.0 else 0.0);
    if g.enabled then Multiply(base, corner) else base
  }

  /** The extra colours of a letter's quad in vertex order: left-bottom, right-bottom,
      left-top, right-top. */
  function QuadColors(g: Gradient, visible: bool): (r: seq<Color>)
    ensures |r| == 4
    ensures !visible ==> forall k :: 0 <= k < 4 ==> r[k].a == 0.0
    ensures visible && g.enabled ==> r == [g.lb, g.rb, g.lt, g.rt]
    ensures visible && !g.enabled ==> r == [White, White, White, White]
  {
    [CornerColor(g, g.lb, visible), CornerColor(g, g.rb, visible),
     CornerColor(g, g.lt, visible), CornerColor(g, g.rt, visible)]
  }

  /** The extra colours stored on quad `q`. */
  function ColorsOf(verts: seq<Vert>, q: nat): (r: seq<Color>)
    requires 4 * q + 4 <= |verts|
    ensures |r| == 4
  {
    [verts[4 * q].colorExtra, verts[4 * q + 1].colorExtra,
     verts[4 * q + 2].colorExtra, verts[4 * q + 3].colorExtra]
  }

  /** Only the extra colours differ between two vertex lists of the same length. */
  predicate OnlyColorsDiffer(a: seq<Vert>, b: seq<Vert>)
  {
    |a| == |b| && forall k :: 0 <= k < |a| ==> b[k] == a[k].(colorExtra := b[k].colorExtra)
  }

  /** Writing four extra colours onto quad `q`. */
  function PaintQuad(verts: seq<Vert>, q: nat, cols: seq<Color>): (r: seq<Vert>)
    requires 4 * q + 4 <= |verts| && |cols| == 4
    ensures OnlyColorsDiffer(verts, r)
    ensures ColorsOf(r, q) == cols
    ensures forall k :: 0 <= k < |r| && (k < 4 * q || 4 * q + 4 <= k) ==> r[k] == verts[k]
    ensures forall p: nat :: 4 * p + 4 <= |verts| && p != q ==> ColorsOf(r, p) == ColorsOf(verts, p)
  {
    var o := 4 * q;
    verts[o := verts[o].(colorExtra := cols[0])]
         [o + 1 := verts[o + 1].(colorExtra := cols[1])]
         [o + 2 := verts[o + 2].(colorExtra := cols[2])]
         [o + 3 := verts[o + 3].(colorExtra := cols[3])]
  }

  // ---------------------------------------------------------------------------------
  // updateColorExtra
  // ---------------------------------------------------------------------------------

  /** Whether the colour pass writes a letter's quad: a valid letter, and in the
      current port also not whitespace. */
  predicate Paints(port: Port, info: LetterInfo)
  {
    info.valid && (port.Older? || !IsUnicodeSpace(info.ch))
  }

  /** The last letter before `n` that paints quad `q`, or -1. */
  function LastPainter(port: Port, letters: seq<LetterInfo>, q: nat, n: nat): (r: int)
    requires n <= |letters|
    ensures -1 <= r < n
    ensures r >= 0 ==> Paints(port, letters[r]) && letters[r].quadsIndex == q
    ensures forall j :: r < j < n ==> !(Paints(port, letters[j]) && letters[j].quadsIndex == q)
  {
    if n == 0 then -1
    else if Paints(port, letters[n - 1]) && letters[n - 1].quadsIndex == q then n - 1
    else LastPainter(port, letters, q, n - 1)
  }

  /** Every painted quad lies inside the vertex list. */
  predicate AllInRange(port: Port, letters: seq<LetterInfo>, count: nat)
  {
    forall i :: 0 <= i < |letters| && Paints(port, letters[i]) ==> 4 * letters[i].quadsIndex + 4 <= count
  }

  /** What quad `q` shows after the colour pass over the first `n` letters. */
  ghost predicate PaintedUpTo(port: Port, letters: seq<LetterInfo>, g: Gradient, verts: seq<Vert>, r: seq<Vert>, n: nat)
    requires n <= |letters| && |r| == |verts|
  {
    forall q: nat :: 4 * q + 4 <= |verts| ==>
      ColorsOf(r, q) == if LastPainter(port, letters, q, n) < 0 then ColorsOf(verts, q)
                        else QuadColors(g, letters[LastPainter(port, letters, q, n)].visible)
  }

  /** `updateColorExtra` without the native-buffer branch. Each painting letter writes
      its visibility-and-gradient colours onto its quad, so a shared quad ends up with
      its last letter's colours. The current port stops at the first quad past the end
      of the data; the older port writes into a typed array, which drops such writes. */
  method UpdateColorExtra(port: Port, letters: seq<LetterInfo>, verts: seq<Vert>, g: Gradient)
      returns (r: seq<Vert>)
    ensures OnlyColorsDiffer(verts, r)
    ensures forall q: nat :: 4 * q + 4 <= |verts| && LastPainter(port, letters, q, |letters|) < 0 ==>
      ColorsOf(r, q) == ColorsOf(verts, q)
    ensures port.Older? || AllInRange(port, letters, |verts|) ==>
      PaintedUpTo(port, letters, g, verts, r, |letters|)
  {
    r := verts;
    var i := 0;
    var stopped := false;
    while i < |letters| && !stopped
      invariant 0 <= i <= |letters|
      invariant OnlyColorsDiffer(verts, r)
      invariant PaintedUpTo(port, letters, g, verts, r, i)
      invariant stopped ==> port.Extensions? && !AllInRange(port, letters, |verts|)
      decreases |letters| - i, if stopped then 0 else 1
    {
      var info := letters[i];
      if Paints(port, info) && 4 * info.quadsIndex + 4 > |r| && port.Extensions? {
        stopped := true;
      } else {
        PaintStep(port, letters, g, verts, r, i);
        if Paints(port, info) && 4 * info.quadsIndex + 4 <= |r| {
          r := PaintQuad(r, info.quadsIndex, QuadColors(g, info.visible));
        }
        i := i + 1;
      }
    }
  }

  /** One letter of the colour pass: painting its quad, or dropping a write past the
      end, keeps every quad showing its last painter's colours. */
  lemma PaintStep(port: Port, letters: seq<LetterInfo>, g: Gradient, verts: seq<Vert>, r: seq<Vert>, i: nat)
    requires i < |letters| && |r| == |verts| && PaintedUpTo(port, letters, g, verts, r, i)
    ensures var info := letters[i];
      PaintedUpTo(port, letters, g, verts,
        if Paints(port, info) && 4 * info.quadsIndex + 4 <= |r|
        then PaintQuad(r, info.quadsIndex, QuadColors(g, info.visible)) else r, i + 1)
  {
    var info := letters[i];
    var next := if Paints(port, info) && 4 * info.quadsIndex + 4 <= |r|
                then PaintQuad(r, info.quadsIndex, QuadColors(g, info.visible)) else r;
    forall q: nat | 4 * q + 4 <= |verts|
      ensures ColorsOf(next, q) == if LastPainter(port, letters, q, i + 1) < 0 then ColorsOf(verts, q)
                                   else QuadColors(g, letters[LastPainter(port, letters, q, i + 1)].visible)
    {
      if Paints(port, info) && info.quadsIndex == q {
        assert LastPainter(port, letters, q, i + 1) == i;
      } else {
        assert LastPainter(port, letters, q, i + 1) == LastPainter(port, letters, q, i);
      }
    }
  }

  // ---------------------------------------------------------------------------------
  // Visibility and vertex accessors
  // ---------------------------------------------------------------------------------

  /** The letters and the vertices of one label. */
  datatype View = View(letters: seq<LetterInfo>, verts: seq<Vert>)

  /** The quad of letter `i` exists in the vertex data. */
  predicate HasQuad(w: View, i: int)
    requires 0 <= i < |w.letters|
  {
    4 * w.letters[i].quadsIndex + 4 <= |w.verts|
  }

  /** `isVisble(i)`: an existing, valid, visible, non-whitespace letter. */
  predicate IsVisible(letters: seq<LetterInfo>, i: int)
  {
    0 <= i < |letters| && letters[i].valid && letters[i].visible && !IsUnicodeSpace(letters[i].ch)
  }

  /** `setVisible(i, v)`. Nothing happens for a missing letter, when `isVisble` or the
      stored flag already equals `v`, or, in the current port, for whitespace or a quad
      past the data. Otherwise the flag is set and the quad is repainted. The older port
      writes into a typed array, which drops a write past its end. */
  function SetVisible(port: Port, w: View, g: Gradient, i: int, visible: bool): (r: View)
    ensures |r.letters| == |w.letters|
    ensures forall j :: 0 <= j < |w.letters| && j != i ==> r.letters[j] == w.letters[j]
    ensures 0 <= i < |w.letters| ==> r.letters[i] == w.letters[i].(visible := r.letters[i].visible)
    ensures OnlyColorsDiffer(w.verts, r.verts)
    ensures forall p: nat :: 4 * p + 4 <= |w.verts| && (!(0 <= i < |w.letters|) || p != w.letters[i].quadsIndex) ==>
      ColorsOf(r.verts, p) == ColorsOf(w.verts, p)
    ensures 0 <= i < |w.letters| && w.letters[i].valid && !IsUnicodeSpace(w.letters[i].ch) && HasQuad(w, i) ==>
      IsVisible(r.letters, i) == visible
    ensures 0 <= i < |w.letters| && w.letters[i].valid && !IsUnicodeSpace(w.letters[i].ch) && HasQuad(w, i)
            && w.letters[i].visible != visible ==>
      ColorsOf(r.verts, w.letters[i].quadsIndex) == QuadColors(g, visible)
    ensures port.Extensions? && (!(0 <= i < |w.letters|) || IsUnicodeSpace(w.letters[i].ch)) ==> r == w
  {
    if !(0 <= i < |w.letters|) then w
    else
      var info := w.letters[i];
      if IsVisible(w.letters, i) == visible || info.visible == visible
         || (port.Extensions? && IsUnicodeSpace(info.ch)) then w
      else if !HasQuad(w, i) then
        if port.Extensions? then w else View(w.letters[i := info.(visible := visible)], w.verts)
      else
        View(w.letters[i := info.(visible := visible)],
             PaintQuad(w.verts, info.quadsIndex, QuadColors(g, visible)))
  }

  /** Setting the same visibility twice is the same as setting it once. */
  lemma SetVisibleIdempotent(port: Port, w: View, g: Gradient, i: int, visible: bool)
    ensures SetVisible(port, SetVisible(port, w, g, i, visible), g, i, visible)
         == SetVisible(port, w, g, i, visible)
  {
    var r := SetVisible(port, w, g, i, visible);
    if 0 <= i < |w.letters| && r != w {
      assert r.letters[i].visible == visible;
    }
  }

  /** On a valid non-whitespace letter whose quad exists, the two ports agree. */
  lemma SetVisiblePortsAgree(w: View, g: Gradient, i: int, visible: bool)
    requires 0 <= i < |w.letters| && !IsUnicodeSpace(w.letters[i].ch) && HasQuad(w, i)
    ensures SetVisible(Extensions, w, g, i, visible) == SetVisible(Older, w, g, i, visible)
  {
  }

  /** `getColorExtraVertices(i)`: the four extra colours of a valid letter's quad; none
      for a missing or invalid letter or a quad past the data. */
  function GetColorExtra(w: View, i: int): (r: Option<seq<Color>>)
    ensures r.Some? <==> 0 <= i < |w.letters| && w.letters[i].valid && HasQuad(w, i)
    ensures r.Some? ==> |r.value| == 4
  {
    if !(0 <= i < |w.letters|) || !w.letters[i].valid || !HasQuad(w, i) then None
    else Some(ColorsOf(w.verts, w.letters[i].quadsIndex))
  }

  /** `setColorExtraVertices(i, data)`: needs a valid letter, exactly four colours, and
      in the current port a non-whitespace letter. */
  function SetColorExtra(port: Port, w: View, i: int, data: seq<Color>): (r: View)
    ensures r.letters == w.letters
    ensures OnlyColorsDiffer(w.verts, r.verts)
    ensures forall p: nat :: 4 * p + 4 <= |w.verts| && (!(0 <= i < |w.letters|) || p != w.letters[i].quadsIndex) ==>
      ColorsOf(r.verts, p) == ColorsOf(w.verts, p)
    ensures !(0 <= i < |w.letters|) || !w.letters[i].valid || |data| != 4 ==> r == w
  {
    if !(0 <= i < |w.letters|) || !w.letters[i].valid || |data| != 4
       || (port.Extensions? && IsUnicodeSpace(w.letters[i].ch)) || !HasQuad(w, i) then w
    else View(w.letters, PaintQuad(w.verts, w.letters[i].quadsIndex, data))
  }

  /** Reading back what was just written returns it. */
  lemma SetThenGetColorExtra(port: Port, w: View, i: int, data: seq<Color>)
    requires 0 <= i < |w.letters| && w.letters[i].valid && |data| == 4 && HasQuad(w, i)
    requires port.Older? || !IsUnicodeSpace(w.letters[i].ch)
    ensures GetColorExtra(SetColorExtra(port, w, i, data), i) == Some(data)
  {
  }

  /** Letters sharing a quad (a clipped-out letter and the next drawn one) read each
      other's writes; a letter on another quad reads what it read before. */
  lemma SetColorExtraReachesQuadOnly(port: Port, w: View, i: int, j: int, data: seq<Color>)
    requires 0 <= i < |w.letters| && 0 <= j < |w.letters|
    requires w.letters[i].valid && |data| == 4 && HasQuad(w, i)
    requires port.Older? || !IsUnicodeSpace(w.letters[i].ch)
    ensures w.letters[j].valid && w.letters[j].quadsIndex == w.letters[i].quadsIndex ==>
      GetColorExtra(SetColorExtra(port, w, i, data), j) == Some(data)
    ensures w.letters[j].quadsIndex != w.letters[i].quadsIndex ==>
      GetColorExtra(SetColorExtra(port, w, i, data), j) == GetColorExtra(w, j)
  {
  }

  /** A vertex position. The older port's accessors carry only `x` and `y`. */
  datatype Point = Point(x: real, y: real, z: real)

  /** The positions of quad `q`, with `z` read as 0 in the older port. */
  function PointsOf(port: Port, verts: seq<Vert>, q: nat): (r: seq<Point>)
    requires 4 * q + 4 <= |verts|
    ensures |r| == 4
    ensures forall k :: 0 <= k < 4 ==> r[k].x == verts[4 * q + k].x && r[k].y == verts[4 * q + k].y
    ensures forall k :: 0 <= k < 4 ==> r[k].z == (if port.Older? then 0.0 else verts[4 * q + k].z)
  {
    seq(4, k requires 0 <= k < 4 =>
      Point(verts[4 * q + k].x, verts[4 * q + k].y, if port.Older? then 0.0 else verts[4 * q + k].z))
  }

  /** Moving one vertex; the older port leaves `z` alone. */
  function Place(port: Port, v: Vert, p: Point): (r: Vert)
    ensures r.x == p.x && r.y == p.y
    ensures r.z == (if port.Older? then v.z else p.z)
    ensures r.u == v.u && r.v == v.v && r.colorExtra == v.colorExtra && r.textureIdx == v.textureIdx
  {
    if port.Older? then v.(x := p.x, y := p.y) else v.(x := p.x, y := p.y, z := p.z)
  }

  /** Only positions differ between two vertex lists of the same length. */
  predicate OnlyPositionsDiffer(a: seq<Vert>, b: seq<Vert>)
  {
    |a| == |b| && forall k :: 0 <= k < |a| ==> b[k] == a[k].(x := b[k].x, y := b[k].y, z := b[k].z)
  }

  /** Writing four positions onto quad `q`. */
  function PlaceQuad(port: Port, verts: seq<Vert>, q: nat, pts: seq<Point>): (r: seq<Vert>)
    requires 4 * q + 4 <= |verts| && |pts| == 4
    ensures OnlyPositionsDiffer(verts, r)
    ensures PointsOf(port, r, q) == (if port.Older? then seq(4, k requires 0 <= k < 4 => pts[k].(z := 0.0)) else pts)
    ensures forall k :: 0 <= k < |r| && (k < 4 * q || 4 * q + 4 <= k) ==> r[k] == verts[k]
  {
    var o := 4 * q;
    verts[o := Place(port, verts[o], pts[0])]
         [o + 1 := Place(port, verts[o + 1], pts[1])]
         [o + 2 := Place(port, verts[o + 2], pts[2])]
         [o + 3 := Place(port, verts[o + 3], pts[3])]
  }

  /** `getPosVertices(i)`: the four positions of a valid letter's quad. */
  function GetPos(port: Port, w: View, i: int): (r: Option<seq<Point>>)
    ensures r.Some? <==> 0 <= i < |w.letters| && w.letters[i].valid && HasQuad(w, i)
    ensures r.Some? ==> |r.value| == 4
  {
    if !(0 <= i < |w.letters|) || !w.letters[i].valid || !HasQuad(w, i) then None
    else Some(PointsOf(port, w.verts, w.letters[i].quadsIndex))
  }

  /** `setPosVertices(i, data)`: same guards as the colour setter. */
  function SetPos(port: Port, w: View, i: int, data: seq<Point>): (r: View)
    ensures r.letters == w.letters
    ensures OnlyPositionsDiffer(w.verts, r.verts)
    ensures forall k :: 0 <= k < |w.verts| && (!(0 <= i < |w.letters|) || k / 4 != w.letters[i].quadsIndex) ==>
      r.verts[k] == w.verts[k]
    ensures !(0 <= i < |w.letters|) || !w.letters[i].valid || |data| != 4 ==> r == w
  {
    if !(0 <= i < |w.letters|) || !w.letters[i].valid || |data| != 4
       || (port.Extensions? && IsUnicodeSpace(w.letters[i].ch)) || !HasQuad(w, i) then w
    else View(w.letters, PlaceQuad(port, w.verts, w.letters[i].quadsIndex, data))
  }

  /** Reading back what was just written returns it, without `z` in the older port. */
  lemma SetThenGetPos(port: Port, w: View, i: int, data: seq<Point>)
    requires 0 <= i < |w.letters| && w.letters[i].valid && |data| == 4 && HasQuad(w, i)
    requires port.Older? || !IsUnicodeSpace(w.letters[i].ch)
    ensures port.Extensions? ==> GetPos(port, SetPos(port, w, i, data), i) == Some(data)
    ensures port.Older? ==>
      GetPos(port, SetPos(port, w, i, data), i) == Some(seq(4, k requires 0 <= k < 4 => data[k].(z := 0.0)))
  {
  }

  /** Moving a letter leaves every letter's colours alone. */
  lemma SetPosKeepsColours(port: Port, w: View, i: int, j: int, data: seq<Point>)
    ensures GetColorExtra(SetPos(port, w, i, data), j) == GetColorExtra(w, j)
  {
    var a := SetPos(port, w, i, data);
    if 0 <= j < |w.letters| && w.letters[j].valid && HasQuad(w, j) {
      var o := 4 * w.letters[j].quadsIndex;
      assert a.verts[o].colorExtra == w.verts[o].colorExtra;
      assert a.verts[o + 1].colorExtra == w.verts[o + 1].colorExtra;
      assert a.verts[o + 2].colorExtra == w.verts[o + 2].colorExtra;
      assert a.verts[o + 3].colorExtra == w.verts[o + 3].colorExtra;
    }
  }

  /** Recolouring a letter leaves every letter's positions alone. */
  lemma SetColorExtraKeepsPositions(port: Port, w: View, i: int, j: int, cols: seq<Color>)
    ensures GetPos(port, SetColorExtra(port, w, i, cols), j) == GetPos(port, w, j)
  {
    var b := SetColorExtra(port, w, i, cols);
    if 0 <= j < |w.letters| && w.letters[j].valid && HasQuad(w, j) {
      var q := w.letters[j].quadsIndex;
      var o := 4 * q;
      assert b.verts[o].x == w.verts[o].x && b.verts[o].y == w.verts[o].y && b.verts[o].z == w.verts[o].z;
      assert b.verts[o + 1].x == w.verts[o + 1].x && b.verts[o + 1].y == w.verts[o + 1].y && b.verts[o + 1].z == w.verts[o + 1].z;
      assert b.verts[o + 2].x == w.verts[o + 2].x && b.verts[o + 2].y == w.verts[o + 2].y && b.verts[o + 2].z == w.verts[o + 2].z;
      assert b.verts[o + 3].x == w.verts[o + 3].x && b.verts[o + 3].y == w.verts[o + 3].y && b.verts[o + 3].z == w.verts[o + 3].z;
      assert PointsOf(port, b.verts, q) == PointsOf(port, w.verts, q);
    }
  }
}

=== FILE: wrappers.dfy ===
/** Failure-compatible wrapper used where the source returns `null` or `undefined`. */
module Wrappers {

  /** `None` stands for the source's `null` / `undefined`. */
  datatype Option<+T> = None | Some(value: T) {

    /** True if is None */
    predicate IsFailure() {
      None?
    }

    /** Converts a None result to an Option value with a different value type. */
    function PropagateFailure<U>(): Option<U>
      requires None?
    {
      None
    }

    /** Returns the value encapsulated in Some */
    function Extract(): T
      requires Some?
    {
      value
    }

    /** Returns the value encapsulated in Some or a default value if None */
    function GetOr(default: T): T {
      match this
      case Some(v) => v
      case None() => default
    }
  }
}
